=== FILE: README.md ===
# Aztec-Roguelike world generation, chunk paging and game logic in Dafny

This project models the deterministic core of the Aztec-Roguelike Python
game and proves properties of the model:

- the map classification cascade of `Roguelike/voronoi.py` and of its
  variant in `Roguelike/NonProduction/BackBurner/voronoi.py`: per-region
  coverage histograms, table remapping, the ocean ladder, island survival,
  mountain bands or scores, and the seam-hiding column rotation;
- deterministic seeding: the linear congruential generator, seed-tuple
  generation from three independent streams, nearest-seed truncation,
  unflattening native output and assembling the region records, and the
  ecosystem seed cloud with its memoising region manager;
- the caches: the LRU cache with cleanup hooks, the two lazily
  invalidated caches of terrain chunks and regions, and the world's
  decisions about which chunks become invalid;
- small game state and algorithms: the inventory, player moves, the
  terrain passability table, L-system rewriting, wave function collapse
  and colour-map interpolation.

Each Python module is one Dafny module, in a file named after it
(`items.dfy` for `item.py`, `lsystem.dfy` for `L_system.py`); the class
cache that `terrain_chunk.py` and `region.py` share has its own file
(`lazy_cache.dfy`), and so does the BackBurner variant of `voronoi.py`
(`backburner.dfy`).  There are also shared modules for results and errors
(`Results`), sequence helpers (`SeqUtil`), Python's insertion-ordered
dictionary (`OrderedDict`) and rectangular grids (`Grids`).  Python exceptions are `Err` values of a
`Result`; floats are exact `real`s; the native ctypes library, the GPU,
files and random draws are parameters.

## Model

| member | source | states |
|---|---|---|
| Lcg.FromSeed | Roguelike/lcg.py:2-6 | a new generator holds the seed as its state and the default modulus 2^32 |
| Lcg.Random | Roguelike/lcg.py:8-10 | the new state is the remainder of a*state + c by m under Python's floor division, within [0, m); the value returned is state / m, in [0, 1); the other parameters are unchanged; m == 0 raises ZeroDivisionError |
| Lcg.RandomRange | Roguelike/lcg.py:12-13 | advances the generator exactly as one `random()` and returns that draw `u` as `u * (high - low) + low`: a value in [low, high) for ordered bounds, in (high, low] for reversed ones, and low when they are equal; a zero modulus raises ZeroDivisionError |
| Lcg.UnitRangeIsRandom | Roguelike/lcg.py:8-13 | `random_range(0, 1)` is `random()`: the same generator and the same draw |
| Lcg.RangeRecoversDraw | Roguelike/lcg.py:8-13 | for distinct bounds the `random()` draw is recovered as `(value - low) / (high - low)`, so range draws are the seed's unit draws rescaled |
| Lcg.Draws | Roguelike/lcg.py:8-10 | k successive draws give k values in [0, 1) and keep the generator's parameters; only m == 0 with k > 0 raises |
| Lcg.DrawsSplit | Roguelike/lcg.py:2-10 | drawing j then k values is drawing j + k values: same final state and the concatenated values, so the output is a function of the seed alone |
| Lcg.DefaultStateIs32Bit | Roguelike/lcg.py:2-9 | with the default parameters every state after a draw fits in 32 bits |
| TerrainGenerator.SpriteIndex | Roguelike/terrain_generator.py:20 | the sprite index of a known tile name, and -1 for an unknown one |
| TerrainGenerator.ChoiceAt | Roguelike/terrain_generator.py:16 | the truncated draw of the chooser stream is a valid index into a non-empty definition list |
| TerrainGenerator.NextSeed | Roguelike/terrain_generator.py:15-22 | one loop iteration advances each of the three streams by exactly one draw |
| TerrainGenerator.StreamStep | Roguelike/terrain_generator.py:7-9 | the stream after i + 1 draws is one `random()` after the stream after i draws |
| TerrainGenerator.GenerateSeeds | Roguelike/terrain_generator.py:6-24 | returns exactly `voronoi_cell_count` seeds (none for a negative count), seed i being a function of the i-th state of each stream; a positive count with no definitions raises IndexError |
| TerrainGenerator.SeedAtFacts | Roguelike/terrain_generator.py:12-20 | every seed lies in [-width/2, width/2) x [-height/2, height/2) and carries the weight and sprite index of one definition |
| Players.New | Roguelike/player.py:4-8 | a new player stands at the given coordinates, detached from any world, with an empty inventory of unlimited capacity |
| Players.Move | Roguelike/player.py:10-20 | without a world the call raises AttributeError; a successful move keeps the world and inventory and either leaves the player unchanged or moves it to exactly (x + dx, y + dy) |
| Players.MoveRefused | Roguelike/player.py:18-20 | a False answer from `is_passable_at` leaves the player where it was |
| Players.MoveRaises | Roguelike/player.py:18 | an exception from the world's query propagates unchanged |
| Players.MoveCommitsIffAdmitted | Roguelike/player.py:16-20 | a non-zero move is committed exactly when every current chunk admits the target square |
| Players.BlockedSquareStopsMove | Roguelike/player.py:18-20 | a chunk that blocks the target square stops the move, whatever the chunk order |
| Inventories.New | Roguelike/inventory.py:2-4 | a new inventory is empty with the given capacity |
| Inventories.IsFull | Roguelike/inventory.py:24-27 | full exactly when the capacity is truthy (not None, not 0) and reached; never full otherwise |
| Inventories.Add | Roguelike/inventory.py:6-10 | accepted exactly when not full, and then the item is appended at the end; a refused item leaves the inventory unchanged |
| Inventories.Remove | Roguelike/inventory.py:12-16 | succeeds exactly when an equal item is present; then exactly the first equal item is dropped and the others keep their order; an absent item changes nothing |
| Inventories.HasItem | Roguelike/inventory.py:18-19 | true exactly when some item carries the name |
| Inventories.AddRemoveKeepBound | Roguelike/inventory.py:6-16 | `add` and `remove` never take a positive capacity's inventory over its bound |
| Inventories.AddEachKeepsPrefix | Roguelike/inventory.py:6-10 | offering items one by one keeps them in order until the capacity is reached and refuses the rest |
| Inventories.AddEachFull | Roguelike/inventory.py:7-8 | a full inventory refuses every further item |
| Inventories.AddThenRemove | Roguelike/inventory.py:6-16 | removing an item just added restores the contents as a multiset, and the exact inventory when the item was not already there |
| Terrain.OnlyWallImpassable | Roguelike/terrain.py:11-19 | nine names are registered and 'wall' is the only impassable one |
| Terrain.Registrations | Roguelike/terrain.py:7-19 | the dictionary holds a key for every registration's sprite index |
| Terrain.LaterRegistrationWins | Roguelike/terrain.py:8-19 | each key holds the last registration filed under it |
| Terrain.DistinctRegistrationsOrder | Roguelike/terrain.py:8-19 | with distinct indices the dictionary's order is the registration order |
| Terrain.Fill | Roguelike/terrain.py:24-25 | the fill loop raises IndexError exactly when some key is outside [-len, len); with distinct non-negative keys each key's slot holds its value and the other slots are untouched |
| Terrain.IsPassable | Roguelike/terrain.py:27-28 | the flag stored at the index; an out-of-range index raises IndexError and an unfilled slot (None) raises TypeError |
| Terrain.DistinctTable | Roguelike/terrain.py:21-28 | when the registrations sit at distinct indices 0..n-1 the table builds and each index answers its own registration's flag |
| Terrain.TableWithDistinctIndices | Roguelike/terrain.py:11-28 | with the nine names at distinct indices 0..8 every name's index holds its entry and is passable exactly when the name is not 'wall' |
| Terrain.WallImpassable | Roguelike/terrain.py:19-28 | the wall's index is impassable |
| LruCache.New | Roguelike/lru_cache.py:2-5 | a new cache is empty, keeps its capacity and satisfies the invariant |
| LruCache.Get | Roguelike/lru_cache.py:7-13 | a missing key gives None and changes nothing; a present key gives its value, keeps the entries, and moves to the end of the access order while the other keys keep their relative order; a cached key missing from the access order raises ValueError |
| LruCache.GetThenPutEvictsOther | Roguelike/lru_cache.py:7-32 | after `get(key)` on a full cache, putting a new key evicts the least recently used other key, never the one just read, and cleans up exactly that key's value |
| LruCache.Put | Roguelike/lru_cache.py:15-32 | an existing key takes the new value and moves to the end with no eviction; a new key at capacity evicts the first key of the access order, cleaning up its value when it can be, and goes in at the end; below capacity it is simply appended; the error cases (empty order at capacity, evicted key not cached, key not listed) raise IndexError, KeyError and ValueError |
| LruCache.GetValid | Roguelike/lru_cache.py:7-13 | `get` keeps the invariant (keys are exactly the access order, no duplicates, size within a positive capacity) and never raises on a valid cache |
| LruCache.PutValid | Roguelike/lru_cache.py:15-32 | on a valid cache of capacity at least 1, `put` never raises, keeps the invariant, cleans up at most one value, and a following `get` finds the value just put |
| LruCache.Evicted | Roguelike/lru_cache.py:21-32 | evicting the least recently used key and inserting a new one keeps the invariant |
| LruCache.CapacityZeroRaises | Roguelike/lru_cache.py:21-22 | with capacity 0 the first `put` pops from an empty list and raises IndexError |
| LruCache.Clear | Roguelike/lru_cache.py:35-41 | the cleanups are the cached values that have one, in dictionary order, one call per entry; both the dictionary and the access order end empty |
| LruCache.WithCleanupAppend | Roguelike/lru_cache.py:37-39 | the values cleaned up keep the order of the dictionary |
| LruCache.WithCleanupCounts | Roguelike/lru_cache.py:37-39 | a value with a cleanup is cleaned up as many times as entries hold it, and a value without one never |
| LruCache.ClearCleansEachOnce | Roguelike/lru_cache.py:35-41 | when no two keys share a value, every cached value with a cleanup is cleaned up exactly once and no other value is |
| LruCache.ClearThenGet | Roguelike/lru_cache.py:35-41 | after `clear` the cache is a new empty cache of the same capacity, and `get` of any key gives None |
| LazyCache.Empty | Roguelike/terrain_chunk.py:13-15 | the class-level state starts empty and valid |
| LazyCache.GetOrCreate | Roguelike/terrain_chunk.py:89-108 | a hit returns the cached object, marks it valid and drops one queued occurrence of its key, creating and evicting nothing; a miss evicts the oldest queued key only when the queue is longer than the limit, cleaning it up when the class does so, then caches the new object as valid; a missing evicted key raises KeyError and popping an empty queue raises IndexError |
| LazyCache.MarkAsInvalid | Roguelike/terrain_chunk.py:111-116 | an unknown key changes nothing; a cached key is flagged invalid and appended to the queue without a duplicate check |
| LazyCache.GetOrCreateValid | Roguelike/terrain_chunk.py:89-108 | on a valid state (equal key sets, queue of distinct cached keys) and a non-negative limit, `get_or_create` never raises, keeps the state valid, evicts at most one object and leaves the key cached, valid and unqueued |
| LazyCache.GetOrCreateKeepsUnqueued | Roguelike/terrain_chunk.py:92-106 | an object that is cached and not queued survives any request unchanged and stays unqueued |
| LazyCache.MarkAsInvalidValid | Roguelike/terrain_chunk.py:111-116 | marking a key that is not queued yet keeps the state valid and flags the key invalid |
| LazyCache.MarkThenGet | Roguelike/terrain_chunk.py:92-116 | requesting a key just marked invalid returns the same object, valid again, with the queue as it was before the mark |
| LazyCache.DoubleMarkRaises | Roguelike/terrain_chunk.py:95-116 | a key queued twice breaks the state: after its eviction the second queue entry dangles and the next eviction raises KeyError |
| LazyCache.CleanupAll | Roguelike/terrain_chunk.py:154-157 | every cached object is cleaned up once, in insertion order, and nothing is removed |
| TerrainChunk.GetOrCreateChunk | Roguelike/terrain_chunk.py:88-108 | a hit returns the cached chunk without running the constructor; a miss within the limit raises exactly the constructor's exception; the chunk returned sits at the requested position, a created chunk holds the layers built for it, every cached chunk stays filed under its own position, and an evicted chunk is cleaned up |
| TerrainChunk.GetLayerIndexAt | Roguelike/terrain_chunk.py:137-141 | the index at the chunk-relative position with numpy's wrap-around; an unknown layer raises KeyError, an unassigned one TypeError, a position outside the array IndexError |
| TerrainChunk.SetLayerIndexAt | Roguelike/terrain_chunk.py:143-146 | succeeds exactly when the getter would, raises what it would, and keeps the chunk's position and the other layers |
| TerrainChunk.SetThenGet | Roguelike/terrain_chunk.py:137-146 | reading back the position just written gives the value written |
| TerrainChunk.SetKeepsOtherCells | Roguelike/terrain_chunk.py:143-146 | writing one cell leaves every other cell of the layer unchanged |
| TerrainChunk.ContainedIsDirect | Roguelike/terrain_chunk.py:137-149 | for a layer of the chunk's size, a contained position reads the cell at its offset from the corner, without wrap-around |
| Regions.TileBands | Roguelike/region.py:45-57 | the terrain ladder gives each of the six tiles one half-open band of noise values, split at -0.9, -0.8, -0.7, -0.6 and 0.2 |
| Regions.TileMonotone | Roguelike/region.py:45-57 | a higher noise value never gives a lower tile on the ladder |
| Regions.EqualsIsPositional | Roguelike/region.py:93-99 | region equality is an equivalence that agrees with the hash key, ignores contents, and is false against anything that is not a region |
| Regions.GetOrCreateRegion | Roguelike/region.py:64-83 | the region cache behaves as the chunk cache but cleans nothing up on eviction; the region returned is the cached one on a hit and the new one on a miss, filed under its own position |
| Regions.GetTerrainIndexAt | Roguelike/region.py:161-166 | raises IndexError exactly when the region-relative subscript is outside the array, counting negative subscripts from the end; otherwise returns the cell at that subscript |
| Regions.ContainedTerrainIsDirect | Roguelike/region.py:161-169 | a position the region contains reads the terrain cell at its offset from the corner |
| Regions.LeftOfRegionWraps | Roguelike/region.py:161-166 | a position one column left of the region does not raise but reads the region's last column |
| Regions.AddItem | Roguelike/region.py:174-177 | the item is appended at its position, the region becomes dirty, nothing else changes |
| Regions.FirstMatch | Roguelike/region.py:180-184 | the scan stops at the first entry with the name at the position, and finds none exactly when no entry matches |
| Regions.RemoveItem | Roguelike/region.py:179-184 | with no matching entry the region is unchanged and stays clean; otherwise exactly the first matching entry is removed and the region becomes dirty |
| Regions.AddThenRemoveItem | Roguelike/region.py:174-184 | removing an item just added at a position holding no item of that name restores the item list |
| Regions.AddFeature | Roguelike/region.py:189-191 | the feature is appended, the region becomes dirty, nothing else changes |
| Regions.RemoveFeature | Roguelike/region.py:193-195 | raises ValueError exactly when the feature is absent; otherwise exactly the first equal feature goes, the others keep their order, and the region becomes dirty |
| Regions.AddThenRemoveFeature | Roguelike/region.py:189-195 | removing a feature just added never raises, restores the features counted with multiplicity, and restores the exact list when the feature was absent before |
| Worlds.Keys | Roguelike/world.py:64-65 | the positional key of every chunk, in order: the fields chunk equality and hashing look at |
| Worlds.OffsetRange | Roguelike/world.py:48-55 | the offset range along one axis runs from one below the floor of half the screen in chunks to one above its ceiling, always including -1 to 1 for a non-negative screen; a zero chunk extent raises ZeroDivisionError |
| Worlds.Column | Roguelike/world.py:55-59 | the inner loop requests one chunk origin for each `dy` of its range and nothing else |
| Worlds.Origins | Roguelike/world.py:54-59 | the two loops request exactly the origins at offsets `(dx, dy)` of the two ranges from the player's chunk |
| Worlds.OriginsAligned | Roguelike/world.py:52-59 | every requested origin is a multiple of the chunk size and every request uses the world's chunk size |
| Worlds.PlayerChunkContainsPlayer | Roguelike/world.py:52-53 | floor division puts the player inside the chunk at offset (0, 0), negative positions included |
| Worlds.FetchAllKeeps | Roguelike/world.py:54-59 | on a valid cache the requests raise only a chunk constructor's exception for a requested origin, and never when the constructor succeeds for every origin; afterwards every requested origin holds the chunk returned for it and is not queued, every chunk cached and not queued before survives unchanged, and no key joined the invalid queue |
| Worlds.AddAll | Roguelike/world.py:46-56 | the new set holds each requested chunk once, compared by position and size, and only requested chunks |
| Worlds.Stale | Roguelike/world.py:64-65 | the difference holds exactly the previous chunks whose key is not in the new set |
| Worlds.MarkAll | Roguelike/world.py:65-66 | marking chunks invalid never changes what is cached |
| Worlds.MarkAllKeeps | Roguelike/world.py:65-66 | marking distinct unqueued chunks keeps the cache valid, queues every cached one of them and nothing else, and keeps earlier entries queued |
| Worlds.Requested | Roguelike/world.py:48-59 | the refresh raises ZeroDivisionError exactly for a zero chunk size, a zero tile width, or a zero tile height once the outer loop runs; every requested origin is a multiple of the chunk size, and for a non-negative screen the player's own chunk is requested |
| Worlds.GetRelevantTerrainChunks | Roguelike/world.py:44-68 | a zero divisor raises ZeroDivisionError; a result holds no two chunks at the same position, and, with every cached chunk filed under its own position, its positions are exactly the requested origins |
| Worlds.RelevantStaysCurrent | Roguelike/world.py:44-68 | from current chunks the refresh raises ZeroDivisionError for a zero divisor and otherwise only a chunk constructor's exception for a requested origin, never when the constructor succeeds; the new chunks are exactly the requested origins, each the cached object under its key and not queued; every previous chunk that dropped out is queued as invalid, and nothing else joins the queue |
| Worlds.WrittenPassRaises | Roguelike/world.py:31-35 | from the empty cache a pass with the constructor as written raises TypeError on its first request, for a world whose `render_order` includes the terrain layer |
| Worlds.InitialRefreshRaises | Roguelike/world.py:19-22 | as written, constructing a world whose `render_order` includes the terrain layer, with positive chunk size and tile extents, raises TypeError, because the player's chunk is requested from the empty cache |
| Worlds.InitialRefreshSucceeds | Roguelike/world.py:19-22 | with a constructor that returns the chunk's layers, constructing a world with non-zero divisors succeeds, its chunks are exactly the requested origins, all current, and nothing is queued as invalid |
| Worlds.UpdatePositions | Roguelike/world.py:70-75 | the player moves and the chunk set is replaced by the refreshed one, failing exactly when the refresh fails |
| Worlds.ProbeMeans | Roguelike/world.py:83-87 | one chunk blocks a position exactly when it contains it and the terrain index read there is impassable, and admits it when it does not contain it or the index is passable |
| Worlds.PassableFromMeans | Roguelike/world.py:82-89 | the scan answers True exactly when every chunk admits the position, False only when some chunk blocks it, and never raises when every chunk reads |
| Worlds.BlockedIff | Roguelike/world.py:82-89 | when every chunk reads, the answer is False exactly when some chunk blocks the position, whatever order the set is scanned in |
| Worlds.BlockedAnswersFalse | Roguelike/world.py:82-89 | a readable position that some chunk blocks is reported impassable |
| Worlds.WallBlocks | Roguelike/world.py:82-89 | with the terrain table built from distinct sprite indices, a chunk holding the wall index at a position blocks it |
| Ecosystems.WeightRange | Roguelike/ecosystems.py:13-20 | every ecosystem's weight interval is non-empty and positive |
| Ecosystems.RegionOfSquare | Roguelike/ecosystems.py:31-35 | a point belongs to region `(rx, ry)` exactly when it lies in that 200-by-200 square, negative coordinates included |
| Ecosystems.Weight | Roguelike/ecosystems.py:22-24 | a seed's weight lies in its ecosystem's half-open interval |
| Ecosystems.AddSeed | Roguelike/ecosystems.py:37-42 | the seed is appended to the list of the region holding it, creating that list if absent; no other region changes and every seed stays filed under its own region |
| Ecosystems.GenerateSeedsForRegion | Roguelike/ecosystems.py:50-56 | each draw adds one seed to the region's list, keeping the seeds already there as a prefix; no other region changes and every seed lands in the region's square |
| Ecosystems.NeighboursExact | Roguelike/ecosystems.py:67-73 | the neighbour list holds exactly the eight distinct regions adjacent to the region, never the region itself |
| Ecosystems.SeedMissing | Roguelike/ecosystems.py:79-81 | seeding the missing neighbours never changes a region that had seeds and adds only neighbours |
| Ecosystems.SeedMissingCovers | Roguelike/ecosystems.py:79-81 | after the loop every neighbour has seeds |
| Ecosystems.GatheredMembers | Roguelike/ecosystems.py:83-85 | the gathered seeds are exactly the seeds filed under the listed regions |
| Ecosystems.RequestRegion | Roguelike/ecosystems.py:75-90 | a known region is returned without touching anything; otherwise all eight neighbours end up seeded, existing regions keep their seeds, only neighbours gain any, and the new region owns the seeds of itself and its neighbours in that order and is remembered |
| Ecosystems.RequestMemoised | Roguelike/ecosystems.py:75-77 | requesting the same region again returns the same region and changes nothing, whatever the draws |
| Ecosystems.RequestLeavesOwnSeeds | Roguelike/ecosystems.py:79-81 | a request never seeds the requested region itself, only its neighbours |
| Ecosystems.OwnershipIsLocal | Roguelike/ecosystems.py:75-90 | every seed a new region owns lies in the region or one of its eight neighbours |
| NativeCode.ConvertTo2D | Roguelike/native_code.py:49-55 | a negative dimension raises ValueError; otherwise the array has the requested shape and cell `(y, x)` holds buffer element `y * width + x` |
| NativeCode.RavelOfConvert | Roguelike/native_code.py:49-55 | flattening the converted array row by row gives back the first `width * height` elements of the buffer |
| NativeCode.ConvertOfRavel | Roguelike/native_code.py:49-55 | converting a flattened array with its own shape gives back the array |
| NativeCode.ConvertOfRavelCell | Roguelike/native_code.py:49-55 | each cell survives flattening and converting back |
| NativeCode.RowMajorInBounds | Roguelike/native_code.py:51-53 | every offset the loops read lies inside the `width * height` buffer |
| NativeCode.Neighbors | Roguelike/native_code.py:90 | the neighbour list is the first `neighbor_count` slots of the fixed 20-slot array, empty for a non-positive count, and a count above 20 raises IndexError |
| NativeCode.AssembleRegionInfo | Roguelike/native_code.py:76-96 | one record per seed, in seed order, with the seed, the area and the neighbour list of its struct and no category; it raises IndexError exactly when some struct reports more than 20 neighbours |
| NoisyVoronoi.Insert | Roguelike/noisy_voronoi.py:18 | inserting keeps every element and adds the new one once |
| NoisyVoronoi.InsertSorted | Roguelike/noisy_voronoi.py:18 | inserting into a sorted list keeps it sorted |
| NoisyVoronoi.InsertStable | Roguelike/noisy_voronoi.py:18 | among elements with equal keys the inserted one comes after those already present |
| NoisyVoronoi.Sort | Roguelike/noisy_voronoi.py:18 | `sorted` returns a permutation of its input |
| NoisyVoronoi.SortSorted | Roguelike/noisy_voronoi.py:18 | the result is ordered by the key |
| NoisyVoronoi.SortStable | Roguelike/noisy_voronoi.py:18 | the sort is stable: seeds at the same distance keep their input order |
| NoisyVoronoi.SortOfSorted | Roguelike/noisy_voronoi.py:18 | sorting a list already in key order leaves it unchanged |
| NoisyVoronoi.KeepNearest | Roguelike/noisy_voronoi.py:18-19 | the first `n` seeds after sorting are taken from the input and none is farther than a seed left out |
| NoisyVoronoi.TruncateSeeds | Roguelike/noisy_voronoi.py:11-19 | a non-square noise array fails the assertion; at most 100 seeds pass through unchanged; above that exactly the 100 nearest to the reference point are kept, nearest first, each farther seed dropped |
| NoisyVoronoi.TruncateKeepsFirstAtEachDistance | Roguelike/noisy_voronoi.py:18-19 | among seeds at equal distance the ones kept are the earliest in the input, in input order |
| Utility.FindBefore | Roguelike/utility.py:2-4 | raises ValueError exactly when the value is absent; otherwise returns the element just before the value's first occurrence, or the first element when that occurrence is at the front |
| Utility.FindAfter | Roguelike/utility.py:6-8 | raises ValueError exactly when the value is absent; otherwise returns the element just after the value's first occurrence, or the last element when that occurrence is at the end |
| Utility.NeighboursByPosition | Roguelike/utility.py:2-8 | in a list without repeats, the element before position `i` is what `find_before` gives for the element at `i`, and `find_after` of that element gives back the element at `i` |
| Utility.FindAfterThenBefore | Roguelike/utility.py:2-8 | in a list without repeats, the element before the one after a non-final value is that value |
| Utility.FindBeforeThenAfter | Roguelike/utility.py:2-8 | in a list without repeats, the element after the one before a non-initial value is that value |
| Utility.RunsFromSound | Roguelike/utility.py:15-27 | every pair the scan records is a maximal run of the maximum, and the runs are separated and in order |
| Utility.RunsFromComplete | Roguelike/utility.py:15-27 | every maximal run of the maximum is recorded by the scan |
| Utility.MaxRuns | Roguelike/utility.py:12-27 | a non-empty list has at least one run of its maximum, the runs recorded are exactly its maximal runs, separated and in order |
| Utility.Centres | Roguelike/utility.py:35-40 | an odd run contributes its middle index, an even run its two middle indices in order, all inside the run |
| Utility.CandidateMembers | Roguelike/utility.py:34-40 | the candidates are exactly the centres of the recorded runs |
| Utility.CandidatesAreRunCentres | Roguelike/utility.py:12-40 | an index is a candidate exactly when it is a centre of some maximal run of the maximum |
| Utility.MaxCandidates | Roguelike/utility.py:12-40 | the candidates are increasing indices that all hold the maximum |
| Utility.SingleRunCandidates | Roguelike/utility.py:29-31 | when the maximum occurs once, it is the only candidate, so the early return agrees with the general path |
| Utility.FirstBestIsEarliest | Roguelike/utility.py:43-51 | the first candidate with the highest window average beats every candidate before it strictly and none after it |
| Utility.BestCandidate | Roguelike/utility.py:43-51 | the chosen candidate has the highest window average, and every earlier candidate has a strictly lower one |
| Utility.MaxIndexWithNeighboringAvg | Roguelike/utility.py:10-53 | an empty list raises ValueError; otherwise the index returned holds the maximum, is the centre of a run of it, and has the highest window average, earlier candidates having strictly lower ones |
| Utility.SingleMaximumIsChosen | Roguelike/utility.py:29-31 | a strict unique maximum is returned directly, whatever the window |
| Topology.FromCode | Roguelike/voronoi.py:28-38 | the inverse lookup of the code table finds a category exactly for the eight codes 0 to 7, and the category found is stored under that code |
| Topology.CodeRoundTrip | Roguelike/voronoi.py:28-38 | every category's code lies in 0 to 7 and looks the category up again |
| Topology.WaterIsBelowLand | Roguelike/voronoi.py:17-38 | the four water categories are exactly those coded below LAND, the test `rotate_map` counts water with |
| Voronoi.Accumulate | Roguelike/voronoi.py:80 | adding the weights of a batch of indices raises each bin by the weights filed under it |
| Voronoi.BinCount | Roguelike/voronoi.py:80 | `np.bincount` returns one bin per id up to the largest index, each holding the sum of the weights at that id |
| Voronoi.HistogramOfOnes | Roguelike/voronoi.py:71-87 | arrays of different shape, or a negative index, raise ValueError; otherwise every listed region gets the sum of the values of the cells it owns, as a bin when some index reaches it and as the initial 0 when none does |
| Voronoi.AbsentCountsZero | Roguelike/voronoi.py:77-85 | a region that owns no cell counts 0 |
| Voronoi.TransformArray | Roguelike/voronoi.py:90-91 | fancy indexing raises IndexError exactly when some cell is not a valid subscript of the table; otherwise every cell is replaced by the table entry it indexes, negatives counting from the end, and the shape is kept |
| Voronoi.TransformCompose | Roguelike/voronoi.py:90-91 | remapping twice is remapping once by the composed table |
| Voronoi.PrefixRemap | Roguelike/voronoi.py:103-105 | the remap tables hold one entry per zone, the first `k` zones getting the inside value and the rest the outside value |
| Voronoi.SelectedWithinOwned | Roguelike/voronoi.py:103-109 | a region never has more selected cells than cells |
| Voronoi.FlagsCountSelected | Roguelike/voronoi.py:103-109 | weighting by the 0/1 remap counts exactly the region's cells whose zone falls in the selected prefix |
| Voronoi.PrefixCoverage | Roguelike/voronoi.py:103-109 | an out-of-range zone raises IndexError, mismatched shapes or a negative owner ValueError; otherwise each region's entry is the number of its cells lying in a selected zone |
| Voronoi.OwnersInIff | Roguelike/voronoi.py:132 | the final remap by region id succeeds exactly for non-negative owners that index the region table |
| Voronoi.RegionIds | Roguelike/voronoi.py:115 | the regions are visited in id order 0, 1, 2, ... |
| Voronoi.OceanLadderMonotone | Roguelike/voronoi.py:117-127 | more wet cells in a region never give a shallower ocean category |
| Voronoi.OceanLadderEnds | Roguelike/voronoi.py:117-127 | a region with some wet cell gets an ocean category, deep ocean exactly when all of it is wet |
| Voronoi.OceanCodesAtMostLand | Roguelike/voronoi.py:129 | the code written for a region is an ocean code or LAND |
| Voronoi.OceanTable | Roguelike/voronoi.py:103-130 | the pass raises as the histogram does; otherwise each region's grade is the ocean category of its wet cells over its area |
| Voronoi.OceanGrading | Roguelike/voronoi.py:117-127 | with areas matching the ownership grid, a dry region is not graded, a wet one is deep ocean exactly when fully wet, and every grade is a water category |
| Voronoi.ApplyGrades | Roguelike/voronoi.py:114-132 | the final remap raises IndexError exactly when an owner is not a region id; otherwise each cell takes its owner's ocean code or LAND and only graded regions are reclassified |
| Voronoi.CreateOceans | Roguelike/voronoi.py:94-132 | the pass raises IndexError or ValueError in exactly the cases the remaps and the histogram do; otherwise every cell gets its owner's ocean code or LAND, and exactly the wet regions are recategorised |
| Voronoi.OceanCount | Roguelike/voronoi.py:260 | the wet prefix `floor(zones * ratio)` lies between 0 and the zone count for a ratio in [0, 1] |
| Voronoi.WetIffBelowCount | Roguelike/voronoi.py:103-105 | a zone is wet exactly when its id is below the wet count |
| Voronoi.MountainBandIntervals | Roguelike/voronoi.py:181-191 | with nested cut-offs, mountains are the band above the lower and up to the upper mountain cut-off, highlands the two bands around it, lowlands the rest at both ends |
| Voronoi.SeedCategory | Roguelike/voronoi.py:177 | reading the seed cell raises IndexError exactly when the seed lies outside the coverage map |
| Voronoi.MountainLandType | Roguelike/voronoi.py:177-192 | a region fails only for a seed outside the map, or for an empty LAND region with an unbinned histogram entry, which raises ZeroDivisionError |
| Voronoi.MountainLandTypes | Roguelike/voronoi.py:175-194 | the loop succeeds exactly when every region does, yielding their land types in id order, and otherwise raises the first region's exception |
| Voronoi.Survivors | Roguelike/voronoi.py:167 | `floor(zones * rate)` lies between 0 and the zone count for a rate in [0, 1] |
| Voronoi.MountainTable | Roguelike/voronoi.py:166-194 | the pass raises as the histogram does; guarded, it succeeds exactly when the histogram does and every seed is inside the map; every type is the region's land grade |
| Voronoi.RegionCoverage | Roguelike/voronoi.py:173 | every region id has a histogram entry counting its cells in surviving mountain zones |
| Voronoi.TypesAreGrades | Roguelike/voronoi.py:175-194 | each type the loop collects is the region's land grade |
| Voronoi.CreateMountains | Roguelike/voronoi.py:157-196 | the pass raises as its histogram and remaps do; otherwise every cell gets its owner's land grade and exactly the LAND regions are recategorised with it |
| Voronoi.MountainsFromTable | Roguelike/voronoi.py:175-196 | once the land types are computed and every owner is a region id, the final remap succeeds |
| Voronoi.EmptyRegionRaises | Roguelike/voronoi.py:173-181 | a world whose region 1 owns no cell makes the pass as written raise ZeroDivisionError |
| Voronoi.EmptyRegionTableRaises | Roguelike/voronoi.py:173-181 | the raise comes from the land-type loop |
| Voronoi.EmptyRegionTypesRaise | Roguelike/voronoi.py:179-181 | an empty LAND region with an unbinned entry raises on `0 / 0` |
| Voronoi.EmptyRegionPasses | Roguelike/voronoi.py:173-192 | the same empty region under id 0 passes, classified LOWLANDS through nan |
| Voronoi.EmptyRegionTablePasses | Roguelike/voronoi.py:173-192 | the land-type loop succeeds on that world |
| Voronoi.EmptyRegionTypesPass | Roguelike/voronoi.py:179-192 | an empty LAND region with a binned entry does not raise |
| Voronoi.GuardedEmptyRegionPasses | Roguelike/voronoi.py:178-192 | with empty regions guarded, the world that made the pass raise is classified |
| Voronoi.GuardedMountainsAgree | Roguelike/voronoi.py:157-196 | when areas match the ownership grid, the guarded pass succeeds whenever the pass as written does, with the same map |
| Voronoi.OwnedCellHasArea | Roguelike/voronoi.py:176-181 | a region owning a cell has positive area |
| Voronoi.WhereIslands | Roguelike/voronoi.py:154 | `np.where` raises ValueError exactly when the shapes do not broadcast; with equal shapes, ISLANDS cells take the island map's value and every other cell keeps its own |
| Voronoi.CreateIslands | Roguelike/voronoi.py:135-154 | an out-of-range island zone raises IndexError; with equal shapes the pass succeeds, every ISLANDS cell becoming LAND when its zone survives and LITTORAL otherwise, every other cell unchanged |
| Voronoi.IslandsResolved | Roguelike/voronoi.py:146-154 | after the island pass no ISLANDS cell remains, and only ISLANDS cells changed |
| Voronoi.NumpyMod | Roguelike/voronoi.py:227 | numpy's `%` takes the divisor's sign: in [0, b) for a positive divisor |
| Voronoi.TakeColumns | Roguelike/voronoi.py:228 | selecting columns raises IndexError exactly when one is out of range; otherwise column `j` of the result is the selected column of every row |
| Voronoi.RotationColumns | Roguelike/voronoi.py:227 | the new column order is `(j + n) % world_width` for each column `j` |
| Voronoi.OceanHistogram | Roguelike/voronoi.py:223 | one count per column: the number of its water cells |
| Voronoi.SeamColumn | Roguelike/voronoi.py:223-224 | a map without columns raises ValueError; otherwise the seam is a column with the most water |
| Voronoi.RotateMap | Roguelike/voronoi.py:222-228 | a map without columns raises ValueError; one as wide as the world never raises; the result is the map rotated to start at a column with the most water |
| Voronoi.RotateCells | Roguelike/voronoi.py:226-228 | as wide as the world, the rotation moves the cell of column `(j + n) % width` to column `j` and keeps the shape |
| Voronoi.RotatePreservesRows | Roguelike/voronoi.py:226-228 | rotation permutes each row |
| Voronoi.RotatedRow | Roguelike/voronoi.py:227-228 | a cyclic shift of a row is a permutation of it |
| Voronoi.RotateRoundTrip | Roguelike/voronoi.py:226-228 | rotating by `n` and then by `m` with `n + m` a multiple of the width gives the map back |
| BackBurner.NormalizeFrequencies | Roguelike/NonProduction/BackBurner/voronoi.py:55-62 | a zero sum raises ZeroDivisionError; otherwise each frequency is divided by the sum, so the three add up to 1 in the original proportions |
| BackBurner.NormalizeIdempotent | Roguelike/NonProduction/BackBurner/voronoi.py:59-62 | normalising normalised frequencies changes nothing |
| BackBurner.DefaultFrequenciesNormalized | Roguelike/NonProduction/BackBurner/voronoi.py:55-62 | the default frequencies 0.5, 0.3 and 0.2 are already normalised |
| BackBurner.ScoreShape | Roguelike/NonProduction/BackBurner/voronoi.py:241 | the score `1 - 2 * abs(0.5 - share)` lies in [0, 1], is 1 exactly for a half-covered region, 0 exactly for an uncovered or fully covered one, and is symmetric in covered and uncovered cells |
| BackBurner.ScoreBandIntervals | Roguelike/NonProduction/BackBurner/voronoi.py:242-247 | lowlands below the lowland frequency, highlands up to the sum with the highland frequency, mountains above, and a higher score never gives a lower band |
| BackBurner.ScoreLandType | Roguelike/NonProduction/BackBurner/voronoi.py:235-247 | a region fails only when its seed lies outside the coverage map, raising IndexError; an empty region never divides |
| BackBurner.ScoreLandTypes | Roguelike/NonProduction/BackBurner/voronoi.py:233-251 | the loop succeeds exactly when every seed lies inside the map, yielding each region's type in id order |
| BackBurner.ScoreTable | Roguelike/NonProduction/BackBurner/voronoi.py:224-251 | the pass raises as the histogram does or for a seed outside the map, and otherwise lists each region's score grade |
| BackBurner.ScoreGradeCases | Roguelike/NonProduction/BackBurner/voronoi.py:235-251 | a non-LAND region keeps its category, an empty LAND region stays LAND, and any other LAND region becomes lowlands, highlands or mountains by a score in [0, 1] |
| BackBurner.CreateMountains | Roguelike/NonProduction/BackBurner/voronoi.py:221-253 | the score-based pass succeeds exactly when the remaps succeed, every owner is a region id and every seed is inside the map; each cell gets its owner's score grade and exactly the LAND regions are recategorised |
| BackBurner.RotateMapAt | Roguelike/NonProduction/BackBurner/voronoi.py:268-278 | a given date line is used as it is and returned; without one the seam column is chosen as in production and returned with the rotated map |
| BackBurner.DateLineReused | Roguelike/NonProduction/BackBurner/voronoi.py:268-278 | rotating by a given date line moves column `(j + n) % width` to column `j` and returns that date line |
| BackBurner.SharedDateLine | Roguelike/NonProduction/BackBurner/voronoi.py:268-278 | the date line found for one layer rotates that layer the same way when passed back, and rotates another layer of the same width without error |
| BackBurner.RealMax | Roguelike/NonProduction/BackBurner/voronoi.py:292 | `np.max` is an element no smaller than any other |
| BackBurner.RealMin | Roguelike/NonProduction/BackBurner/voronoi.py:291 | `np.min` is an element no larger than any other |
| BackBurner.NormalizeToMinus1To1 | Roguelike/NonProduction/BackBurner/voronoi.py:290-301 | an empty array raises ValueError; a constant array becomes all 1 when positive and all -1 otherwise; otherwise every value maps affinely into [-1, 1], the minimum to -1 and the maximum to 1 |
| BackBurner.AffineForm | Roguelike/NonProduction/BackBurner/voronoi.py:298-301 | `m * x - c` with the source's `m` and `c` is the affine map from [min, max] onto [-1, 1] |
| BackBurner.AffineInverse | Roguelike/NonProduction/BackBurner/voronoi.py:298-301 | the affine map is undone by the inverse map and preserves order |
| BackBurner.NormalizeInverse | Roguelike/NonProduction/BackBurner/voronoi.py:290-301 | a normalised value determines the original one and the order of values is kept |
| BackBurner.WaterLandMask | Roguelike/NonProduction/BackBurner/voronoi.py:330 | remapping by `[0, 0, 0, 0, 1, 1, 1, 1]` raises IndexError exactly for a code outside -8 to 7, and otherwise gives 0 on water codes and 1 on land codes, negatives counting from the end |
| BackBurner.MaskMatchesWater | Roguelike/NonProduction/BackBurner/voronoi.py:330 | on a category code the mask is 0 exactly for a water category |
| LSystems.RunEnd | Roguelike/L_system.py:70 | a run of non-space characters ends at the next whitespace character or at the end of the string |
| LSystems.SplitWord | Roguelike/L_system.py:70 | `str.split` takes a word followed by whitespace or nothing as its first field |
| LSystems.SplitJoin | Roguelike/L_system.py:70-75 | splitting the space-join of words gives the words back |
| LSystems.SplitSpaced | Roguelike/L_system.py:70 | a word joined by one space to a tail splits into the word and the tail's fields |
| LSystems.JoinAppend | Roguelike/L_system.py:57 | joining two lists is joining each and putting one space between them when both are non-empty |
| LSystems.NonEmpty | Roguelike/L_system.py:57 | `filter(None, ...)` keeps exactly the non-empty strings, in order |
| LSystems.JoinNonEmpty | Roguelike/L_system.py:54-57 | joining the non-empty expansions gives the same string as joining all their words, and all of them are words |
| LSystems.JoinEmpty | Roguelike/L_system.py:57 | a join of non-empty strings is empty exactly when there is nothing to join |
| LSystems.JoinEach | Roguelike/L_system.py:54 | one joined string per group, each the join of its group |
| LSystems.RandInt | Roguelike/L_system.py:26 | an empty range raises ValueError; otherwise one draw gives an integer of the closed range |
| LSystems.FloorOfScaled | Roguelike/L_system.py:26 | a unit draw scaled by a positive width floors to an index in [0, width) |
| LSystems.FirstAbove | Roguelike/L_system.py:48 | the reference for the search: the first index whose running weight exceeds the point, or the upper bound when none does |
| LSystems.RunningMonotone | Roguelike/L_system.py:45-48 | with non-negative weights the running totals never decrease |
| LSystems.BisectIsFirstAbove | Roguelike/L_system.py:48 | on non-negative weights the binary search of `bisect_right` returns the first index whose running weight exceeds the point |
| LSystems.UnsortedTotalsDiverge | Roguelike/L_system.py:48 | with a negative weight the binary search can skip the first total above the point: weights [1, -0.5, 1] and point 0.7 give 2, not 0 |
| LSystems.Choose | Roguelike/L_system.py:45-48 | `rng.choices` raises ValueError exactly when the weights sum to zero or less, and otherwise picks one successor with one draw |
| LSystems.Scale | Roguelike/L_system.py:48 | the draw scaled by the total weight lies in [0, total) |
| LSystems.ScanStopsOnWeight | Roguelike/L_system.py:48 | the first running total above a point inside the total belongs to a successor of positive weight |
| LSystems.ChosenHasWeight | Roguelike/L_system.py:45-48 | with non-negative weights a successor of weight zero is never chosen |
| LSystems.ApplyChance | Roguelike/L_system.py:30-34 | a probability whose whole part is not 0 raises IndexError; otherwise one draw keeps the string when it is at most the probability and empties it when above |
| LSystems.ApplyProductions | Roguelike/L_system.py:9-38 | a reversed `{m,n}` range raises ValueError; without a repetition only the probability applies |
| LSystems.RepeatCopies | Roguelike/L_system.py:24-28 | a `{m,n}` production yields between m and n space-separated copies of its word, or nothing when the probability drops it |
| LSystems.ChanceDrops | Roguelike/L_system.py:30-34 | a well-formed probability drops the production exactly when its draw exceeds the probability |
| LSystems.ProductionWords | Roguelike/L_system.py:9-38 | a production only ever yields copies of its own word |
| LSystems.Weights | Roguelike/L_system.py:45 | the weights are the successors' second components, in order |
| LSystems.ApplyAll | Roguelike/L_system.py:54 | one expansion per production, drawing forward |
| LSystems.ApplyRules | Roguelike/L_system.py:40-59 | a symbol with an empty rule list raises ValueError; otherwise at least the choice draw is made |
| LSystems.ApplyAllWords | Roguelike/L_system.py:54 | each production's expansion is a join of copies of its word |
| LSystems.ExpansionWords | Roguelike/L_system.py:40-59 | every word an expansion yields is a word of some successor of the symbol |
| LSystems.IdentityRule | Roguelike/L_system.py:42-57 | a word without rules expands to itself, with one draw |
| LSystems.IdentityChoice | Roguelike/L_system.py:42-48 | the default rule list has one successor, always chosen |
| LSystems.PunctuationVanishes | Roguelike/L_system.py:42-64 | an ASCII punctuation symbol without rules expands to nothing |
| LSystems.Expand | Roguelike/L_system.py:67-70 | one round draws at least once per symbol |
| LSystems.UnruledFixpoint | Roguelike/L_system.py:66-73 | words without rules are a fixpoint of one round |
| LSystems.UnruledHead | Roguelike/L_system.py:68-70 | a word without rules before a fixed tail keeps the round a fixpoint |
| LSystems.Rounds | Roguelike/L_system.py:66-73 | at most the requested rounds run, and the final symbols are the start ones or join to at most the length limit |
| LSystems.IterateBounded | Roguelike/L_system.py:61-75 | the result is the start symbols rejoined or no longer than the length limit |
| LSystems.UnruledIterate | Roguelike/L_system.py:61-75 | words without rules stop the loop after one round and come back rejoined |
| Wfc.AddNew | Roguelike/Scratch/wfc.py:50-54 | appending only when absent keeps the list free of repeats and adds exactly the new tile |
| Wfc.Record | Roguelike/Scratch/wfc.py:50-54 | recording one cell's neighbours keeps each neighbour list free of repeats |
| Wfc.Visit | Roguelike/Scratch/wfc.py:46-54 | visiting a cell raises IndexError exactly when it or a neighbour it reads is missing from the sample |
| Wfc.Scan | Roguelike/Scratch/wfc.py:44-54 | the scan keeps the dictionary well formed and raises only IndexError |
| Wfc.AllReadMeans | Roguelike/Scratch/wfc.py:44-54 | the scan reads every cell it visits exactly when each visit's reads succeed |
| Wfc.ScanOk | Roguelike/Scratch/wfc.py:44-54 | the scan succeeds exactly when every cell and the neighbours it reads exist |
| Wfc.VisitEntry | Roguelike/Scratch/wfc.py:46-54 | a visit creates the entry of the cell's tile when new and records its neighbours there, leaving other tiles' entries alone |
| Wfc.VisitKeys | Roguelike/Scratch/wfc.py:46-48 | after a visit, every tile seen so far has an entry |
| Wfc.VisitDistinct | Roguelike/Scratch/wfc.py:50-54 | a visit keeps every neighbour list free of repeats |
| Wfc.VisitRight | Roguelike/Scratch/wfc.py:50-51 | after a visit, every right neighbour seen so far is listed under its tile |
| Wfc.VisitBelow | Roguelike/Scratch/wfc.py:53-54 | after a visit, every lower neighbour seen so far is listed under its tile |
| Wfc.ScanDescribes | Roguelike/Scratch/wfc.py:44-54 | the scanned dictionary lists every tile seen with exactly its right and lower neighbours, without repeats |
| Wfc.RowCells | Roguelike/Scratch/wfc.py:45 | the inner loop visits the columns of one row in order |
| Wfc.CellsCover | Roguelike/Scratch/wfc.py:44-45 | the two loops visit every cell of the grid |
| Wfc.Generate | Roguelike/Scratch/wfc.py:31-56 | generating constraints raises only IndexError and otherwise yields a well-formed dictionary |
| Wfc.GenerateRaises | Roguelike/Scratch/wfc.py:42-54 | an empty sample, or a row shorter than the first, raises; every other sample succeeds |
| Wfc.CellsExactly | Roguelike/Scratch/wfc.py:44-45 | the loops visit exactly the cells of the grid |
| Wfc.Generated | Roguelike/Scratch/wfc.py:31-56 | the constraints describe the sample: keys, right and lower neighbours |
| Wfc.GenerateKeys | Roguelike/Scratch/wfc.py:46-48 | a tile has an entry exactly when it occurs in the sample's first `cols` columns |
| Wfc.GenerateRight | Roguelike/Scratch/wfc.py:50-51 | a tile lists `x` to its right exactly when `x` occurs right of it in the sample, each once |
| Wfc.GenerateBelow | Roguelike/Scratch/wfc.py:53-54 | a tile lists `x` below it exactly when `x` occurs below it in the sample, each once |
| Wfc.Initial | Roguelike/Scratch/wfc.py:58-66 | the initial grid has the requested shape and every cell allows every tile of the constraints |
| Wfc.MinIndex | Roguelike/Scratch/wfc.py:76 | the heap pop takes an entry no later than any other in tuple order |
| Wfc.PopLowest | Roguelike/Scratch/wfc.py:68-79 | popping changes only the heap and leaves only entries that were there |
| Wfc.PopLowestFinds | Roguelike/Scratch/wfc.py:68-79 | the pop returns nothing exactly when no entry is fresh, emptying the heap; otherwise the entry returned is fresh and no later than any fresh entry, and every other fresh entry stays |
| Wfc.PopLowestValid | Roguelike/Scratch/wfc.py:68-79 | a popped cell lies inside the grid |
| Wfc.PopLowestShrinks | Roguelike/Scratch/wfc.py:68-79 | popping lowers the heap's potential by at least the weight of the popped entry |
| Wfc.SetCell | Roguelike/Scratch/wfc.py:95 | writing one cell changes that cell only |
| Wfc.Collapse | Roguelike/Scratch/wfc.py:81-96 | a cell with no option restarts the whole grid and reports failure; otherwise it keeps one of its options and nothing else changes |
| Wfc.Filter | Roguelike/Scratch/wfc.py:109-112 | intersecting with the allowed list keeps exactly the options also allowed |
| Wfc.Narrow | Roguelike/Scratch/wfc.py:108-113 | narrowing a neighbour keeps exactly its allowed options, changes no other cell, and pushes its new entropy |
| Wfc.Propagate | Roguelike/Scratch/wfc.py:98-113 | propagating from an empty cell raises IndexError and from a tile without constraints KeyError; otherwise the right and lower neighbours are narrowed and pushed |
| Wfc.PropagateNarrows | Roguelike/Scratch/wfc.py:105-113 | the right neighbour keeps only the tiles allowed right of the chosen tile, the lower one only those allowed below it, and no other cell changes |
| Wfc.PropagatePushes | Roguelike/Scratch/wfc.py:108-113 | every earlier heap entry stays and each narrowed neighbour is pushed with its new entropy |
| Wfc.NeighboursShrink | Roguelike/Scratch/wfc.py:98-113 | the two pushes weigh less than the entry popped for the collapsed cell |
| Wfc.CollapseKnown | Roguelike/Scratch/wfc.py:81-96 | collapsing keeps every cell's options distinct tiles of the constraints |
| Wfc.PropagateKnown | Roguelike/Scratch/wfc.py:98-113 | propagating keeps every cell's options distinct tiles of the constraints |
| Wfc.CollapsedPropagates | Roguelike/Scratch/wfc.py:128-131 | propagation after a successful collapse never raises |
| Wfc.Step | Roguelike/Scratch/wfc.py:124-131 | one pass never raises and keeps the grid shape, and a collapse lowers the measure, so the loop terminates |
| Wfc.TileAt | Roguelike/Scratch/wfc.py:106 | a collapsed cell's tile is a key of the constraints |
| Wfc.AllDoneTiled | Roguelike/Scratch/wfc.py:115-132 | a grid whose cells are all done is finished |
| Wfc.DoneTiled | Roguelike/Scratch/wfc.py:115-132 | a done cell with done neighbours has one tile and neighbours its constraints allow |
| Wfc.InitialSettled | Roguelike/Scratch/wfc.py:58-66 | every cell of the initial grid has a fresh heap entry |
| Wfc.DoneNarrower | Roguelike/Scratch/wfc.py:108-113 | a done cell stays done when its neighbours only narrow |
| Wfc.PopTracked | Roguelike/Scratch/wfc.py:68-79 | after a pop, every cell other than the popped one is still tracked |
| Wfc.CollapseTracked | Roguelike/Scratch/wfc.py:81-96 | collapsing keeps every other cell tracked |
| Wfc.PropagateNarrower | Roguelike/Scratch/wfc.py:108-113 | propagation only narrows options |
| Wfc.PropagateSettles | Roguelike/Scratch/wfc.py:98-113 | after collapsing and propagating, every cell is tracked again |
| Wfc.ExhaustedTiled | Roguelike/Scratch/wfc.py:75-79 | when the heap runs out, every cell holds one tile and each neighbour pair is allowed by the constraints |
| Wfc.StepSettled | Roguelike/Scratch/wfc.py:124-131 | a pass keeps every cell tracked and an exhausted heap leaves a finished grid |
| Wfc.FinishesEarlier | Roguelike/Scratch/wfc.py:122-132 | a finishing run from a later state is also one from an earlier state with fewer restarts |
| Wfc.RunOutcome | Roguelike/Scratch/wfc.py:115-132 | the loop terminates without raising, uses at most ten restarts, and unless it used all ten leaves a finished grid |
| Wfc.RunAfterStep | Roguelike/Scratch/wfc.py:124-131 | one pass followed by the rest of the loop finishes |
| Wfc.Solve | Roguelike/Scratch/wfc.py:115-132 | from the initial grid, the run ends with at most ten restarts and, unless all ten were used, with every cell one tile whose right and lower neighbours its constraints allow |
| Wfc.TiledFromSample | Roguelike/Scratch/wfc.py:31-132 | in a finished grid built from a sample's constraints, every side-by-side pair and every stacked pair occurs the same way in the sample |
| Colorization.InterpolateColor | Roguelike/NonProduction/PythonProofOfConcept/colorization.py:3-14 | alpha 0 gives the first colour back and alpha 1 the second |
| Colorization.BlendBetween | Roguelike/NonProduction/PythonProofOfConcept/colorization.py:11-13 | for alpha in [0, 1], a channel truncated from the weighted mix lies between the two endpoint channels |
| Colorization.InterpolateBetween | Roguelike/NonProduction/PythonProofOfConcept/colorization.py:3-14 | for alpha in [0, 1], each channel of the interpolated colour lies between the two colours' channels |
| Colorization.ExactStop | Roguelike/NonProduction/PythonProofOfConcept/colorization.py:24-26 | the first loop finds nothing exactly when no stop equals the value, and otherwise finds a stop equal to it |
| Colorization.Bracket | Roguelike/NonProduction/PythonProofOfConcept/colorization.py:29-32 | the second loop finds nothing exactly when no consecutive pair of stops brackets the value, and otherwise finds a bracketing pair |
| Colorization.MapRaisesOnlyWhenEmpty | Roguelike/NonProduction/PythonProofOfConcept/colorization.py:16-40 | mapping a value raises exactly for an empty colormap, and then raises IndexError; equal bracketing stops are never divided by |
| Colorization.ExactHit | Roguelike/NonProduction/PythonProofOfConcept/colorization.py:24-26 | a value equal to some stop maps to the colour of the first such stop |
| Colorization.Interpolated | Roguelike/NonProduction/PythonProofOfConcept/colorization.py:29-35 | a value equal to no stop and bracketed first by stops k and k+1 lies strictly between them and maps to their colours interpolated at its relative position, strictly inside (0, 1) |
| Colorization.Fraction | Roguelike/NonProduction/PythonProofOfConcept/colorization.py:34 | the relative position of a value strictly inside a bracket lies strictly inside (0, 1) |
| Colorization.ClampBelow | Roguelike/NonProduction/PythonProofOfConcept/colorization.py:37-39 | on an ascending colormap a value below the first stop maps to the first colour |
| Colorization.ClampAbove | Roguelike/NonProduction/PythonProofOfConcept/colorization.py:37-40 | on an ascending colormap a value above the last stop maps to the last colour |
| Colorization.MappedFitsInBytes | Roguelike/NonProduction/PythonProofOfConcept/colorization.py:16-50 | when every colour of the colormap fits in bytes, so does every mapped colour, so the `uint8` output stores it unchanged |
| Colorization.ColorizeArray | Roguelike/NonProduction/PythonProofOfConcept/colorization.py:42-54 | colouring raises exactly when the array has a cell and the colormap is empty; otherwise the output has the array's shape and every cell is the mapped colour of its data cell |

## Left out

- Native library calls (`generate_regions`, `calculate_region_info`, `free`, `generate_heightmap`, `find_river_paths` in `Roguelike/native_code.py`) and `Roguelike/voronoi2.py`: foreign ctypes code; the ownership grid, areas and neighbour arrays they return are inputs.
- `make_map` in both Voronoi files: it draws from `np.random` and calls the native library; the cluster maps it builds are parameters of the passes.
- GPU and OpenGL code: the `gpu*.py` modules, every `render` and `prerender` method, the shader dispatch that follows the seed truncation in `noisy_voronoi`, and `fill_chunk` in `Roguelike/terrain_generator.py`, which needs the shader.
- `Roguelike/erosion.py`, `noise.py`, `gaussian_blur` and the heightmap blend of the BackBurner file, the opensimplex terrain of `Region.generate_terrain` with its random wall, plotting, `hex_to_rgb` and `custom_colormap`: floating-point numerics and external libraries.
- `Roguelike/configuration.py`: JSON persistence; every limit and cut-off it would supply (chunk cache limit, region cache limit, ocean and mountain cut-offs) is a parameter.
- `main.py`, `spritesheet.py` and `tileset.py`: the pygame loop and file I/O; `World.set_spritesheets` and `render` depend only on them, and `World.define_world` only on them and the native noise generator.
- Worlds.GetRelevantTerrainChunks: the whole `TerrainChunk` constructor is the parameter `build`, which gives the chunk's layers or the exception it raises; the constructor calls `World.get_chunk_values` only for the terrain layer of `render_order` and fills every other layer with -1 (Roguelike/terrain_chunk.py:78-80). What `get_chunk_values` would compute through `generate_seeds` and `fill_chunk` is not modelled, and WrittenBuild records that as written it raises TypeError (see Findings).
- Worlds.InitialRefreshRaises: `render_order` is not modelled; WrittenBuild stands for the constructor of a world whose `render_order` includes the terrain layer, and a world without that layer builds its chunks without calling `get_chunk_values`, so it does not raise.
- Worlds.FetchAll: an exception ends the pass with no state; in the source an eviction that precedes a failing constructor has already removed the oldest invalid chunk from the class cache.
- The demonstration code at the end of `Roguelike/ecosystems.py` (lines 93-97) and the `print` in `Region.get_terrain_index_at`: output only.
- `population_center.py`, `movable.py`, `prolog.py`, `roads.py` and the remaining Scratch experiments other than wave function collapse: thin wrappers or external engines.
- Random draws: `np.random`, `random` and `rng.random()` values are parameters (unit reals in [0, 1), offsets or indices within the ranges the libraries guarantee). Each `randint` call is one abstract unit draw floored onto the range, standing for CPython's `getrandbits` rejection sampling; `choices` consumes one unit draw, as CPython's does.
- Floats are exact reals: rounding of float64 arithmetic is not modelled, and `nan` appears only where a division by zero produces it in the Voronoi cascade.
- LSystems.PunctuationVanishes: stated for ASCII symbols only. IsWordChar reads `\w` over ASCII, but CPython's `\w` on `str` also matches non-ASCII letters and digits such as "é", which CPython keeps and IdentityTokens drops, so tokens with non-ASCII word characters are not modelled.
- LSystems.ApplyRules: the regular-expression tokenisers of `Roguelike/L_system.py` are abstracted, so successors arrive as parsed productions and the start string as its symbols.
- LSystems.ChosenHasWeight: stated for non-negative weights only; with a negative weight CPython's binary search can return a successor of weight zero or less, as UnsortedTotalsDiverge shows for the search itself.
- Worlds.Stale: the chunks that dropped out of view are marked in the order the previous chunk set lists them, which is the order they were inserted; CPython iterates `current - new` in hash-table order, so the order in which they join the invalid queue, and hence which is evicted first, is not modelled.
- Wfc.MinIndex: `heapq` is modelled as a sequence from which the least entry is taken; the binary-heap layout is not modelled, and entries that compare equal are interchangeable.
- Wfc.Collapse: the option sets of wave function collapse are sequences, and `random.choice(list(options))` is an index into that sequence; the set's iteration order is not modelled.
- Colorization.ColorizeArray: colours are stored as integers; the `uint8` conversion of a colour outside 0..255 is not modelled, and MappedFitsInBytes shows it does not arise when the colormap's colours fit in bytes.
- Utility.MaxIndexWithNeighboringAvg works on a sequence of integers, the per-column water counts the seam search passes it, rather than on an arbitrary numpy array; window averages are exact.
- The BackBurner copies of the histogram, table remap, ocean pass, island pass and seam search are identical to the production code and are modelled once, in `Voronoi` and `Utility`.

## Findings

| source | as written | input that shows it | evidently intended | confidence | as-written member | corrected member |
|---|---|---|---|---|---|---|
| Roguelike/voronoi.py:176-181 | `coverage / region["area"]` divides by the area of every LAND region, including one that owns no cell; when its id is beyond the largest owner id the histogram entry is the integer 0 and `0 / 0` raises ZeroDivisionError | a one-cell LAND world owned by region 0, with region 1 of area 0 whose seed is that LAND cell | skip regions without area, as the BackBurner variant's `if area > 0` does, leaving them LAND | not executed | Voronoi.EmptyRegionRaises | Voronoi.GuardedEmptyRegionPasses |
| Roguelike/world.py:33 | `generate_seeds(terrain_spritesheet, x, y)` passes three arguments to a function that requires eight (Roguelike/terrain_generator.py:6), so every chunk constructor call raises TypeError when `render_order` includes the terrain layer (Roguelike/terrain_chunk.py:78-79) | constructing a `World` whose `render_order` includes the terrain layer, with positive chunk size and tile extents: its first refresh misses on the empty chunk cache | pass the region definitions, extent, cell count and seeds `generate_seeds` takes, so the constructor returns the chunk's terrain indices | not executed | Worlds.InitialRefreshRaises | Worlds.InitialRefreshSucceeds |

=== FILE: backburner.dfy ===
/**
 * The parts of Roguelike/NonProduction/BackBurner/voronoi.py that differ
 * from the production cascade: the normalised land frequencies, the
 * score-based mountain pass, the rotation that can reuse a given date line,
 * the [-1, 1] normalisation of a height layer and the water/land mask.
 * The histogram, table remapping, ocean pass and island pass of that file
 * are the production code verbatim and are the members of `Voronoi`.
 */
module BackBurner {
  import opened Results
  import opened SeqUtil
  import opened Grids
  import opened Topology
  import opened NativeCode
  import opened Voronoi

  /* ---------------------------------------------------------------------
   * Land frequencies
   * --------------------------------------------------------------------- */

  /** The relative frequencies of lowlands, highlands and mountains among land regions. */
  datatype LandFrequencies = LandFrequencies(lowlands: real, highlands: real, mountains: real) {
    function Total(): real {
      lowlands + highlands + mountains
    }
  }

  const DEFAULT_LAND_FREQUENCIES: LandFrequencies := LandFrequencies(0.5, 0.3, 0.2)

  /**
   * The module-level normalisation: each frequency divided by the sum of
   * the three.  A zero sum makes the float division raise.
   */
  function NormalizeFrequencies(f: LandFrequencies): (r: Result<LandFrequencies>)
    ensures r.Err? <==> f.Total() == 0.0
    ensures r.Err? ==> r.error == ZeroDivisionError
    ensures r.Ok? ==> r.value.Total() == 1.0
    ensures r.Ok? ==> && r.value.lowlands * f.Total() == f.lowlands
                      && r.value.highlands * f.Total() == f.highlands
                      && r.value.mountains * f.Total() == f.mountains
  {
    var total := f.Total();
    if total == 0.0 then Err(ZeroDivisionError)
    else
      Ok(Divided(f, total))
  }

  /** Each frequency divided by the sum of the three. */
  function Divided(f: LandFrequencies, total: real): (g: LandFrequencies)
    requires total != 0.0 && total == f.Total()
    ensures g.Total() == 1.0
    ensures g.lowlands * total == f.lowlands && g.highlands * total == f.highlands && g.mountains * total == f.mountains
  {
    NormalizedParts(f.lowlands, f.highlands, f.mountains, total);
    LandFrequencies(f.lowlands / total, f.highlands / total, f.mountains / total)
  }

  /** Each part divided by the sum of the parts: the quotients scale back to the parts and sum to one. */
  lemma NormalizedParts(a: real, b: real, c: real, t: real)
    requires t != 0.0 && t == a + b + c
    ensures (a / t) * t == a && (b / t) * t == b && (c / t) * t == c
    ensures a / t + b / t + c / t == 1.0
  {
    QuotientTimes(a, t);
    QuotientTimes(b, t);
    QuotientTimes(c, t);
    QuotientsSum(a, b, c, t);
  }

  /** A quotient times its divisor gives the dividend back. */
  lemma QuotientTimes(a: real, t: real)
    requires t != 0.0
    ensures (a / t) * t == a
  {
  }

  /** Dividing each part by their sum gives parts that sum to one. */
  lemma QuotientsSum(a: real, b: real, c: real, t: real)
    requires t != 0.0 && t == a + b + c
    ensures a / t + b / t + c / t == 1.0
  {
    assert a / t + b / t + c / t == (a + b + c) / t;
  }

  /** Normalising frequencies that already sum to one changes nothing; so normalising twice is normalising once. */
  lemma NormalizeIdempotent(f: LandFrequencies)
    requires f.Total() != 0.0
    ensures NormalizeFrequencies(NormalizeFrequencies(f).value) == NormalizeFrequencies(f)
  {
    var g := NormalizeFrequencies(f).value;
    assert g.Total() == 1.0;
  }

  /** The configured defaults already sum to one. */
  lemma DefaultFrequenciesNormalized()
    ensures NormalizeFrequencies(DEFAULT_LAND_FREQUENCIES) == Ok(DEFAULT_LAND_FREQUENCIES)
  {
  }

  /* ---------------------------------------------------------------------
   * Score-based mountain pass (`create_mountains`)
   * --------------------------------------------------------------------- */

  function Abs(x: real): real {
    if x < 0.0 then -x else x
  }

  /**
   * `1 - |0.5 - coverage / area| * 2`: 1 for a region half covered by
   * surviving mountain clusters, falling to 0 for one fully covered or not
   * covered at all.
   */
  function Score(coverage: int, area: int): real
    requires area > 0
  {
    1.0 - Abs(0.5 - coverage as real / area as real) * 2.0
  }

  /** The score of a coverage that does not exceed the area lies in [0, 1], peaks at half cover and is symmetric about it. */
  lemma ScoreShape(coverage: int, area: int)
    requires area > 0 && 0 <= coverage <= area
    ensures 0.0 <= Score(coverage, area) <= 1.0
    ensures Score(coverage, area) == 1.0 <==> 2 * coverage == area
    ensures Score(coverage, area) == 0.0 <==> coverage == 0 || coverage == area
    ensures Score(coverage, area) == Score(area - coverage, area)
  {
    var share := coverage as real / area as real;
    ShareFacts(coverage, area);
    DivExact((area - coverage) as real, area as real, 1.0 - share);
    assert Score(area - coverage, area) == 1.0 - Abs(0.5 - (1.0 - share)) * 2.0;
  }

  /** The covered share of a region lies in [0, 1] and hits 0, 1/2 and 1 exactly at the matching counts. */
  lemma ShareFacts(coverage: int, area: int)
    requires area > 0 && 0 <= coverage <= area
    ensures var share := coverage as real / area as real;
            && 0.0 <= share <= 1.0
            && (share == 0.5 <==> 2 * coverage == area)
            && (share == 0.0 <==> coverage == 0)
            && (share == 1.0 <==> coverage == area)
            && (1.0 - share) * area as real == (area - coverage) as real
  {
    var share := coverage as real / area as real;
    var a := area as real;
    assert share * a == coverage as real;
    DivMonotone(0.0, coverage as real, a);
    DivMonotone(coverage as real, a, a);
    DivInjective(coverage as real, 0.5 * a, a);
    DivInjective(coverage as real, 0.0, a);
    DivInjective(coverage as real, a, a);
  }

  lemma DivInjective(x: real, y: real, d: real)
    requires d > 0.0
    ensures x / d == y / d <==> x == y
  {
    assert x / d * d == x && y / d * d == y;
  }

  lemma DivExact(x: real, d: real, y: real)
    requires d != 0.0 && y * d == x
    ensures x / d == y
  {
  }

  /**
   * The bucket of a score: below the lowlands frequency LOWLANDS, below
   * lowlands plus highlands HIGHLANDS, otherwise MOUNTAINS.
   */
  function ScoreBand(p: real, f: LandFrequencies): int {
    if p < f.lowlands then LOWLANDS
    else if p < f.lowlands + f.highlands then HIGHLANDS
    else MOUNTAINS
  }

  /** A higher score never gives a lower land code, and each bucket is the interval its frequency sets. */
  lemma ScoreBandIntervals(p: real, q: real, f: LandFrequencies)
    requires f.highlands >= 0.0
    ensures ScoreBand(p, f) == LOWLANDS <==> p < f.lowlands
    ensures ScoreBand(p, f) == HIGHLANDS <==> f.lowlands <= p < f.lowlands + f.highlands
    ensures ScoreBand(p, f) == MOUNTAINS <==> f.lowlands + f.highlands <= p
    ensures p <= q ==> ScoreBand(p, f) <= ScoreBand(q, f)
  {
  }

  /**
   * The land type one region gets.  A region whose seed cell is not LAND
   * keeps the seed cell's category; a LAND region with cells is bucketed
   * by its score; a LAND region with no cells stays LAND, and no division
   * happens.
   */
  function ScoreLandType(coverage: Grid<int>, rec: RegionRecord, entry: Entry, f: LandFrequencies): (r: Result<int>)
    requires coverage.Valid()
    ensures r.Ok? <==> SeedInside(coverage, rec)
    ensures r.Err? ==> r.error == IndexError
  {
    var lt :- SeedCategory(coverage, rec);
    if lt != LAND then Ok(lt)
    else if rec.area > 0 then Ok(ScoreBand(Score(entry.Value(), rec.area), f))
    else Ok(LAND)
  }

  /** The `world_remap` loop over the regions in id order. */
  function ScoreLandTypes(coverage: Grid<int>, regions: seq<RegionRecord>, hist: map<int, Entry>, f: LandFrequencies)
    : (r: Result<seq<int>>)
    requires coverage.Valid()
    requires forall i :: 0 <= i < |regions| ==> i in hist
    ensures r.Ok? <==> forall i :: 0 <= i < |regions| ==> SeedInside(coverage, regions[i])
    ensures r.Err? ==> r.error == IndexError
    ensures r.Ok? ==> |r.value| == |regions|
    ensures r.Ok? ==> forall i :: 0 <= i < |regions| ==>
              r.value[i] == ScoreLandType(coverage, regions[i], hist[i], f).value
    decreases |regions|
  {
    if |regions| == 0 then Ok([])
    else
      var last := |regions| - 1;
      var init :- ScoreLandTypes(coverage, regions[..last], hist, f);
      var t :- ScoreLandType(coverage, regions[last], hist[last], f);
      Ok(init + [t])
  }

  /**
   * The land type region `id` should receive, stated over the ownership
   * grid: its seed cell's category, or for a LAND seed the bucket of the
   * score of the share of its cells lying in surviving mountain clusters.
   */
  function ScoreGrade(coverage: Grid<int>, own: Grid<int>, regions: seq<RegionRecord>, zoneCount: int, survivors: int,
                      mountainMap: Grid<int>, f: LandFrequencies, id: int): int
    requires coverage.Valid() && 0 <= id < |regions| && SeedInside(coverage, regions[id])
  {
    var lt := SeedCategory(coverage, regions[id]).value;
    if lt != LAND then lt
    else if regions[id].area > 0 then
      ScoreBand(Score(SelectedCells(Ravel(own.rows), Ravel(mountainMap.rows), id, zoneCount, survivors), regions[id].area), f)
    else LAND
  }

  /**
   * `create_mountains` of the score-based variant.  Only the table lookups
   * and the histogram can raise; an empty LAND region is never divided by.
   */
  function CreateMountains(coverage: Grid<int>, own: Grid<int>, regions: seq<RegionRecord>, mountainMap: Grid<int>,
                           zoneCount: int, survivalRate: real, f: LandFrequencies)
    : (r: Result<(Grid<int>, seq<RegionRecord>)>)
    requires coverage.Valid() && own.Valid() && mountainMap.Valid()
    ensures r.Ok? <==> && AllIndexable(mountainMap, zoneCount) && own.SameShape(mountainMap) && OwnersIn(own, |regions|)
                       && forall i :: 0 <= i < |regions| ==> SeedInside(coverage, regions[i])
    ensures !AllIndexable(mountainMap, zoneCount) ==> r == Err(IndexError)
    ensures r.Err? ==> r.error in {IndexError, ValueError}
    ensures r.Ok? ==> r.value.0.Valid() && r.value.0.SameShape(own) && |r.value.1| == |regions|
    ensures r.Ok? ==> forall row, col :: 0 <= row < own.height && 0 <= col < own.width ==>
              0 <= own.rows[row][col] < |regions| &&
              r.value.0.rows[row][col]
                == ScoreGrade(coverage, own, regions, zoneCount, Survivors(zoneCount, survivalRate), mountainMap, f, own.rows[row][col])
    ensures r.Ok? ==> forall i :: 0 <= i < |regions| ==>
              r.value.1[i] == Reclassify(regions[i],
                if SeedCategory(coverage, regions[i]).value == LAND
                then FromCode(ScoreGrade(coverage, own, regions, zoneCount, Survivors(zoneCount, survivalRate), mountainMap, f, i))
                else None)
  {
    OwnersInIff(own, |regions|);
    var table :- ScoreTable(coverage, own, regions, mountainMap, zoneCount, Survivors(zoneCount, survivalRate), f);
    var out :- TransformArray(own, table);
    Ok((out, seq(|regions|, i requires 0 <= i < |regions| =>
      Reclassify(regions[i], if SeedCategory(coverage, regions[i]).value == LAND then FromCode(table[i]) else None))))
  }

  /** The `world_remap` table: the mountain coverage histogram followed by the per-region land types. */
  function ScoreTable(coverage: Grid<int>, own: Grid<int>, regions: seq<RegionRecord>, mountainMap: Grid<int>,
                      zoneCount: int, survivors: int, f: LandFrequencies): (r: Result<seq<int>>)
    requires coverage.Valid() && own.Valid() && mountainMap.Valid()
    ensures !AllIndexable(mountainMap, zoneCount) ==> r == Err(IndexError)
    ensures r.Err? ==> r.error in {IndexError, ValueError}
    ensures r.Ok? <==> && AllIndexable(mountainMap, zoneCount) && own.SameShape(mountainMap) && NonNegative(Ravel(own.rows))
                       && forall i :: 0 <= i < |regions| ==> SeedInside(coverage, regions[i])
    ensures r.Ok? ==> |r.value| == |regions|
    ensures r.Ok? ==> forall i :: 0 <= i < |regions| ==>
              r.value[i] == ScoreGrade(coverage, own, regions, zoneCount, survivors, mountainMap, f, i)
  {
    var ids := RegionIds(|regions|);
    var hist :- PrefixCoverage(ids, own, mountainMap, zoneCount, survivors);
    assert forall i :: 0 <= i < |regions| ==> i in hist by {
      forall i | 0 <= i < |regions| ensures i in hist {
        assert ids[i] == i && ids[i] in ids;
      }
    }
    var types :- ScoreLandTypes(coverage, regions, hist, f);
    forall i | 0 <= i < |regions|
      ensures types[i] == ScoreGrade(coverage, own, regions, zoneCount, survivors, mountainMap, f, i)
    {
      assert ids[i] in ids;
      assert hist[ids[i]].Value() == SelectedCells(Ravel(own.rows), Ravel(mountainMap.rows), ids[i], zoneCount, survivors);
    }
    Ok(types)
  }

  /**
   * What the score-based pass gives each region: non-LAND seeds keep
   * their category, empty LAND regions stay LAND, and a LAND region with
   * cells (whose native area counts its cells) gets LOWLANDS, HIGHLANDS or
   * MOUNTAINS by a score in [0, 1].
   */
  lemma ScoreGradeCases(coverage: Grid<int>, own: Grid<int>, regions: seq<RegionRecord>, zoneCount: int, survivors: int,
                        mountainMap: Grid<int>, f: LandFrequencies, id: int)
    requires coverage.Valid() && own.Valid() && 0 <= id < |regions| && SeedInside(coverage, regions[id])
    requires AreasMatch(own, regions)
    ensures var lt := SeedCategory(coverage, regions[id]).value;
            var g := ScoreGrade(coverage, own, regions, zoneCount, survivors, mountainMap, f, id);
            && (lt != LAND ==> g == lt)
            && (lt == LAND && regions[id].area == 0 ==> g == LAND)
            && (lt == LAND && regions[id].area > 0 ==>
                  && g in {LOWLANDS, HIGHLANDS, MOUNTAINS}
                  && 0.0 <= Score(SelectedCells(Ravel(own.rows), Ravel(mountainMap.rows), id, zoneCount, survivors), regions[id].area) <= 1.0)
  {
    var covered := SelectedCells(Ravel(own.rows), Ravel(mountainMap.rows), id, zoneCount, survivors);
    SelectedWithinOwned(Ravel(own.rows), Ravel(mountainMap.rows), id, zoneCount, survivors);
    if regions[id].area > 0 {
      ScoreShape(covered, regions[id].area);
    }
  }

  /* ---------------------------------------------------------------------
   * Rotation with a reusable date line (`rotate_map`)
   * --------------------------------------------------------------------- */

  /**
   * `rotate_map(coverage, international_date_line)`: without a date line
   * the seam column is chosen as in production; a given date line is used
   * unchanged.  The rotated array is returned with the offset used.
   */
  function RotateMapAt(g: Grid<int>, worldWidth: int, dateLine: Option<int>): (r: Result<(Grid<int>, int)>)
    requires g.Valid()
    ensures dateLine.Some? ==> (r.Ok? <==> RotateBy(g, dateLine.value, worldWidth).Ok?)
    ensures dateLine.Some? && r.Ok? ==> r.value.1 == dateLine.value
    ensures dateLine.None? ==> (r.Ok? ==> SeamColumn(g) == Ok(r.value.1))
    ensures dateLine.None? && g.width == 0 ==> r == Err(ValueError)
    ensures r.Ok? ==> Ok(r.value.0) == RotateBy(g, r.value.1, worldWidth)
  {
    var n :- if dateLine.Some? then Ok(dateLine.value) else SeamColumn(g);
    var rotated :- RotateBy(g, n, worldWidth);
    Ok((rotated, n))
  }

  /**
   * A given date line is used unchanged: it is returned as the offset, and
   * cell `(row, j)` of the rotated map comes from column
   * `(j + n) mod width`.
   */
  lemma DateLineReused(b: Grid<int>, n: int)
    requires b.Valid() && b.width > 0
    ensures RotateMapAt(b, b.width, Some(n)).Ok?
    ensures RotateMapAt(b, b.width, Some(n)).value.1 == n
    ensures forall row, j :: 0 <= row < b.height && 0 <= j < b.width ==>
              RotateMapAt(b, b.width, Some(n)).value.0.rows[row][j] == b.rows[row][(j + n) % b.width]
  {
    RotateCells(b, n);
    var rb := RotateBy(b, n, b.width).value;
    assert RotateMapAt(b, b.width, Some(n)) == Ok((rb, n));
  }

  /**
   * The date line chosen on one map is the seam column of that map, and
   * passing it to the rotation of another map of the same width rotates
   * both by the same columns.  `main` rotates the ocean map and the
   * ownership map this way, so all three layers stay aligned.
   */
  lemma SharedDateLine(a: Grid<int>, b: Grid<int>)
    requires a.Valid() && b.Valid() && a.width > 0 && b.width == a.width
    ensures RotateMapAt(a, a.width, None).Ok?
    ensures var (ra, n) := RotateMapAt(a, a.width, None).value;
            && RotateMapAt(a, a.width, Some(n)) == Ok((ra, n))
            && RotateMapAt(b, b.width, Some(n)).Ok?
            && RotateMapAt(b, b.width, Some(n)).value.1 == n
  {
    var n := SeamColumn(a).value;
    RotateCells(a, n);
    var ra := RotateBy(a, n, a.width).value;
    assert RotateMapAt(a, a.width, None) == Ok((ra, n));
    DateLineReused(b, n);
  }

  /* ---------------------------------------------------------------------
   * Height layer normalisation (`normalize_to_minus1_1`)
   * --------------------------------------------------------------------- */

  function RealMax(s: seq<real>): (m: real)
    requires |s| > 0
    ensures m in s
    ensures forall i :: 0 <= i < |s| ==> s[i] <= m
  {
    if |s| == 1 then s[0]
    else
      var rest := RealMax(s[1..]);
      assert forall i :: 1 <= i < |s| ==> s[i] == s[1..][i - 1];
      if s[0] >= rest then s[0] else rest
  }

  function RealMin(s: seq<real>): (m: real)
    requires |s| > 0
    ensures m in s
    ensures forall i :: 0 <= i < |s| ==> m <= s[i]
  {
    if |s| == 1 then s[0]
    else
      var rest := RealMin(s[1..]);
      assert forall i :: 1 <= i < |s| ==> s[i] == s[1..][i - 1];
      if s[0] <= rest then s[0] else rest
  }

  /** The position of `x` between `lo` and `hi`, scaled to [-1, 1]. */
  function Affine(x: real, lo: real, hi: real): real
    requires lo < hi
  {
    2.0 * (x - lo) / (hi - lo) - 1.0
  }

  /**
   * `normalize_to_minus1_1` over the array's cells in row-major order:
   * `m * x - c` with `m = 2 / (max - min)` and `c = (max + min) / (max - min)`.
   * A constant array becomes all 1 when its value is positive and all -1
   * otherwise.  `np.min` of an empty array raises ValueError.
   */
  function NormalizeToMinus1To1(arr: seq<real>): (r: Result<seq<real>>)
    ensures r.Err? <==> |arr| == 0
    ensures r.Err? ==> r.error == ValueError
    ensures r.Ok? ==> |r.value| == |arr|
    ensures r.Ok? && RealMin(arr) == RealMax(arr) ==>
              forall i :: 0 <= i < |arr| ==> r.value[i] == (if RealMax(arr) > 0.0 then 1.0 else -1.0)
    ensures r.Ok? && RealMin(arr) < RealMax(arr) ==>
              forall i :: 0 <= i < |arr| ==>
                && r.value[i] == Affine(arr[i], RealMin(arr), RealMax(arr))
                && -1.0 <= r.value[i] <= 1.0
                && (arr[i] == RealMin(arr) ==> r.value[i] == -1.0)
                && (arr[i] == RealMax(arr) ==> r.value[i] == 1.0)
  {
    if |arr| == 0 then Err(ValueError)
    else
      var lo := RealMin(arr);
      var hi := RealMax(arr);
      if lo == hi then Ok(seq(|arr|, i => if hi > 0.0 then 1.0 else -1.0))
      else
        var out := seq(|arr|, i requires 0 <= i < |arr| => SourceAffine(arr[i], lo, hi));
        assert forall i :: 0 <= i < |arr| ==>
                 && out[i] == Affine(arr[i], lo, hi)
                 && -1.0 <= out[i] <= 1.0
                 && (arr[i] == lo ==> out[i] == -1.0)
                 && (arr[i] == hi ==> out[i] == 1.0) by {
          forall i | 0 <= i < |arr|
            ensures out[i] == Affine(arr[i], lo, hi)
            ensures -1.0 <= out[i] <= 1.0
            ensures arr[i] == lo ==> out[i] == -1.0
            ensures arr[i] == hi ==> out[i] == 1.0
          {
            AffineForm(arr[i], lo, hi);
          }
        }
        Ok(out)
  }

  /** `m * x - c` with `m = 2 / (hi - lo)` and `c = (hi + lo) / (hi - lo)`, as the source computes it. */
  function SourceAffine(x: real, lo: real, hi: real): real
    requires lo < hi
  {
    2.0 / (hi - lo) * x - (hi + lo) / (hi - lo)
  }

  /** The source's `m * x - c` is the scaled position of `x`, which lies in [-1, 1] and is -1 and 1 at the extremes. */
  lemma AffineForm(x: real, lo: real, hi: real)
    requires lo < hi && lo <= x <= hi
    ensures SourceAffine(x, lo, hi) == Affine(x, lo, hi)
    ensures -1.0 <= Affine(x, lo, hi) <= 1.0
    ensures x == lo ==> Affine(x, lo, hi) == -1.0
    ensures x == hi ==> Affine(x, lo, hi) == 1.0
  {
    var d := hi - lo;
    assert 2.0 / d * x == 2.0 * x / d;
    assert (hi + lo) / d == (hi - lo) / d + 2.0 * lo / d;
    assert (hi - lo) / d == 1.0;
    assert 2.0 * x / d - 2.0 * lo / d == 2.0 * (x - lo) / d;
    assert 0.0 <= 2.0 * (x - lo) / d <= 2.0 by {
      assert 2.0 * (x - lo) <= 2.0 * d;
      DivBounds(2.0 * (x - lo), d);
    }
  }

  lemma DivBounds(a: real, d: real)
    requires d > 0.0 && 0.0 <= a <= 2.0 * d
    ensures 0.0 <= a / d <= 2.0
  {
    assert a / d * d == a;
  }

  /** A value in [-1, 1] scaled back to the range `[lo, hi]`. */
  function Denormalize(v: real, lo: real, hi: real): real {
    lo + (v + 1.0) * (hi - lo) / 2.0
  }

  /** Scaling a normalised value back to the range recovers it, and normalising keeps order. */
  lemma AffineInverse(x: real, y: real, lo: real, hi: real)
    requires lo < hi
    ensures x == Denormalize(Affine(x, lo, hi), lo, hi)
    ensures x <= y <==> Affine(x, lo, hi) <= Affine(y, lo, hi)
  {
    var d := hi - lo;
    var t := 2.0 * (x - lo) / d;
    assert t * d == 2.0 * (x - lo);
    assert (Affine(x, lo, hi) + 1.0) * d / 2.0 == x - lo;
    DivMonotone(2.0 * (x - lo), 2.0 * (y - lo), d);
  }

  lemma DivMonotone(a: real, b: real, d: real)
    requires d > 0.0
    ensures a <= b <==> a / d <= b / d
  {
    assert a / d * d == a && b / d * d == b;
    if a / d <= b / d {
      assert (b / d - a / d) * d >= 0.0;
    }
  }

  /**
   * The normalisation of a non-constant array is invertible: each cell is
   * recovered from its image by scaling back to the array's range, and the
   * map keeps the cells' order.
   */
  lemma NormalizeInverse(arr: seq<real>, i: nat, j: nat)
    requires i < |arr| && j < |arr| && RealMin(arr) < RealMax(arr)
    ensures NormalizeToMinus1To1(arr).Ok?
    ensures var out := NormalizeToMinus1To1(arr).value;
            && arr[i] == Denormalize(out[i], RealMin(arr), RealMax(arr))
            && (arr[i] <= arr[j] <==> out[i] <= out[j])
  {
    var out := NormalizeToMinus1To1(arr).value;
    var lo, hi := RealMin(arr), RealMax(arr);
    assert out[i] == Affine(arr[i], lo, hi) && out[j] == Affine(arr[j], lo, hi);
    AffineInverse(arr[i], arr[j], lo, hi);
  }

  /* ---------------------------------------------------------------------
   * Water/land mask
   * --------------------------------------------------------------------- */

  /** The table `main` maps the classified codes through: 0 for water, 1 for land. */
  const WATER_MASK: seq<int> := [0, 0, 0, 0, 1, 1, 1, 1]

  /** The water/land coverage layer: 0 on water categories and 1 on land categories. */
  function WaterLandMask(g: Grid<int>): (r: Result<Grid<int>>)
    requires g.Valid()
    ensures r.Ok? <==> forall row, col :: 0 <= row < g.height && 0 <= col < g.width ==> -8 <= g.rows[row][col] < 8
    ensures r.Err? ==> r.error == IndexError
    ensures r.Ok? ==> r.value.Valid() && r.value.SameShape(g)
    ensures r.Ok? ==> forall row, col :: 0 <= row < g.height && 0 <= col < g.width ==>
              var code := g.rows[row][col];
              r.value.rows[row][col] == (if 0 <= code < LAND || code < LAND - 8 then 0 else 1)
  {
    TransformArray(g, WATER_MASK)
  }

  /** On category codes the mask is 0 exactly for the water categories. */
  lemma MaskMatchesWater(g: Grid<int>, row: nat, col: nat)
    requires g.Valid() && row < g.height && col < g.width
    requires FromCode(g.rows[row][col]).Some?
    ensures WaterLandMask(g).Ok? ==>
              (WaterLandMask(g).value.rows[row][col] == 0 <==> IsWater(FromCode(g.rows[row][col]).value))
  {
    WaterIsBelowLand(FromCode(g.rows[row][col]).value);
  }
}

=== FILE: colorization.dfy ===
/**
 * The colormap of Roguelike/NonProduction/PythonProofOfConcept/colorization.py:
 * a value is mapped through a list of `(stop, colour)` pairs, taking a
 * stop's own colour on an exact hit, interpolating linearly between the first
 * pair of consecutive stops that bracket it, and otherwise clamping to the
 * first or the last colour.  Floats are exact reals; `int()` truncates
 * toward zero.
 */
module Colorization {
  import opened Results
  import opened SeqUtil
  import opened Grids

  /** An `(R, G, B)` tuple of integers. */
  type Color = (int, int, int)

  /** One colormap entry: `(value, color)`. */
  type Stop = (real, Color)

  /** One channel of `interpolate_color`: `int(c1 * (1 - alpha) + c2 * alpha)`. */
  function Blend(c1: int, c2: int, alpha: real): int {
    Trunc(c1 as real * (1.0 - alpha) + c2 as real * alpha)
  }

  /** `interpolate_color(color1, color2, alpha)`, channel by channel. */
  function InterpolateColor(color1: Color, color2: Color, alpha: real): (c: Color)
    ensures alpha == 0.0 ==> c == color1
    ensures alpha == 1.0 ==> c == color2
  {
    (Blend(color1.0, color2.0, alpha), Blend(color1.1, color2.1, alpha), Blend(color1.2, color2.2, alpha))
  }

  /** `lo <= v <= hi` for both orders of the two bounds. */
  predicate Between(v: int, a: int, b: int) {
    (a <= v <= b) || (b <= v <= a)
  }

  /** A weight in `[0, 1]` keeps a blended channel between the two channels it mixes. */
  lemma BlendBetween(c1: int, c2: int, alpha: real)
    requires 0.0 <= alpha <= 1.0
    ensures Between(Blend(c1, c2, alpha), c1, c2)
  {
    var x := c1 as real * (1.0 - alpha) + c2 as real * alpha;
    assert x == c1 as real + (c2 - c1) as real * alpha;
    var lo := if c1 <= c2 then c1 else c2;
    var hi := if c1 <= c2 then c2 else c1;
    if c1 <= c2 {
      assert (c2 - c1) as real * alpha <= (c2 - c1) as real;
    } else {
      assert (c1 - c2) as real * alpha <= (c1 - c2) as real;
    }
    assert lo as real <= x <= hi as real;
  }

  /** Interpolating with a weight in `[0, 1]` gives a colour channel-wise between the two. */
  lemma InterpolateBetween(color1: Color, color2: Color, alpha: real)
    requires 0.0 <= alpha <= 1.0
    ensures var c := InterpolateColor(color1, color2, alpha);
            Between(c.0, color1.0, color2.0) && Between(c.1, color1.1, color2.1) && Between(c.2, color1.2, color2.2)
  {
    BlendBetween(color1.0, color2.0, alpha);
    BlendBetween(color1.1, color2.1, alpha);
    BlendBetween(color1.2, color2.2, alpha);
  }

  /** The first loop of `map_value_to_color`: the first stop equal to the value, from `from` on. */
  function ExactStop(value: real, colormap: seq<Stop>, from: nat): (r: Option<nat>)
    requires from <= |colormap|
    ensures r.None? <==> forall i :: from <= i < |colormap| ==> colormap[i].0 != value
    ensures r.Some? ==> from <= r.value < |colormap| && colormap[r.value].0 == value
                        && forall i :: from <= i < r.value ==> colormap[i].0 != value
    decreases |colormap| - from
  {
    if from == |colormap| then None
    else if colormap[from].0 == value then Some(from)
    else ExactStop(value, colormap, from + 1)
  }

  /** Consecutive stops `i` and `i + 1` enclose the value. */
  predicate Brackets(value: real, colormap: seq<Stop>, i: int) {
    0 <= i < |colormap| - 1 && colormap[i].0 <= value <= colormap[i + 1].0
  }

  /** The second loop of `map_value_to_color`: the first bracketing pair from `from` on. */
  function Bracket(value: real, colormap: seq<Stop>, from: nat): (r: Option<nat>)
    ensures r.None? <==> forall i :: from <= i < |colormap| - 1 ==> !Brackets(value, colormap, i)
    ensures r.Some? ==> from <= r.value && Brackets(value, colormap, r.value)
                        && forall i :: from <= i < r.value ==> !Brackets(value, colormap, i)
    decreases |colormap| - from
  {
    if from + 1 >= |colormap| then None
    else if Brackets(value, colormap, from) then Some(from)
    else Bracket(value, colormap, from + 1)
  }

  /**
   * `map_value_to_color(value, colormap)`.  An empty colormap raises
   * IndexError at `colormap[0]`; a zero-width bracket would raise
   * ZeroDivisionError.
   */
  function MapValueToColor(value: real, colormap: seq<Stop>): Result<Color> {
    var exact := ExactStop(value, colormap, 0);
    if exact.Some? then Ok(colormap[exact.value].1)
    else
      var bracket := Bracket(value, colormap, 0);
      if bracket.Some? then
        var i := bracket.value;
        var width := colormap[i + 1].0 - colormap[i].0;
        if width == 0.0 then Err(ZeroDivisionError)
        else InterpolateAt(value, colormap, i)
      else if |colormap| == 0 then Err(IndexError)
      else if value < colormap[0].0 then Ok(colormap[0].1)
      else Ok(colormap[|colormap| - 1].1)
  }

  /** The interpolation between stops `i` and `i + 1`: `alpha = (value - v1) / (v2 - v1)`. */
  function InterpolateAt(value: real, colormap: seq<Stop>, i: nat): Result<Color>
    requires i + 1 < |colormap| && colormap[i + 1].0 != colormap[i].0
  {
    var alpha := (value - colormap[i].0) / (colormap[i + 1].0 - colormap[i].0);
    Ok(InterpolateColor(colormap[i].1, colormap[i + 1].1, alpha))
  }

  /**
   * The exact-match loop runs first, so a bracket of equal stops is never
   * divided by: the mapping raises only for an empty colormap, and then it
   * raises IndexError.
   */
  lemma MapRaisesOnlyWhenEmpty(value: real, colormap: seq<Stop>)
    ensures MapValueToColor(value, colormap).Err? <==> |colormap| == 0
    ensures MapValueToColor(value, colormap).Err? ==> MapValueToColor(value, colormap).error == IndexError
  {
    if ExactStop(value, colormap, 0).None? {
      var bracket := Bracket(value, colormap, 0);
      if bracket.Some? {
        var i := bracket.value;
        assert colormap[i].0 != value && colormap[i + 1].0 != value;
      }
    }
  }

  /** A value equal to some stop takes the colour of the first stop equal to it. */
  lemma ExactHit(value: real, colormap: seq<Stop>, k: nat)
    requires k < |colormap| && colormap[k].0 == value
    requires forall i :: 0 <= i < k ==> colormap[i].0 != value
    ensures MapValueToColor(value, colormap) == Ok(colormap[k].1)
  {
    var exact := ExactStop(value, colormap, 0);
    assert exact == Some(k);
  }

  /**
   * A value that equals no stop and lies between stops `k` and `k + 1`
   * (and in no earlier pair) is interpolated between their colours with a
   * weight strictly inside `(0, 1)`.
   */
  lemma Interpolated(value: real, colormap: seq<Stop>, k: nat)
    requires forall i :: 0 <= i < |colormap| ==> colormap[i].0 != value
    requires Brackets(value, colormap, k)
    requires forall i :: 0 <= i < k ==> !Brackets(value, colormap, i)
    ensures var v1 := colormap[k].0;
            var v2 := colormap[k + 1].0;
            var alpha := (value - v1) / (v2 - v1);
            && v1 < value < v2 && 0.0 < alpha < 1.0
            && MapValueToColor(value, colormap) == Ok(InterpolateColor(colormap[k].1, colormap[k + 1].1, alpha))
  {
    var v1 := colormap[k].0;
    var v2 := colormap[k + 1].0;
    assert v1 != value && v2 != value;
    assert ExactStop(value, colormap, 0).None?;
    var bracket := Bracket(value, colormap, 0);
    assert bracket == Some(k);
    Fraction(value - v1, v2 - v1);
  }

  /** A part strictly between zero and the whole is a fraction strictly inside `(0, 1)`. */
  lemma Fraction(part: real, whole: real)
    requires 0.0 < part < whole
    ensures 0.0 < part / whole < 1.0
  {
    assert part / whole > 0.0;
    assert (whole - part) / whole > 0.0;
    assert (whole - part) / whole == whole / whole - part / whole;
    assert whole / whole == 1.0;
  }

  /** The stops are in strictly ascending order. */
  predicate Ascending(colormap: seq<Stop>) {
    forall i, j :: 0 <= i < j < |colormap| ==> colormap[i].0 < colormap[j].0
  }

  /** With ascending stops, a value below the first stop takes the first colour. */
  lemma ClampBelow(value: real, colormap: seq<Stop>)
    requires Ascending(colormap) && |colormap| > 0 && value < colormap[0].0
    ensures MapValueToColor(value, colormap) == Ok(colormap[0].1)
  {
    assert forall i :: 0 <= i < |colormap| ==> colormap[i].0 != value by {
      forall i | 0 <= i < |colormap| ensures colormap[i].0 != value {
        if i > 0 {
          assert colormap[0].0 < colormap[i].0;
        }
      }
    }
    assert ExactStop(value, colormap, 0).None?;
    assert Bracket(value, colormap, 0).None?;
  }

  /** With ascending stops, a value above the last stop takes the last colour. */
  lemma ClampAbove(value: real, colormap: seq<Stop>)
    requires Ascending(colormap) && |colormap| > 0 && value > colormap[|colormap| - 1].0
    ensures MapValueToColor(value, colormap) == Ok(colormap[|colormap| - 1].1)
  {
    var last := |colormap| - 1;
    assert forall i :: 0 <= i < |colormap| ==> colormap[i].0 != value by {
      forall i | 0 <= i < |colormap| ensures colormap[i].0 != value {
        if i < last {
          assert colormap[i].0 < colormap[last].0;
        }
      }
    }
    assert ExactStop(value, colormap, 0).None?;
    forall i | 0 <= i < last ensures !Brackets(value, colormap, i) {
      if i + 1 < last {
        assert colormap[i + 1].0 < colormap[last].0;
      }
    }
    assert Bracket(value, colormap, 0).None?;
    assert !(value < colormap[0].0) by {
      if last > 0 {
        assert colormap[0].0 < colormap[last].0;
      }
    }
  }

  /** Every colour of the colormap has channels in `0 .. 255`. */
  predicate ByteColors(colormap: seq<Stop>) {
    forall i :: 0 <= i < |colormap| ==> InByte(colormap[i].1)
  }

  /** A colour that a `uint8` channel triple holds without wrapping. */
  predicate InByte(c: Color) {
    0 <= c.0 < 256 && 0 <= c.1 < 256 && 0 <= c.2 < 256
  }

  /**
   * When every colour of the colormap fits in bytes, so does every mapped
   * colour: the `uint8` output array stores it unchanged.
   */
  lemma MappedFitsInBytes(value: real, colormap: seq<Stop>)
    requires ByteColors(colormap) && MapValueToColor(value, colormap).Ok?
    ensures InByte(MapValueToColor(value, colormap).value)
  {
    if ExactStop(value, colormap, 0).None? {
      var bracket := Bracket(value, colormap, 0);
      if bracket.Some? {
        var k := bracket.value;
        var v1 := colormap[k].0;
        var v2 := colormap[k + 1].0;
        assert v1 != value && v2 != value;
        var alpha := (value - v1) / (v2 - v1);
        Fraction(value - v1, v2 - v1);
        InterpolateBetween(colormap[k].1, colormap[k + 1].1, alpha);
      }
    }
  }

  /**
   * `colorize_array(data, colormap)`: an array of the data's shape whose
   * every cell is the mapped colour of the data cell.  The loop raises at
   * the first cell when the colormap is empty.
   */
  method ColorizeArray(data: Grid<real>, colormap: seq<Stop>) returns (r: Result<Grid<Color>>)
    requires data.Valid()
    ensures r.Err? <==> |colormap| == 0 && data.height > 0 && data.width > 0
    ensures r.Err? ==> r.error == IndexError
    ensures r.Ok? ==> r.value.Valid() && r.value.SameShape(data)
    ensures r.Ok? ==> forall i, j :: 0 <= i < data.height && 0 <= j < data.width ==>
                        MapValueToColor(data.rows[i][j], colormap) == Ok(r.value.rows[i][j])
  {
    var rows: seq<seq<Color>> := [];
    var i := 0;
    while i < data.height
      invariant 0 <= i <= data.height && |rows| == i
      invariant forall a :: 0 <= a < i ==> |rows[a]| == data.width
      invariant forall a, b :: 0 <= a < i && 0 <= b < data.width ==>
                  MapValueToColor(data.rows[a][b], colormap) == Ok(rows[a][b])
      invariant i > 0 && data.width > 0 ==> |colormap| > 0
    {
      var row: seq<Color> := [];
      var j := 0;
      while j < data.width
        invariant 0 <= j <= data.width && |row| == j
        invariant forall b :: 0 <= b < j ==> MapValueToColor(data.rows[i][b], colormap) == Ok(row[b])
        invariant j > 0 ==> |colormap| > 0
      {
        var c := MapValueToColor(data.rows[i][j], colormap);
        MapRaisesOnlyWhenEmpty(data.rows[i][j], colormap);
        if c.Err? {
          return Err(c.error);
        }
        row := row + [c.value];
        j := j + 1;
      }
      rows := rows + [row];
      i := i + 1;
    }
    return Ok(Grid(data.height, data.width, rows));
  }
}

=== FILE: ecosystems.dfy ===
/**
 * The seed cloud and region manager of Roguelike/ecosystems.py.  The cloud
 * files ecosystem seeds under the 200 by 200 region that contains them; the
 * manager builds a region's ownership data from its own seeds and those of
 * its eight neighbours, seeding any neighbour that has none first, and
 * memoises the result.  The `np.random` draws are parameters: each seed
 * draw is an offset inside the region, an index into the ecosystem list
 * and a unit value for the weight, within the ranges numpy guarantees.
 */
module Ecosystems {
  import opened SeqUtil
  import Lcg

  datatype EcosystemType = Mountains | Forests | Plains | Swamps | Oceans | PopulatedAreas

  /** `list(EcosystemType)`, in declaration order. */
  const ECOSYSTEM_TYPES: seq<EcosystemType> := [Mountains, Forests, Plains, Swamps, Oceans, PopulatedAreas]

  /** Side of a cloud region. */
  const REGION_SIZE: int := 200

  /** Seeds a neighbour receives when it is generated (`num_seeds`). */
  const NUM_SEEDS: nat := 10

  /** `ECOSYSTEM_WEIGHT_RANGES`: the half-open interval a seed's weight is drawn from. */
  function WeightRange(t: EcosystemType): (r: (real, real))
    ensures 0.0 < r.0 < r.1
  {
    match t
    case Mountains => (0.9, 1.1)
    case Forests => (0.8, 1.2)
    case Plains => (0.85, 1.15)
    case Swamps => (0.8, 1.2)
    case Oceans => (0.95, 1.05)
    case PopulatedAreas => (0.9, 1.1)
  }

  /** `(x, y, ecosystem_type, weight)`. */
  datatype EcoSeed = EcoSeed(x: int, y: int, kind: EcosystemType, weight: real)

  /** `cloud_data`: seeds keyed by region coordinates, in insertion order. */
  type Cloud = map<(int, int), seq<EcoSeed>>

  /** `_get_region_coordinates`: floor division of both coordinates by the region size. */
  function RegionOf(x: int, y: int): (int, int) {
    (PyFloorDiv(x, REGION_SIZE), PyFloorDiv(y, REGION_SIZE))
  }

  /** A point belongs to region `(rx, ry)` exactly when it lies in that region's half-open square. */
  lemma RegionOfSquare(x: int, y: int, rx: int, ry: int)
    ensures RegionOf(x, y) == (rx, ry) <==>
              rx * REGION_SIZE <= x < (rx + 1) * REGION_SIZE && ry * REGION_SIZE <= y < (ry + 1) * REGION_SIZE
  {
  }

  /** `generate_weight_for_ecosystem` with the uniform draw `u` in `[0, 1)`. */
  function Weight(t: EcosystemType, u: real): (w: real)
    requires 0.0 <= u < 1.0
    ensures WeightRange(t).0 <= w < WeightRange(t).1
  {
    var (low, high) := WeightRange(t);
    Lcg.Scale(u, low, high);
    u * (high - low) + low
  }

  /** `get_seeds_for_region`: the filed seeds, or none. */
  function SeedsOf(cloud: Cloud, q: (int, int)): seq<EcoSeed> {
    if q in cloud then cloud[q] else []
  }

  /** Every seed is filed under the region containing it and carries a weight from its type's range. */
  predicate WellFiled(cloud: Cloud) {
    forall q, i :: q in cloud && 0 <= i < |cloud[q]| ==>
      && RegionOf(cloud[q][i].x, cloud[q][i].y) == q
      && WeightRange(cloud[q][i].kind).0 <= cloud[q][i].weight < WeightRange(cloud[q][i].kind).1
  }

  /** `add_seed`: append the seed to the list of the region containing it, creating the list if needed. */
  function AddSeed(cloud: Cloud, x: int, y: int, kind: EcosystemType, u: real): (c: Cloud)
    requires 0.0 <= u < 1.0
    ensures c.Keys == cloud.Keys + {RegionOf(x, y)}
    ensures c[RegionOf(x, y)] == SeedsOf(cloud, RegionOf(x, y)) + [EcoSeed(x, y, kind, Weight(kind, u))]
    ensures forall q :: q in cloud && q != RegionOf(x, y) ==> c[q] == cloud[q]
    ensures WellFiled(cloud) ==> WellFiled(c)
  {
    var q := RegionOf(x, y);
    cloud[q := SeedsOf(cloud, q) + [EcoSeed(x, y, kind, Weight(kind, u))]]
  }

  /**
   * One iteration of `generate_seeds_for_region`: `randint` offsets inside
   * the region, an index into ECOSYSTEM_TYPES and the weight's unit draw.
   */
  datatype SeedDraw = SeedDraw(dx: int, dy: int, kind: int, u: real)

  /** The ranges the three numpy draws are taken from. */
  predicate ValidDraw(d: SeedDraw) {
    0 <= d.dx < REGION_SIZE && 0 <= d.dy < REGION_SIZE && 0 <= d.kind < |ECOSYSTEM_TYPES| && 0.0 <= d.u < 1.0
  }

  predicate ValidDraws(ds: seq<SeedDraw>) {
    forall i :: 0 <= i < |ds| ==> ValidDraw(ds[i])
  }

  /**
   * `generate_seeds_for_region`: one seed per draw, each inside the
   * region's square and therefore filed under the region itself.
   */
  function GenerateSeedsForRegion(cloud: Cloud, rx: int, ry: int, draws: seq<SeedDraw>): (c: Cloud)
    requires ValidDraws(draws)
    ensures c.Keys == cloud.Keys + (if |draws| > 0 then {(rx, ry)} else {})
    ensures forall q :: q in cloud && q != (rx, ry) ==> c[q] == cloud[q]
    ensures |SeedsOf(c, (rx, ry))| == |SeedsOf(cloud, (rx, ry))| + |draws|
    ensures SeedsOf(cloud, (rx, ry)) <= SeedsOf(c, (rx, ry))
    ensures WellFiled(cloud) ==> WellFiled(c)
    decreases |draws|
  {
    if |draws| == 0 then cloud
    else
      var c := GenerateSeedsForRegion(cloud, rx, ry, draws[..|draws| - 1]);
      var d := draws[|draws| - 1];
      var x := rx * REGION_SIZE + d.dx;
      var y := ry * REGION_SIZE + d.dy;
      RegionOfSquare(x, y, rx, ry);
      AddSeed(c, x, y, ECOSYSTEM_TYPES[d.kind], d.u)
  }

  /** `_get_neighboring_regions`: the eight surrounding coordinates, row by row. */
  function Neighbours(rx: int, ry: int): seq<(int, int)> {
    [(rx - 1, ry - 1), (rx, ry - 1), (rx + 1, ry - 1),
     (rx - 1, ry), (rx + 1, ry),
     (rx - 1, ry + 1), (rx, ry + 1), (rx + 1, ry + 1)]
  }

  /** Chebyshev adjacency of two region coordinates. */
  predicate Adjacent(p: (int, int), q: (int, int)) {
    p != q && -1 <= p.0 - q.0 <= 1 && -1 <= p.1 - q.1 <= 1
  }

  /** The neighbours are eight distinct coordinates, exactly those adjacent to the region and never the region itself. */
  lemma NeighboursExact(rx: int, ry: int)
    ensures |Neighbours(rx, ry)| == 8 && NoDup(Neighbours(rx, ry))
    ensures (rx, ry) !in Neighbours(rx, ry)
    ensures forall q :: q in Neighbours(rx, ry) <==> Adjacent(q, (rx, ry))
  {
    var ns := Neighbours(rx, ry);
    forall q | Adjacent(q, (rx, ry)) ensures q in ns {
      var i := (q.1 - ry + 1) * 3 + (q.0 - rx + 1);
      var k := if i < 4 then i else i - 1;
      assert ns[k] == q;
    }
  }

  /**
   * The first loop of `request_region`: seed, in order, each coordinate of
   * `ns` that has no seeds yet, coordinate `i` with the draws `draws[i]`.
   */
  function SeedMissing(cloud: Cloud, ns: seq<(int, int)>, draws: seq<seq<SeedDraw>>): (c: Cloud)
    requires |draws| == |ns| && forall i :: 0 <= i < |draws| ==> ValidDraws(draws[i])
    ensures cloud.Keys <= c.Keys
    ensures forall q :: q in cloud ==> c[q] == cloud[q]
    ensures forall q :: q in c && q !in cloud ==> q in ns
    ensures WellFiled(cloud) ==> WellFiled(c)
    decreases |ns|
  {
    if |ns| == 0 then cloud
    else
      var n := |ns| - 1;
      var c := SeedMissing(cloud, ns[..n], draws[..n]);
      if ns[n] in c then c else GenerateSeedsForRegion(c, ns[n].0, ns[n].1, draws[n])
  }

  /** With a non-empty batch for each coordinate, every coordinate ends up seeded. */
  lemma {:induction false} SeedMissingCovers(cloud: Cloud, ns: seq<(int, int)>, draws: seq<seq<SeedDraw>>)
    requires |draws| == |ns| && forall i :: 0 <= i < |draws| ==> ValidDraws(draws[i]) && |draws[i]| > 0
    ensures forall i :: 0 <= i < |ns| ==> ns[i] in SeedMissing(cloud, ns, draws)
    decreases |ns|
  {
    if |ns| > 0 {
      var n := |ns| - 1;
      SeedMissingCovers(cloud, ns[..n], draws[..n]);
      SeedMissingLast(cloud, ns, draws);
      CoveredPrefix(ns, n, SeedMissing(cloud, ns[..n], draws[..n]).Keys, SeedMissing(cloud, ns, draws).Keys);
    }
  }

  /** The last coordinate's batch adds exactly that coordinate to the keys. */
  lemma SeedMissingLast(cloud: Cloud, ns: seq<(int, int)>, draws: seq<seq<SeedDraw>>)
    requires |draws| == |ns| > 0 && forall i :: 0 <= i < |draws| ==> ValidDraws(draws[i])
    requires |draws[|ns| - 1]| > 0
    ensures SeedMissing(cloud, ns, draws).Keys
         == SeedMissing(cloud, ns[..|ns| - 1], draws[..|ns| - 1]).Keys + {ns[|ns| - 1]}
  {
  }

  lemma CoveredPrefix(ns: seq<(int, int)>, n: nat, before: set<(int, int)>, after: set<(int, int)>)
    requires n + 1 == |ns| && before + {ns[n]} == after
    requires forall i :: 0 <= i < |ns[..n]| ==> ns[..n][i] in before
    ensures forall i :: 0 <= i < |ns| ==> ns[i] in after
  {
    forall i | 0 <= i < |ns| ensures ns[i] in after {
      if i < n { assert ns[..n][i] == ns[i]; }
    }
  }

  /** The seeds of the coordinates `qs`, concatenated in order. */
  function Gathered(cloud: Cloud, qs: seq<(int, int)>): seq<EcoSeed> {
    if |qs| == 0 then [] else SeedsOf(cloud, qs[0]) + Gathered(cloud, qs[1..])
  }

  /** A seed is gathered exactly when one of the coordinates holds it. */
  lemma {:induction false} GatheredMembers(cloud: Cloud, qs: seq<(int, int)>, s: EcoSeed)
    ensures s in Gathered(cloud, qs) <==> exists i :: 0 <= i < |qs| && s in SeedsOf(cloud, qs[i])
  {
    if |qs| > 0 {
      GatheredMembers(cloud, qs[1..], s);
      if s in Gathered(cloud, qs[1..]) {
        var i :| 0 <= i < |qs[1..]| && s in SeedsOf(cloud, qs[1..][i]);
        assert qs[i + 1] == qs[1..][i];
      }
      if exists i :: 0 <= i < |qs| && s in SeedsOf(cloud, qs[i]) {
        var i :| 0 <= i < |qs| && s in SeedsOf(cloud, qs[i]);
        if i > 0 {
          assert qs[1..][i - 1] == qs[i];
        }
      }
    }
  }

  /** `Region`: just its ownership data. */
  datatype Region = Region(ownershipData: seq<EcoSeed>)

  /** `RegionManager`: the shared cloud and the regions built so far. */
  datatype Manager = Manager(cloud: Cloud, regions: map<(int, int), Region>)

  /** The draws of one `request_region` call: a batch of NUM_SEEDS for each neighbour, used only if it needs seeding. */
  predicate ValidBatches(draws: seq<seq<SeedDraw>>) {
    |draws| == 8 && forall i :: 0 <= i < 8 ==> |draws[i]| == NUM_SEEDS && ValidDraws(draws[i])
  }

  /**
   * `request_region`: a region built before is returned as it is, with no
   * change; otherwise every neighbour without seeds is seeded, the region's
   * ownership data is its own seeds followed by the neighbours' seeds in
   * neighbour order, and the region is remembered.
   */
  function RequestRegion(m: Manager, rx: int, ry: int, draws: seq<seq<SeedDraw>>): (r: (Manager, Region))
    requires ValidBatches(draws)
    ensures (rx, ry) in m.regions ==> r == (m, m.regions[(rx, ry)])
    ensures (rx, ry) !in m.regions ==>
              && r.0.regions == m.regions[(rx, ry) := r.1]
              && (forall q :: q in Neighbours(rx, ry) ==> q in r.0.cloud)
              && (forall q :: q in m.cloud ==> q in r.0.cloud && r.0.cloud[q] == m.cloud[q])
              && (forall q :: q in r.0.cloud && q !in m.cloud ==> Adjacent(q, (rx, ry)))
              && r.1.ownershipData == SeedsOf(r.0.cloud, (rx, ry)) + Gathered(r.0.cloud, Neighbours(rx, ry))
    ensures WellFiled(m.cloud) ==> WellFiled(r.0.cloud)
  {
    if (rx, ry) in m.regions then (m, m.regions[(rx, ry)])
    else
      var ns := Neighbours(rx, ry);
      NeighboursExact(rx, ry);
      var cloud := SeedMissing(m.cloud, ns, draws);
      SeedMissingCovers(m.cloud, ns, draws);
      var region := Region(Gathered(cloud, [(rx, ry)] + ns));
      assert ([(rx, ry)] + ns)[1..] == ns;
      (Manager(cloud, m.regions[(rx, ry) := region]), region)
  }

  /** A second request for the same region returns the same region and changes nothing, whatever it would draw. */
  lemma RequestMemoised(m: Manager, rx: int, ry: int, draws: seq<seq<SeedDraw>>, again: seq<seq<SeedDraw>>)
    requires ValidBatches(draws) && ValidBatches(again)
    ensures var (m', region) := RequestRegion(m, rx, ry, draws);
            RequestRegion(m', rx, ry, again) == (m', region)
  {
  }

  /** A request does not seed the region itself: its own seeds are those it had before. */
  lemma RequestLeavesOwnSeeds(m: Manager, rx: int, ry: int, draws: seq<seq<SeedDraw>>)
    requires ValidBatches(draws)
    ensures SeedsOf(RequestRegion(m, rx, ry, draws).0.cloud, (rx, ry)) == SeedsOf(m.cloud, (rx, ry))
  {
  }

  /**
   * In a well-filed cloud, every seed of a freshly built region lies in the
   * region or in one of its eight neighbours.
   */
  lemma OwnershipIsLocal(m: Manager, rx: int, ry: int, draws: seq<seq<SeedDraw>>, s: EcoSeed)
    requires ValidBatches(draws) && WellFiled(m.cloud) && (rx, ry) !in m.regions
    requires s in RequestRegion(m, rx, ry, draws).1.ownershipData
    ensures RegionOf(s.x, s.y) == (rx, ry) || Adjacent(RegionOf(s.x, s.y), (rx, ry))
  {
    var m' := RequestRegion(m, rx, ry, draws).0;
    GatheredIsLocal(m'.cloud, rx, ry, s);
  }

  /** A seed filed at the region or gathered from its neighbours lies in one of those nine regions. */
  lemma GatheredIsLocal(cloud: Cloud, rx: int, ry: int, s: EcoSeed)
    requires WellFiled(cloud)
    requires s in SeedsOf(cloud, (rx, ry)) + Gathered(cloud, Neighbours(rx, ry))
    ensures RegionOf(s.x, s.y) == (rx, ry) || Adjacent(RegionOf(s.x, s.y), (rx, ry))
  {
    var ns := Neighbours(rx, ry);
    NeighboursExact(rx, ry);
    if s !in SeedsOf(cloud, (rx, ry)) {
      GatheredMembers(cloud, ns, s);
      var i :| 0 <= i < |ns| && s in SeedsOf(cloud, ns[i]);
      var j :| 0 <= j < |cloud[ns[i]]| && cloud[ns[i]][j] == s;
      assert ns[i] in ns;
    } else {
      var j :| 0 <= j < |cloud[(rx, ry)]| && cloud[(rx, ry)][j] == s;
    }
  }
}

=== FILE: grids.dfy ===
/**
 * Two-dimensional numpy arrays as rectangular sequences of rows.  The shape
 * is carried explicitly so that two empty arrays of different widths stay
 * distinguishable, as numpy's `shape` comparison does.
 */
module Grids {
  import opened SeqUtil

  datatype Grid<T> = Grid(height: nat, width: nat, rows: seq<seq<T>>) {

    /** Every row has `width` cells and there are `height` rows. */
    predicate Valid() {
      |rows| == height && forall r :: 0 <= r < |rows| ==> |rows[r]| == width
    }

    /** Both arrays have the same `shape`. */
    predicate SameShape<U>(other: Grid<U>) {
      height == other.height && width == other.width
    }
  }

  /** `a[relY][relX]` is a valid numpy subscript of the array, counting negatives from the end. */
  predicate Addressable<T>(g: Grid<T>, relX: int, relY: int) {
    PyIndexable(|g.rows|, relY) && PyIndexable(|PyAt(g.rows, relY)|, relX)
  }

  /** `np.full((height, width), v)`. */
  function Fill<T>(height: nat, width: nat, v: T): (g: Grid<T>)
    ensures g.Valid() && g.height == height && g.width == width
    ensures forall r, c :: 0 <= r < height && 0 <= c < width ==> g.rows[r][c] == v
  {
    Grid(height, width, seq(height, _ => seq(width, _ => v)))
  }

  /** The cells in row-major order (`ravel`). */
  function Ravel<T>(rows: seq<seq<T>>): seq<T> {
    if |rows| == 0 then [] else rows[0] + Ravel(rows[1..])
  }

  lemma RavelAppend<T>(a: seq<seq<T>>, b: seq<seq<T>>)
    ensures Ravel(a + b) == Ravel(a) + Ravel(b)
  {
    if |a| == 0 {
      assert a + b == b;
    } else {
      assert (a + b)[1..] == a[1..] + b;
      RavelAppend(a[1..], b);
    }
  }

  /** A cell value occurs in the ravelled array exactly when it occurs in some row. */
  lemma RavelMembers<T>(rows: seq<seq<T>>, x: T)
    ensures x in Ravel(rows) <==> exists r :: 0 <= r < |rows| && x in rows[r]
  {
    if |rows| > 0 {
      RavelMembers(rows[1..], x);
      if x in Ravel(rows[1..]) {
        var r :| 0 <= r < |rows[1..]| && x in rows[1..][r];
        assert x in rows[r + 1];
      }
      if exists r :: 0 <= r < |rows| && x in rows[r] {
        var r :| 0 <= r < |rows| && x in rows[r];
        if r > 0 { assert x in rows[1..][r - 1]; }
      }
    }
  }

  /** Two row sequences with the same row lengths ravel to sequences of the same length. */
  lemma {:induction false} RavelSameLength<T, U>(a: seq<seq<T>>, b: seq<seq<U>>)
    requires |a| == |b| && forall r :: 0 <= r < |a| ==> |a[r]| == |b[r]|
    ensures |Ravel(a)| == |Ravel(b)|
  {
    if |a| > 0 {
      RavelSameLength(a[1..], b[1..]);
    }
  }

  /** A cell-wise relation `b = f(a)` between two grids carries over to their ravels. */
  lemma {:induction false} RavelPointwise<T, U>(a: seq<seq<T>>, b: seq<seq<U>>, f: T -> U)
    requires |a| == |b|
    requires forall r :: 0 <= r < |a| ==> |a[r]| == |b[r]|
    requires forall r, c :: 0 <= r < |a| && 0 <= c < |a[r]| ==> b[r][c] == f(a[r][c])
    ensures |Ravel(a)| == |Ravel(b)|
    ensures forall k :: 0 <= k < |Ravel(a)| ==> Ravel(b)[k] == f(Ravel(a)[k])
  {
    if |a| > 0 {
      RavelPointwise(a[1..], b[1..], f);
      assert forall r, c :: 0 <= r < |a| - 1 && 0 <= c < |a[r + 1]| ==> a[1..][r][c] == a[r + 1][c];
    }
  }
}

=== FILE: inventory.dfy ===
/**
 * The player's inventory (Roguelike/inventory.py): a list of items and an
 * optional capacity.  The capacity is judged by truthiness, so both None
 * and 0 leave the inventory unbounded, and a full inventory refuses items
 * instead of raising.
 */
module Inventories {
  import opened Results
  import opened SeqUtil
  import opened Items

  datatype Inventory = Inventory(items: seq<Item>, capacity: Option<int>)

  /** `Inventory(capacity)`: no items yet. */
  function New(capacity: Option<int>): (inv: Inventory)
    ensures inv.items == [] && inv.capacity == capacity
  {
    Inventory([], capacity)
  }

  /** `if self.capacity`: a capacity other than None and 0 limits the inventory. */
  predicate Limited(capacity: Option<int>) {
    capacity.Some? && capacity.value != 0
  }

  /** `is_full`: the capacity is truthy and reached. */
  function IsFull(inv: Inventory): (full: bool)
    ensures !Limited(inv.capacity) ==> !full
    ensures Limited(inv.capacity) ==> (full <==> |inv.items| >= inv.capacity.value)
  {
    if Limited(inv.capacity) then |inv.items| >= inv.capacity.value else false
  }

  /**
   * `add`: refused (False, nothing changes) exactly when the inventory is
   * full; otherwise the item goes to the end and the call reports True.
   */
  function Add(inv: Inventory, item: Item): (r: (Inventory, bool))
    ensures r.1 <==> !IsFull(inv)
    ensures !r.1 ==> r.0 == inv
    ensures r.1 ==> r.0.items == inv.items + [item] && r.0.capacity == inv.capacity
  {
    if Limited(inv.capacity) && |inv.items| >= inv.capacity.value then (inv, false)
    else (inv.(items := inv.items + [item]), true)
  }

  /**
   * `remove`: when the item is present its first occurrence is dropped and
   * the call reports True; otherwise nothing changes and it reports False.
   */
  function Remove(inv: Inventory, item: Item): (r: (Inventory, bool))
    ensures r.1 <==> item in inv.items
    ensures r.0.capacity == inv.capacity
    ensures multiset(r.0.items) == multiset(inv.items) - multiset{item}
    ensures r.0.items == RemoveFirst(inv.items, item)
    ensures r.1 ==> |r.0.items| == |inv.items| - 1
    ensures !r.1 ==> r.0 == inv
  {
    if item in inv.items then (inv.(items := RemoveFirst(inv.items, item)), true)
    else (inv, false)
  }

  /** `has_item`: some item carries the name. */
  function HasItem(inv: Inventory, name: string): (b: bool)
    ensures b <==> exists i :: 0 <= i < |inv.items| && inv.items[i].name == name
    decreases |inv.items|
  {
    if |inv.items| == 0 then false
    else
      var rest := inv.(items := inv.items[1..]);
      var b := inv.items[0].name == name || HasItem(rest, name);
      assert HasItem(rest, name) ==> exists i :: 0 <= i < |inv.items| && inv.items[i].name == name by {
        if HasItem(rest, name) {
          var i :| 0 <= i < |rest.items| && rest.items[i].name == name;
          assert inv.items[i + 1].name == name;
        }
      }
      b
  }

  /** A positive capacity is never exceeded. */
  predicate WithinCapacity(inv: Inventory) {
    inv.capacity.Some? && inv.capacity.value > 0 ==> |inv.items| <= inv.capacity.value
  }

  /** `add` and `remove` keep a positive capacity's bound. */
  lemma AddRemoveKeepBound(inv: Inventory, item: Item)
    requires WithinCapacity(inv)
    ensures WithinCapacity(Add(inv, item).0)
    ensures WithinCapacity(Remove(inv, item).0)
  {
  }

  /** Adding `items` one by one, stopping at nothing: the inventory after each call. */
  function AddEach(inv: Inventory, items: seq<Item>): Inventory
    decreases |items|
  {
    if |items| == 0 then inv else AddEach(Add(inv, items[0]).0, items[1..])
  }

  /**
   * Offering items one by one to an empty inventory of positive capacity
   * keeps the first `capacity` of them, in order, and refuses the rest.
   */
  lemma {:induction false} AddEachKeepsPrefix(inv: Inventory, items: seq<Item>)
    requires inv.capacity.Some? && inv.capacity.value > 0
    requires |inv.items| <= inv.capacity.value
    ensures var cap := inv.capacity.value;
            var kept := if |inv.items| + |items| <= cap then |items| else cap - |inv.items|;
            AddEach(inv, items).items == inv.items + items[..kept]
    decreases |items|
  {
    var cap := inv.capacity.value;
    if |items| > 0 {
      var next := Add(inv, items[0]).0;
      AddEachKeepsPrefix(next, items[1..]);
      if |inv.items| < cap {
        var kept := if |next.items| + |items[1..]| <= cap then |items[1..]| else cap - |next.items|;
        assert inv.items + items[..kept + 1] == next.items + items[1..][..kept];
      } else {
        assert next == inv;
        AddEachFull(inv, items);
      }
    }
  }

  /** A full inventory refuses every further item. */
  lemma {:induction false} AddEachFull(inv: Inventory, items: seq<Item>)
    requires IsFull(inv)
    ensures AddEach(inv, items) == inv
    decreases |items|
  {
    if |items| > 0 {
      AddEachFull(Add(inv, items[0]).0, items[1..]);
    }
  }

  /**
   * Removing an item just added gives back the same contents as a
   * multiset, and exactly the old inventory when the item was not there
   * before.
   */
  lemma AddThenRemove(inv: Inventory, item: Item)
    requires Add(inv, item).1
    ensures Remove(Add(inv, item).0, item).1
    ensures multiset(Remove(Add(inv, item).0, item).0.items) == multiset(inv.items)
    ensures item !in inv.items ==> Remove(Add(inv, item).0, item).0 == inv
  {
    var added := Add(inv, item).0;
    if item !in inv.items {
      assert IndexOf(added.items, item) == |inv.items|;
      assert added.items[..|inv.items|] == inv.items;
    }
  }
}

=== FILE: items.dfy ===
/**
 * The item record of Roguelike/item.py.  Items define no equality of their
 * own, so Python compares them by identity; `ident` stands for that
 * identity, making two items equal exactly when they are the same object.
 */
module Items {
  datatype Item = Item(ident: int, name: string, description: string, tileIndex: int, quantity: int)
}

=== FILE: lazy_cache.dfy ===
/**
 * The class-level cache shared in shape by TerrainChunk
 * (Roguelike/terrain_chunk.py) and Region (Roguelike/region.py): objects
 * keyed by `(world_x, world_y, size)`, a validity flag per key, and a FIFO
 * queue of keys marked invalid.  A miss evicts the oldest queued key once
 * the queue is longer than the limit.  The two classes differ in the limit
 * and in whether the evicted object is cleaned up first; both are
 * parameters here.  Cleanups are returned as the list of objects cleaned
 * up, in call order.
 */
module LazyCache {
  import opened Results
  import opened SeqUtil
  import opened OrderedDict

  /** `(world_x, world_y, size)`. */
  type Key = (int, int, int)

  datatype Cache<V> = Cache(entries: Dict<Key, V>, validity: map<Key, bool>, invalidQueue: seq<Key>) {

    /**
     * The cache and the validity map have the same keys, and the queue
     * holds cached keys, each at most once.
     */
    predicate Valid() {
      && entries.Valid()
      && entries.items.Keys == validity.Keys
      && NoDup(invalidQueue)
      && forall i :: 0 <= i < |invalidQueue| ==> invalidQueue[i] in entries.items
    }
  }

  /** The empty class-level state. */
  function Empty<V>(): (c: Cache<V>)
    ensures c.Valid() && c.entries.items == map[]
  {
    Cache(OrderedDict.Empty(), map[], [])
  }

  /** The state after a call, the object returned, and the objects cleaned up. */
  datatype Outcome<V> = Outcome(cache: Cache<V>, value: V, cleaned: seq<V>)

  /**
   * `get_or_create`: a hit returns the cached object, marks it valid and
   * drops one queued occurrence of its key; a miss first evicts the oldest
   * queued key when the queue is longer than `limit` (cleaning its object
   * up when `cleanupOnEvict`), then caches `created` under the key as valid.
   * An evicted key missing from either map makes the subscript or the `del`
   * raise KeyError; a negative limit with an empty queue makes `popleft`
   * raise IndexError.
   */
  function GetOrCreate<V>(c: Cache<V>, key: Key, created: V, limit: int, cleanupOnEvict: bool): (r: Result<Outcome<V>>)
    requires c.entries.Valid()
    ensures key in c.entries.items ==>
              && r.Ok?
              && r.value.value == c.entries.items[key]
              && r.value.cache.entries == c.entries
              && r.value.cache.validity == c.validity[key := true]
              && r.value.cache.invalidQueue == RemoveFirst(c.invalidQueue, key)
              && r.value.cleaned == []
    ensures key !in c.entries.items && |c.invalidQueue| > limit ==>
              && (|c.invalidQueue| == 0 ==> r == Err(IndexError))
              && (|c.invalidQueue| > 0 ==>
                    var oldest := c.invalidQueue[0];
                    && (r.Err? <==> oldest !in c.entries.items || oldest !in c.validity)
                    && (r.Err? ==> r.error == KeyError)
                    && (r.Ok? ==>
                    && r.value.value == created
                    && r.value.cache.entries.items == (c.entries.items - {oldest})[key := created]
                    && r.value.cache.validity == (c.validity - {oldest})[key := true]
                    && r.value.cache.invalidQueue == c.invalidQueue[1..]
                    && r.value.cleaned == (if cleanupOnEvict then [c.entries.items[oldest]] else [])))
    ensures key !in c.entries.items && |c.invalidQueue| <= limit ==>
              && r.Ok?
              && r.value.value == created
              && r.value.cache.entries.items == c.entries.items[key := created]
              && r.value.cache.validity == c.validity[key := true]
              && r.value.cache.invalidQueue == c.invalidQueue
              && r.value.cleaned == []
    ensures r.Ok? ==> r.value.cache.entries.Valid()
  {
    if key in c.entries.items then
      Ok(Outcome(Cache(c.entries, c.validity[key := true], RemoveFirst(c.invalidQueue, key)), c.entries.items[key], []))
    else if |c.invalidQueue| > limit then
      if |c.invalidQueue| == 0 then Err(IndexError)
      else
        var oldest := c.invalidQueue[0];
        if oldest !in c.entries.items || oldest !in c.validity then Err(KeyError)
        else
          var cleaned := if cleanupOnEvict then [c.entries.items[oldest]] else [];
          var entries := c.entries.Delete(oldest).Put(key, created);
          Ok(Outcome(Cache(entries, (c.validity - {oldest})[key := true], c.invalidQueue[1..]), created, cleaned))
    else
      Ok(Outcome(Cache(c.entries.Put(key, created), c.validity[key := true], c.invalidQueue), created, []))
  }

  /** `mark_as_invalid`: unknown keys are ignored; a cached key is flagged invalid and queued, even if already queued. */
  function MarkAsInvalid<V>(c: Cache<V>, key: Key): (c': Cache<V>)
    ensures key !in c.entries.items ==> c' == c
    ensures key in c.entries.items ==>
              && c'.entries == c.entries
              && c'.validity == c.validity[key := false]
              && c'.invalidQueue == c.invalidQueue + [key]
  {
    if key in c.entries.items then Cache(c.entries, c.validity[key := false], c.invalidQueue + [key]) else c
  }

  /**
   * On a valid state `get_or_create` never raises, keeps the state valid,
   * evicts at most one object, leaves the key cached, valid and unqueued,
   * and a second request for the same key hits the same object.
   */
  lemma GetOrCreateValid<V>(c: Cache<V>, key: Key, created: V, limit: int, cleanupOnEvict: bool)
    requires c.Valid() && limit >= 0
    ensures GetOrCreate(c, key, created, limit, cleanupOnEvict).Ok?
    ensures var o := GetOrCreate(c, key, created, limit, cleanupOnEvict).value;
            && o.cache.Valid()
            && |o.cleaned| <= 1
            && key in o.cache.entries.items && o.cache.entries.items[key] == o.value
            && o.cache.validity[key]
            && key !in o.cache.invalidQueue
  {
    if key in c.entries.items {
      HitValid(c, key, created, limit, cleanupOnEvict);
    } else if |c.invalidQueue| > limit {
      EvictValid(c, key, created, limit, cleanupOnEvict);
    } else {
      var o := GetOrCreate(c, key, created, limit, cleanupOnEvict).value;
      assert forall i :: 0 <= i < |o.cache.invalidQueue| ==> o.cache.invalidQueue[i] in c.entries.items;
    }
  }

  lemma HitValid<V>(c: Cache<V>, key: Key, created: V, limit: int, cleanupOnEvict: bool)
    requires c.Valid() && limit >= 0 && key in c.entries.items
    ensures var o := GetOrCreate(c, key, created, limit, cleanupOnEvict).value;
            && o.cache.Valid() && key !in o.cache.invalidQueue
  {
    var q := RemoveFirst(c.invalidQueue, key);
    RemoveFirstKeepsNoDup(c.invalidQueue, key);
    RemoveFirstMembers(c.invalidQueue, key, key);
    forall i | 0 <= i < |q| ensures q[i] in c.entries.items {
      assert q[i] in multiset(q);
    }
  }

  lemma EvictValid<V>(c: Cache<V>, key: Key, created: V, limit: int, cleanupOnEvict: bool)
    requires c.Valid() && limit >= 0 && key !in c.entries.items && |c.invalidQueue| > limit
    ensures var o := GetOrCreate(c, key, created, limit, cleanupOnEvict).value;
            && o.cache.Valid() && key !in o.cache.invalidQueue
  {
    QueueTailCached(c.invalidQueue, c.entries.items, key, created);
    EvictKeys(c.entries.items, c.validity, c.invalidQueue[0], key, created);
  }

  /** After evicting the queue's head and caching a new key, the rest of the queue is still cached and distinct. */
  lemma QueueTailCached<V>(q: seq<Key>, items: map<Key, V>, key: Key, created: V)
    requires |q| > 0 && NoDup(q) && forall i :: 0 <= i < |q| ==> q[i] in items
    ensures NoDup(q[1..]) && forall i :: 0 <= i < |q[1..]| ==> q[1..][i] in (items - {q[0]})[key := created]
    ensures key !in items ==> key !in q[1..]
  {
    forall i | 0 <= i < |q[1..]| ensures q[1..][i] in (items - {q[0]})[key := created] {
      assert q[1..][i] == q[i + 1];
    }
  }

  /** Removing one key from both maps and adding another to both keeps their key sets equal. */
  lemma EvictKeys<V>(items: map<Key, V>, validity: map<Key, bool>, oldest: Key, key: Key, created: V)
    requires items.Keys == validity.Keys
    ensures ((items - {oldest})[key := created]).Keys == ((validity - {oldest})[key := true]).Keys
  {
  }

  /**
   * An object that is cached and not queued survives any `get_or_create`:
   * only queued keys are evicted, and the queue only shrinks.
   */
  lemma GetOrCreateKeepsUnqueued<V>(c: Cache<V>, key: Key, created: V, limit: int, cleanupOnEvict: bool, k: Key)
    requires c.Valid() && limit >= 0
    requires k in c.entries.items && k !in c.invalidQueue
    ensures var o := GetOrCreate(c, key, created, limit, cleanupOnEvict);
            && o.Ok?
            && k in o.value.cache.entries.items && o.value.cache.entries.items[k] == c.entries.items[k]
            && k !in o.value.cache.invalidQueue
  {
    if key in c.entries.items {
      RemoveFirstMembers(c.invalidQueue, key, k);
    } else if |c.invalidQueue| > limit {
      EvictKeepsUnqueued(c, key, created, limit, cleanupOnEvict, k);
    }
  }

  lemma EvictKeepsUnqueued<V>(c: Cache<V>, key: Key, created: V, limit: int, cleanupOnEvict: bool, k: Key)
    requires c.Valid() && limit >= 0 && key !in c.entries.items && |c.invalidQueue| > limit
    requires k in c.entries.items && k !in c.invalidQueue
    ensures var o := GetOrCreate(c, key, created, limit, cleanupOnEvict);
            && o.Ok?
            && k in o.value.cache.entries.items && o.value.cache.entries.items[k] == c.entries.items[k]
            && k !in o.value.cache.invalidQueue
  {
    var q := c.invalidQueue;
    assert q[0] in c.entries.items && q[0] != k;
    assert forall i :: 0 <= i < |q[1..]| ==> q[1..][i] == q[i + 1];
  }

  /** Marking a cached key that is not queued yet keeps the state valid. */
  lemma MarkAsInvalidValid<V>(c: Cache<V>, key: Key)
    requires c.Valid() && key !in c.invalidQueue
    ensures MarkAsInvalid(c, key).Valid()
    ensures key in c.entries.items ==> !MarkAsInvalid(c, key).validity[key]
  {
  }

  /**
   * Requesting an invalidated key brings it back: the same object, valid
   * again, and no longer queued.
   */
  lemma MarkThenGet<V>(c: Cache<V>, key: Key, created: V, limit: int, cleanupOnEvict: bool)
    requires c.Valid() && limit >= 0 && key in c.entries.items && key !in c.invalidQueue
    ensures var o := GetOrCreate(MarkAsInvalid(c, key), key, created, limit, cleanupOnEvict).value;
            && o.value == c.entries.items[key]
            && o.cache.validity == c.validity[key := true]
            && o.cache.invalidQueue == c.invalidQueue
  {
    var q := c.invalidQueue;
    assert IndexOf(q + [key], key) == |q| by {
      assert forall j :: 0 <= j < |q| ==> (q + [key])[j] != key;
    }
    assert (q + [key])[..|q|] == q;
  }

  /**
   * Queueing a key twice breaks the state: from a cache holding one
   * object, valid and unqueued (the state `FirstInsert` reaches from the
   * empty one), marking it invalid twice and making two misses with limit
   * 0 evicts it on the first miss and finds its second queue entry
   * dangling on the second, which raises KeyError.
   */
  lemma DoubleMarkRaises<V>(c: Cache<V>, k: Key, key1: Key, key2: Key, v: V)
    requires c.entries.Valid() && c.entries.items == map[k := v] && c.validity.Keys == {k} && c.invalidQueue == []
    requires key1 != k && key2 != k && key2 != key1
    ensures var c1 := MarkAsInvalid(MarkAsInvalid(c, k), k);
            && GetOrCreate(c1, key1, v, 0, true).Ok?
            && GetOrCreate(GetOrCreate(c1, key1, v, 0, true).value.cache, key2, v, 0, true) == Err(KeyError)
  {
    MarkTwice(c, k, v);
    var c1 := MarkAsInvalid(MarkAsInvalid(c, k), k);
    EvictedStaysQueued(c1, k, key1, v);
    MissOnStaleQueue(GetOrCreate(c1, key1, v, 0, true).value.cache, k, key2, v);
  }

  /** The first request on an empty state caches the object, valid and unqueued. */
  lemma FirstInsert<V>(k: Key, v: V)
    ensures GetOrCreate(Empty<V>(), k, v, 0, true).Ok?
    ensures var c := GetOrCreate(Empty<V>(), k, v, 0, true).value.cache;
            c.entries.Valid() && c.entries.items == map[k := v] && c.validity.Keys == {k} && c.invalidQueue == []
  {
  }

  /** Marking a cached key twice queues it twice. */
  lemma MarkTwice<V>(c: Cache<V>, k: Key, v: V)
    requires c.entries.Valid() && c.entries.items == map[k := v] && c.validity.Keys == {k} && c.invalidQueue == []
    ensures var c' := MarkAsInvalid(MarkAsInvalid(c, k), k);
            c'.entries == c.entries && c'.validity.Keys == {k} && c'.invalidQueue == [k, k]
  {
  }

  /** A miss evicting the head of a queue that holds it twice leaves the key queued but no longer cached. */
  lemma EvictedStaysQueued<V>(c: Cache<V>, k: Key, key: Key, v: V)
    requires c.entries.Valid() && c.entries.items == map[k := v] && c.validity.Keys == {k} && c.invalidQueue == [k, k] && key != k
    ensures GetOrCreate(c, key, v, 0, true).Ok?
    ensures var c' := GetOrCreate(c, key, v, 0, true).value.cache;
            c'.entries.Valid() && c'.invalidQueue == [k] && k !in c'.entries.items
  {
  }

  /** A miss whose eviction finds the oldest queued key no longer cached raises KeyError. */
  lemma MissOnStaleQueue<V>(c: Cache<V>, k: Key, key: Key, v: V)
    requires c.entries.Valid() && c.invalidQueue == [k] && k !in c.entries.items && key !in c.entries.items
    ensures GetOrCreate(c, key, v, 0, true) == Err(KeyError)
  {
  }

  /** `cleanup_cache`: every cached object is cleaned up, in insertion order, and nothing is removed. */
  function CleanupAll<V>(c: Cache<V>): (r: (Cache<V>, seq<V>))
    requires c.entries.Valid()
    ensures r.0 == c
    ensures |r.1| == |c.entries.order|
    ensures forall i :: 0 <= i < |r.1| ==> r.1[i] == c.entries.items[c.entries.order[i]]
  {
    (c, c.entries.Values())
  }
}

=== FILE: lcg.dfy ===
/**
 * The linear congruential generator of Roguelike/lcg.py.  A generator is a
 * value; each draw returns the advanced generator with the number drawn,
 * so the sequence a seed produces is a function of the seed and the
 * parameters alone.
 */
module Lcg {
  import opened Results
  import opened SeqUtil

  const DEFAULT_A: int := 1664525
  const DEFAULT_C: int := 1013904223
  const DEFAULT_M: int := 0x1_0000_0000

  datatype Lcg = Lcg(state: int, a: int, c: int, m: int)

  /** `LCG(seed)` with the default multiplier, increment and modulus. */
  function FromSeed(seed: int): (g: Lcg)
    ensures g.state == seed && g.m == DEFAULT_M
  {
    Lcg(seed, DEFAULT_A, DEFAULT_C, DEFAULT_M)
  }

  /**
   * `random()`: the state becomes `(a * state + c) mod m` with Python's
   * floor modulo, and the draw is the new state divided by `m`.  A modulus
   * of 0 raises ZeroDivisionError.
   */
  function Random(g: Lcg): (r: Result<(Lcg, real)>)
    ensures r.Err? <==> g.m == 0
    ensures r.Err? ==> r.error == ZeroDivisionError
    ensures r.Ok? ==> r.value.0 == g.(state := r.value.0.state)
    ensures r.Ok? ==> g.a * g.state + g.c == g.m * PyFloorDiv(g.a * g.state + g.c, g.m) + r.value.0.state
    ensures r.Ok? && g.m > 0 ==> 0 <= r.value.0.state < g.m && 0.0 <= r.value.1 < 1.0
    ensures r.Ok? ==> r.value.1 * g.m as real == r.value.0.state as real
  {
    if g.m == 0 then Err(ZeroDivisionError)
    else
      var s := PyMod(g.a * g.state + g.c, g.m);
      var u := s as real / g.m as real;
      assert g.m > 0 ==> u < 1.0 by {
        if g.m > 0 {
          assert u * g.m as real == s as real;
        }
      }
      Ok((g.(state := s), u))
  }

  /**
   * `random_range(low, high)`: one `random()` draw scaled from `[0, 1)` to
   * the interval between the bounds, which is `[low, high)` for ordered
   * bounds and `(high, low]` for reversed ones.
   */
  function RandomRange(g: Lcg, low: real, high: real): (r: Result<(Lcg, real)>)
    ensures r.Err? <==> g.m == 0
    ensures r.Err? ==> r.error == ZeroDivisionError
    ensures r.Ok? ==> Random(g).Ok? && r.value.0 == Random(g).value.0
    ensures r.Ok? ==> r.value.1 - low == Random(g).value.1 * (high - low)
    ensures r.Ok? && g.m > 0 && low < high ==> low <= r.value.1 < high
    ensures r.Ok? && g.m > 0 && high < low ==> high < r.value.1 <= low
    ensures r.Ok? && low == high ==> r.value.1 == low
  {
    var (next, u) :- Random(g);
    Scale(u, low, high);
    Scale(u, high, low);
    Ok((next, u * (high - low) + low))
  }

  lemma Scale(u: real, low: real, high: real)
    requires 0.0 <= u < 1.0
    ensures low < high ==> low <= u * (high - low) + low < high
    ensures high < low ==> high < u * (high - low) + low <= low
  {
    if low < high {
      MulBelow(u, low, high);
    } else if high < low {
      MulBelow(u, high, low);
      assert u * (high - low) == -(u * (low - high));
    }
  }

  /** `random_range(0, 1)` is `random()`: the same generator and the same draw. */
  lemma UnitRangeIsRandom(g: Lcg)
    ensures RandomRange(g, 0.0, 1.0) == Random(g)
  {
  }

  /**
   * The draw is recovered from a range draw: for distinct bounds
   * `(value - low) / (high - low)` is the `random()` value, so the range
   * draws of one seed are the seed's unit draws rescaled.
   */
  lemma RangeRecoversDraw(g: Lcg, low: real, high: real)
    requires g.m != 0 && low != high
    ensures RandomRange(g, low, high).Ok?
    ensures (RandomRange(g, low, high).value.1 - low) / (high - low) == Random(g).value.1
  {
    var u := Random(g).value.1;
    assert RandomRange(g, low, high).value.1 - low == u * (high - low);
  }

  lemma MulBelow(u: real, lo: real, hi: real)
    requires 0.0 <= u < 1.0 && lo < hi
    ensures 0.0 <= u * (hi - lo)
    ensures u * (hi - lo) < hi - lo
  {
    MulLess(u, 1.0, hi - lo);
    MulNonNeg(u, hi - lo);
  }

  lemma MulLess(a: real, b: real, c: real)
    requires a < b && c > 0.0
    ensures a * c < b * c
  {
    MulPos(b - a, c);
  }

  lemma MulPos(a: real, b: real)
    requires a > 0.0 && b > 0.0
    ensures a * b > 0.0
  {
  }

  lemma MulNonNeg(a: real, b: real)
    requires a >= 0.0 && b >= 0.0
    ensures a * b >= 0.0
  {
  }

  /**
   * The first `k` draws of a generator and the generator after them.  Two
   * generators with the same state and parameters give the same draws.
   */
  function Draws(g: Lcg, k: nat): (r: Result<(Lcg, seq<real>)>)
    ensures r.Err? <==> k > 0 && g.m == 0
    ensures r.Ok? ==> |r.value.1| == k
    ensures r.Ok? ==> r.value.0.a == g.a && r.value.0.c == g.c && r.value.0.m == g.m
    ensures r.Ok? && g.m > 0 ==> 0 <= r.value.0.state < g.m || k == 0
    ensures r.Ok? && g.m > 0 ==> forall i :: 0 <= i < k ==> 0.0 <= r.value.1[i] < 1.0
    decreases k
  {
    if k == 0 then Ok((g, []))
    else
      var (g1, us) :- Draws(g, k - 1);
      var (g2, u) :- Random(g1);
      Ok((g2, us + [u]))
  }

  /** Drawing `j` then `k` numbers is drawing `j + k` numbers. */
  lemma {:induction false} DrawsSplit(g: Lcg, j: nat, k: nat)
    requires g.m != 0
    ensures Draws(g, j + k).Ok? && Draws(g, j).Ok?
    ensures Draws(Draws(g, j).value.0, k).Ok?
    ensures Draws(g, j + k).value.0 == Draws(Draws(g, j).value.0, k).value.0
    ensures Draws(g, j + k).value.1 == Draws(g, j).value.1 + Draws(Draws(g, j).value.0, k).value.1
    decreases k
  {
    if k > 0 {
      DrawsSplit(g, j, k - 1);
    }
  }

  /** With the default modulus every state after a draw fits in 32 bits. */
  lemma DefaultStateIs32Bit(seed: int)
    ensures Random(FromSeed(seed)).Ok?
    ensures 0 <= Random(FromSeed(seed)).value.0.state < 0x1_0000_0000
  {
  }
}

=== FILE: lru_cache.dfy ===
/**
 * The least-recently-used cache of Roguelike/lru_cache.py: a dictionary of
 * entries and an access-order list whose front is the least recently used
 * key.  Calls to a value's `cleanup` are returned as the list of values
 * cleaned up, in call order; whether a value has a callable `cleanup` is
 * the parameter `hasCleanup`.
 */
module LruCache {
  import opened Results
  import opened SeqUtil
  import opened OrderedDict

  datatype Lru<K(==), V> = Lru(capacity: int, cache: Dict<K, V>, accessOrder: seq<K>) {

    /**
     * The access order lists each cached key once and nothing else, and a
     * cache of positive capacity holds at most that many entries.
     */
    predicate Valid() {
      && cache.Valid()
      && NoDup(accessOrder)
      && (forall k :: k in cache.items ==> k in accessOrder)
      && (forall i :: 0 <= i < |accessOrder| ==> accessOrder[i] in cache.items)
      && (capacity >= 1 ==> |accessOrder| <= capacity)
    }
  }

  /** `LRUCache(capacity)`. */
  function New<K(==), V>(capacity: int): (c: Lru<K, V>)
    ensures c.Valid() && c.cache.items == map[] && c.capacity == capacity
  {
    Lru(capacity, Empty(), [])
  }

  /**
   * `get`: a missing key gives None and leaves the cache as it is; a
   * present key gives its value and becomes the most recently used.  A
   * cached key missing from the access order makes `list.remove` raise.
   */
  function Get<K(==), V>(c: Lru<K, V>, key: K): (r: Result<(Lru<K, V>, Option<V>)>)
    ensures key !in c.cache.items ==> r == Ok((c, None))
    ensures key in c.cache.items ==> (r.Err? <==> key !in c.accessOrder)
    ensures r.Err? ==> r.error == ValueError
    ensures key in c.cache.items && r.Ok? ==>
              && r.value.1 == Some(c.cache.items[key])
              && r.value.0.cache == c.cache && r.value.0.capacity == c.capacity
              && multiset(r.value.0.accessOrder) == multiset(c.accessOrder)
              && r.value.0.accessOrder == RemoveFirst(c.accessOrder, key) + [key]
  {
    if key !in c.cache.items then Ok((c, None))
    else if key !in c.accessOrder then Err(ValueError)
    else
      var order := RemoveFirst(c.accessOrder, key) + [key];
      assert multiset(order) == multiset(c.accessOrder);
      Ok((c.(accessOrder := order), Some(c.cache.items[key])))
  }

  /** The cleanups a value triggers: itself when it has a callable `cleanup`. */
  function CleanupOf<V>(v: V, hasCleanup: V -> bool): seq<V> {
    if hasCleanup(v) then [v] else []
  }

  /**
   * `put`: an existing key takes the new value and becomes the most
   * recently used, evicting nothing.  A new key first evicts the least
   * recently used entry when the access order is at capacity (cleaning it
   * up if it can be), then goes in as the most recently used.  With an
   * empty access order at capacity (capacity 0 or less) `pop(0)` raises.
   */
  function Put<K(==), V>(c: Lru<K, V>, key: K, value: V, hasCleanup: V -> bool): (r: Result<(Lru<K, V>, seq<V>)>)
    requires c.cache.Valid()
    ensures key in c.cache.items ==> (r.Err? <==> key !in c.accessOrder)
    ensures key in c.cache.items && r.Err? ==> r.error == ValueError
    ensures key in c.cache.items && r.Ok? ==>
              && r.value.1 == []
              && r.value.0.cache.items == c.cache.items[key := value]
              && r.value.0.accessOrder == RemoveFirst(c.accessOrder, key) + [key]
    ensures key !in c.cache.items && |c.accessOrder| >= c.capacity ==>
              && (r.Err? <==> |c.accessOrder| == 0 || c.accessOrder[0] !in c.cache.items)
              && (r.Err? ==> r.error == (if |c.accessOrder| == 0 then IndexError else KeyError))
              && (r.Ok? ==>
                    && r.value.1 == CleanupOf(c.cache.items[c.accessOrder[0]], hasCleanup)
                    && r.value.0.cache.items == (c.cache.items - {c.accessOrder[0]})[key := value]
                    && r.value.0.accessOrder == c.accessOrder[1..] + [key])
    ensures key !in c.cache.items && |c.accessOrder| < c.capacity ==>
              && r.Ok? && r.value.1 == []
              && r.value.0.cache.items == c.cache.items[key := value]
              && r.value.0.accessOrder == c.accessOrder + [key]
    ensures r.Ok? ==> r.value.0.capacity == c.capacity && r.value.0.cache.Valid()
  {
    if key in c.cache.items then
      if key !in c.accessOrder then Err(ValueError)
      else Ok((Lru(c.capacity, c.cache.Put(key, value), RemoveFirst(c.accessOrder, key) + [key]), []))
    else if |c.accessOrder| >= c.capacity then
      if |c.accessOrder| == 0 then Err(IndexError)
      else
        var lru := c.accessOrder[0];
        if lru !in c.cache.items then Err(KeyError)
        else
          var cleaned := CleanupOf(c.cache.items[lru], hasCleanup);
          var cache := c.cache.Delete(lru).Put(key, value);
          Ok((Lru(c.capacity, cache, c.accessOrder[1..] + [key]), cleaned))
    else
      Ok((Lru(c.capacity, c.cache.Put(key, value), c.accessOrder + [key]), []))
  }

  /** `get` keeps the invariant and never raises on a valid cache. */
  lemma GetValid<K, V>(c: Lru<K, V>, key: K)
    requires c.Valid()
    ensures Get(c, key).Ok? && Get(c, key).value.0.Valid()
  {
    if key in c.cache.items {
      MoveToEnd(c.accessOrder, key);
      ReorderedValid(c, RemoveFirst(c.accessOrder, key) + [key]);
    }
  }

  /**
   * Reading a key protects it from the next eviction: after `get(key)`, a
   * `put` of a new key into a full cache evicts the least recently used
   * of the other keys, which is the head of the old access order unless
   * that head is the key just read, in which case it is the next one.
   */
  lemma GetThenPutEvictsOther<K, V>(c: Lru<K, V>, key: K, newKey: K, value: V, hasCleanup: V -> bool)
    requires c.Valid() && c.capacity >= 1 && |c.accessOrder| >= c.capacity && |c.accessOrder| >= 2
    requires key in c.cache.items && newKey !in c.cache.items
    ensures Get(c, key).Ok?
    ensures var c1 := Get(c, key).value.0;
            var victim := if c.accessOrder[0] == key then c.accessOrder[1] else c.accessOrder[0];
            && victim != key
            && Put(c1, newKey, value, hasCleanup).Ok?
            && Put(c1, newKey, value, hasCleanup).value.1 == CleanupOf(c.cache.items[victim], hasCleanup)
            && Put(c1, newKey, value, hasCleanup).value.0.cache.items == (c.cache.items - {victim})[newKey := value]
  {
    GetValid(c, key);
    var c1 := Get(c, key).value.0;
    var rest := RemoveFirst(c.accessOrder, key);
    var i := IndexOf(c.accessOrder, key);
    assert c1.accessOrder == rest + [key];
    var victim := if c.accessOrder[0] == key then c.accessOrder[1] else c.accessOrder[0];
    if c.accessOrder[0] == key {
      assert i == 0;
      assert rest[0] == c.accessOrder[1];
    } else {
      assert i > 0;
      assert rest[0] == c.accessOrder[0];
    }
    assert c1.accessOrder[0] == victim;
  }

  /** Any duplicate-free reordering of the access order keeps the invariant. */
  lemma ReorderedValid<K, V>(c: Lru<K, V>, order: seq<K>)
    requires c.Valid() && NoDup(order) && |order| == |c.accessOrder|
    requires forall y :: y in order <==> y in c.accessOrder
    ensures c.(accessOrder := order).Valid()
  {
    forall i | 0 <= i < |order| ensures order[i] in c.cache.items {
      assert order[i] in c.accessOrder;
    }
  }

  /** Moving a listed key to the end keeps the list duplicate-free, its length and its members. */
  lemma MoveToEnd<T>(s: seq<T>, x: T)
    requires NoDup(s) && x in s
    ensures var t := RemoveFirst(s, x) + [x];
            NoDup(t) && |t| == |s| && forall y :: y in t <==> y in s
  {
    var order := RemoveFirst(s, x);
    RemoveFirstKeepsNoDup(s, x);
    forall y ensures y in order <==> y in s && y != x {
      RemoveFirstMembers(s, x, y);
    }
    NoDupAppend(order, x);
    assert multiset(order + [x]) == multiset(s);
  }

  /**
   * `put` keeps the invariant on a cache of capacity at least 1, never
   * raises there, cleans up at most one value, and afterwards `get` of the
   * key finds the value just put.
   */
  lemma PutValid<K, V>(c: Lru<K, V>, key: K, value: V, hasCleanup: V -> bool)
    requires c.Valid() && c.capacity >= 1
    ensures Put(c, key, value, hasCleanup).Ok?
    ensures var (c', cleaned) := Put(c, key, value, hasCleanup).value;
            && c'.Valid() && |cleaned| <= 1
            && Get(c', key) == Ok((c', Some(value)))
  {
    if key in c.cache.items {
      PutExistingValid(c, key, value, hasCleanup);
    } else if |c.accessOrder| >= c.capacity {
      PutEvictingValid(c, key, value, hasCleanup);
    } else {
      PutInsertingValid(c, key, value, hasCleanup);
    }
  }

  lemma PutExistingValid<K, V>(c: Lru<K, V>, key: K, value: V, hasCleanup: V -> bool)
    requires c.Valid() && c.capacity >= 1 && key in c.cache.items
    ensures Put(c, key, value, hasCleanup).Ok?
    ensures var (c', cleaned) := Put(c, key, value, hasCleanup).value;
            && c'.Valid() && |cleaned| <= 1
            && Get(c', key) == Ok((c', Some(value)))
  {
    var order := RemoveFirst(c.accessOrder, key);
    RemoveFirstKeepsNoDup(c.accessOrder, key);
    RemoveFirstMembers(c.accessOrder, key, key);
    NoDupAppend(order, key);
    LastMoveIsIdentity(order, key);
    var c' := Lru(c.capacity, c.cache.Put(key, value), order + [key]);
    assert Put(c, key, value, hasCleanup) == Ok((c', []));
    assert c'.Valid() by {
      assert |order + [key]| == |c.accessOrder|;
      forall i | 0 <= i < |order + [key]| ensures (order + [key])[i] in c'.cache.items {
        if i < |order| {
          assert order[i] in multiset(order);
        }
      }
      forall k | k in c'.cache.items ensures k in order + [key] {
        RemoveFirstMembers(c.accessOrder, key, k);
      }
    }
    assert Get(c', key) == Ok((c', Some(value)));
  }

  lemma PutEvictingValid<K, V>(c: Lru<K, V>, key: K, value: V, hasCleanup: V -> bool)
    requires c.Valid() && c.capacity >= 1 && key !in c.cache.items && |c.accessOrder| >= c.capacity
    ensures Put(c, key, value, hasCleanup).Ok?
    ensures var (c', cleaned) := Put(c, key, value, hasCleanup).value;
            && c'.Valid() && |cleaned| <= 1
            && Get(c', key) == Ok((c', Some(value)))
  {
    var lru := c.accessOrder[0];
    var c' := Evicted(c, key, value);
    assert Put(c, key, value, hasCleanup) == Ok((c', CleanupOf(c.cache.items[lru], hasCleanup)));
    LastMoveIsIdentity(c.accessOrder[1..], key);
    assert Get(c', key) == Ok((c', Some(value))) by {
      assert key in c'.cache.items && key in c'.accessOrder;
    }
  }

  /** The cache after evicting the least recently used key and inserting `key`. */
  function Evicted<K(==), V>(c: Lru<K, V>, key: K, value: V): (c': Lru<K, V>)
    requires c.Valid() && c.capacity >= 1 && key !in c.cache.items && |c.accessOrder| >= c.capacity
    ensures c'.Valid()
    ensures c' == Lru(c.capacity, c.cache.Delete(c.accessOrder[0]).Put(key, value), c.accessOrder[1..] + [key])
  {
    var rest := c.accessOrder[1..];
    var lru := c.accessOrder[0];
    assert c.accessOrder == [lru] + rest;
    assert lru !in rest;
    assert NoDup(rest);
    NoDupAppend(rest, key);
    var c' := Lru(c.capacity, c.cache.Delete(lru).Put(key, value), rest + [key]);
    forall i | 0 <= i < |rest + [key]| ensures (rest + [key])[i] in c'.cache.items {
      if i < |rest| {
        assert rest[i] == c.accessOrder[i + 1];
      }
    }
    forall k | k in c'.cache.items ensures k in rest + [key] {
      if k != key {
        assert k in c.accessOrder && k != lru;
      }
    }
    c'
  }

  lemma PutInsertingValid<K, V>(c: Lru<K, V>, key: K, value: V, hasCleanup: V -> bool)
    requires c.Valid() && key !in c.cache.items && |c.accessOrder| < c.capacity
    ensures Put(c, key, value, hasCleanup).Ok?
    ensures var (c', cleaned) := Put(c, key, value, hasCleanup).value;
            && c'.Valid() && |cleaned| <= 1
            && Get(c', key) == Ok((c', Some(value)))
  {
    NoDupAppend(c.accessOrder, key);
    LastMoveIsIdentity(c.accessOrder, key);
  }

  /** Appending a new element keeps a list duplicate-free. */
  lemma NoDupAppend<T>(s: seq<T>, x: T)
    requires NoDup(s) && x !in s
    ensures NoDup(s + [x])
  {
  }

  /** Moving the last element to the end changes nothing. */
  lemma LastMoveIsIdentity<T>(s: seq<T>, x: T)
    requires x !in s
    ensures RemoveFirst(s + [x], x) + [x] == s + [x]
  {
    var t := s + [x];
    assert IndexOf(t, x) == |s| by {
      assert forall j :: 0 <= j < |s| ==> t[j] != x;
    }
    assert t[..|s|] == s;
  }

  /** Capacity 0 makes the first `put` into an empty cache raise. */
  lemma CapacityZeroRaises<K, V>(key: K, value: V, hasCleanup: V -> bool)
    ensures Put(New<K, V>(0), key, value, hasCleanup) == Err(IndexError)
  {
  }

  /** The values with a callable `cleanup`, in order. */
  function WithCleanup<V>(vs: seq<V>, hasCleanup: V -> bool): (r: seq<V>)
    ensures forall v :: v in vs && hasCleanup(v) ==> v in r
    ensures forall i :: 0 <= i < |r| ==> r[i] in vs && hasCleanup(r[i])
  {
    if |vs| == 0 then [] else CleanupOf(vs[0], hasCleanup) + WithCleanup(vs[1..], hasCleanup)
  }

  /** Filtering keeps the relative order: the filter of a concatenation concatenates the filters. */
  lemma {:induction false} WithCleanupAppend<V>(a: seq<V>, b: seq<V>, hasCleanup: V -> bool)
    ensures WithCleanup(a + b, hasCleanup) == WithCleanup(a, hasCleanup) + WithCleanup(b, hasCleanup)
    decreases |a|
  {
    if |a| == 0 {
      assert a + b == b;
    } else {
      assert (a + b)[0] == a[0] && (a + b)[1..] == a[1..] + b;
      WithCleanupAppend(a[1..], b, hasCleanup);
    }
  }

  /** Each value is kept as often as it occurs when it has a cleanup, and dropped otherwise. */
  lemma {:induction false} WithCleanupCounts<V>(vs: seq<V>, hasCleanup: V -> bool, v: V)
    ensures multiset(WithCleanup(vs, hasCleanup))[v] == if hasCleanup(v) then multiset(vs)[v] else 0
    decreases |vs|
  {
    if |vs| > 0 {
      var head := CleanupOf(vs[0], hasCleanup);
      var rest := WithCleanup(vs[1..], hasCleanup);
      assert WithCleanup(vs, hasCleanup) == head + rest;
      assert multiset(head + rest) == multiset(head) + multiset(rest);
      assert multiset(vs) == multiset{vs[0]} + multiset(vs[1..]) by {
        assert vs == [vs[0]] + vs[1..];
      }
      WithCleanupCounts(vs[1..], hasCleanup, v);
    }
  }

  /**
   * `clear`: every value that can be cleaned up is, in dictionary order,
   * and both the dictionary and the access order end empty.
   */
  function Clear<K(==), V(==)>(c: Lru<K, V>, hasCleanup: V -> bool): (r: (Lru<K, V>, seq<V>))
    requires c.cache.Valid()
    ensures r.0.Valid() && r.0.cache.items == map[] && r.0.accessOrder == [] && r.0.capacity == c.capacity
    ensures forall k :: k in c.cache.items && hasCleanup(c.cache.items[k]) ==> c.cache.items[k] in r.1
    ensures forall i :: 0 <= i < |r.1| ==> r.1[i] in c.cache.items.Values && hasCleanup(r.1[i])
    ensures r.1 == WithCleanup(c.cache.Values(), hasCleanup)
  {
    var vs := c.cache.Values();
    forall k | k in c.cache.items ensures c.cache.items[k] in vs {
      var i := IndexOf(c.cache.order, k);
      assert vs[i] == c.cache.items[k];
    }
    (Lru(c.capacity, Empty(), []), WithCleanup(vs, hasCleanup))
  }

  /**
   * When no two keys share a value object, `clear` calls `cleanup` exactly
   * once on each cached value that has one, and never on the others.
   */
  lemma ClearCleansEachOnce<K, V>(c: Lru<K, V>, hasCleanup: V -> bool, k: K)
    requires c.cache.Valid() && k in c.cache.items
    requires forall k1, k2 :: k1 in c.cache.items && k2 in c.cache.items && k1 != k2 ==> c.cache.items[k1] != c.cache.items[k2]
    ensures multiset(Clear(c, hasCleanup).1)[c.cache.items[k]] == if hasCleanup(c.cache.items[k]) then 1 else 0
  {
    var vs := c.cache.Values();
    var v := c.cache.items[k];
    var i := IndexOf(c.cache.order, k);
    forall j | 0 <= j < |vs| && j != i ensures vs[j] != v {
      assert c.cache.order[j] != k;
    }
    OccursOnce(vs, i);
    WithCleanupCounts(vs, hasCleanup, v);
  }

  /** An element found at one position only occurs once. */
  lemma OccursOnce<T>(s: seq<T>, i: nat)
    requires i < |s| && forall j :: 0 <= j < |s| && j != i ==> s[j] != s[i]
    ensures multiset(s)[s[i]] == 1
  {
    var v := s[i];
    assert s == s[..i] + [v] + s[i + 1..];
    assert v !in s[..i] by {
      forall j | 0 <= j < i ensures s[..i][j] != v {}
    }
    var tail := s[i + 1..];
    assert v !in tail by {
      forall j | 0 <= j < |tail| ensures tail[j] != v {
        assert tail[j] == s[i + 1 + j];
      }
    }
    assert multiset(s) == multiset(s[..i]) + multiset{v} + multiset(s[i + 1..]);
  }

  /** After `clear` every key is missing, and the cache takes new entries as an empty one does. */
  lemma ClearThenGet<K, V>(c: Lru<K, V>, hasCleanup: V -> bool, key: K)
    requires c.cache.Valid()
    ensures var c' := Clear(c, hasCleanup).0;
            Get(c', key) == Ok((c', None)) && c' == New(c.capacity)
  {
  }
}

=== FILE: lsystem.dfy ===
/**
 * The stochastic L-system of Roguelike/L_system.py.  A rule maps a symbol to
 * weighted successors; a successor is a list of productions, each a word
 * with an optional `{m,n}` repetition and an optional `(p)` survival
 * probability.  The regular-expression tokenisers are abstracted: rule
 * successors arrive already split into productions and the start string
 * arrives as its list of symbols.  The random source is the stream of
 * values `rng.random()` would return.
 */
module LSystems {
  import opened Results
  import opened Grids

  // ---------------------------------------------------------------- text

  /**
   * A character of `[\w\[\]]` read over ASCII: letters, digits, `_` and
   * brackets.  On ASCII this is exactly Python's `\w`; Python's `\w` also
   * matches non-ASCII letters and digits, which this class leaves out.
   */
  predicate IsWordChar(c: char) {
    ('a' <= c <= 'z') || ('A' <= c <= 'Z') || ('0' <= c <= '9') || c == '_' || c == '[' || c == ']'
  }

  /** A nonempty run of word characters. */
  predicate IsWord(w: string) {
    |w| > 0 && forall i :: 0 <= i < |w| ==> IsWordChar(w[i])
  }

  /** Every element is a word. */
  predicate AllWords(ws: seq<string>) {
    forall i :: 0 <= i < |ws| ==> IsWord(ws[i])
  }

  /**
   * The ASCII whitespace characters.  `str.split()` also separates on
   * `\x1c`-`\x1f` and on non-ASCII spaces; the strings split here are words
   * joined by single spaces, so only the space itself ever occurs.
   */
  predicate IsSpace(c: char) {
    c == ' ' || c == '\t' || c == '\n' || c == '\r' || c == '\U{000B}' || c == '\U{000C}'
  }

  /** `' '.join(ws)`. */
  function Join(ws: seq<string>): string
    decreases |ws|
  {
    if |ws| == 0 then ""
    else if |ws| == 1 then ws[0]
    else ws[0] + " " + Join(ws[1..])
  }

  /** The end of the non-space run that starts before `i`. */
  function RunEnd(s: string, i: nat): (n: nat)
    requires 1 <= i <= |s|
    ensures i <= n <= |s| && (n == |s| || IsSpace(s[n]))
    ensures forall k :: i <= k < n ==> !IsSpace(s[k])
    decreases |s| - i
  {
    if i == |s| || IsSpace(s[i]) then i else RunEnd(s, i + 1)
  }

  /** `s.split()`: the maximal runs of non-space characters. */
  function Split(s: string): seq<string>
    decreases |s|
  {
    if |s| == 0 then []
    else if IsSpace(s[0]) then Split(s[1..])
    else
      var n := RunEnd(s, 1);
      [s[..n]] + Split(s[n..])
  }

  /** A word followed by nothing or by a space splits off as one piece. */
  lemma SplitWord(w: string, rest: string)
    requires IsWord(w) && (|rest| == 0 || IsSpace(rest[0]))
    ensures Split(w + rest) == [w] + Split(rest)
  {
    var s := w + rest;
    assert forall k :: 0 <= k < |w| ==> s[k] == w[k];
    assert s[..|w|] == w && s[|w|..] == rest;
    RunEndAt(s, 1, |w|);
  }

  /** The run starting before `i` ends at `n` when `n` is the first space at or after `i`. */
  lemma {:induction false} RunEndAt(s: string, i: nat, n: nat)
    requires 1 <= i <= n <= |s|
    requires forall k :: i <= k < n ==> !IsSpace(s[k])
    requires n == |s| || IsSpace(s[n])
    ensures RunEnd(s, i) == n
    decreases n - i
  {
    if i < n {
      RunEndAt(s, i + 1, n);
    }
  }

  /** Splitting a space-joined list of words gives the words back. */
  lemma {:induction false} SplitJoin(ws: seq<string>)
    requires AllWords(ws)
    ensures Split(Join(ws)) == ws
    decreases |ws|
  {
    if |ws| == 1 {
      SplitWord(ws[0], "");
      assert ws[0] + "" == ws[0];
    } else if |ws| > 1 {
      SplitSpaced(ws[0], Join(ws[1..]));
      SplitJoin(ws[1..]);
    }
  }

  /** A word, a space and a tail split into the word followed by the tail's pieces. */
  lemma SplitSpaced(w: string, tail: string)
    requires IsWord(w)
    ensures Split(w + " " + tail) == [w] + Split(tail)
  {
    assert w + " " + tail == w + (" " + tail);
    SplitWord(w, " " + tail);
    assert (" " + tail)[1..] == tail;
  }

  /** `' '.join` of two lists is the join of each, with one space between when both are nonempty. */
  lemma {:induction false} JoinAppend(a: seq<string>, b: seq<string>)
    ensures |a| == 0 ==> Join(a + b) == Join(b)
    ensures |b| == 0 ==> Join(a + b) == Join(a)
    ensures |a| > 0 && |b| > 0 ==> Join(a + b) == Join(a) + " " + Join(b)
    decreases |a|
  {
    if |a| == 0 {
      assert a + b == b;
    } else if |b| == 0 {
      assert a + b == a;
    } else if |a| == 1 {
      assert (a + b)[1..] == b;
    } else {
      assert (a + b)[1..] == a[1..] + b;
      JoinAppend(a[1..], b);
    }
  }

  /** `filter(None, xs)`: the nonempty strings, in order. */
  function NonEmpty(xs: seq<string>): (r: seq<string>)
    ensures forall i :: 0 <= i < |r| ==> |r[i]| > 0
    ensures forall x :: x in r <==> x in xs && |x| > 0
    decreases |xs|
  {
    if |xs| == 0 then []
    else if |xs[0]| == 0 then NonEmpty(xs[1..])
    else [xs[0]] + NonEmpty(xs[1..])
  }

  /**
   * Joining the nonempty joins of word lists is joining all their words:
   * the empty strings `filter` drops would otherwise leave double spaces.
   */
  lemma {:induction false} JoinNonEmpty(groups: seq<seq<string>>)
    requires forall g :: 0 <= g < |groups| ==> AllWords(groups[g])
    ensures Join(NonEmpty(JoinEach(groups))) == Join(Ravel(groups))
    ensures AllWords(Ravel(groups))
    decreases |groups|
  {
    if |groups| > 0 {
      JoinNonEmpty(groups[1..]);
      var rest := Ravel(groups[1..]);
      assert JoinEach(groups)[1..] == JoinEach(groups[1..]);
      JoinAppend(groups[0], rest);
      if |groups[0]| > 0 {
        assert |Join(groups[0])| > 0 by { JoinNonEmptyWords(groups[0]); }
        var tail := NonEmpty(JoinEach(groups[1..]));
        assert NonEmpty(JoinEach(groups)) == [Join(groups[0])] + tail;
        JoinAppend([Join(groups[0])], tail);
        if |rest| == 0 {
          assert |tail| == 0 by { JoinEmpty(tail); }
        } else {
          assert |tail| > 0 by { JoinEmpty(tail); }
        }
      }
    }
  }

  /** The join of a list is empty only when the list is. */
  lemma JoinEmpty(ws: seq<string>)
    requires forall i :: 0 <= i < |ws| ==> |ws[i]| > 0
    ensures |Join(ws)| == 0 <==> |ws| == 0
  {
    if |ws| > 1 {
      assert |Join(ws)| >= |ws[0]|;
    }
  }

  /** A nonempty list of words joins to a nonempty string. */
  lemma JoinNonEmptyWords(ws: seq<string>)
    requires AllWords(ws) && |ws| > 0
    ensures |Join(ws)| > 0
  {
    JoinEmpty(ws);
  }

  /** Each word list joined. */
  function JoinEach(groups: seq<seq<string>>): (r: seq<string>)
    ensures |r| == |groups| && forall g :: 0 <= g < |groups| ==> r[g] == Join(groups[g])
  {
    seq(|groups|, g requires 0 <= g < |groups| => Join(groups[g]))
  }

  // ---------------------------------------------------------------- randomness

  /** A value `rng.random()` can return. */
  type Unit = u: real | 0.0 <= u < 1.0

  /**
   * The generator `rng`: the value its `random()` returns on call number
   * `n`.  Every operation below takes the stream and the number of calls
   * made so far, and returns the number made after it.
   */
  type Stream = nat -> Unit

  /**
   * `rng.randint(a, b)`: an empty range raises ValueError; otherwise one
   * draw picks an integer of the range.
   */
  function RandInt(a: int, b: int, rng: Stream, pos: nat): (r: Result<(int, nat)>)
    ensures r.Ok? <==> a <= b
    ensures r.Err? ==> r.error == ValueError
    ensures r.Ok? ==> r.value.1 == pos + 1 && a <= r.value.0 <= b
  {
    if b < a then Err(ValueError)
    else
      var u := rng(pos);
      var width := b - a + 1;
      FloorOfScaled(u, width);
      Ok((a + (u * width as real).Floor, pos + 1))
  }

  /** A unit draw scaled by a positive width floors to an index below the width. */
  lemma FloorOfScaled(u: Unit, width: int)
    requires width > 0
    ensures 0 <= (u * width as real).Floor < width
  {
    var w := width as real;
    assert u * w < w by {
      assert w - u * w == (1.0 - u) * w;
      assert (1.0 - u) * w > 0.0;
    }
    assert 0.0 <= u * w;
  }

  /** The sum of the first `n` weights. */
  function Prefix(weights: seq<real>, n: nat): real
    requires n <= |weights|
  {
    if n == 0 then 0.0 else Prefix(weights, n - 1) + weights[n - 1]
  }

  /** `cum_weights[j]`: the running total up to and including weight `j`. */
  function Running(weights: seq<real>, j: nat): real
    requires j < |weights|
  {
    Prefix(weights, j + 1)
  }

  /**
   * The reference for `bisect_right` over the running totals: the first `k`
   * in `[i, hi)` whose running total exceeds `x`, else `hi`.
   */
  function FirstAbove(weights: seq<real>, x: real, i: nat, hi: nat): (k: nat)
    requires i <= hi < |weights|
    ensures i <= k <= hi
    ensures forall j :: i <= j < k ==> Running(weights, j) <= x
    ensures k < hi ==> x < Running(weights, k)
    decreases hi - i
  {
    if i == hi then hi
    else if x < Running(weights, i) then i
    else FirstAbove(weights, x, i + 1, hi)
  }

  /**
   * `bisect_right(cum_weights, x, lo, hi)` as CPython's `bisect` module runs
   * it: halve `[lo, hi)` at `mid = (lo + hi) // 2`, keeping the left half
   * when `x < cum_weights[mid]` and the right half past `mid` otherwise.
   */
  function Bisect(weights: seq<real>, x: real, lo: nat, hi: nat): (k: nat)
    requires lo <= hi < |weights|
    ensures lo <= k <= hi
    decreases hi - lo
  {
    if lo == hi then lo
    else
      var mid := (lo + hi) / 2;
      if x < Running(weights, mid) then Bisect(weights, x, lo, mid)
      else Bisect(weights, x, mid + 1, hi)
  }

  /** No weight is negative, so the running totals never decrease. */
  predicate NonNegative(weights: seq<real>) {
    forall i :: 0 <= i < |weights| ==> weights[i] >= 0.0
  }

  /** With non-negative weights the running totals are sorted. */
  lemma {:induction false} RunningMonotone(weights: seq<real>, i: nat, j: nat)
    requires NonNegative(weights) && i <= j < |weights|
    ensures Running(weights, i) <= Running(weights, j)
    decreases j - i
  {
    if i < j {
      RunningMonotone(weights, i, j - 1);
      assert Running(weights, j) == Running(weights, j - 1) + weights[j];
    }
  }

  /** Any index meeting the description of `FirstAbove` is the one it returns. */
  lemma FirstAboveUnique(weights: seq<real>, x: real, i: nat, hi: nat, k: nat)
    requires i <= k <= hi < |weights|
    requires forall j :: i <= j < k ==> Running(weights, j) <= x
    requires k < hi ==> x < Running(weights, k)
    ensures FirstAbove(weights, x, i, hi) == k
  {
  }

  /**
   * On sorted running totals the binary search finds what the scan finds:
   * the first running total above `x`.
   */
  lemma {:induction false} BisectIsFirstAbove(weights: seq<real>, x: real, lo: nat, hi: nat)
    requires NonNegative(weights) && lo <= hi < |weights|
    ensures Bisect(weights, x, lo, hi) == FirstAbove(weights, x, lo, hi)
    decreases hi - lo
  {
    if lo < hi {
      var mid := (lo + hi) / 2;
      if x < Running(weights, mid) {
        BisectIsFirstAbove(weights, x, lo, mid);
        var k := FirstAbove(weights, x, lo, mid);
        FirstAboveUnique(weights, x, lo, hi, k);
      } else {
        BisectIsFirstAbove(weights, x, mid + 1, hi);
        var k := FirstAbove(weights, x, mid + 1, hi);
        forall j | lo <= j < k ensures Running(weights, j) <= x {
          if j <= mid {
            RunningMonotone(weights, j, mid);
          }
        }
        FirstAboveUnique(weights, x, lo, hi, k);
      }
    }
  }

  /**
   * With a negative weight the running totals are not sorted and the
   * binary search can pass over the first total above the point: for
   * weights `[1, -0.5, 1]` and the point 0.7 it returns 2, not 0.
   */
  lemma UnsortedTotalsDiverge()
    ensures Bisect([1.0, -0.5, 1.0], 0.7, 0, 2) == 2
    ensures FirstAbove([1.0, -0.5, 1.0], 0.7, 0, 2) == 0
  {
    var w := [1.0, -0.5, 1.0];
    assert Running(w, 0) == 1.0;
    assert Running(w, 1) == 0.5;
  }

  /**
   * `rng.choices(range(n), weights=weights)[0]`: a total weight of zero or
   * less raises ValueError; otherwise one draw scaled by the total is
   * located among the running totals by `bisect_right` over `[0, n - 1)`.
   */
  function Choose(weights: seq<real>, rng: Stream, pos: nat): (r: Result<(nat, nat)>)
    requires |weights| > 0
    ensures r.Ok? <==> Prefix(weights, |weights|) > 0.0
    ensures r.Err? ==> r.error == ValueError
    ensures r.Ok? ==> r.value.0 < |weights| && r.value.1 == pos + 1
  {
    var total := Prefix(weights, |weights|);
    if total <= 0.0 then Err(ValueError)
    else Ok((Bisect(weights, Scale(rng(pos), total), 0, |weights| - 1), pos + 1))
  }

  /** A draw scaled by a positive total: a point of `[0, total)`. */
  function Scale(u: Unit, total: real): (x: real)
    requires total > 0.0
    ensures 0.0 <= x < total
  {
    assert (1.0 - u) * total > 0.0;
    u * total
  }

  /** The index the scan stops at, for a point inside the total, has a positive weight. */
  lemma ScanStopsOnWeight(weights: seq<real>, x: real)
    requires |weights| > 0 && 0.0 <= x < Prefix(weights, |weights|)
    ensures weights[FirstAbove(weights, x, 0, |weights| - 1)] > 0.0
  {
    var k := FirstAbove(weights, x, 0, |weights| - 1);
    assert x < Running(weights, k);
    assert Running(weights, k) == Prefix(weights, k) + weights[k];
    if k > 0 {
      assert Prefix(weights, k) == Running(weights, k - 1);
    }
  }

  /** With non-negative weights, a successor of weight zero is never chosen. */
  lemma ChosenHasWeight(weights: seq<real>, rng: Stream, pos: nat)
    requires |weights| > 0 && NonNegative(weights) && Choose(weights, rng, pos).Ok?
    ensures weights[Choose(weights, rng, pos).value.0] > 0.0
  {
    var total := Prefix(weights, |weights|);
    var x := Scale(rng(pos), total);
    BisectIsFirstAbove(weights, x, 0, |weights| - 1);
    ScanStopsOnWeight(weights, x);
  }

  // ---------------------------------------------------------------- productions

  /** A `{m,n}` suffix; `canonical` when its numerals have no leading zeros. */
  datatype Repeat = Repeat(min: nat, max: nat, canonical: bool)

  /** A `(p)` suffix: the digits before the point and the value written. */
  datatype Chance = Chance(wholePart: string, value: real)

  /** One token of a successor: `word{m,n}(p)` with both suffixes optional. */
  datatype Production = Production(word: string, repeat: Option<Repeat>, chance: Option<Chance>)

  /** `count` copies of a word. */
  function Copies(w: string, count: nat): (ws: seq<string>)
    ensures |ws| == count && forall i :: 0 <= i < count ==> ws[i] == w
  {
    seq(count, _ => w)
  }

  /**
   * The `(p)` step of `apply_productions`: the probability pattern only
   * matches a literal `0.digits` (anything else leaves `findall` empty and
   * `[0]` raises IndexError); a draw above `p` empties the result.
   */
  function ApplyChance(s: string, chance: Option<Chance>, rng: Stream, pos: nat): (r: Result<(string, nat)>)
    ensures r.Err? <==> chance.Some? && chance.value.wholePart != "0"
    ensures r.Err? ==> r.error == IndexError
    ensures r.Ok? ==> r.value.1 == pos + (if chance.Some? then 1 else 0)
    ensures r.Ok? ==> r.value.0 == s || r.value.0 == ""
    ensures r.Ok? && chance.Some? ==> (r.value.0 == "" <==> rng(pos) > chance.value.value || s == "")
  {
    if chance.None? then Ok((s, pos))
    else if chance.value.wholePart != "0" then Err(IndexError)
    else Ok((if rng(pos) > chance.value.value then "" else s, pos + 1))
  }

  /**
   * `apply_productions(rule_string, rng)`: the word, repeated `count` times
   * for a `{m,n}` suffix, then emptied with probability `1 - p` for a `(p)`
   * suffix.  Numerals with leading zeros advance the scan position by the length
   * of their canonical spelling, which stops the scan before `(p)`.
   */
  function ApplyProductions(p: Production, rng: Stream, pos: nat): (r: Result<(string, nat)>)
    ensures r.Err? ==> r.error == ValueError || r.error == IndexError
    ensures r.Ok? ==> r.value.1 >= pos
    ensures p.repeat.Some? && p.repeat.value.min > p.repeat.value.max ==> r == Err(ValueError)
    ensures p.repeat.None? ==> r == ApplyChance(p.word, p.chance, rng, pos)
  {
    if p.repeat.None? then ApplyChance(p.word, p.chance, rng, pos)
    else
      var drawn :- RandInt(p.repeat.value.min, p.repeat.value.max, rng, pos);
      var s := Join(Copies(p.word, drawn.0));
      if !p.repeat.value.canonical then Ok((s, drawn.1))
      else ApplyChance(s, p.chance, rng, drawn.1)
  }

  /**
   * With a `{m,n}` suffix and `m <= n`, the production yields `count`
   * space-separated copies of its word for some `m <= count <= n` drawn
   * first, unless the `(p)` suffix then empties it.
   */
  lemma RepeatCopies(p: Production, rng: Stream, pos: nat) returns (count: nat)
    requires IsWord(p.word)
    requires p.repeat.Some? && p.repeat.value.min <= p.repeat.value.max
    requires ApplyProductions(p, rng, pos).Ok?
    ensures p.repeat.value.min <= count <= p.repeat.value.max
    ensures var out := ApplyProductions(p, rng, pos).value.0;
            out == "" || Split(out) == Copies(p.word, count)
  {
    var drawn := RandInt(p.repeat.value.min, p.repeat.value.max, rng, pos).value;
    count := drawn.0;
    SplitJoin(Copies(p.word, count));
  }

  /**
   * A `(p)` suffix drops the production when its draw (the first one, or
   * the one after the repetition's) exceeds `p`, and keeps it otherwise.
   */
  lemma ChanceDrops(p: Production, rng: Stream, pos: nat)
    requires IsWord(p.word) && p.chance.Some? && p.chance.value.wholePart == "0"
    requires p.repeat.None? || (p.repeat.value.canonical && 0 < p.repeat.value.min <= p.repeat.value.max)
    ensures ApplyProductions(p, rng, pos).Ok?
    ensures var u := rng(if p.repeat.None? then pos else pos + 1);
            ApplyProductions(p, rng, pos).value.0 == "" <==> u > p.chance.value.value
  {
    if p.repeat.Some? {
      var drawn := RandInt(p.repeat.value.min, p.repeat.value.max, rng, pos).value;
      JoinNonEmptyWords(Copies(p.word, drawn.0));
    }
  }

  /** The words a production's output splits into: copies of its own word. */
  lemma ProductionWords(p: Production, rng: Stream, pos: nat) returns (ws: seq<string>)
    requires IsWord(p.word) && ApplyProductions(p, rng, pos).Ok?
    ensures ApplyProductions(p, rng, pos).value.0 == Join(ws)
    ensures forall i :: 0 <= i < |ws| ==> ws[i] == p.word
  {
    var out := ApplyProductions(p, rng, pos).value.0;
    if out == "" {
      ws := [];
    } else if p.repeat.None? {
      ws := [p.word];
    } else {
      var drawn := RandInt(p.repeat.value.min, p.repeat.value.max, rng, pos).value;
      ws := Copies(p.word, drawn.0);
    }
  }

  // ---------------------------------------------------------------- rules

  /** A weighted successor: its productions and its weight. */
  type Successor = (seq<Production>, real)

  /** The tokenised identity successor: the symbol itself when it is a word; a lone non-word character yields no token. */
  function IdentityTokens(symbol: string): seq<Production> {
    if IsWord(symbol) then [Production(symbol, None, None)] else []
  }

  /** `self.rules.get(symbol, [(symbol, 1)])`. */
  function RuleFor(rules: map<string, seq<Successor>>, symbol: string): seq<Successor> {
    if symbol in rules then rules[symbol] else [(IdentityTokens(symbol), 1.0)]
  }

  /** The weights column of `zip(*possible_rules)`. */
  function Weights(succ: seq<Successor>): (ws: seq<real>)
    ensures |ws| == |succ| && forall i :: 0 <= i < |succ| ==> ws[i] == succ[i].1
  {
    seq(|succ|, i requires 0 <= i < |succ| => succ[i].1)
  }

  /** `[self.apply_productions(s, rng) for s in rule_symbols]`, left to right. */
  function ApplyAll(ps: seq<Production>, rng: Stream, pos: nat): (r: Result<(seq<string>, nat)>)
    ensures r.Ok? ==> |r.value.0| == |ps| && r.value.1 >= pos
    decreases |ps|
  {
    if |ps| == 0 then Ok(([], pos))
    else
      var first :- ApplyProductions(ps[0], rng, pos);
      var rest :- ApplyAll(ps[1..], rng, first.1);
      Ok(([first.0] + rest.0, rest.1))
  }

  /**
   * `apply_rules(symbol, rng)`: an empty successor list fails to unpack
   * (ValueError); otherwise one successor is chosen by weight, its
   * productions applied, and the nonempty results joined with spaces.
   */
  function ApplyRules(rules: map<string, seq<Successor>>, symbol: string, rng: Stream, pos: nat): (r: Result<(string, nat)>)
    ensures |RuleFor(rules, symbol)| == 0 ==> r == Err(ValueError)
    ensures r.Ok? ==> r.value.1 > pos
  {
    var possible := RuleFor(rules, symbol);
    if |possible| == 0 then Err(ValueError)
    else
      var chosen :- Choose(Weights(possible), rng, pos);
      var outs :- ApplyAll(possible[chosen.0].0, rng, chosen.1);
      Ok((Join(NonEmpty(outs.0)), outs.1))
  }

  /** Every production of every rule is a word. */
  predicate WordRules(rules: map<string, seq<Successor>>) {
    forall s, j, k :: s in rules && 0 <= j < |rules[s]| && 0 <= k < |rules[s][j].0| ==> IsWord(rules[s][j].0[k].word)
  }

  /** `x` is the word of some production of some successor of `symbol`. */
  predicate Produces(rules: map<string, seq<Successor>>, symbol: string, x: string) {
    exists j, k :: 0 <= j < |RuleFor(rules, symbol)| && 0 <= k < |RuleFor(rules, symbol)[j].0|
                   && RuleFor(rules, symbol)[j].0[k].word == x
  }

  /** The outputs of a production list, as word lists, each of copies of its production's word. */
  lemma {:induction false} ApplyAllWords(ps: seq<Production>, rng: Stream, pos: nat) returns (groups: seq<seq<string>>)
    requires forall k :: 0 <= k < |ps| ==> IsWord(ps[k].word)
    requires ApplyAll(ps, rng, pos).Ok?
    ensures |groups| == |ps| && ApplyAll(ps, rng, pos).value.0 == JoinEach(groups)
    ensures forall k, i :: 0 <= k < |ps| && 0 <= i < |groups[k]| ==> groups[k][i] == ps[k].word
    decreases |ps|
  {
    if |ps| == 0 {
      groups := [];
    } else {
      var first := ApplyProductions(ps[0], rng, pos).value;
      var ws := ProductionWords(ps[0], rng, pos);
      var tail := ApplyAllWords(ps[1..], rng, first.1);
      groups := [ws] + tail;
      assert JoinEach(groups) == [Join(ws)] + JoinEach(tail);
    }
  }

  /**
   * With word productions, the expansion of a symbol splits into words,
   * each the word of a production of one of the symbol's successors (the
   * symbol itself when it has no rule).
   */
  lemma ExpansionWords(rules: map<string, seq<Successor>>, symbol: string, rng: Stream, pos: nat)
    requires WordRules(rules) && ApplyRules(rules, symbol, rng, pos).Ok?
    ensures var ws := Split(ApplyRules(rules, symbol, rng, pos).value.0);
            AllWords(ws) && forall i :: 0 <= i < |ws| ==> Produces(rules, symbol, ws[i])
  {
    var possible := RuleFor(rules, symbol);
    var chosen := Choose(Weights(possible), rng, pos).value;
    var ps := possible[chosen.0].0;
    assert forall k :: 0 <= k < |ps| ==> IsWord(ps[k].word);
    var groups := ApplyAllWords(ps, rng, chosen.1);
    JoinNonEmpty(groups);
    var flat := Ravel(groups);
    SplitJoin(flat);
    forall i | 0 <= i < |flat| ensures Produces(rules, symbol, flat[i]) {
      RavelMembers(groups, flat[i]);
      var k :| 0 <= k < |groups| && flat[i] in groups[k];
      assert ps[k].word == flat[i];
    }
  }

  /** A word without a rule rewrites to itself, using one draw for the choice. */
  lemma IdentityRule(rules: map<string, seq<Successor>>, symbol: string, rng: Stream, pos: nat)
    requires symbol !in rules && IsWord(symbol)
    ensures ApplyRules(rules, symbol, rng, pos) == Ok((symbol, pos + 1))
  {
    IdentityChoice(rules, symbol, rng, pos);
    var p := Production(symbol, None, None);
    assert IdentityTokens(symbol) == [p];
    assert ApplyProductions(p, rng, pos + 1) == Ok((symbol, pos + 1));
    assert [p][1..] == [];
    assert ApplyAll([], rng, pos + 1) == Ok(([], pos + 1));
    assert [symbol] + [] == [symbol];
    assert ApplyAll([p], rng, pos + 1) == Ok(([symbol], pos + 1));
    assert NonEmpty([symbol]) == [symbol];
  }

  /** Without a rule the only successor, of weight 1, is chosen with one draw. */
  lemma IdentityChoice(rules: map<string, seq<Successor>>, symbol: string, rng: Stream, pos: nat)
    requires symbol !in rules
    ensures Choose(Weights(RuleFor(rules, symbol)), rng, pos) == Ok((0, pos + 1))
  {
    assert Weights(RuleFor(rules, symbol)) == [1.0];
    assert Prefix([1.0], 1) == 1.0;
  }

  /** A lone ASCII non-word character without a rule tokenises to nothing and vanishes. */
  lemma PunctuationVanishes(rules: map<string, seq<Successor>>, symbol: string, rng: Stream, pos: nat)
    requires symbol !in rules && |symbol| == 1 && symbol[0] < '\U{0080}' && !IsWordChar(symbol[0])
    ensures ApplyRules(rules, symbol, rng, pos) == Ok(("", pos + 1))
  {
    IdentityChoice(rules, symbol, rng, pos);
    assert IdentityTokens(symbol) == [];
  }

  // ---------------------------------------------------------------- iteration

  /** One round: `new_symbols.extend(self.apply_rules(symbol, rng).split())` over every symbol. */
  function Expand(rules: map<string, seq<Successor>>, symbols: seq<string>, rng: Stream, pos: nat): (r: Result<(seq<string>, nat)>)
    ensures r.Ok? ==> r.value.1 >= pos + |symbols|
    decreases |symbols|
  {
    if |symbols| == 0 then Ok(([], pos))
    else
      var first :- ApplyRules(rules, symbols[0], rng, pos);
      var rest :- Expand(rules, symbols[1..], rng, first.1);
      Ok((Split(first.0) + rest.0, rest.1))
  }

  /** Symbols that are words with no rule are a fixpoint of a round. */
  lemma {:induction false} UnruledFixpoint(rules: map<string, seq<Successor>>, symbols: seq<string>, rng: Stream, pos: nat)
    requires forall i :: 0 <= i < |symbols| ==> symbols[i] !in rules && IsWord(symbols[i])
    ensures var r := Expand(rules, symbols, rng, pos);
            r.Ok? && r.value.0 == symbols && r.value.1 == pos + |symbols|
    decreases |symbols|
  {
    if |symbols| > 0 {
      var tail := symbols[1..];
      assert [symbols[0]] + tail == symbols;
      UnruledFixpoint(rules, tail, rng, pos + 1);
      UnruledHead(rules, symbols[0], tail, rng, pos);
    }
  }

  /** A word without a rule passes through a round unchanged ahead of the rest, after one draw. */
  lemma UnruledHead(rules: map<string, seq<Successor>>, head: string, tail: seq<string>, rng: Stream, pos: nat)
    requires head !in rules && IsWord(head)
    requires var rest := Expand(rules, tail, rng, pos + 1); rest.Ok? && rest.value.0 == tail
    ensures var r := Expand(rules, [head] + tail, rng, pos);
            r.Ok? && r.value.0 == [head] + tail && r.value.1 == Expand(rules, tail, rng, pos + 1).value.1
  {
    IdentityRule(rules, head, rng, pos);
    SplitJoin([head]);
    assert ([head] + tail)[1..] == tail;
  }

  /**
   * The loop of `iterate` with `remaining` rounds left: it stops when a
   * round changes nothing or its joined result would exceed `maxLength`
   * (that round is discarded).  Returns the final symbols and the number of
   * rounds run.
   */
  function Rounds(rules: map<string, seq<Successor>>, symbols: seq<string>, remaining: int, rng: Stream, pos: nat, maxLength: int)
    : (r: Result<(seq<string>, nat)>)
    ensures r.Ok? ==> r.value.1 <= if remaining < 0 then 0 else remaining
    ensures r.Ok? ==> r.value.0 == symbols || |Join(r.value.0)| <= maxLength
    decreases if remaining < 0 then 0 else remaining
  {
    if remaining <= 0 then Ok((symbols, 0))
    else
      var next :- Expand(rules, symbols, rng, pos);
      if next.0 == symbols || |Join(next.0)| > maxLength then Ok((symbols, 1))
      else
        var fin :- Rounds(rules, next.0, remaining - 1, rng, next.1, maxLength);
        Ok((fin.0, fin.1 + 1))
  }

  /** `iterate(start_string, max_iterations, rng, max_length)` on the tokenised start string. */
  function Iterate(rules: map<string, seq<Successor>>, start: seq<string>, maxIterations: int, rng: Stream, maxLength: int)
    : Result<string>
  {
    var fin :- Rounds(rules, start, maxIterations, rng, 0, maxLength);
    Ok(Join(fin.0))
  }

  /**
   * The result of `iterate` is the start string rejoined, or a string no
   * longer than `max_length`; at most `max_iterations` rounds run.
   */
  lemma IterateBounded(rules: map<string, seq<Successor>>, start: seq<string>, maxIterations: int, rng: Stream, maxLength: int)
    requires Iterate(rules, start, maxIterations, rng, maxLength).Ok?
    ensures var out := Iterate(rules, start, maxIterations, rng, maxLength).value;
            out == Join(start) || |out| <= maxLength
    ensures Rounds(rules, start, maxIterations, rng, 0, maxLength).value.1 <= if maxIterations < 0 then 0 else maxIterations
  {
  }

  /** Without rules for any start symbol, `iterate` returns the start string after one round. */
  lemma UnruledIterate(rules: map<string, seq<Successor>>, start: seq<string>, maxIterations: int, rng: Stream, maxLength: int)
    requires forall i :: 0 <= i < |start| ==> start[i] !in rules && IsWord(start[i])
    requires maxIterations > 0
    ensures Rounds(rules, start, maxIterations, rng, 0, maxLength) == Ok((start, 1))
    ensures Iterate(rules, start, maxIterations, rng, maxLength) == Ok(Join(start))
  {
    UnruledFixpoint(rules, start, rng, 0);
  }
}

=== FILE: native_code.dfy ===
/**
 * The Python side of the native region library (Roguelike/native_code.py):
 * turning the row-major buffer the library returns into a grid, and turning
 * the library's per-region structs into the region records the
 * classification cascade works on.  The library calls themselves are not
 * modelled; their results are the inputs here.
 */
module NativeCode {
  import opened Results
  import opened Grids
  import opened Topology

  /** Number of neighbour slots in the native `RegionInfo` struct. */
  const NEIGHBOR_SLOTS: int := 20

  /** One `RegionInfo` struct as the library fills it. */
  datatype RegionInfo = RegionInfo(area: int, neighbors: seq<int>, neighborCount: int)

  /**
   * One entry of the region dictionary: the seed cell `(x, y)`, the number
   * of cells the region owns, its neighbouring region ids and the category
   * name it has been given so far (`None` until a pass classifies it).  The
   * dictionary is keyed by `0 .. seed_count - 1` in insertion order, so it is
   * represented by the sequence of its records, record `i` under key `i`.
   */
  datatype RegionRecord = RegionRecord(seed: (int, int), area: int, neighbors: seq<int>, category: Option<Category>)

  /** `y * width + x` lies inside a `height` by `width` buffer. */
  lemma RowMajorInBounds(y: nat, x: nat, width: nat, height: nat)
    requires y < height && x < width
    ensures y * width + x < width * height
    ensures (y + 1) * width <= width * height
  {
    assert (y + 1) * width == y * width + width;
    assert (y + 1) * width <= height * width by {
      MulMonotone(y + 1, height, width);
    }
  }

  /** Row `y` of a `height` by `width` buffer ends inside it. */
  lemma RowInBounds(y: nat, width: nat, height: nat)
    requires y < height
    ensures 0 <= y * width
    ensures y * width + width <= width * height
  {
    MulMonotone(y + 1, height, width);
    assert (y + 1) * width == y * width + width;
  }

  lemma MulMonotone(a: nat, b: nat, c: nat)
    requires a <= b
    ensures a * c <= b * c
  {
    assert b * c == a * c + (b - a) * c;
  }

  /**
   * `convert_1d_to_numpy_2d`: a `height` by `width` grid whose cell `(y, x)`
   * is buffer entry `y * width + x`.  A negative dimension makes
   * `np.zeros` raise.
   */
  function ConvertTo2D(flat: seq<int>, width: int, height: int): (r: Result<Grid<int>>)
    requires width >= 0 && height >= 0 ==> |flat| >= width * height
    ensures r.Err? <==> width < 0 || height < 0
    ensures r.Err? ==> r.error == ValueError
    ensures r.Ok? ==> r.value.Valid() && r.value.height == height && r.value.width == width
    ensures r.Ok? ==> forall y, x :: 0 <= y < height && 0 <= x < width ==> CellFromBuffer(r.value, flat, y, x)
  {
    if width < 0 || height < 0 then Err(ValueError)
    else
      var g := Grid(height, width, RowSlices(flat, width, height));
      assert forall y, x :: 0 <= y < height && 0 <= x < width ==> CellFromBuffer(g, flat, y, x) by {
        forall y, x | 0 <= y < height && 0 <= x < width
          ensures CellFromBuffer(g, flat, y, x)
        {
          RowSliceCell(flat, width, height, y, x);
        }
      }
      Ok(g)
  }

  /** Cell `(y, x)` of the grid holds buffer entry `y * width + x`. */
  predicate CellFromBuffer(g: Grid<int>, flat: seq<int>, y: nat, x: nat)
    requires g.Valid() && y < g.height && x < g.width
  {
    y * g.width + x < |flat| && g.rows[y][x] == flat[y * g.width + x]
  }

  /** Row `y` of the buffer: the `width` entries from `y * width` on. */
  function BufferRow(flat: seq<int>, width: nat, height: nat, y: nat): (row: seq<int>)
    requires |flat| >= width * height && y < height
    ensures |row| == width
  {
    RowInBounds(y, width, height);
    flat[y * width .. y * width + width]
  }

  /** The buffer cut into `height` consecutive rows of `width` entries. */
  function RowSlices(flat: seq<int>, width: nat, height: nat): (rows: seq<seq<int>>)
    requires |flat| >= width * height
    ensures |rows| == height
    ensures forall y :: 0 <= y < height ==> rows[y] == BufferRow(flat, width, height, y)
  {
    seq(height, y requires 0 <= y < height => BufferRow(flat, width, height, y))
  }

  lemma RowSliceCell(flat: seq<int>, width: nat, height: nat, y: nat, x: nat)
    requires |flat| >= width * height
    requires y < height && x < width
    ensures y * width + x < |flat|
    ensures RowSlices(flat, width, height)[y][x] == flat[y * width + x]
  {
    RowMajorInBounds(y, x, width, height);
  }

  /** Ravelling a converted buffer gives back the buffer's first `width * height` entries. */
  lemma {:induction false} RavelOfConvert(flat: seq<int>, width: nat, height: nat)
    requires |flat| >= width * height
    ensures ConvertTo2D(flat, width, height).Ok?
    ensures Ravel(ConvertTo2D(flat, width, height).value.rows) == flat[..width * height]
    decreases height
  {
    var g := ConvertTo2D(flat, width, height).value;
    if height == 0 {
      assert g.rows == [];
    } else {
      var h := height - 1;
      assert h * width + width == width * height;
      MulMonotone(h, height, width);
      var g' := ConvertTo2D(flat, width, h).value;
      RavelOfConvert(flat, width, h);
      var last := flat[h * width .. h * width + width];
      assert g.rows == g'.rows + [last] by {
        forall y | 0 <= y < height ensures g.rows[y] == (g'.rows + [last])[y] {
          RowInBounds(y, width, height);
          if y < h {
            RowInBounds(y, width, h);
          }
        }
      }
      RavelAppend(g'.rows, [last]);
      assert Ravel([last]) == last by {
        assert [last][1..] == [];
      }
      assert flat[..width * height] == flat[..h * width] + last;
    }
  }

  /** Converting the ravel of a valid grid with its own dimensions rebuilds the grid. */
  lemma ConvertOfRavel(g: Grid<int>)
    requires g.Valid()
    ensures |Ravel(g.rows)| == g.width * g.height
    ensures ConvertTo2D(Ravel(g.rows), g.width, g.height) == Ok(g)
  {
    RavelLength(g.rows, g.width);
    var r := ConvertTo2D(Ravel(g.rows), g.width, g.height).value;
    forall y | 0 <= y < g.height ensures r.rows[y] == g.rows[y] {
      forall x | 0 <= x < g.width ensures r.rows[y][x] == g.rows[y][x] {
        ConvertOfRavelCell(g, y, x);
      }
    }
    assert r.rows == g.rows;
  }

  lemma ConvertOfRavelCell(g: Grid<int>, y: nat, x: nat)
    requires g.Valid() && y < g.height && x < g.width
    ensures |Ravel(g.rows)| == g.width * g.height
    ensures ConvertTo2D(Ravel(g.rows), g.width, g.height).Ok?
    ensures ConvertTo2D(Ravel(g.rows), g.width, g.height).value.rows[y][x] == g.rows[y][x]
  {
    RavelLength(g.rows, g.width);
    var flat := Ravel(g.rows);
    var r := ConvertTo2D(flat, g.width, g.height).value;
    assert CellFromBuffer(r, flat, y, x);
    RavelIndex(g.rows, g.width, y, x);
  }

  lemma {:induction false} RavelLength(rows: seq<seq<int>>, width: nat)
    requires forall r :: 0 <= r < |rows| ==> |rows[r]| == width
    ensures |Ravel(rows)| == width * |rows|
  {
    if |rows| > 0 {
      RavelLength(rows[1..], width);
      assert width * |rows| == width + width * (|rows| - 1);
    }
  }

  lemma {:induction false} RavelIndex(rows: seq<seq<int>>, width: nat, y: nat, x: nat)
    requires forall r :: 0 <= r < |rows| ==> |rows[r]| == width
    requires y < |rows| && x < width
    ensures y * width + x < |Ravel(rows)|
    ensures Ravel(rows)[y * width + x] == rows[y][x]
  {
    RavelLength(rows, width);
    RowMajorInBounds(y, x, width, |rows|);
    if y > 0 {
      RavelIndex(rows[1..], width, y - 1, x);
      assert y * width + x == width + ((y - 1) * width + x);
    }
  }

  /** The neighbour ids a struct reports: its first `neighbor_count` slots. */
  function Neighbors(info: RegionInfo): (r: Result<seq<int>>)
    requires |info.neighbors| == NEIGHBOR_SLOTS
    ensures r.Err? <==> info.neighborCount > NEIGHBOR_SLOTS
    ensures r.Err? ==> r.error == IndexError
    ensures r.Ok? ==> |r.value| == (if info.neighborCount < 0 then 0 else info.neighborCount)
    ensures r.Ok? ==> r.value <= info.neighbors
  {
    if info.neighborCount > NEIGHBOR_SLOTS then Err(IndexError)
    else if info.neighborCount <= 0 then Ok([])
    else Ok(info.neighbors[..info.neighborCount])
  }

  /**
   * The dictionary assembly of `get_region_info`: record `i` pairs seed `i`
   * with struct `i`.  A neighbour count beyond the 20 slots makes the ctypes
   * array subscript raise.
   */
  function AssembleRegionInfo(seeds: seq<(int, int)>, infos: seq<RegionInfo>): (r: Result<seq<RegionRecord>>)
    requires |infos| >= |seeds|
    requires forall i :: 0 <= i < |infos| ==> |infos[i].neighbors| == NEIGHBOR_SLOTS
    ensures r.Err? <==> exists i :: 0 <= i < |seeds| && infos[i].neighborCount > NEIGHBOR_SLOTS
    ensures r.Err? ==> r.error == IndexError
    ensures r.Ok? ==> |r.value| == |seeds|
    ensures r.Ok? ==> forall i :: 0 <= i < |seeds| ==>
                        && r.value[i].seed == seeds[i]
                        && r.value[i].area == infos[i].area
                        && r.value[i].category == None
                        && Neighbors(infos[i]) == Ok(r.value[i].neighbors)
                        && |r.value[i].neighbors| <= NEIGHBOR_SLOTS
    decreases |seeds|
  {
    if |seeds| == 0 then Ok([])
    else
      var init :- AssembleRegionInfo(seeds[..|seeds| - 1], infos);
      var last := |seeds| - 1;
      var ns :- Neighbors(infos[last]);
      Ok(init + [RegionRecord(seeds[last], infos[last].area, ns, None)])
  }
}

=== FILE: noisy_voronoi.dfy ===
/**
 * The seed-truncation prefix of `noisy_voronoi` (Roguelike/noisy_voronoi.py):
 * the shader accepts at most MAX_SEEDS seeds, so a longer list is sorted by
 * distance from the reference point and cut to its MAX_SEEDS nearest.
 * Python's `sorted` is stable, so seeds at equal distance keep their input
 * order.  The shader dispatch that follows is not part of this model.
 */
module NoisyVoronoi {
  import opened Results
  import opened Grids
  import opened TerrainGenerator

  /** `max_seeds`. */
  const MAX_SEEDS: nat := 100

  /**
   * The sort key.  The source sorts by the Euclidean distance, the square
   * root of this value; the square root is strictly increasing on
   * non-negative reals, so both keys order seeds the same way.
   */
  function Dist2(s: Seed, p: (real, real)): real {
    (s.x - p.0) * (s.x - p.0) + (s.y - p.1) * (s.y - p.1)
  }

  /** The key `sorted` is called with. */
  function DistanceFrom(p: (real, real)): Seed -> real {
    s => Dist2(s, p)
  }

  /** Non-decreasing `key`. */
  predicate SortedBy<T>(s: seq<T>, key: T -> real) {
    forall i, j :: 0 <= i < j < |s| ==> key(s[i]) <= key(s[j])
  }

  /** The elements of `s` whose key is `k`, in their order in `s`. */
  function AtKey<T>(s: seq<T>, key: T -> real, k: real): seq<T> {
    if |s| == 0 then []
    else AtKey(s[..|s| - 1], key, k) + (if key(s[|s| - 1]) == k then [s[|s| - 1]] else [])
  }

  /** Insert `x` after every element of `t` whose key is at most its own. */
  function Insert<T>(t: seq<T>, x: T, key: T -> real): (r: seq<T>)
    ensures |r| == |t| + 1
    ensures multiset(r) == multiset(t) + multiset{x}
    ensures forall i :: 0 <= i < |r| ==> r[i] == x || r[i] in t
  {
    if |t| == 0 then [x]
    else if key(t[|t| - 1]) <= key(x) then t + [x]
    else
      var init := t[..|t| - 1];
      assert t == init + [t[|t| - 1]];
      var r' := Insert(init, x, key);
      assert forall i :: 0 <= i < |r'| ==> r'[i] == x || r'[i] in t by {
        forall i | 0 <= i < |r'| && r'[i] != x ensures r'[i] in t {
          assert r'[i] in init;
        }
      }
      r' + [t[|t| - 1]]
  }

  /** `sorted(s, key=key)`, as a stable insertion sort. */
  function Sort<T>(s: seq<T>, key: T -> real): (r: seq<T>)
    ensures |r| == |s|
    ensures multiset(r) == multiset(s)
  {
    if |s| == 0 then []
    else
      assert s == s[..|s| - 1] + [s[|s| - 1]];
      Insert(Sort(s[..|s| - 1], key), s[|s| - 1], key)
  }

  /** Inserting into a sorted list keeps it sorted. */
  lemma {:induction false} InsertSorted<T>(t: seq<T>, x: T, key: T -> real)
    requires SortedBy(t, key)
    ensures SortedBy(Insert(t, x, key), key)
  {
    if |t| > 0 && key(t[|t| - 1]) > key(x) {
      var init := t[..|t| - 1];
      var last := t[|t| - 1];
      InsertSorted(init, x, key);
      var r' := Insert(init, x, key);
      forall i | 0 <= i < |r'| ensures key(r'[i]) <= key(last) {
        if r'[i] != x {
          var j :| 0 <= j < |init| && init[j] == r'[i];
          assert t[j] == r'[i];
        }
      }
    }
  }

  /**
   * Inserting `x` appends it to the elements of its own key and leaves
   * those of every other key as they were: the insertion is stable.
   */
  lemma {:induction false} InsertStable<T>(t: seq<T>, x: T, key: T -> real, k: real)
    requires SortedBy(t, key)
    ensures AtKey(Insert(t, x, key), key, k) == AtKey(t, key, k) + (if key(x) == k then [x] else [])
  {
    if |t| == 0 {
      assert Insert(t, x, key)[..0] == [];
    } else if key(t[|t| - 1]) <= key(x) {
      assert Insert(t, x, key)[..|t|] == t;
    } else {
      InsertStable(t[..|t| - 1], x, key, k);
      InsertStableShift(t, x, key, k);
    }
  }

  /** The step of InsertStable where `x` goes before the last element of `t`. */
  lemma InsertStableShift<T>(t: seq<T>, x: T, key: T -> real, k: real)
    requires |t| > 0 && key(t[|t| - 1]) > key(x)
    requires AtKey(Insert(t[..|t| - 1], x, key), key, k) == AtKey(t[..|t| - 1], key, k) + (if key(x) == k then [x] else [])
    ensures AtKey(Insert(t, x, key), key, k) == AtKey(t, key, k) + (if key(x) == k then [x] else [])
  {
    var init := t[..|t| - 1];
    var last := t[|t| - 1];
    var r := Insert(t, x, key);
    var r' := Insert(init, x, key);
    assert r[..|r| - 1] == r' && r[|r| - 1] == last;
    assert AtKey(r, key, k) == AtKey(r', key, k) + (if key(last) == k then [last] else []);
  }

  /** The sort orders by key. */
  lemma {:induction false} SortSorted<T>(s: seq<T>, key: T -> real)
    ensures SortedBy(Sort(s, key), key)
  {
    if |s| > 0 {
      SortSorted(s[..|s| - 1], key);
      InsertSorted(Sort(s[..|s| - 1], key), s[|s| - 1], key);
    }
  }

  /** Elements with equal keys keep their input order: the sort is stable. */
  lemma {:induction false} SortStable<T>(s: seq<T>, key: T -> real, k: real)
    ensures AtKey(Sort(s, key), key, k) == AtKey(s, key, k)
  {
    if |s| > 0 {
      var init := s[..|s| - 1];
      SortStable(init, key, k);
      SortSorted(init, key);
      InsertStable(Sort(init, key), s[|s| - 1], key, k);
    }
  }

  /** An already sorted list is its own sort. */
  lemma {:induction false} SortOfSorted<T>(s: seq<T>, key: T -> real)
    requires SortedBy(s, key)
    ensures Sort(s, key) == s
  {
    if |s| > 0 {
      var init := s[..|s| - 1];
      assert SortedBy(init, key);
      SortOfSorted(init, key);
      assert s == init + [s[|s| - 1]];
    }
  }

  /**
   * Cutting a sorted permutation of `s` after `n` elements keeps a
   * sub-multiset of `s`, and every element of `s` with a copy left out is at
   * least as far as every element kept.
   */
  lemma KeepNearest<T>(s: seq<T>, sorted: seq<T>, n: nat, key: T -> real)
    requires multiset(sorted) == multiset(s) && SortedBy(sorted, key) && n <= |sorted|
    ensures multiset(sorted[..n]) <= multiset(s)
    ensures forall i, j :: 0 <= i < n && 0 <= j < |s| && multiset(sorted[..n])[s[j]] < multiset(s)[s[j]]
              ==> key(sorted[..n][i]) <= key(s[j])
  {
    var kept := sorted[..n];
    var dropped := sorted[n..];
    assert sorted == kept + dropped;
    assert multiset(kept) + multiset(dropped) == multiset(s);
    forall i, j | 0 <= i < n && 0 <= j < |s| && multiset(kept)[s[j]] < multiset(s)[s[j]]
      ensures key(kept[i]) <= key(s[j])
    {
      assert s[j] in multiset(dropped);
      var d :| 0 <= d < |dropped| && dropped[d] == s[j];
      assert sorted[n + d] == s[j];
    }
  }

  /**
   * The truncation step: the noise texture must be square (the `assert`
   * raises otherwise); at most MAX_SEEDS seeds pass unchanged; a longer list
   * is replaced by the MAX_SEEDS nearest, nearest first, and no dropped seed
   * is strictly nearer than a kept one.
   */
  function TruncateSeeds(noise: Grid<real>, seeds: seq<Seed>, p: (real, real)): (r: Result<seq<Seed>>)
    ensures r.Err? <==> noise.height != noise.width
    ensures r.Err? ==> r.error == AssertionError
    ensures r.Ok? && |seeds| <= MAX_SEEDS ==> r.value == seeds
    ensures r.Ok? && |seeds| > MAX_SEEDS ==>
              && |r.value| == MAX_SEEDS
              && SortedBy(r.value, DistanceFrom(p))
              && multiset(r.value) <= multiset(seeds)
              && forall i, j :: 0 <= i < |r.value| && 0 <= j < |seeds| && multiset(r.value)[seeds[j]] < multiset(seeds)[seeds[j]]
                   ==> DistanceFrom(p)(r.value[i]) <= DistanceFrom(p)(seeds[j])
  {
    if noise.height != noise.width then Err(AssertionError)
    else if |seeds| <= MAX_SEEDS then Ok(seeds)
    else
      var sorted := Sort(seeds, DistanceFrom(p));
      SortSorted(seeds, DistanceFrom(p));
      KeepNearest(seeds, sorted, MAX_SEEDS, DistanceFrom(p));
      var kept := sorted[..MAX_SEEDS];
      Ok(kept)
  }

  /** The elements of a prefix at key `k` are a prefix of those of the whole. */
  lemma {:induction false} AtKeyPrefix<T>(s: seq<T>, n: nat, key: T -> real, k: real)
    requires n <= |s|
    ensures AtKey(s[..n], key, k) <= AtKey(s, key, k)
    decreases |s|
  {
    if n < |s| {
      var init := s[..|s| - 1];
      assert s[..n] == init[..n];
      AtKeyPrefix(init, n, key, k);
    } else {
      assert s[..n] == s;
    }
  }

  /**
   * Among seeds at one distance, the kept ones are the first of them in
   * input order: ties at the cut are broken by input position.
   */
  lemma TruncateKeepsFirstAtEachDistance(noise: Grid<real>, seeds: seq<Seed>, p: (real, real), k: real)
    requires TruncateSeeds(noise, seeds, p).Ok?
    ensures AtKey(TruncateSeeds(noise, seeds, p).value, DistanceFrom(p), k) <= AtKey(seeds, DistanceFrom(p), k)
  {
    if |seeds| > MAX_SEEDS {
      var sorted := Sort(seeds, DistanceFrom(p));
      AtKeyPrefix(sorted, MAX_SEEDS, DistanceFrom(p), k);
      SortStable(seeds, DistanceFrom(p), k);
    }
  }
}

=== FILE: ordered_dict.dfy ===
/**
 * A Python dictionary: a key/value map that also remembers the order in
 * which keys were first inserted.  Iterating a dict (to clean up cached
 * chunks, to fill a table) visits keys in that order; re-assigning an
 * existing key keeps its place, deleting a key drops it from the order.
 */
module OrderedDict {
  import opened SeqUtil

  datatype Dict<K(==), V> = Dict(order: seq<K>, items: map<K, V>) {

    /** The order lists every key exactly once and nothing else. */
    predicate Valid() {
      && NoDup(order)
      && (forall k :: k in items ==> k in order)
      && (forall i :: 0 <= i < |order| ==> order[i] in items)
    }

    /** `d[k] = v`: a new key goes to the end of the order, an existing one keeps its place. */
    function Put(k: K, v: V): (d: Dict<K, V>)
      requires Valid()
      ensures d.Valid()
      ensures d.items == items[k := v]
      ensures k in items ==> d.order == order
      ensures k !in items ==> d.order == order + [k]
    {
      if k in items then Dict(order, items[k := v]) else Dict(order + [k], items[k := v])
    }

    /** `del d[k]`. */
    function Delete(k: K): (d: Dict<K, V>)
      requires Valid() && k in items
      ensures d.Valid()
      ensures d.items == items - {k}
      ensures |d.order| == |order| - 1
    {
      RemoveFirstKeepsNoDup(order, k);
      forall y ensures y in RemoveFirst(order, k) <==> y in order && y != k {
        RemoveFirstMembers(order, k, y);
      }
      Dict(RemoveFirst(order, k), items - {k})
    }

    /** The values in iteration order. */
    function Values(): (vs: seq<V>)
      requires Valid()
      ensures |vs| == |order|
      ensures forall i :: 0 <= i < |order| ==> vs[i] == items[order[i]]
    {
      seq(|order|, i requires 0 <= i < |order| => items[order[i]])
    }
  }

  /** `{}`. */
  function Empty<K(==), V>(): (d: Dict<K, V>)
    ensures d.Valid() && d.items == map[]
  {
    Dict([], map[])
  }
}

=== FILE: player.dfy ===
/**
 * The player (Roguelike/player.py): a world position, the world it walks
 * in (None until attached) and an inventory.  A move is committed only
 * when the world reports the target passable; there is no wrap-around.
 */
module Players {
  import opened Results
  import Inventories
  import Worlds
  import Terrain
  import TerrainChunk

  datatype Player = Player(worldX: int, worldY: int, world: Option<Worlds.World>, inventory: Inventories.Inventory)

  /** `Player(world_x, world_y)`: detached, with an empty, unbounded inventory. */
  function New(worldX: int, worldY: int): (p: Player)
    ensures GetPosition(p) == (worldX, worldY)
    ensures p.world.None? && p.inventory.items == [] && !Inventories.Limited(p.inventory.capacity)
  {
    Player(worldX, worldY, None, Inventories.New(None))
  }

  /** `get_position`. */
  function GetPosition(p: Player): (int, int) {
    (p.worldX, p.worldY)
  }

  /**
   * `move(dx, dy)`: asks the world about the target square.  Without a
   * world the attribute lookup on None raises AttributeError; an exception
   * from the world's query propagates.
   */
  function Move(p: Player, dx: int, dy: int): (r: Result<Player>)
    ensures p.world.None? ==> r == Err(AttributeError)
    ensures r.Ok? ==> r.value.world == p.world && r.value.inventory == p.inventory
    ensures r.Ok? ==> r.value == p || GetPosition(r.value) == (p.worldX + dx, p.worldY + dy)
  {
    if p.world.None? then Err(AttributeError)
    else
      var passable :- Worlds.IsPassableAt(p.world.value, p.worldX + dx, p.worldY + dy);
      if passable then Ok(p.(worldX := p.worldX + dx, worldY := p.worldY + dy)) else Ok(p)
  }

  /** A False answer for the target square leaves the player where it was. */
  lemma MoveRefused(p: Player, dx: int, dy: int)
    requires p.world.Some? && Worlds.IsPassableAt(p.world.value, p.worldX + dx, p.worldY + dy) == Ok(false)
    ensures Move(p, dx, dy) == Ok(p)
  {
  }

  /** An exception from the world's query surfaces unchanged. */
  lemma MoveRaises(p: Player, dx: int, dy: int)
    requires p.world.Some? && Worlds.IsPassableAt(p.world.value, p.worldX + dx, p.worldY + dy).Err?
    ensures Move(p, dx, dy) == Err(Worlds.IsPassableAt(p.world.value, p.worldX + dx, p.worldY + dy).error)
  {
  }

  /**
   * A move by a nonzero step lands on the target exactly when every chunk
   * holding the target square reads as passable there.
   */
  lemma MoveCommitsIffAdmitted(p: Player, dx: int, dy: int)
    requires p.world.Some? && (dx != 0 || dy != 0)
    ensures var w := p.world.value;
            var tx := p.worldX + dx;
            var ty := p.worldY + dy;
            Move(p, dx, dy) == Ok(p.(worldX := tx, worldY := ty))
            <==> forall i :: 0 <= i < |w.chunks| ==> Worlds.Admits(w, w.chunks[i], tx, ty)
  {
    var q := Worlds.IsPassableAt(p.world.value, p.worldX + dx, p.worldY + dy);
    var moved := p.(worldX := p.worldX + dx, worldY := p.worldY + dy);
    Worlds.PassableFromMeans(p.world.value, p.worldX + dx, p.worldY + dy, 0);
    assert moved != p;
    assert Move(p, dx, dy) == Ok(moved) <==> q == Ok(true);
  }

  /**
   * Walking into a blocked square: when every chunk reads the target
   * without raising and one chunk blocks it (for instance holding the
   * wall's sprite index there, see Terrain.WallImpassable), the player does
   * not move, whatever order the chunks are scanned in.
   */
  lemma BlockedSquareStopsMove(p: Player, dx: int, dy: int, j: nat)
    requires p.world.Some? && Worlds.BlockedAt(p.world.value, p.worldX + dx, p.worldY + dy, j)
    ensures Move(p, dx, dy) == Ok(p)
  {
    Worlds.BlockedAnswersFalse(p.world.value, p.worldX + dx, p.worldY + dy, j);
    MoveRefused(p, dx, dy);
  }
}

=== FILE: region.dfy ===
/**
 * Regions (Roguelike/region.py): a square of terrain at a world position
 * carrying the items and features placed in it, kept in a class-level lazy
 * cache like terrain chunks but without cleanup on eviction.  The terrain
 * noise and the random wall placement are not modelled; the terrain grid
 * is a field.
 */
module Regions {
  import opened Results
  import opened SeqUtil
  import opened Grids
  import opened Items
  import opened LazyCache
  import TerrainGenerator

  /** The six tiles of the terrain ladder, from lowest noise to highest. */
  datatype Tile = Granite | StonesMedium | StonesSmall | Dirt | Grass | GrassThick

  /** The sprite name a tile is looked up under. */
  function TileName(t: Tile): string {
    match t
    case Granite => "granite"
    case StonesMedium => "stones-medium"
    case StonesSmall => "stones-small"
    case Dirt => "dirt"
    case Grass => "grass"
    case GrassThick => "grass-thick"
  }

  /** Position of a tile on the ladder. */
  function Rank(t: Tile): nat {
    match t
    case Granite => 0
    case StonesMedium => 1
    case StonesSmall => 2
    case Dirt => 3
    case Grass => 4
    case GrassThick => 5
  }

  /** `corrected_optimized_get_tile_name`: the tile for a noise value. */
  function TileFor(n: real): Tile {
    if n < -0.9 then Granite
    else if n < -0.8 then StonesMedium
    else if n < -0.7 then StonesSmall
    else if n < -0.6 then Dirt
    else if n < 0.2 then Grass
    else GrassThick
  }

  /** The sprite index the vectorised getter returns for a noise value. */
  function TileIndexFor(sheet: map<string, int>, n: real): int {
    TerrainGenerator.SpriteIndex(sheet, TileName(TileFor(n)))
  }

  /** Each tile owns one half-open band of noise values. */
  lemma TileBands(n: real)
    ensures TileFor(n) == Granite <==> n < -0.9
    ensures TileFor(n) == StonesMedium <==> -0.9 <= n < -0.8
    ensures TileFor(n) == StonesSmall <==> -0.8 <= n < -0.7
    ensures TileFor(n) == Dirt <==> -0.7 <= n < -0.6
    ensures TileFor(n) == Grass <==> -0.6 <= n < 0.2
    ensures TileFor(n) == GrassThick <==> 0.2 <= n
  {
  }

  /** Higher noise never gives a lower tile. */
  lemma TileMonotone(a: real, b: real)
    requires a <= b
    ensures Rank(TileFor(a)) <= Rank(TileFor(b))
  {
  }

  /** A placed feature: its tile index and position. */
  type Feature = (int, (int, int))

  datatype Region = Region(worldX: int, worldY: int, size: int, items: seq<(Item, (int, int))>,
                           features: seq<Feature>, dirty: bool, terrain: Grid<int>)

  /** The cache key, and the fields `__eq__` and `__hash__` look at. */
  function KeyOf(r: Region): Key {
    (r.worldX, r.worldY, r.size)
  }

  /** `__eq__`: two regions are equal when they cover the same square; anything else is unequal. */
  function Equals(r: Region, other: Option<Region>): bool {
    other.Some? && r.worldX == other.value.worldX && r.worldY == other.value.worldY && r.size == other.value.size
  }

  /**
   * Equality is an equivalence on regions, agrees with the hash key, and
   * ignores what the region holds.
   */
  lemma EqualsIsPositional(a: Region, b: Region, c: Region)
    ensures Equals(a, Some(a))
    ensures Equals(a, Some(b)) <==> Equals(b, Some(a))
    ensures Equals(a, Some(b)) && Equals(b, Some(c)) ==> Equals(a, Some(c))
    ensures Equals(a, Some(b)) <==> KeyOf(a) == KeyOf(b)
    ensures !Equals(a, None)
    ensures Equals(a, Some(a.(items := b.items, features := b.features, dirty := b.dirty, terrain := b.terrain)))
  {
  }

  /** Every cached region is filed under its own position. */
  predicate Keyed(c: Cache<Region>) {
    forall k :: k in c.entries.items ==> KeyOf(c.entries.items[k]) == k
  }

  /**
   * `Region.get_or_create` with the region the constructor would build:
   * the same hit and miss behaviour as the chunk cache, but an evicted
   * region is dropped without any cleanup.  The limit is the configured
   * `max_invalid_regions`.
   */
  function GetOrCreateRegion(c: Cache<Region>, created: Region, limit: int): (r: Result<Outcome<Region>>)
    requires c.entries.Valid()
    ensures r.Ok? ==> r.value.cleaned == []
    ensures r.Ok? && Keyed(c) ==> Keyed(r.value.cache) && KeyOf(r.value.value) == KeyOf(created)
    ensures r.Ok? && KeyOf(created) !in c.entries.items ==> r.value.value == created
    ensures r.Ok? && KeyOf(created) in c.entries.items ==> r.value.value == c.entries.items[KeyOf(created)]
  {
    GetOrCreate(c, KeyOf(created), created, limit, false)
  }

  /** `contains_position`: the half-open square the region covers. */
  predicate ContainsPosition(r: Region, x: int, y: int) {
    r.worldX <= x < r.worldX + r.size && r.worldY <= y < r.worldY + r.size
  }

  /**
   * `get_terrain_index_at`: the terrain index at the region-relative
   * position.  The subscript wraps like a numpy one, so a position just
   * left of or above the region reads the far edge instead of raising.
   */
  function GetTerrainIndexAt(r: Region, x: int, y: int): (res: Result<int>)
    ensures res.Err? <==> !Addressable(r.terrain, x - r.worldX, y - r.worldY)
    ensures res.Err? ==> res.error == IndexError
    ensures res.Ok? ==> res.value == PyAt(PyAt(r.terrain.rows, y - r.worldY), x - r.worldX)
  {
    if !Addressable(r.terrain, x - r.worldX, y - r.worldY) then Err(IndexError)
    else Ok(PyAt(PyAt(r.terrain.rows, y - r.worldY), x - r.worldX))
  }

  /** A contained position of a square terrain of the region's size reads the cell at its offset. */
  lemma ContainedTerrainIsDirect(r: Region, x: int, y: int)
    requires ContainsPosition(r, x, y)
    requires r.terrain.Valid() && r.terrain.height == r.size && r.terrain.width == r.size
    ensures GetTerrainIndexAt(r, x, y) == Ok(r.terrain.rows[y - r.worldY][x - r.worldX])
  {
  }

  /**
   * A position in the column just left of the region does not raise: it
   * reads the region's last column in the same row.
   */
  lemma LeftOfRegionWraps(r: Region, y: int)
    requires r.worldY <= y < r.worldY + r.size
    requires r.terrain.Valid() && r.terrain.height == r.size && r.terrain.width == r.size
    ensures GetTerrainIndexAt(r, r.worldX - 1, y) == Ok(r.terrain.rows[y - r.worldY][r.size - 1])
  {
  }

  /** `add_item`: append the item at its position and mark the region for re-rendering. */
  function AddItem(r: Region, item: Item, x: int, y: int): (r': Region)
    ensures r'.items == r.items + [(item, (x, y))]
    ensures r'.dirty
    ensures r' == r.(items := r'.items, dirty := true)
  {
    r.(items := r.items + [(item, (x, y))], dirty := true)
  }

  /** An entry of `items` has the given name and position. */
  predicate Matches(e: (Item, (int, int)), name: string, x: int, y: int) {
    e.0.name == name && e.1 == (x, y)
  }

  /** The first matching entry's position, if any. */
  function FirstMatch(items: seq<(Item, (int, int))>, name: string, x: int, y: int): (i: Option<nat>)
    ensures i.None? <==> forall j :: 0 <= j < |items| ==> !Matches(items[j], name, x, y)
    ensures i.Some? ==> i.value < |items| && Matches(items[i.value], name, x, y)
    ensures i.Some? ==> forall j :: 0 <= j < i.value ==> !Matches(items[j], name, x, y)
  {
    if |items| == 0 then None
    else if Matches(items[0], name, x, y) then Some(0)
    else
      var rest := FirstMatch(items[1..], name, x, y);
      if rest.None? then None else Some(rest.value + 1)
  }

  /**
   * `remove_item`: remove the first entry with this name at this position
   * and mark the region dirty; with no such entry nothing changes.
   */
  function RemoveItem(r: Region, name: string, x: int, y: int): (r': Region)
    ensures (forall j :: 0 <= j < |r.items| ==> !Matches(r.items[j], name, x, y)) ==> r' == r
    ensures (exists j :: 0 <= j < |r.items| && Matches(r.items[j], name, x, y)) ==>
              && r'.dirty
              && |r'.items| == |r.items| - 1
              && exists i :: 0 <= i < |r.items| && Matches(r.items[i], name, x, y)
                   && (forall j :: 0 <= j < i ==> !Matches(r.items[j], name, x, y))
                   && r'.items == r.items[..i] + r.items[i + 1..]
    ensures r' == r.(items := r'.items, dirty := r'.dirty)
  {
    var i := FirstMatch(r.items, name, x, y);
    if i.None? then r
    else r.(items := r.items[..i.value] + r.items[i.value + 1..], dirty := true)
  }

  /** Removing what was just added at a position holding no such item restores the item list. */
  lemma AddThenRemoveItem(r: Region, item: Item, x: int, y: int)
    requires forall j :: 0 <= j < |r.items| ==> !Matches(r.items[j], item.name, x, y)
    ensures RemoveItem(AddItem(r, item, x, y), item.name, x, y) == r.(dirty := true)
  {
    var r1 := AddItem(r, item, x, y);
    assert Matches(r1.items[|r.items|], item.name, x, y);
    assert FirstMatch(r1.items, item.name, x, y) == Some(|r.items|);
    assert r1.items[..|r.items|] == r.items;
  }

  /** `add_feature`: append the feature and mark the region dirty. */
  function AddFeature(r: Region, tileIndex: int, x: int, y: int): (r': Region)
    ensures r'.features == r.features + [(tileIndex, (x, y))]
    ensures r' == r.(features := r'.features, dirty := true)
  {
    r.(features := r.features + [(tileIndex, (x, y))], dirty := true)
  }

  /** `remove_feature`: remove the first equal feature; an absent feature makes `list.remove` raise ValueError. */
  function RemoveFeature(r: Region, tileIndex: int, x: int, y: int): (res: Result<Region>)
    ensures res.Err? <==> (tileIndex, (x, y)) !in r.features
    ensures res.Err? ==> res.error == ValueError
    ensures res.Ok? ==>
              && multiset(res.value.features) == multiset(r.features) - multiset{(tileIndex, (x, y))}
              && res.value.features == RemoveFirst(r.features, (tileIndex, (x, y)))
              && res.value == r.(features := res.value.features, dirty := true)
  {
    var f := (tileIndex, (x, y));
    if f !in r.features then Err(ValueError)
    else Ok(r.(features := RemoveFirst(r.features, f), dirty := true))
  }

  /**
   * Adding then removing a feature leaves the same features, counted with
   * multiplicity, and exactly the same list when the feature was absent.
   */
  lemma AddThenRemoveFeature(r: Region, tileIndex: int, x: int, y: int)
    ensures RemoveFeature(AddFeature(r, tileIndex, x, y), tileIndex, x, y).Ok?
    ensures multiset(RemoveFeature(AddFeature(r, tileIndex, x, y), tileIndex, x, y).value.features) == multiset(r.features)
    ensures (tileIndex, (x, y)) !in r.features ==>
              RemoveFeature(AddFeature(r, tileIndex, x, y), tileIndex, x, y).value.features == r.features
  {
    var r1 := AddFeature(r, tileIndex, x, y);
    var f := (tileIndex, (x, y));
    assert f in r1.features by {
      assert r1.features[|r.features|] == f;
    }
    if f !in r.features {
      assert IndexOf(r1.features, f) == |r.features|;
      assert r1.features[..|r.features|] == r.features;
    }
  }
}

=== FILE: results.dfy ===
/**
 * Outcomes of the modelled Python code: a value, or the exception the
 * interpreter would raise at that point.  Modelling the exception as a
 * result variant keeps every operation total and lets contracts state
 * exactly when the source fails.
 */
module Results {

  /** Python's `None` next to a present value. */
  datatype Option<+T> = None | Some(value: T)

  /** The built-in exceptions the modelled code can raise. */
  datatype PyError =
    | IndexError
    | KeyError
    | ValueError
    | TypeError
    | ZeroDivisionError
    | AttributeError
    | AssertionError

  /** A value, or the exception raised instead of producing it. */
  datatype Result<+T> = Ok(value: T) | Err(error: PyError) {

    predicate IsFailure() {
      Err?
    }

    function PropagateFailure<U>(): Result<U>
      requires Err?
    {
      Err(error)
    }

    function Extract(): T
      requires Ok?
    {
      value
    }
  }
}

=== FILE: seq_util.dfy ===
/**
 * Python list behaviour on Dafny sequences: negative indexing, `index`,
 * `remove`, and the small folds (sum, count) the game code relies on.
 */
module SeqUtil {

  /** No element occurs twice. */
  predicate NoDup<T(==)>(s: seq<T>) {
    forall i, j :: 0 <= i < j < |s| ==> s[i] != s[j]
  }

  /** `i` is a valid Python subscript for a list of length `n` (negative counts from the end). */
  predicate PyIndexable(n: int, i: int) {
    -n <= i < n
  }

  /** The non-negative position a valid Python subscript denotes. */
  function PyPos(n: int, i: int): (k: nat)
    requires PyIndexable(n, i)
    ensures k < n
    ensures 0 <= i ==> k == i
    ensures i < 0 ==> k == n + i
  {
    if i >= 0 then i else n + i
  }

  /** `s[i]` with Python's wrap-around for negative `i`. */
  function PyAt<T>(s: seq<T>, i: int): T
    requires PyIndexable(|s|, i)
  {
    s[PyPos(|s|, i)]
  }

  /** `s[i] = v` with Python's wrap-around for negative `i`. */
  function PySet<T>(s: seq<T>, i: int, v: T): (r: seq<T>)
    requires PyIndexable(|s|, i)
    ensures |r| == |s|
    ensures r[PyPos(|s|, i)] == v
    ensures forall k :: 0 <= k < |s| && k != PyPos(|s|, i) ==> r[k] == s[k]
  {
    s[PyPos(|s|, i) := v]
  }

  /** `list.index(x)`: the first position holding `x`. */
  function IndexOf<T(==)>(s: seq<T>, x: T): (i: nat)
    requires x in s
    ensures i < |s| && s[i] == x
    ensures forall j :: 0 <= j < i ==> s[j] != x
  {
    if s[0] == x then 0 else 1 + IndexOf(s[1..], x)
  }

  /** `list.remove(x)` once it is known not to raise: drops the first occurrence of `x`. */
  function RemoveFirst<T(==)>(s: seq<T>, x: T): (r: seq<T>)
    ensures |r| == if x in s then |s| - 1 else |s|
    ensures multiset(r) == multiset(s) - multiset{x}
    ensures x !in s ==> r == s
    ensures x in s ==> (forall k :: 0 <= k < IndexOf(s, x) ==> r[k] == s[k])
                       && (forall k :: IndexOf(s, x) <= k < |r| ==> r[k] == s[k + 1])
  {
    if x in s then
      var i := IndexOf(s, x);
      assert s == s[..i] + [x] + s[i + 1..];
      s[..i] + s[i + 1..]
    else
      s
  }

  lemma RemoveFirstMembers<T>(s: seq<T>, x: T, y: T)
    requires NoDup(s)
    ensures y in RemoveFirst(s, x) <==> y in s && y != x
  {
    var r := RemoveFirst(s, x);
    assert y in r <==> multiset(r)[y] > 0;
    assert y in s <==> multiset(s)[y] > 0;
    if x in s && y == x {
      NoDupSingle(s, x);
    }
  }

  lemma NoDupSingle<T>(s: seq<T>, x: T)
    requires NoDup(s) && x in s
    ensures multiset(s)[x] == 1
  {
    var i := IndexOf(s, x);
    assert s == s[..i] + [x] + s[i + 1..];
    assert x !in s[..i];
    var tail := s[i + 1..];
    assert x !in tail by {
      forall k | 0 <= k < |tail| ensures tail[k] != x {
        assert tail[k] == s[i + 1 + k];
      }
    }
  }

  lemma RemoveFirstKeepsNoDup<T>(s: seq<T>, x: T)
    requires NoDup(s)
    ensures NoDup(RemoveFirst(s, x))
  {
    var r := RemoveFirst(s, x);
    if x in s {
      var i := IndexOf(s, x);
      assert r == s[..i] + s[i + 1..];
      forall a, b | 0 <= a < b < |r| ensures r[a] != r[b] {
        var a' := if a < i then a else a + 1;
        var b' := if b < i then b else b + 1;
        assert r[a] == s[a'] && r[b] == s[b'];
      }
    }
  }

  /** The sum of a list of integers. */
  function Sum(s: seq<int>): int {
    if |s| == 0 then 0 else s[0] + Sum(s[1..])
  }

  lemma SumAppend(a: seq<int>, b: seq<int>)
    ensures Sum(a + b) == Sum(a) + Sum(b)
  {
    if |a| == 0 {
      assert a + b == b;
    } else {
      assert (a + b)[1..] == a[1..] + b;
      SumAppend(a[1..], b);
    }
  }

  /** Number of positions holding `x`. */
  function Occurrences<T(==)>(s: seq<T>, x: T): nat {
    if |s| == 0 then 0 else (if s[0] == x then 1 else 0) + Occurrences(s[1..], x)
  }

  lemma OccurrencesAppend<T>(a: seq<T>, b: seq<T>, x: T)
    ensures Occurrences(a + b, x) == Occurrences(a, x) + Occurrences(b, x)
  {
    if |a| == 0 {
      assert a + b == b;
    } else {
      assert (a + b)[1..] == a[1..] + b;
      OccurrencesAppend(a[1..], b, x);
    }
  }

  /** The largest element of a non-empty list. */
  function Max(s: seq<int>): (m: int)
    requires |s| > 0
    ensures m in s
    ensures forall i :: 0 <= i < |s| ==> s[i] <= m
  {
    if |s| == 1 then s[0]
    else
      var rest := Max(s[1..]);
      if s[0] >= rest then s[0] else rest
  }

  /** The smallest element of a non-empty list. */
  function Min(s: seq<int>): (m: int)
    requires |s| > 0
    ensures m in s
    ensures forall i :: 0 <= i < |s| ==> m <= s[i]
  {
    if |s| == 1 then s[0]
    else
      var rest := Min(s[1..]);
      if s[0] <= rest then s[0] else rest
  }

  /** Python's `a // b`: the quotient rounded toward minus infinity. */
  function PyFloorDiv(a: int, b: int): int
    requires b != 0
  {
    if b > 0 then a / b else (-a) / (-b)
  }

  /** Python's `a % b`: the remainder takes the divisor's sign. */
  function PyMod(a: int, b: int): (r: int)
    requires b != 0
    ensures a == b * PyFloorDiv(a, b) + r
    ensures b > 0 ==> 0 <= r < b
    ensures b < 0 ==> b < r <= 0
  {
    a - b * PyFloorDiv(a, b)
  }

  /** Python's `int(v)` on a float: truncation toward zero. */
  function Trunc(v: real): (k: int)
    ensures 0.0 <= v ==> k == v.Floor
    ensures v < 0.0 ==> k == -((-v).Floor)
  {
    if v >= 0.0 then v.Floor else -((-v).Floor)
  }
}

=== FILE: terrain.dfy ===
/**
 * The terrain passability table of Roguelike/terrain.py.  Nine tile names
 * are registered in a dictionary keyed by their sprite index (a later
 * registration under the same index replaces the earlier one); the table
 * is a list sized by the number of distinct indices and filled by index
 * in dictionary order, with Python's wrap-around for negative indices.
 */
module Terrain {
  import opened Results
  import opened SeqUtil
  import opened OrderedDict
  import TerrainGenerator

  /** A table entry: `[name, passable]`. */
  type TerrainType = (string, bool)

  /** The registrations, in order. */
  const TERRAIN_TYPES: seq<TerrainType> := [
    ("grass", true), ("grass-thick", true), ("granite", true), ("dirt", true),
    ("stones-small", true), ("stones-medium", true), ("cobble-colored", true),
    ("herringbone", true), ("wall", false)]

  /** 'wall' is the one impassable terrain. */
  lemma OnlyWallImpassable()
    ensures |TERRAIN_TYPES| == 9
    ensures forall i :: 0 <= i < |TERRAIN_TYPES| ==> (!TERRAIN_TYPES[i].1 <==> TERRAIN_TYPES[i].0 == "wall")
  {
  }

  /** The sprite index a registration is filed under. */
  function FiledUnder(sheet: map<string, int>, t: TerrainType): int {
    TerrainGenerator.SpriteIndex(sheet, t.0)
  }

  /** The registration is the last one filed under its index. */
  predicate LastUnder(sheet: map<string, int>, regs: seq<TerrainType>, j: int, k: int) {
    0 <= j < |regs| && FiledUnder(sheet, regs[j]) == k
    && forall j' :: j < j' < |regs| ==> FiledUnder(sheet, regs[j']) != k
  }

  /** `terrain_types_map` after the registrations `regs`, one `d[index] = entry` per registration. */
  function Registrations(sheet: map<string, int>, regs: seq<TerrainType>): (d: Dict<int, TerrainType>)
    ensures d.Valid()
    ensures forall j :: 0 <= j < |regs| ==> FiledUnder(sheet, regs[j]) in d.items
    decreases |regs|
  {
    if |regs| == 0 then Empty()
    else
      var n := |regs| - 1;
      Registrations(sheet, regs[..n]).Put(FiledUnder(sheet, regs[n]), regs[n])
  }

  /**
   * The dictionary's keys are exactly the indices used, and each holds the
   * last registration filed under it.
   */
  lemma {:induction false} LaterRegistrationWins(sheet: map<string, int>, regs: seq<TerrainType>, k: int) returns (j: int)
    requires k in Registrations(sheet, regs).items
    ensures LastUnder(sheet, regs, j, k) && Registrations(sheet, regs).items[k] == regs[j]
    decreases |regs|
  {
    var n := |regs| - 1;
    RegistrationsUnfold(sheet, regs);
    if k == FiledUnder(sheet, regs[n]) {
      j := n;
    } else {
      j := LaterRegistrationWins(sheet, regs[..n], k);
      LastUnderExtends(sheet, regs, j, k);
    }
  }

  /** The last registration of `k` among the earlier ones stays the last when a different index is registered. */
  lemma LastUnderExtends(sheet: map<string, int>, regs: seq<TerrainType>, j: int, k: int)
    requires |regs| > 0 && FiledUnder(sheet, regs[|regs| - 1]) != k
    requires LastUnder(sheet, regs[..|regs| - 1], j, k)
    ensures LastUnder(sheet, regs, j, k) && regs[..|regs| - 1][j] == regs[j]
  {
    var n := |regs| - 1;
    forall j' | j < j' < |regs| ensures FiledUnder(sheet, regs[j']) != k {
      if j' < n {
        assert regs[..n][j'] == regs[j'];
      }
    }
  }

  /** With pairwise distinct indices, each registration adds one key at the end of the order. */
  lemma {:induction false} DistinctRegistrationsOrder(sheet: map<string, int>, regs: seq<TerrainType>)
    requires forall i, j :: 0 <= i < j < |regs| ==> FiledUnder(sheet, regs[i]) != FiledUnder(sheet, regs[j])
    ensures var d := Registrations(sheet, regs);
            |d.order| == |regs| && forall i :: 0 <= i < |regs| ==> d.order[i] == FiledUnder(sheet, regs[i])
    decreases |regs|
  {
    if |regs| > 0 {
      var n := |regs| - 1;
      DistinctRegistrationsOrder(sheet, regs[..n]);
      var k := FiledUnder(sheet, regs[n]);
      var d := Registrations(sheet, regs[..n]);
      assert forall i :: 0 <= i < n ==> regs[..n][i] == regs[i];
      assert forall i :: 0 <= i < n ==> d.order[i] != k;
      PutNewKey(d, k, regs[n]);
      RegistrationsUnfold(sheet, regs);
      OrderAppend(sheet, regs, d.order, Registrations(sheet, regs).order);
    }
  }

  /** The last registration is one `Put` on those before it. */
  lemma RegistrationsUnfold(sheet: map<string, int>, regs: seq<TerrainType>)
    requires |regs| > 0
    ensures Registrations(sheet, regs)
         == Registrations(sheet, regs[..|regs| - 1]).Put(FiledUnder(sheet, regs[|regs| - 1]), regs[|regs| - 1])
  {
  }

  /** Appending the last registration's index extends an order that matched the earlier ones. */
  lemma OrderAppend(sheet: map<string, int>, regs: seq<TerrainType>, prev: seq<int>, next: seq<int>)
    requires |regs| > 0 && |prev| == |regs| - 1
    requires forall i :: 0 <= i < |prev| ==> prev[i] == FiledUnder(sheet, regs[i])
    requires next == prev + [FiledUnder(sheet, regs[|regs| - 1])]
    ensures |next| == |regs| && forall i :: 0 <= i < |regs| ==> next[i] == FiledUnder(sheet, regs[i])
  {
  }

  /** A key missing from the order is appended to it. */
  lemma PutNewKey(d: Dict<int, TerrainType>, k: int, v: TerrainType)
    requires d.Valid() && forall i :: 0 <= i < |d.order| ==> d.order[i] != k
    ensures d.Put(k, v).order == d.order + [k]
  {
    assert k !in d.items;
  }

  /**
   * The fill loop: `table[key] = value` for each key in order.  A key
   * outside `[-len, len)` raises IndexError.
   */
  function Fill(table: seq<Option<TerrainType>>, keys: seq<int>, vals: map<int, TerrainType>): (r: Result<seq<Option<TerrainType>>>)
    requires forall i :: 0 <= i < |keys| ==> keys[i] in vals
    ensures r.Ok? <==> forall i :: 0 <= i < |keys| ==> PyIndexable(|table|, keys[i])
    ensures r.Err? ==> r.error == IndexError
    ensures r.Ok? ==> |r.value| == |table|
    ensures r.Ok? && NoDup(keys) && (forall i :: 0 <= i < |keys| ==> keys[i] >= 0) ==>
              && (forall i :: 0 <= i < |keys| ==> r.value[keys[i]] == Some(vals[keys[i]]))
              && (forall p :: 0 <= p < |table| && p !in keys ==> r.value[p] == table[p])
    decreases |keys|
  {
    if |keys| == 0 then Ok(table)
    else
      var n := |keys| - 1;
      var t :- Fill(table, keys[..n], vals);
      if !PyIndexable(|t|, keys[n]) then Err(IndexError)
      else
        assert forall i :: 0 <= i < n ==> keys[..n][i] == keys[i];
        Ok(PySet(t, keys[n], Some(vals[keys[n]])))
  }

  /** The list built from the registrations `regs`: sized by the number of distinct indices, filled in dictionary order. */
  function TableOf(sheet: map<string, int>, regs: seq<TerrainType>): (r: Result<seq<Option<TerrainType>>>)
    ensures r.Err? ==> r.error == IndexError
  {
    var d := Registrations(sheet, regs);
    Fill(seq(|d.order|, _ => None), d.order, d.items)
  }

  /** Distinct in-range keys each end up holding their own value. */
  lemma FillDistinct(table: seq<Option<TerrainType>>, keys: seq<int>, vals: map<int, TerrainType>, i: nat)
    requires forall q :: 0 <= q < |keys| ==> keys[q] in vals && 0 <= keys[q] < |table|
    requires NoDup(keys) && i < |keys|
    ensures Fill(table, keys, vals).Ok?
    ensures Fill(table, keys, vals).value[keys[i]] == Some(vals[keys[i]])
  {
  }

  /** `Terrain(sheet).terrain_types`. */
  function Table(sheet: map<string, int>): (r: Result<seq<Option<TerrainType>>>)
    ensures r.Err? ==> r.error == IndexError
  {
    TableOf(sheet, TERRAIN_TYPES)
  }

  /**
   * `is_passable(i)`: the flag stored at index `i`.  An index outside the
   * list raises IndexError; an index no registration filled holds None,
   * which is not subscriptable (TypeError).
   */
  function IsPassable(table: seq<Option<TerrainType>>, i: int): (r: Result<bool>)
    ensures r.Err? <==> !PyIndexable(|table|, i) || PyAt(table, i).None?
    ensures r.Err? ==> r.error == (if !PyIndexable(|table|, i) then IndexError else TypeError)
    ensures r.Ok? ==> r.value == PyAt(table, i).value.1
  {
    if !PyIndexable(|table|, i) then Err(IndexError)
    else if PyAt(table, i).None? then Err(TypeError)
    else Ok(PyAt(table, i).value.1)
  }

  /** The registrations have distinct sprite indices that together cover `0 .. |regs|-1`. */
  predicate DistinctIndices(sheet: map<string, int>, regs: seq<TerrainType>) {
    (forall i :: 0 <= i < |regs| ==> 0 <= FiledUnder(sheet, regs[i]) < |regs|)
    && forall i, j :: 0 <= i < j < |regs| ==> FiledUnder(sheet, regs[i]) != FiledUnder(sheet, regs[j])
  }

  /**
   * When the registrations sit at distinct indices `0 .. |regs|-1` the table
   * builds, and each registration's index holds its own entry.
   */
  lemma DistinctTable(sheet: map<string, int>, regs: seq<TerrainType>, i: nat)
    requires DistinctIndices(sheet, regs) && i < |regs|
    ensures TableOf(sheet, regs).Ok?
    ensures TableOf(sheet, regs).value[FiledUnder(sheet, regs[i])] == Some(regs[i])
    ensures IsPassable(TableOf(sheet, regs).value, FiledUnder(sheet, regs[i])) == Ok(regs[i].1)
  {
    var d := Registrations(sheet, regs);
    DistinctRegistrationsOrder(sheet, regs);
    var k := FiledUnder(sheet, regs[i]);
    assert d.order[i] == k;
    var j := LaterRegistrationWins(sheet, regs, k);
    assert j == i;
    var t: seq<Option<TerrainType>> := seq(|d.order|, _ => None);
    FillDistinct(t, d.order, d.items, i);
    assert TableOf(sheet, regs) == Fill(t, d.order, d.items);
  }

  /**
   * With the nine names at distinct sprite indices 0..8, each name's index
   * holds its own entry, and `is_passable` is false exactly at the wall's.
   */
  lemma TableWithDistinctIndices(sheet: map<string, int>, i: nat)
    requires DistinctIndices(sheet, TERRAIN_TYPES) && i < |TERRAIN_TYPES|
    ensures Table(sheet).Ok?
    ensures Table(sheet).value[FiledUnder(sheet, TERRAIN_TYPES[i])] == Some(TERRAIN_TYPES[i])
    ensures IsPassable(Table(sheet).value, FiledUnder(sheet, TERRAIN_TYPES[i])) == Ok(TERRAIN_TYPES[i].0 != "wall")
  {
    DistinctTable(sheet, TERRAIN_TYPES, i);
    OnlyWallImpassable();
  }

  /** The sprite index the wall is filed under. */
  function WallIndex(sheet: map<string, int>): int {
    FiledUnder(sheet, TERRAIN_TYPES[8])
  }

  /** With distinct indices, the wall's index is the impassable one. */
  lemma WallImpassable(sheet: map<string, int>)
    requires DistinctIndices(sheet, TERRAIN_TYPES)
    ensures Table(sheet).Ok? && IsPassable(Table(sheet).value, WallIndex(sheet)) == Ok(false)
  {
    TableWithDistinctIndices(sheet, 8);
  }
}

=== FILE: terrain_chunk.dfy ===
/**
 * Terrain chunks (Roguelike/terrain_chunk.py): a square of tiles at a world
 * position holding one index layer per sprite sheet, kept in the class-level
 * lazy cache.  Layer indices are numpy arrays, so coordinates that fall
 * before the chunk wrap around as Python subscripts do.
 */
module TerrainChunk {
  import opened Results
  import opened SeqUtil
  import opened Grids
  import opened LazyCache

  /** `configuration.get('terrain.max_invalid_chunks', 100)`'s default. */
  const DEFAULT_MAX_INVALID_CHUNKS: int := 100

  /** A layer's `indices`: None until assigned. */
  type Layer = Option<Grid<int>>

  datatype Chunk = Chunk(worldX: int, worldY: int, size: int, layers: map<string, Layer>)

  /** The cache key, and the fields `__eq__` and `__hash__` look at. */
  function KeyOf(ch: Chunk): Key {
    (ch.worldX, ch.worldY, ch.size)
  }

  /** Every cached chunk is filed under its own position. */
  predicate Keyed(c: Cache<Chunk>) {
    forall k :: k in c.entries.items ==> KeyOf(c.entries.items[k]) == k
  }

  /**
   * `TerrainChunk.get_or_create`, given what the constructor does: `layers`
   * are the layers it builds, or the exception it raises.  A hit never runs
   * the constructor; a miss runs it after any eviction, so an eviction error
   * comes first and the constructor's error after it.  The evicted chunk,
   * if any, is always cleaned up, and the chunk returned sits at the
   * requested position.
   */
  function GetOrCreateChunk(c: Cache<Chunk>, worldX: int, worldY: int, size: int, layers: Result<map<string, Layer>>, limit: int)
    : (r: Result<Outcome<Chunk>>)
    requires c.entries.Valid()
    ensures (worldX, worldY, size) in c.entries.items ==>
              r.Ok? && r.value.value == c.entries.items[(worldX, worldY, size)] && r.value.cleaned == []
    ensures (worldX, worldY, size) !in c.entries.items && |c.invalidQueue| <= limit ==>
              (r.Err? <==> layers.Err?) && (r.Err? ==> r.error == layers.error)
    ensures r.Ok? && |c.invalidQueue| > limit && (worldX, worldY, size) !in c.entries.items ==>
              && |c.invalidQueue| > 0 && c.invalidQueue[0] in c.entries.items
              && r.value.cleaned == [c.entries.items[c.invalidQueue[0]]]
    ensures r.Ok? && Keyed(c) ==> Keyed(r.value.cache) && KeyOf(r.value.value) == (worldX, worldY, size)
    ensures r.Ok? && (worldX, worldY, size) !in c.entries.items ==> layers.Ok? && r.value.value.layers == layers.value
    ensures r.Ok? ==> var o := GetOrCreate(c, (worldX, worldY, size), r.value.value, limit, true); o.Ok? && r.value == o.value
  {
    var key := (worldX, worldY, size);
    var o :- GetOrCreate(c, key, Chunk(worldX, worldY, size, if layers.Ok? then layers.value else map[]), limit, true);
    if key !in c.entries.items && layers.Err? then Err(layers.error) else Ok(o)
  }

  /**
   * `get_layer_index_at`: the layer's index at the chunk-relative position.
   * An unknown layer raises KeyError, an unassigned one TypeError, and a
   * position outside the array IndexError.
   */
  function GetLayerIndexAt(ch: Chunk, layer: string, worldX: int, worldY: int): (r: Result<int>)
    ensures layer !in ch.layers ==> r == Err(KeyError)
    ensures layer in ch.layers && ch.layers[layer].None? ==> r == Err(TypeError)
    ensures layer in ch.layers && ch.layers[layer].Some? ==>
              var g := ch.layers[layer].value;
              var relX := worldX - ch.worldX;
              var relY := worldY - ch.worldY;
              && (r.Ok? <==> Addressable(g, relX, relY))
              && (r.Err? ==> r.error == IndexError)
              && (r.Ok? ==> r.value == PyAt(PyAt(g.rows, relY), relX))
  {
    if layer !in ch.layers then Err(KeyError)
    else if ch.layers[layer].None? then Err(TypeError)
    else
      var g := ch.layers[layer].value;
      var relX := worldX - ch.worldX;
      var relY := worldY - ch.worldY;
      if !Addressable(g, relX, relY) then Err(IndexError)
      else Ok(PyAt(PyAt(g.rows, relY), relX))
  }

  /** `set_layer_index_at`: write one index at the chunk-relative position, raising as the getter does. */
  function SetLayerIndexAt(ch: Chunk, layer: string, worldX: int, worldY: int, v: int): (r: Result<Chunk>)
    ensures r.Ok? <==> GetLayerIndexAt(ch, layer, worldX, worldY).Ok?
    ensures r.Err? ==> r.error == GetLayerIndexAt(ch, layer, worldX, worldY).error
    ensures r.Ok? ==> KeyOf(r.value) == KeyOf(ch) && r.value.layers.Keys == ch.layers.Keys
    ensures r.Ok? ==> forall l :: l in ch.layers && l != layer ==> r.value.layers[l] == ch.layers[l]
  {
    if layer !in ch.layers then Err(KeyError)
    else if ch.layers[layer].None? then Err(TypeError)
    else
      var g := ch.layers[layer].value;
      var relX := worldX - ch.worldX;
      var relY := worldY - ch.worldY;
      if !Addressable(g, relX, relY) then Err(IndexError)
      else
        var row := PySet(PyAt(g.rows, relY), relX, v);
        var g' := g.(rows := PySet(g.rows, relY, row));
        Ok(ch.(layers := ch.layers[layer := Some(g')]))
  }

  /** Reading back the position just written gives the value written. */
  lemma SetThenGet(ch: Chunk, layer: string, worldX: int, worldY: int, v: int)
    requires SetLayerIndexAt(ch, layer, worldX, worldY, v).Ok?
    ensures GetLayerIndexAt(SetLayerIndexAt(ch, layer, worldX, worldY, v).value, layer, worldX, worldY) == Ok(v)
  {
  }

  /** Writing one cell leaves every other cell of the layer as it was. */
  lemma SetKeepsOtherCells(ch: Chunk, layer: string, worldX: int, worldY: int, v: int, x: int, y: int)
    requires SetLayerIndexAt(ch, layer, worldX, worldY, v).Ok?
    requires GetLayerIndexAt(ch, layer, x, y).Ok?
    requires var g := ch.layers[layer].value;
             PyPos(|g.rows|, y - ch.worldY) != PyPos(|g.rows|, worldY - ch.worldY)
             || PyPos(|PyAt(g.rows, y - ch.worldY)|, x - ch.worldX) != PyPos(|PyAt(g.rows, worldY - ch.worldY)|, worldX - ch.worldX)
    ensures GetLayerIndexAt(SetLayerIndexAt(ch, layer, worldX, worldY, v).value, layer, x, y)
            == GetLayerIndexAt(ch, layer, x, y)
  {
  }

  /** `contains_position`: the half-open square the chunk covers. */
  predicate ContainsPosition(ch: Chunk, x: int, y: int) {
    ch.worldX <= x < ch.worldX + ch.size && ch.worldY <= y < ch.worldY + ch.size
  }

  /**
   * For a layer of the chunk's own size, every position the chunk contains
   * is read without wrap-around: the cell at its offset from the chunk's
   * corner.
   */
  lemma ContainedIsDirect(ch: Chunk, layer: string, x: int, y: int)
    requires ContainsPosition(ch, x, y)
    requires layer in ch.layers && ch.layers[layer].Some?
    requires var g := ch.layers[layer].value; g.Valid() && g.height == ch.size && g.width == ch.size
    ensures GetLayerIndexAt(ch, layer, x, y) == Ok(ch.layers[layer].value.rows[y - ch.worldY][x - ch.worldX])
  {
  }
}

=== FILE: terrain_generator.dfy ===
/**
 * Seed generation of Roguelike/terrain_generator.py: `generate_seeds`
 * draws every seed's x, y and region definition from three independent
 * linear congruential streams, so the seed list is a function of the three
 * stream seeds and the inputs.
 */
module TerrainGenerator {
  import opened Results
  import opened Lcg
  import opened SeqUtil

  /** One entry of `region_definitions`: a tile name and the weight its seeds carry. */
  datatype RegionDefinition = RegionDefinition(name: string, weight: real)

  /** `(x, y, weight, sprite index)`. */
  datatype Seed = Seed(x: real, y: real, weight: real, tag: int)

  /** `spritesheet.get_index`: the sprite index of a tile name, -1 for an unknown name. */
  function SpriteIndex(sheet: map<string, int>, name: string): (k: int)
    ensures name in sheet ==> k == sheet[name]
    ensures name !in sheet ==> k == -1
  {
    if name in sheet then sheet[name] else -1
  }

  /** The stream seeded with `seed` after `i` draws. */
  function StreamAt(seed: int, i: nat): (g: Lcg)
    ensures g.m == DEFAULT_M
  {
    Draws(FromSeed(seed), i).value.0
  }

  /** The definition index drawn for seed `i`: `int(random_range(0, len))` of the chooser stream. */
  function ChoiceAt(chooser: int, count: nat, i: nat): (k: int)
    ensures count > 0 ==> 0 <= k < count
  {
    var v := RandomRange(StreamAt(chooser, i), 0.0, count as real).value.1;
    Trunc(v)
  }

  /**
   * One iteration of the loop: draw the definition index, then x, then y,
   * each from its own stream, and build the seed from the chosen
   * definition.  Returns the three advanced streams with the seed.
   */
  function NextSeed(sheet: map<string, int>, defs: seq<RegionDefinition>, width: int, height: int,
                    lcgX: Lcg, lcgY: Lcg, lcgChooser: Lcg): (r: (Lcg, Lcg, Lcg, Seed))
    requires |defs| > 0 && lcgX.m > 0 && lcgY.m > 0 && lcgChooser.m > 0
    ensures r.0 == Random(lcgX).value.0 && r.1 == Random(lcgY).value.0 && r.2 == Random(lcgChooser).value.0
  {
    var halfWidth := width as real / 2.0;
    var halfHeight := height as real / 2.0;
    var (nextChooser, c) := RandomRange(lcgChooser, 0.0, |defs| as real).value;
    var choice := Trunc(c);
    var (nextX, a) := RandomRange(lcgX, -halfWidth, halfWidth).value;
    var (nextY, b) := RandomRange(lcgY, -halfHeight, halfHeight).value;
    (nextX, nextY, nextChooser, Seed(a, b, defs[choice].weight, SpriteIndex(sheet, defs[choice].name)))
  }

  /** Seed `i` as a function of the `i`-th state of each stream. */
  function SeedAt(sheet: map<string, int>, defs: seq<RegionDefinition>, width: int, height: int,
                  seedX: int, seedY: int, seedChooser: int, i: nat): Seed
    requires |defs| > 0
  {
    NextSeed(sheet, defs, width, height, StreamAt(seedX, i), StreamAt(seedY, i), StreamAt(seedChooser, i)).3
  }

  /**
   * `generate_seeds`: `voronoi_cell_count` seeds, seed `i` drawn from the
   * `i`-th state of the three streams.  With no definitions the first
   * subscript raises IndexError.
   */
  method GenerateSeeds(sheet: map<string, int>, defs: seq<RegionDefinition>, width: int, height: int,
                       cellCount: int, seedX: int, seedY: int, seedChooser: int)
    returns (r: Result<seq<Seed>>)
    ensures r.Err? <==> cellCount > 0 && |defs| == 0
    ensures r.Err? ==> r.error == IndexError
    ensures r.Ok? ==> |r.value| == (if cellCount < 0 then 0 else cellCount)
    ensures r.Ok? && |defs| > 0 ==> forall i :: 0 <= i < |r.value| ==>
              r.value[i] == SeedAt(sheet, defs, width, height, seedX, seedY, seedChooser, i)
  {
    var lcgX, lcgY, lcgChooser := FromSeed(seedX), FromSeed(seedY), FromSeed(seedChooser);
    var seeds: seq<Seed> := [];
    var n := if cellCount < 0 then 0 else cellCount;
    if n > 0 && |defs| == 0 {
      return Err(IndexError);
    }
    var i := 0;
    while i < n
      invariant 0 <= i <= n && |seeds| == i
      invariant lcgX == StreamAt(seedX, i) && lcgY == StreamAt(seedY, i) && lcgChooser == StreamAt(seedChooser, i)
      invariant forall k :: 0 <= k < i ==> seeds[k] == SeedAt(sheet, defs, width, height, seedX, seedY, seedChooser, k)
    {
      var (nextX, nextY, nextChooser, seed) := NextSeed(sheet, defs, width, height, lcgX, lcgY, lcgChooser);
      seeds := seeds + [seed];
      StreamStep(seedX, i);
      StreamStep(seedY, i);
      StreamStep(seedChooser, i);
      lcgX, lcgY, lcgChooser := nextX, nextY, nextChooser;
      i := i + 1;
    }
    return Ok(seeds);
  }

  /** One more draw advances a stream by one state. */
  lemma StreamStep(seed: int, i: nat)
    ensures Random(StreamAt(seed, i)).Ok?
    ensures StreamAt(seed, i + 1) == Random(StreamAt(seed, i)).value.0
  {
  }

  /** Every generated seed lies in the centred box and carries the weight and sprite of one definition. */
  lemma SeedAtFacts(sheet: map<string, int>, defs: seq<RegionDefinition>, width: int, height: int,
                    seedX: int, seedY: int, seedChooser: int, i: nat)
    requires |defs| > 0
    ensures var s := SeedAt(sheet, defs, width, height, seedX, seedY, seedChooser, i);
            && (width > 0 ==> -(width as real) / 2.0 <= s.x < width as real / 2.0)
            && (height > 0 ==> -(height as real) / 2.0 <= s.y < height as real / 2.0)
            && exists d :: d in defs && s.weight == d.weight && s.tag == SpriteIndex(sheet, d.name)
  {
    var choice := ChoiceAt(seedChooser, |defs|, i);
    assert defs[choice] in defs;
    var s := SeedAt(sheet, defs, width, height, seedX, seedY, seedChooser, i);
    assert s.weight == defs[choice].weight && s.tag == SpriteIndex(sheet, defs[choice].name);
  }
}

=== FILE: topology.dfy ===
/**
 * The eight terrain categories of the classification cascade and the integer
 * codes the category maps store (the default `topology` table of
 * Roguelike/voronoi.py).  Codes below LAND are the water categories.
 */
module Topology {
  import opened Results

  datatype Category =
    | DeepOcean
    | ContinentalShelf
    | Littoral
    | Islands
    | Land
    | Lowlands
    | Highlands
    | Mountains

  const DEEP_OCEAN: int := 0
  const CONTINENTAL_SHELF: int := 1
  const LITTORAL: int := 2
  const ISLANDS: int := 3
  const LAND: int := 4
  const LOWLANDS: int := 5
  const HIGHLANDS: int := 6
  const MOUNTAINS: int := 7

  /** The code a category is stored under in a category map. */
  function Code(c: Category): int {
    match c
    case DeepOcean => DEEP_OCEAN
    case ContinentalShelf => CONTINENTAL_SHELF
    case Littoral => LITTORAL
    case Islands => ISLANDS
    case Land => LAND
    case Lowlands => LOWLANDS
    case Highlands => HIGHLANDS
    case Mountains => MOUNTAINS
  }

  /** The category stored under a code, the inverse lookup of the `bidict`. */
  function FromCode(code: int): (c: Option<Category>)
    ensures c.Some? <==> 0 <= code < 8
    ensures c.Some? ==> Code(c.value) == code
  {
    if code == DEEP_OCEAN then Some(DeepOcean)
    else if code == CONTINENTAL_SHELF then Some(ContinentalShelf)
    else if code == LITTORAL then Some(Littoral)
    else if code == ISLANDS then Some(Islands)
    else if code == LAND then Some(Land)
    else if code == LOWLANDS then Some(Lowlands)
    else if code == HIGHLANDS then Some(Highlands)
    else if code == MOUNTAINS then Some(Mountains)
    else None
  }

  /** Codes and categories are in one-to-one correspondence. */
  lemma CodeRoundTrip(c: Category)
    ensures 0 <= Code(c) < 8
    ensures FromCode(Code(c)) == Some(c)
  {
  }

  /** The water categories are exactly those whose code is below LAND. */
  predicate IsWater(c: Category) {
    c == DeepOcean || c == ContinentalShelf || c == Littoral || c == Islands
  }

  lemma WaterIsBelowLand(c: Category)
    ensures IsWater(c) <==> Code(c) < LAND
  {
  }
}

=== FILE: utility.dfy ===
/**
 * Helpers from utility.py: neighbour lookup in a list, and the choice of the
 * seam column for the wrapped world (the centre of a maximal run of the
 * largest value whose surrounding window has the highest average).
 */
module Utility {
  import opened Results
  import opened SeqUtil

  /** `find_before(lst, num)`: the element before `num`, or the first element when `num` is first. */
  function FindBefore<T(==)>(lst: seq<T>, num: T): (r: Result<T>)
    ensures num !in lst <==> r == Err(ValueError)
    ensures r.Ok? ==> r.value in lst
    ensures num in lst && IndexOf(lst, num) == 0 ==> r == Ok(lst[0])
    ensures num in lst && IndexOf(lst, num) > 0 ==> r == Ok(lst[IndexOf(lst, num) - 1])
  {
    if num !in lst then Err(ValueError)
    else
      var i := IndexOf(lst, num);
      Ok(if i > 0 then lst[i - 1] else lst[0])
  }

  /** `find_after(lst, num)`: the element after `num`, or the last element when `num` is last. */
  function FindAfter<T(==)>(lst: seq<T>, num: T): (r: Result<T>)
    ensures num !in lst <==> r == Err(ValueError)
    ensures r.Ok? ==> r.value in lst
    ensures num in lst && IndexOf(lst, num) == |lst| - 1 ==> r == Ok(lst[|lst| - 1])
    ensures num in lst && IndexOf(lst, num) < |lst| - 1 ==> r == Ok(lst[IndexOf(lst, num) + 1])
  {
    if num !in lst then Err(ValueError)
    else
      var i := IndexOf(lst, num);
      Ok(if i < |lst| - 1 then lst[i + 1] else lst[|lst| - 1])
  }

  lemma NoDupIndexOf<T>(lst: seq<T>, i: nat)
    requires NoDup(lst) && i < |lst|
    ensures IndexOf(lst, lst[i]) == i
  {
  }

  /** In a list without repeats, stepping forward and then back returns to `num` (unless `num` is last). */
  lemma FindAfterThenBefore<T>(lst: seq<T>, num: T)
    requires NoDup(lst) && num in lst && IndexOf(lst, num) < |lst| - 1
    ensures FindAfter(lst, num).Ok?
    ensures FindBefore(lst, FindAfter(lst, num).value) == Ok(num)
  {
    var i := IndexOf(lst, num);
    NoDupIndexOf(lst, i + 1);
  }

  /** In a list without repeats, stepping back and then forward returns to `num` (unless `num` is first). */
  lemma FindBeforeThenAfter<T>(lst: seq<T>, num: T)
    requires NoDup(lst) && num in lst && IndexOf(lst, num) > 0
    ensures FindBefore(lst, num).Ok?
    ensures FindAfter(lst, FindBefore(lst, num).value) == Ok(num)
  {
    var i := IndexOf(lst, num);
    NoDupIndexOf(lst, i - 1);
  }

  /**
   * In a list without repeats, neighbours by position are neighbours by
   * lookup: the element before position `i` is what `find_before` gives for
   * the element at `i`, and the element at `i` is what `find_after` gives
   * for the one before it.
   */
  lemma NeighboursByPosition<T>(lst: seq<T>, i: nat)
    requires NoDup(lst) && 0 < i < |lst|
    ensures FindBefore(lst, lst[i]) == Ok(lst[i - 1])
    ensures FindAfter(lst, lst[i - 1]) == Ok(lst[i])
  {
    NoDupIndexOf(lst, i);
    NoDupIndexOf(lst, i - 1);
  }

  /** An inclusive index range `[start, end]` of the input. */
  datatype Run = Run(start: nat, end: nat)

  /** `arr[start..end]` holds only `m`, and the run cannot be extended on either side. */
  predicate IsMaximalRun(arr: seq<int>, m: int, run: Run) {
    && run.start <= run.end < |arr|
    && (forall k :: run.start <= k <= run.end ==> arr[k] == m)
    && (run.start == 0 || arr[run.start - 1] != m)
    && (run.end == |arr| - 1 || arr[run.end + 1] != m)
  }

  /** Runs appear left to right with at least one other value between consecutive ones. */
  predicate Separated(runs: seq<Run>) {
    forall a, b :: 0 <= a < b < |runs| ==> runs[a].end + 1 < runs[b].start
  }

  /** What the scan of utility.py:15-27 knows on reaching position `i` with a run opened at `open`. */
  predicate ScanState(arr: seq<int>, m: int, i: nat, open: Option<nat>) {
    && i <= |arr|
    && (open.Some? ==> open.value < i && (forall k :: open.value <= k < i ==> arr[k] == m))
    && (open.Some? ==> open.value == 0 || arr[open.value - 1] != m)
    && (open.None? ==> i == 0 || arr[i - 1] != m)
  }

  /** The first position the rest of the scan can still report a run from. */
  function ScanFloor(i: nat, open: Option<nat>): nat {
    if open.Some? then open.value else i
  }

  /**
   * The scan of utility.py:15-27 from position `i`, where `open` is the start
   * of a run of `m` still being extended.
   */
  function RunsFrom(arr: seq<int>, m: int, i: nat, open: Option<nat>): seq<Run>
    requires i <= |arr| && (open.Some? ==> open.value < i)
    decreases |arr| - i
  {
    if i == |arr| then
      match open
      case Some(s) => [Run(s, |arr| - 1)]
      case None => []
    else if arr[i] == m then
      RunsFrom(arr, m, i + 1, if open.Some? then open else Some(i))
    else
      match open
      case Some(s) => [Run(s, i - 1)] + RunsFrom(arr, m, i + 1, None)
      case None => RunsFrom(arr, m, i + 1, None)
  }

  /** Every reported run is maximal, lies at or after the scan floor, and runs are separated. */
  lemma {:induction false} RunsFromSound(arr: seq<int>, m: int, i: nat, open: Option<nat>)
    requires ScanState(arr, m, i, open)
    ensures forall k :: 0 <= k < |RunsFrom(arr, m, i, open)| ==>
      IsMaximalRun(arr, m, RunsFrom(arr, m, i, open)[k]) && RunsFrom(arr, m, i, open)[k].start >= ScanFloor(i, open)
    ensures Separated(RunsFrom(arr, m, i, open))
    decreases |arr| - i
  {
    if i == |arr| {
    } else if arr[i] == m {
      RunsFromSound(arr, m, i + 1, if open.Some? then open else Some(i));
    } else {
      RunsFromSound(arr, m, i + 1, None);
      if open.Some? {
        var r := Run(open.value, i - 1);
        var rest := RunsFrom(arr, m, i + 1, None);
        assert IsMaximalRun(arr, m, r);
        ConsSeparated(r, rest);
        assert RunsFrom(arr, m, i, open) == [r] + rest;
      }
    }
  }

  /** A run ending more than one place before every later run keeps the list separated. */
  lemma ConsSeparated(r: Run, rest: seq<Run>)
    requires Separated(rest) && forall k :: 0 <= k < |rest| ==> r.end + 1 < rest[k].start
    ensures Separated([r] + rest)
  {
    forall a, b | 0 <= a < b < |[r] + rest| ensures ([r] + rest)[a].end + 1 < ([r] + rest)[b].start {
      if a > 0 {
        assert ([r] + rest)[a] == rest[a - 1];
      }
      assert ([r] + rest)[b] == rest[b - 1];
    }
  }

  /** Every maximal run at or after the scan floor is reported. */
  lemma {:induction false} RunsFromComplete(arr: seq<int>, m: int, i: nat, open: Option<nat>, r: Run)
    requires ScanState(arr, m, i, open)
    requires IsMaximalRun(arr, m, r) && r.start >= ScanFloor(i, open)
    ensures r in RunsFrom(arr, m, i, open)
    decreases |arr| - i
  {
    if i == |arr| {
      var s := open.value;
    } else if arr[i] == m {
      RunsFromComplete(arr, m, i + 1, if open.Some? then open else Some(i), r);
    } else if open.Some? && r.start < i {
      var s := open.value;
      assert r == Run(s, i - 1);
    } else {
      RunsFromComplete(arr, m, i + 1, None, r);
    }
  }

  /** All maximal runs of the largest value, in order. */
  function MaxRuns(arr: seq<int>): (runs: seq<Run>)
    requires |arr| > 0
    ensures |runs| > 0
    ensures Separated(runs)
    ensures forall k :: 0 <= k < |runs| ==> IsMaximalRun(arr, Max(arr), runs[k])
    ensures forall r :: IsMaximalRun(arr, Max(arr), r) ==> r in runs
  {
    var m := Max(arr);
    var runs := RunsFrom(arr, m, 0, None);
    RunsFromSound(arr, m, 0, None);
    forall r | IsMaximalRun(arr, m, r) ensures r in runs {
      RunsFromComplete(arr, m, 0, None, r);
    }
    var k :| 0 <= k < |arr| && arr[k] == m;
    var s := StartOfRun(arr, m, k);
    var e := EndOfRun(arr, m, k);
    assert IsMaximalRun(arr, m, Run(s, e));
    runs
  }

  /** The first index of the block of `m` containing `k`. */
  function StartOfRun(arr: seq<int>, m: int, k: nat): (s: nat)
    requires k < |arr| && arr[k] == m
    ensures s <= k && (forall j :: s <= j <= k ==> arr[j] == m)
    ensures s == 0 || arr[s - 1] != m
  {
    if k == 0 || arr[k - 1] != m then k else StartOfRun(arr, m, k - 1)
  }

  /** The last index of the block of `m` containing `k`. */
  function EndOfRun(arr: seq<int>, m: int, k: nat): (e: nat)
    requires k < |arr| && arr[k] == m
    ensures k <= e < |arr| && (forall j :: k <= j <= e ==> arr[j] == m)
    ensures e == |arr| - 1 || arr[e + 1] != m
    decreases |arr| - k
  {
    if k == |arr| - 1 || arr[k + 1] != m then k else EndOfRun(arr, m, k + 1)
  }

  /** The middle of a run: one index for an odd length, the two middle ones for an even length. */
  function Centres(r: Run): (cs: seq<nat>)
    requires r.start <= r.end
    ensures 0 < |cs| <= 2
    ensures forall k :: 0 <= k < |cs| ==> r.start <= cs[k] <= r.end
    ensures |cs| == 2 ==> cs[0] < cs[1]
  {
    var length := r.end - r.start + 1;
    if length % 2 == 1 then [r.start + length / 2]
    else [r.start + length / 2 - 1, r.start + length / 2]
  }

  /** The candidate list of utility.py:34-40: every run's centres, in order. */
  function Candidates(runs: seq<Run>): (cs: seq<nat>)
    requires forall k :: 0 <= k < |runs| ==> runs[k].start <= runs[k].end
    requires Separated(runs)
    ensures forall a, b :: 0 <= a < b < |cs| ==> cs[a] < cs[b]
    ensures |runs| > 0 ==> |cs| > 0 && forall k :: 0 <= k < |cs| ==> runs[0].start <= cs[k]
  {
    if |runs| == 0 then []
    else
      var head := Centres(runs[0]);
      var tail := Candidates(runs[1..]);
      assert |runs| > 1 ==> runs[0].end + 1 < runs[1].start;
      head + tail
  }

  /** A candidate is exactly a centre of one of the runs. */
  lemma {:induction false} CandidateMembers(runs: seq<Run>, c: nat)
    requires forall k :: 0 <= k < |runs| ==> runs[k].start <= runs[k].end
    requires Separated(runs)
    ensures c in Candidates(runs) <==> CentreOfSome(runs, c)
  {
    if |runs| > 0 {
      CandidateMembers(runs[1..], c);
      CentreOfSomeCons(runs, c);
      assert Candidates(runs) == Centres(runs[0]) + Candidates(runs[1..]);
    }
  }

  /** `c` is a centre of one of the runs. */
  ghost predicate CentreOfSome(runs: seq<Run>, c: nat)
    requires forall k :: 0 <= k < |runs| ==> runs[k].start <= runs[k].end
  {
    exists k :: 0 <= k < |runs| && c in Centres(runs[k])
  }

  /** A centre of some run is a centre of the first or of some later one. */
  lemma CentreOfSomeCons(runs: seq<Run>, c: nat)
    requires |runs| > 0 && forall k :: 0 <= k < |runs| ==> runs[k].start <= runs[k].end
    ensures CentreOfSome(runs, c) <==> c in Centres(runs[0]) || CentreOfSome(runs[1..], c)
  {
    if CentreOfSome(runs, c) {
      var k :| 0 <= k < |runs| && c in Centres(runs[k]);
      if k > 0 {
        assert runs[1..][k - 1] == runs[k];
      }
    }
    if CentreOfSome(runs[1..], c) {
      var k :| 0 <= k < |runs[1..]| && c in Centres(runs[1..][k]);
      assert runs[k + 1] == runs[1..][k];
    }
  }

  /** The window-average candidates of `arr`: the centres of the maximal runs of its largest value. */
  function MaxCandidates(arr: seq<int>): (cs: seq<nat>)
    requires |arr| > 0
    ensures |cs| > 0
    ensures forall a, b :: 0 <= a < b < |cs| ==> cs[a] < cs[b]
    ensures forall k :: 0 <= k < |cs| ==> cs[k] < |arr| && arr[cs[k]] == Max(arr)
  {
    var runs := MaxRuns(arr);
    var cs := Candidates(runs);
    forall k | 0 <= k < |cs| ensures cs[k] < |arr| && arr[cs[k]] == Max(arr) {
      CandidateMembers(runs, cs[k]);
      var j :| 0 <= j < |runs| && cs[k] in Centres(runs[j]);
    }
    cs
  }

  /** `c` is a centre of a maximal run of the largest value exactly when it is a candidate. */
  lemma CandidatesAreRunCentres(arr: seq<int>, c: nat)
    requires |arr| > 0
    ensures c in MaxCandidates(arr) <==>
      exists r :: IsMaximalRun(arr, Max(arr), r) && c in Centres(r)
  {
    CandidateMembers(MaxRuns(arr), c);
    RunCentres(arr, Max(arr), MaxRuns(arr), c);
  }

  /** Over a list holding exactly the maximal runs of `m`, a centre of one of them is a centre of a maximal run. */
  lemma RunCentres(arr: seq<int>, m: int, runs: seq<Run>, c: nat)
    requires forall k :: 0 <= k < |runs| ==> IsMaximalRun(arr, m, runs[k]) && runs[k].start <= runs[k].end
    requires forall r :: IsMaximalRun(arr, m, r) ==> r in runs
    ensures CentreOfSome(runs, c) <==> exists r :: IsMaximalRun(arr, m, r) && c in Centres(r)
  {
    if exists r :: IsMaximalRun(arr, m, r) && c in Centres(r) {
      var r :| IsMaximalRun(arr, m, r) && c in Centres(r);
      var k :| 0 <= k < |runs| && runs[k] == r;
      assert c in Centres(runs[k]);
    }
    if CentreOfSome(runs, c) {
      var k :| 0 <= k < |runs| && c in Centres(runs[k]);
      assert IsMaximalRun(arr, m, runs[k]);
    }
  }

  /** The average of `arr` over the window of `windowSize` cells either side of `index`, clipped to the array. */
  function WindowAvg(arr: seq<int>, index: nat, windowSize: nat): real
    requires index < |arr|
  {
    var lo := if index - windowSize < 0 then 0 else index - windowSize;
    var hi := if |arr| < index + windowSize + 1 then |arr| else index + windowSize + 1;
    (Sum(arr[lo..hi]) as real) / ((hi - lo) as real)
  }

  /**
   * The strict-improvement scan of utility.py:43-51 from position `i` with the
   * best position so far `best`: the first position of a largest value.
   */
  function FirstArgMaxFrom(vals: seq<real>, i: nat, best: nat): (j: nat)
    requires best < i <= |vals|
    requires forall k :: 0 <= k < i ==> vals[k] <= vals[best]
    requires forall k :: 0 <= k < best ==> vals[k] < vals[best]
    ensures j < |vals|
    ensures forall k :: 0 <= k < |vals| ==> vals[k] <= vals[j]
    ensures forall k :: 0 <= k < j ==> vals[k] < vals[j]
    decreases |vals| - i
  {
    if i == |vals| then best
    else if vals[i] > vals[best] then FirstArgMaxFrom(vals, i + 1, i)
    else FirstArgMaxFrom(vals, i + 1, best)
  }

  /** The window averages of the candidates, in candidate order. */
  function Averages(arr: seq<int>, cands: seq<nat>, windowSize: nat): (avgs: seq<real>)
    requires forall k :: 0 <= k < |cands| ==> cands[k] < |arr|
    ensures |avgs| == |cands|
    ensures forall k :: 0 <= k < |cands| ==> avgs[k] == WindowAvg(arr, cands[k], windowSize)
  {
    seq(|cands|, k requires 0 <= k < |cands| => WindowAvg(arr, cands[k], windowSize))
  }

  /** In an increasing candidate list, the first position of the best average beats every earlier candidate. */
  lemma FirstBestIsEarliest(arr: seq<int>, cands: seq<nat>, windowSize: nat, j: nat)
    requires forall k :: 0 <= k < |cands| ==> cands[k] < |arr|
    requires forall a, b :: 0 <= a < b < |cands| ==> cands[a] < cands[b]
    requires j < |cands|
    requires forall k :: 0 <= k < |cands| ==> Averages(arr, cands, windowSize)[k] <= Averages(arr, cands, windowSize)[j]
    requires forall k :: 0 <= k < j ==> Averages(arr, cands, windowSize)[k] < Averages(arr, cands, windowSize)[j]
    ensures forall c :: c in cands ==> WindowAvg(arr, c, windowSize) <= WindowAvg(arr, cands[j], windowSize)
    ensures forall c :: c in cands && c < cands[j] ==> WindowAvg(arr, c, windowSize) < WindowAvg(arr, cands[j], windowSize)
  {
    var avgs := Averages(arr, cands, windowSize);
    forall c | c in cands
      ensures WindowAvg(arr, c, windowSize) <= WindowAvg(arr, cands[j], windowSize)
      ensures c < cands[j] ==> WindowAvg(arr, c, windowSize) < WindowAvg(arr, cands[j], windowSize)
    {
      var k :| 0 <= k < |cands| && cands[k] == c;
      assert avgs[k] <= avgs[j];
      if c < cands[j] {
        assert avgs[k] < avgs[j];
      }
    }
  }

  /** A lone maximal run of length one is its own only candidate. */
  lemma SingleRunCandidates(arr: seq<int>)
    requires |arr| > 0
    requires |MaxRuns(arr)| == 1 && MaxRuns(arr)[0].start == MaxRuns(arr)[0].end
    ensures MaxCandidates(arr) == [MaxRuns(arr)[0].start]
  {
    var runs := MaxRuns(arr);
    assert Candidates(runs) == Centres(runs[0]) + Candidates(runs[1..]);
  }

  /** `max_index_with_neighboring_avg(arr, window_size)`. */
  function MaxIndexWithNeighboringAvg(arr: seq<int>, windowSize: nat): (r: Result<nat>)
    ensures |arr| == 0 <==> r == Err(ValueError)
    ensures r.Ok? ==> r.value < |arr| && forall k :: 0 <= k < |arr| ==> arr[k] <= arr[r.value]
    ensures r.Ok? ==> r.value in MaxCandidates(arr)
    ensures r.Ok? ==> forall c :: c in MaxCandidates(arr) ==>
      WindowAvg(arr, c, windowSize) <= WindowAvg(arr, r.value, windowSize)
    ensures r.Ok? ==> forall c :: c in MaxCandidates(arr) && c < r.value ==>
      WindowAvg(arr, c, windowSize) < WindowAvg(arr, r.value, windowSize)
  {
    if |arr| == 0 then Err(ValueError)
    else
      var c := BestCandidate(arr, windowSize);
      var cands := MaxCandidates(arr);
      var k :| 0 <= k < |cands| && cands[k] == c;
      Ok(c)
  }

  /**
   * The choice for a non-empty array: the lone maximum when the largest
   * value occurs once, otherwise the first candidate with the best window
   * average.
   */
  function BestCandidate(arr: seq<int>, windowSize: nat): (c: nat)
    requires |arr| > 0
    ensures c in MaxCandidates(arr)
    ensures forall d :: d in MaxCandidates(arr) ==> WindowAvg(arr, d, windowSize) <= WindowAvg(arr, c, windowSize)
    ensures forall d :: d in MaxCandidates(arr) && d < c ==> WindowAvg(arr, d, windowSize) < WindowAvg(arr, c, windowSize)
  {
    var runs := MaxRuns(arr);
    var cands := MaxCandidates(arr);
    if |runs| == 1 && runs[0].end - runs[0].start == 0 then
      SingleRunCandidates(arr);
      runs[0].start
    else
      var j := FirstArgMaxFrom(Averages(arr, cands, windowSize), 1, 0);
      FirstBestIsEarliest(arr, cands, windowSize, j);
      cands[j]
  }

  /** A strictly largest entry is returned directly, with no averaging. */
  lemma SingleMaximumIsChosen(arr: seq<int>, i: nat, windowSize: nat)
    requires i < |arr|
    requires forall k :: 0 <= k < |arr| && k != i ==> arr[k] < arr[i]
    ensures MaxIndexWithNeighboringAvg(arr, windowSize) == Ok(i)
  {
    var w := MaxIndexWithNeighboringAvg(arr, windowSize).value;
    assert arr[w] >= arr[i];
  }
}

=== FILE: voronoi.dfy ===
/**
 * The classification cascade of Roguelike/voronoi.py.  Starting from a
 * weighted-Voronoi ownership grid (cell -> region id) and the region
 * records, three passes over secondary cluster maps classify every region:
 * the ocean pass flags a prefix of ocean clusters as wet and grades each
 * region by how much of it is wet, the mountain pass grades the remaining
 * land regions by the share of surviving mountain clusters they cover, and
 * the island pass turns each ISLANDS cell into LAND or LITTORAL by a second
 * cluster map.  Finally the columns are rotated so the horizontal wrap seam
 * falls where the map is most oceanic.
 *
 * The cluster maps, which the native library produces from random seeds,
 * are parameters.  numpy's float64 arithmetic is modelled exactly over
 * `real`; where the source divides by zero numpy's result (inf or nan) is
 * followed through the comparisons that consume it.
 */
module Voronoi {
  import opened Results
  import opened SeqUtil
  import opened Grids
  import opened Topology
  import opened NativeCode
  import Utility

  /* ---------------------------------------------------------------------
   * Per-region histograms (`histogram_of_ones`)
   * --------------------------------------------------------------------- */

  /**
   * The weighted count of `id`: the sum of the weights at the positions
   * whose index is `id`, the two sequences read in lock step.
   */
  function WeightedCount(idx: seq<int>, w: seq<int>, id: int): int
    decreases |idx|
  {
    if |idx| == 0 || |w| == 0 then 0
    else (if idx[0] == id then w[0] else 0) + WeightedCount(idx[1..], w[1..], id)
  }

  /** `bincount` makes a bin for `i`: some index is at least `i`. */
  predicate HasBin(idx: seq<int>, i: int) {
    0 <= i && exists j :: j in idx && i <= j
  }

  /** Every cell of an index array is a valid `bincount` bin. */
  predicate NonNegative(s: seq<int>) {
    forall k :: 0 <= k < |s| ==> s[k] >= 0
  }

  /** The bin-by-bin accumulation loop of `np.bincount`: adds each weight to its bin. */
  function Accumulate(idx: seq<int>, w: seq<int>, counts: seq<int>): (r: seq<int>)
    requires |idx| == |w|
    requires forall k :: 0 <= k < |idx| ==> 0 <= idx[k] < |counts|
    ensures |r| == |counts|
    ensures forall i :: 0 <= i < |counts| ==> r[i] == counts[i] + WeightedCount(idx, w, i)
    decreases |idx|
  {
    if |idx| == 0 then counts
    else Accumulate(idx[1..], w[1..], counts[idx[0] := counts[idx[0]] + w[0]])
  }

  /** `np.bincount(idx, weights=w)`: one bin per value up to the largest index. */
  function BinCount(idx: seq<int>, w: seq<int>): (counts: seq<int>)
    requires |idx| == |w| && NonNegative(idx)
    ensures |counts| == if |idx| == 0 then 0 else Max(idx) + 1
    ensures forall i :: 0 <= i < |counts| ==> counts[i] == WeightedCount(idx, w, i)
  {
    var n := if |idx| == 0 then 0 else Max(idx) + 1;
    Accumulate(idx, w, seq(n, _ => 0))
  }

  /**
   * A histogram entry.  Ids that `bincount` produced a bin for hold a
   * float64 count; the others keep the Python integer 0 that
   * `dict.fromkeys` put there.  The distinction decides what a later
   * division by zero does.
   */
  datatype Entry = Binned(total: int) | Unbinned {
    function Value(): int {
      if Binned? then total else 0
    }
  }

  /**
   * `histogram_of_ones`: for every region id, the sum of the value cells
   * that the index array assigns to it.  Arrays of different shapes and
   * negative indices (which `bincount` rejects) raise ValueError.
   */
  function HistogramOfOnes(ids: seq<int>, index: Grid<int>, value: Grid<int>): (r: Result<map<int, Entry>>)
    requires index.Valid() && value.Valid()
    ensures r.Err? <==> !index.SameShape(value) || !NonNegative(Ravel(index.rows))
    ensures r.Err? ==> r.error == ValueError
    ensures r.Ok? ==> r.value.Keys == set i | i in ids
    ensures r.Ok? ==> forall i :: i in ids ==>
                        r.value[i].Value() == WeightedCount(Ravel(index.rows), Ravel(value.rows), i)
    ensures r.Ok? ==> forall i :: i in ids ==> (r.value[i].Binned? <==> HasBin(Ravel(index.rows), i))
  {
    if !index.SameShape(value) then Err(ValueError)
    else
      var idx := Ravel(index.rows);
      var w := Ravel(value.rows);
      if !NonNegative(idx) then Err(ValueError)
      else
        RavelSameLength(index.rows, value.rows);
        var counts := BinCount(idx, w);
        forall i ensures HasBin(idx, i) <==> 0 <= i < |counts| {
          if |idx| > 0 && HasBin(idx, i) {
            var j :| j in idx && i <= j;
          }
        }
        forall i | !(0 <= i < |counts|) ensures WeightedCount(idx, w, i) == 0 {
          AbsentCountsZero(idx, w, i);
        }
        Ok(map i | i in ids :: if 0 <= i < |counts| then Binned(counts[i]) else Unbinned)
  }

  lemma {:induction false} AbsentCountsZero(idx: seq<int>, w: seq<int>, id: int)
    requires id !in idx
    ensures WeightedCount(idx, w, id) == 0
    decreases |idx|
  {
    if |idx| > 0 && |w| > 0 {
      AbsentCountsZero(idx[1..], w[1..], id);
    }
  }

  /* ---------------------------------------------------------------------
   * Table remapping (`transform_array`) and the prefix tables
   * --------------------------------------------------------------------- */

  /** Every cell of `a` is a valid Python subscript into a table of `n` entries. */
  predicate AllIndexable(a: Grid<int>, n: int)
    requires a.Valid()
  {
    forall r, c :: 0 <= r < a.height && 0 <= c < a.width ==> PyIndexable(n, a.rows[r][c])
  }

  /**
   * `np.array(M)[A]`: the array of `A`'s shape whose cells are looked up in
   * `M`, negative entries counting from the end.  An entry outside the
   * table raises IndexError.
   */
  function TransformArray<T>(a: Grid<int>, m: seq<T>): (r: Result<Grid<T>>)
    requires a.Valid()
    ensures r.Ok? <==> AllIndexable(a, |m|)
    ensures r.Err? ==> r.error == IndexError
    ensures r.Ok? ==> r.value.Valid() && r.value.SameShape(a)
    ensures r.Ok? ==> forall row, col :: 0 <= row < a.height && 0 <= col < a.width ==>
                        r.value.rows[row][col] == PyAt(m, a.rows[row][col])
  {
    if AllIndexable(a, |m|) then
      Ok(Grid(a.height, a.width, seq(a.height, row requires 0 <= row < a.height =>
        seq(a.width, col requires 0 <= col < a.width => PyAt(m, a.rows[row][col])))))
    else
      Err(IndexError)
  }

  /** Looking a table up through a second table is looking it up in their composition. */
  lemma TransformCompose<U>(a: Grid<int>, m1: seq<int>, m2: seq<U>)
    requires a.Valid() && AllIndexable(a, |m1|)
    requires forall i :: 0 <= i < |m1| ==> PyIndexable(|m2|, m1[i])
    ensures TransformArray(a, m1).Ok?
    ensures TransformArray(TransformArray(a, m1).value, m2)
         == TransformArray(a, seq(|m1|, i requires 0 <= i < |m1| => PyAt(m2, m1[i])))
  {
    var composed := seq(|m1|, i requires 0 <= i < |m1| => PyAt(m2, m1[i]));
    var b := TransformArray(a, m1).value;
    var lhs := TransformArray(b, m2);
    var rhs := TransformArray(a, composed);
    assert rhs.Ok?;
    assert lhs.Ok?;
    assert lhs.value.rows == rhs.value.rows by {
      forall row | 0 <= row < a.height ensures lhs.value.rows[row] == rhs.value.rows[row] {
        forall col | 0 <= col < a.width ensures lhs.value.rows[row][col] == rhs.value.rows[row][col] {
          assert b.rows[row][col] == m1[PyPos(|m1|, a.rows[row][col])];
        }
      }
    }
  }

  /**
   * The remap tables the passes build with an append loop over
   * `range(n)`: entry `i` is `inside` for the first `k` ids, `outside` after.
   */
  function PrefixRemap<T>(n: int, k: int, inside: T, outside: T): (m: seq<T>)
    ensures |m| == if n < 0 then 0 else n
    ensures forall i :: 0 <= i < |m| ==> m[i] == (if i < k then inside else outside)
    decreases n
  {
    if n <= 0 then [] else PrefixRemap(n - 1, k, inside, outside) + [if n - 1 < k then inside else outside]
  }

  /**
   * Cluster id `z` of a map with `n` clusters is selected by a prefix remap
   * with cut-off `k`.  Negative ids count from the end, as the table lookup
   * does.
   */
  predicate Selected(n: int, k: int, z: int) {
    PyIndexable(n, z) && PyPos(n, z) < k
  }

  /**
   * The number of cells that region `id` owns and whose cluster is
   * selected: the declarative meaning of a pass's coverage count.
   */
  function SelectedCells(own: seq<int>, zones: seq<int>, id: int, n: int, k: int): nat
    decreases |own|
  {
    if |own| == 0 || |zones| == 0 then 0
    else (if own[0] == id && Selected(n, k, zones[0]) then 1 else 0) + SelectedCells(own[1..], zones[1..], id, n, k)
  }

  /** The cells a region owns, in row-major order. */
  function OwnedCells(own: seq<int>, id: int): nat {
    Occurrences(own, id)
  }

  /** A region covers no more selected cells than it owns. */
  lemma {:induction false} SelectedWithinOwned(own: seq<int>, zones: seq<int>, id: int, n: int, k: int)
    ensures SelectedCells(own, zones, id, n, k) <= OwnedCells(own, id)
    decreases |own|
  {
    if |own| > 0 && |zones| > 0 {
      SelectedWithinOwned(own[1..], zones[1..], id, n, k);
    }
  }

  /** Weighting by 0/1 selection flags counts the selected owned cells. */
  lemma {:induction false} FlagsCountSelected(own: seq<int>, zones: seq<int>, flags: seq<int>, id: int, n: int, k: int)
    requires |own| == |zones| == |flags|
    requires forall j :: 0 <= j < |zones| ==> flags[j] == (if Selected(n, k, zones[j]) then 1 else 0)
    ensures WeightedCount(own, flags, id) == SelectedCells(own, zones, id, n, k)
    decreases |own|
  {
    if |own| > 0 {
      FlagsCountSelected(own[1..], zones[1..], flags[1..], id, n, k);
    }
  }

  /**
   * The coverage computation shared by the ocean and mountain passes:
   * flag the first `k` of `n` clusters with 1, look the cluster map up
   * through the flags and histogram the result by region.
   */
  function PrefixCoverage(ids: seq<int>, own: Grid<int>, zones: Grid<int>, n: int, k: int): (r: Result<map<int, Entry>>)
    requires own.Valid() && zones.Valid()
    ensures !AllIndexable(zones, n) ==> r == Err(IndexError)
    ensures AllIndexable(zones, n) ==>
              (r.Err? <==> !own.SameShape(zones) || !NonNegative(Ravel(own.rows)))
    ensures r.Err? ==> r.error == IndexError || r.error == ValueError
    ensures r.Ok? ==> r.value.Keys == set i | i in ids
    ensures r.Ok? ==> forall i :: i in ids ==>
                        r.value[i].Value() == SelectedCells(Ravel(own.rows), Ravel(zones.rows), i, n, k)
    ensures r.Ok? ==> forall i :: i in ids ==> (r.value[i].Binned? <==> HasBin(Ravel(own.rows), i))
  {
    var remap := PrefixRemap(n, k, 1, 0);
    var flags :- TransformArray(zones, remap);
    var hist :- HistogramOfOnes(ids, own, flags);
    var f := (z: int) => if Selected(n, k, z) then 1 else 0;
    assert forall row, col :: 0 <= row < zones.height && 0 <= col < zones.width ==>
             flags.rows[row][col] == f(zones.rows[row][col]);
    RavelPointwise(zones.rows, flags.rows, f);
    RavelSameLength(own.rows, zones.rows);
    forall i | i in ids
      ensures hist[i].Value() == SelectedCells(Ravel(own.rows), Ravel(zones.rows), i, n, k)
    {
      FlagsCountSelected(Ravel(own.rows), Ravel(zones.rows), Ravel(flags.rows), i, n, k);
    }
    Ok(hist)
  }

  /** A grid's cells are all non-negative exactly when its ravel is. */
  lemma RavelNonNegative(g: Grid<int>)
    requires g.Valid()
    ensures NonNegative(Ravel(g.rows)) <==>
              forall r, c :: 0 <= r < g.height && 0 <= c < g.width ==> g.rows[r][c] >= 0
  {
    var flat := Ravel(g.rows);
    if NonNegative(flat) {
      forall r, c | 0 <= r < g.height && 0 <= c < g.width ensures g.rows[r][c] >= 0 {
        RavelMembers(g.rows, g.rows[r][c]);
        var k :| 0 <= k < |flat| && flat[k] == g.rows[r][c];
      }
    }
    if forall r, c :: 0 <= r < g.height && 0 <= c < g.width ==> g.rows[r][c] >= 0 {
      forall k | 0 <= k < |flat| ensures flat[k] >= 0 {
        RavelMembers(g.rows, flat[k]);
        var r :| 0 <= r < |g.rows| && flat[k] in g.rows[r];
        var c :| 0 <= c < |g.rows[r]| && g.rows[r][c] == flat[k];
      }
    }
  }

  /** Every cell of the ownership grid names one of the `n` regions. */
  predicate OwnersIn(own: Grid<int>, n: int)
    requires own.Valid()
  {
    forall r, c :: 0 <= r < own.height && 0 <= c < own.width ==> 0 <= own.rows[r][c] < n
  }

  lemma OwnersInIff(own: Grid<int>, n: int)
    requires own.Valid()
    ensures OwnersIn(own, n) <==> NonNegative(Ravel(own.rows)) && AllIndexable(own, n)
  {
    RavelNonNegative(own);
  }

  /** The ids `0 .. n - 1` of the region dictionary, in iteration order. */
  function RegionIds(n: nat): (ids: seq<int>)
    ensures |ids| == n && forall i :: 0 <= i < n ==> ids[i] == i
  {
    seq(n, i => i)
  }

  /** The native areas agree with the ownership grid: the library's contract. */
  predicate AreasMatch(own: Grid<int>, regions: seq<RegionRecord>)
    requires own.Valid()
  {
    forall i :: 0 <= i < |regions| ==> regions[i].area == OwnedCells(Ravel(own.rows), i)
  }

  /** `region["category"] = ...` when a pass assigned one. */
  function Reclassify(rec: RegionRecord, c: Option<Category>): RegionRecord {
    if c.Some? then rec.(category := c) else rec
  }

  /* ---------------------------------------------------------------------
   * Ocean pass (`create_oceans`)
   * --------------------------------------------------------------------- */

  /** The ocean ladder's cut-offs; the defaults are 0.25 and 0.05. */
  datatype OceanCutoffs = OceanCutoffs(shelf: real, islands: real)

  const DEFAULT_OCEAN_CUTOFFS: OceanCutoffs := OceanCutoffs(0.25, 0.05)

  /**
   * The ocean category of a region with `coverage` wet cells out of
   * `area`, or None for a region with no wet cell.  A positive float64
   * count over an area of 0 is +inf: not equal to 1, but at or above any
   * finite shelf cut-off.
   */
  function OceanCategory(coverage: int, area: int, cut: OceanCutoffs): Option<Category> {
    if coverage <= 0 then None
    else if area == 0 then Some(ContinentalShelf)
    else
      var fraction := coverage as real / area as real;
      if fraction == 1.0 then Some(DeepOcean)
      else if fraction >= cut.shelf then Some(ContinentalShelf)
      else if fraction > cut.islands then Some(Littoral)
      else Some(Islands)
  }

  /** The code the ocean pass writes for a region: its ocean category, or LAND. */
  function OceanCode(c: Option<Category>): int {
    if c.Some? then Code(c.value) else LAND
  }

  /** How deep an ocean category is: LAND 0, ISLANDS 1 up to DEEP_OCEAN 4. */
  function Depth(c: Option<Category>): nat {
    match c
    case None => 0
    case Some(Islands) => 1
    case Some(Littoral) => 2
    case Some(ContinentalShelf) => 3
    case Some(DeepOcean) => 4
    case Some(_) => 0
  }

  /** More wet cells never give a shallower category, whatever the cut-offs. */
  lemma OceanLadderMonotone(c1: int, c2: int, area: int, cut: OceanCutoffs)
    requires 0 <= c1 <= c2 <= area
    ensures Depth(OceanCategory(c1, area, cut)) <= Depth(OceanCategory(c2, area, cut))
  {
    if c1 > 0 {
      var p1 := c1 as real / area as real;
      var p2 := c2 as real / area as real;
      assert p1 <= p2;
      assert p2 <= 1.0;
    }
  }

  /** A region that is wet in every cell it owns is deep ocean; one that is partly wet is not. */
  lemma OceanLadderEnds(coverage: int, area: int, cut: OceanCutoffs)
    requires 0 < coverage <= area
    ensures OceanCategory(coverage, area, cut) == Some(DeepOcean) <==> coverage == area
    ensures OceanCategory(coverage, area, cut).Some?
  {
    if coverage < area {
      assert coverage as real / area as real < 1.0;
    }
  }

  /** The ocean pass writes only water codes or LAND. */
  lemma OceanCodesAtMostLand(c: Option<Category>)
    requires c.None? || IsWater(c.value)
    ensures 0 <= OceanCode(c) <= LAND
  {
  }

  /**
   * `create_oceans`: ocean clusters `0 .. ocean_count - 1` of the
   * `world_cells` in `oceanMap` are wet.  Every region is graded by its
   * number of wet cells, the graded ones are renamed, and every cell of the
   * ownership grid is replaced by its region's code.
   */
  function CreateOceans(own: Grid<int>, regions: seq<RegionRecord>, worldCells: int, oceanCount: int,
                        oceanMap: Grid<int>, cut: OceanCutoffs): (r: Result<(Grid<int>, seq<RegionRecord>)>)
    requires own.Valid() && oceanMap.Valid()
    ensures !AllIndexable(oceanMap, worldCells) ==> r == Err(IndexError)
    ensures (AllIndexable(oceanMap, worldCells) && (!own.SameShape(oceanMap) || !NonNegative(Ravel(own.rows))))
              ==> r == Err(ValueError)
    ensures r.Ok? <==> AllIndexable(oceanMap, worldCells) && own.SameShape(oceanMap) && OwnersIn(own, |regions|)
    ensures r.Err? ==> r.error in {IndexError, ValueError}
    ensures r.Ok? ==> r.value.0.Valid() && r.value.0.SameShape(own) && |r.value.1| == |regions|
    ensures r.Ok? ==> forall row, col :: 0 <= row < own.height && 0 <= col < own.width ==>
              0 <= own.rows[row][col] < |regions| &&
              r.value.0.rows[row][col] == OceanCode(WetGrade(own, regions, worldCells, oceanCount, oceanMap, cut, own.rows[row][col]))
    ensures r.Ok? ==> forall i :: 0 <= i < |regions| ==>
              r.value.1[i] == Reclassify(regions[i], WetGrade(own, regions, worldCells, oceanCount, oceanMap, cut, i))
  {
    OwnersInIff(own, |regions|);
    var cats :- OceanTable(own, regions, worldCells, oceanCount, oceanMap, cut);
    ApplyGrades(own, regions, cats)
  }

  /** Renames the graded regions and writes each cell's code, raising on an owner outside the regions. */
  function ApplyGrades(own: Grid<int>, regions: seq<RegionRecord>, cats: seq<Option<Category>>)
    : (r: Result<(Grid<int>, seq<RegionRecord>)>)
    requires own.Valid() && |cats| == |regions| && NonNegative(Ravel(own.rows))
    ensures r.Ok? <==> OwnersIn(own, |regions|)
    ensures r.Err? ==> r.error == IndexError
    ensures r.Ok? ==> r.value.0.Valid() && r.value.0.SameShape(own) && |r.value.1| == |regions|
    ensures r.Ok? ==> forall row, col :: 0 <= row < own.height && 0 <= col < own.width ==>
              0 <= own.rows[row][col] < |regions| && r.value.0.rows[row][col] == OceanCode(cats[own.rows[row][col]])
    ensures r.Ok? ==> forall i :: 0 <= i < |regions| ==> r.value.1[i] == Reclassify(regions[i], cats[i])
  {
    OwnersInIff(own, |regions|);
    var table := seq(|regions|, i requires 0 <= i < |regions| => OceanCode(cats[i]));
    var out :- TransformArray(own, table);
    Ok((out, seq(|regions|, i requires 0 <= i < |regions| => Reclassify(regions[i], cats[i]))))
  }

  /** The ocean grades of all regions: the wet-cell histogram read through the ladder. */
  function OceanTable(own: Grid<int>, regions: seq<RegionRecord>, worldCells: int, oceanCount: int,
                      oceanMap: Grid<int>, cut: OceanCutoffs): (r: Result<seq<Option<Category>>>)
    requires own.Valid() && oceanMap.Valid()
    ensures !AllIndexable(oceanMap, worldCells) ==> r == Err(IndexError)
    ensures AllIndexable(oceanMap, worldCells) ==>
              (r.Err? <==> !own.SameShape(oceanMap) || !NonNegative(Ravel(own.rows)))
    ensures r.Err? ==> r.error in {IndexError, ValueError}
    ensures r.Ok? ==> |r.value| == |regions|
    ensures r.Ok? ==> forall i :: 0 <= i < |regions| ==>
              r.value[i] == WetGrade(own, regions, worldCells, oceanCount, oceanMap, cut, i)
  {
    var ids := RegionIds(|regions|);
    var hist :- PrefixCoverage(ids, own, oceanMap, worldCells, oceanCount);
    assert forall i :: 0 <= i < |regions| ==> i in hist by {
      forall i | 0 <= i < |regions| ensures i in hist {
        assert ids[i] == i && ids[i] in ids;
      }
    }
    var cats := seq(|regions|, i requires 0 <= i < |regions| => OceanCategory(hist[i].Value(), regions[i].area, cut));
    forall i | 0 <= i < |regions|
      ensures cats[i] == WetGrade(own, regions, worldCells, oceanCount, oceanMap, cut, i)
    {
      assert ids[i] in ids;
    }
    Ok(cats)
  }

  /**
   * The ocean category region `id` should receive: graded by the number of
   * its cells whose ocean cluster is wet.
   */
  function WetGrade(own: Grid<int>, regions: seq<RegionRecord>, worldCells: int, oceanCount: int,
                    oceanMap: Grid<int>, cut: OceanCutoffs, id: int): Option<Category>
    requires 0 <= id < |regions|
  {
    OceanCategory(SelectedCells(Ravel(own.rows), Ravel(oceanMap.rows), id, worldCells, oceanCount), regions[id].area, cut)
  }

  /**
   * With areas that agree with the ownership grid, a region whose every
   * cell lies in a wet cluster becomes deep ocean, a region with no wet
   * cell stays LAND, and anything in between is shallower than deep ocean.
   */
  lemma OceanGrading(own: Grid<int>, regions: seq<RegionRecord>, worldCells: int, oceanCount: int,
                     oceanMap: Grid<int>, cut: OceanCutoffs, id: int)
    requires own.Valid() && oceanMap.Valid() && AreasMatch(own, regions)
    requires 0 <= id < |regions|
    ensures var wet := SelectedCells(Ravel(own.rows), Ravel(oceanMap.rows), id, worldCells, oceanCount);
            && (wet == 0 ==> OceanCategory(wet, regions[id].area, cut) == None)
            && (0 < wet ==> (OceanCategory(wet, regions[id].area, cut) == Some(DeepOcean) <==> wet == regions[id].area))
            && (OceanCategory(wet, regions[id].area, cut) == None || IsWater(OceanCategory(wet, regions[id].area, cut).value))
  {
    var wet := SelectedCells(Ravel(own.rows), Ravel(oceanMap.rows), id, worldCells, oceanCount);
    SelectedWithinOwned(Ravel(own.rows), Ravel(oceanMap.rows), id, worldCells, oceanCount);
    if wet > 0 {
      OceanLadderEnds(wet, regions[id].area, cut);
    }
  }

  /** `math.floor(ocean_zone_count * ocean_ratio)`: how many ocean clusters are wet. */
  function OceanCount(zoneCount: int, ratio: real): (k: int)
    ensures 0.0 <= ratio <= 1.0 && zoneCount >= 0 ==> 0 <= k <= zoneCount
  {
    FloorOfFraction(zoneCount, ratio);
    (zoneCount as real * ratio).Floor
  }

  /** `math.floor(n * rate)` for a rate in [0, 1] lies in [0, n]. */
  lemma FloorOfFraction(n: int, rate: real)
    ensures 0.0 <= rate <= 1.0 && n >= 0 ==> 0 <= (n as real * rate).Floor <= n
  {
    if 0.0 <= rate <= 1.0 && n >= 0 {
      assert n as real * rate <= n as real * 1.0;
      assert 0.0 <= n as real * rate;
    }
  }

  /** A cluster id of a map with `zoneCount` clusters is wet exactly when it is below the ocean count. */
  lemma WetIffBelowCount(zoneCount: int, ratio: real, z: int)
    requires 0 <= z < zoneCount
    ensures Selected(zoneCount, OceanCount(zoneCount, ratio), z) <==> z < OceanCount(zoneCount, ratio)
  {
  }

  /* ---------------------------------------------------------------------
   * Mountain pass (`create_mountains`, cut-off bands)
   * --------------------------------------------------------------------- */

  /** The band cut-offs; the defaults are 0.7, 0.6, 0.4 and 0.3. */
  datatype MountainCutoffs = MountainCutoffs(hillsTop: real, mountainTop: real, mountainBottom: real, hillsBottom: real)

  const DEFAULT_MOUNTAIN_CUTOFFS: MountainCutoffs := MountainCutoffs(0.7, 0.6, 0.4, 0.3)

  /** The cut-offs nest: hills around mountains. */
  predicate Nested(cut: MountainCutoffs) {
    cut.hillsBottom <= cut.mountainBottom <= cut.mountainTop <= cut.hillsTop
  }

  /** The land type for a region whose surviving-cluster share is `p`. */
  function MountainBand(p: real, cut: MountainCutoffs): int {
    if p > cut.hillsTop then LOWLANDS
    else if p > cut.mountainTop then HIGHLANDS
    else if p > cut.mountainBottom then MOUNTAINS
    else if p > cut.hillsBottom then HIGHLANDS
    else LOWLANDS
  }

  /**
   * With nested cut-offs the bands are symmetric intervals: mountains in
   * the middle band, highlands on both sides of it, lowlands outside.
   */
  lemma MountainBandIntervals(p: real, cut: MountainCutoffs)
    requires Nested(cut)
    ensures MountainBand(p, cut) == MOUNTAINS <==> cut.mountainBottom < p <= cut.mountainTop
    ensures MountainBand(p, cut) == HIGHLANDS <==>
              (cut.mountainTop < p <= cut.hillsTop) || (cut.hillsBottom < p <= cut.mountainBottom)
    ensures MountainBand(p, cut) == LOWLANDS <==> p > cut.hillsTop || p <= cut.hillsBottom
  {
  }

  /** `coverage_map[seed_y][seed_x]`, with Python's negative subscripts. */
  function SeedCategory(coverage: Grid<int>, rec: RegionRecord): (r: Result<int>)
    requires coverage.Valid()
    ensures r.Ok? <==> SeedInside(coverage, rec)
    ensures r.Err? ==> r.error == IndexError
  {
    if SeedInside(coverage, rec) then
      Ok(coverage.rows[PyPos(coverage.height, rec.seed.1)][PyPos(coverage.width, rec.seed.0)])
    else
      Err(IndexError)
  }

  predicate SeedInside(coverage: Grid<int>, rec: RegionRecord) {
    PyIndexable(coverage.height, rec.seed.1) && PyIndexable(coverage.width, rec.seed.0)
  }

  /**
   * The land type one region gets.  A region whose seed cell is not LAND
   * keeps the seed cell's category.  A LAND region is banded by the share
   * of its area covered by surviving mountain clusters.  For an area of 0
   * the source as written divides by zero: a float64 count gives nan or
   * inf, which every comparison sends to LOWLANDS, while the integer 0 of
   * an unbinned id raises ZeroDivisionError.  With `guarded` the region
   * stays LAND instead, as the score-based variant does.
   */
  function MountainLandType(coverage: Grid<int>, rec: RegionRecord, entry: Entry, cut: MountainCutoffs, guarded: bool): (r: Result<int>)
    requires coverage.Valid()
    ensures r.Ok? <==> SeedInside(coverage, rec) && !(SeedCategory(coverage, rec).value == LAND && rec.area == 0 && !guarded && entry.Unbinned?)
    ensures r.Err? ==> r.error in {IndexError, ZeroDivisionError}
  {
    var lt :- SeedCategory(coverage, rec);
    if lt != LAND then Ok(lt)
    else if rec.area == 0 then
      if guarded then Ok(LAND)
      else if entry.Binned? then Ok(LOWLANDS)
      else Err(ZeroDivisionError)
    else Ok(MountainBand(entry.Value() as real / rec.area as real, cut))
  }

  /**
   * The `world_remap` loop over the regions in id order; the first region
   * that raises ends the pass.
   */
  function MountainLandTypes(coverage: Grid<int>, regions: seq<RegionRecord>, hist: map<int, Entry>,
                             cut: MountainCutoffs, guarded: bool): (r: Result<seq<int>>)
    requires coverage.Valid()
    requires forall i :: 0 <= i < |regions| ==> i in hist
    ensures r.Ok? <==> forall i :: 0 <= i < |regions| ==> MountainLandType(coverage, regions[i], hist[i], cut, guarded).Ok?
    ensures r.Ok? ==> |r.value| == |regions|
    ensures r.Ok? ==> forall i :: 0 <= i < |regions| ==>
              r.value[i] == MountainLandType(coverage, regions[i], hist[i], cut, guarded).value
    ensures r.Err? ==> exists i :: (0 <= i < |regions|
              && MountainLandType(coverage, regions[i], hist[i], cut, guarded) == Err(r.error)
              && forall j :: 0 <= j < i ==> MountainLandType(coverage, regions[j], hist[j], cut, guarded).Ok?)
    decreases |regions|
  {
    if |regions| == 0 then Ok([])
    else
      var last := |regions| - 1;
      var init :- MountainLandTypes(coverage, regions[..last], hist, cut, guarded);
      var t :- MountainLandType(coverage, regions[last], hist[last], cut, guarded);
      Ok(init + [t])
  }

  /**
   * The land type region `id` should receive, stated over the ownership
   * grid: its seed cell's category, or for a LAND seed the band of the
   * share of its cells that lie in surviving mountain clusters.
   */
  function LandGrade(coverage: Grid<int>, own: Grid<int>, regions: seq<RegionRecord>, zoneCount: int, survivors: int,
                     mountainMap: Grid<int>, cut: MountainCutoffs, guarded: bool, id: int): int
    requires coverage.Valid() && 0 <= id < |regions| && SeedInside(coverage, regions[id])
  {
    var lt := SeedCategory(coverage, regions[id]).value;
    if lt != LAND then lt
    else if regions[id].area == 0 then (if guarded then LAND else LOWLANDS)
    else
      var covered := SelectedCells(Ravel(own.rows), Ravel(mountainMap.rows), id, zoneCount, survivors);
      MountainBand(covered as real / regions[id].area as real, cut)
  }

  /** `math.floor(mountain_zone_count * mountain_survival_rate)`. */
  function Survivors(zoneCount: int, rate: real): (k: int)
    ensures 0.0 <= rate <= 1.0 && zoneCount >= 0 ==> 0 <= k <= zoneCount
  {
    FloorOfFraction(zoneCount, rate);
    (zoneCount as real * rate).Floor
  }

  /**
   * The `world_remap` table of `create_mountains`: the mountain coverage
   * histogram followed by the per-region land types.
   */
  function MountainTable(coverage: Grid<int>, own: Grid<int>, regions: seq<RegionRecord>, mountainMap: Grid<int>,
                         zoneCount: int, survivors: int, cut: MountainCutoffs, guarded: bool): (r: Result<seq<int>>)
    requires coverage.Valid() && own.Valid() && mountainMap.Valid()
    ensures !AllIndexable(mountainMap, zoneCount) ==> r == Err(IndexError)
    ensures (AllIndexable(mountainMap, zoneCount) && (!own.SameShape(mountainMap) || !NonNegative(Ravel(own.rows))))
              ==> r == Err(ValueError)
    ensures r.Err? ==> r.error in {IndexError, ValueError, ZeroDivisionError}
    ensures guarded ==>
              (r.Ok? <==> AllIndexable(mountainMap, zoneCount) && own.SameShape(mountainMap) && NonNegative(Ravel(own.rows))
                          && forall i :: 0 <= i < |regions| ==> SeedInside(coverage, regions[i]))
    ensures r.Ok? ==> AllIndexable(mountainMap, zoneCount) && own.SameShape(mountainMap) && NonNegative(Ravel(own.rows))
    ensures r.Ok? ==> |r.value| == |regions| && forall i :: 0 <= i < |regions| ==> SeedInside(coverage, regions[i])
    ensures r.Ok? ==> forall i :: 0 <= i < |regions| ==>
              r.value[i] == LandGrade(coverage, own, regions, zoneCount, survivors, mountainMap, cut, guarded, i)
  {
    var hist :- PrefixCoverage(RegionIds(|regions|), own, mountainMap, zoneCount, survivors);
    RegionCoverage(own, mountainMap, zoneCount, survivors, |regions|);
    var types :- MountainLandTypes(coverage, regions, hist, cut, guarded);
    TypesAreGrades(coverage, own, regions, mountainMap, zoneCount, survivors, cut, guarded, hist);
    Ok(types)
  }

  /** The coverage histogram over the region ids has an entry per region, counting its selected cells. */
  lemma RegionCoverage(own: Grid<int>, zones: Grid<int>, n: int, k: int, count: nat)
    requires own.Valid() && zones.Valid() && PrefixCoverage(RegionIds(count), own, zones, n, k).Ok?
    ensures var hist := PrefixCoverage(RegionIds(count), own, zones, n, k).value;
            forall i :: 0 <= i < count ==>
              i in hist && hist[i].Value() == SelectedCells(Ravel(own.rows), Ravel(zones.rows), i, n, k)
  {
    var ids := RegionIds(count);
    forall i | 0 <= i < count ensures i in ids {
      assert ids[i] == i;
    }
  }

  /** Read through a coverage histogram, the per-region land types are the land grades. */
  lemma TypesAreGrades(coverage: Grid<int>, own: Grid<int>, regions: seq<RegionRecord>, mountainMap: Grid<int>,
                       zoneCount: int, survivors: int, cut: MountainCutoffs, guarded: bool, hist: map<int, Entry>)
    requires coverage.Valid()
    requires forall i :: 0 <= i < |regions| ==>
               i in hist && hist[i].Value() == SelectedCells(Ravel(own.rows), Ravel(mountainMap.rows), i, zoneCount, survivors)
    requires MountainLandTypes(coverage, regions, hist, cut, guarded).Ok?
    ensures var types := MountainLandTypes(coverage, regions, hist, cut, guarded).value;
            forall i :: 0 <= i < |regions| ==>
              SeedInside(coverage, regions[i]) &&
              types[i] == LandGrade(coverage, own, regions, zoneCount, survivors, mountainMap, cut, guarded, i)
  {
    forall i | 0 <= i < |regions|
      ensures SeedInside(coverage, regions[i])
    {
      assert MountainLandType(coverage, regions[i], hist[i], cut, guarded).Ok?;
    }
  }

  /**
   * `create_mountains`: the first `floor(zone_count * survival_rate)`
   * mountain clusters survive; each region whose seed cell is LAND in the
   * ocean pass's map is banded by the share of its cells they cover, the
   * others keep their seed cell's category, and the ownership grid is
   * mapped through the result.  `guarded` selects the corrected treatment
   * of empty regions.
   */
  function CreateMountains(coverage: Grid<int>, own: Grid<int>, regions: seq<RegionRecord>, mountainMap: Grid<int>,
                           zoneCount: int, survivalRate: real, cut: MountainCutoffs, guarded: bool)
    : (r: Result<(Grid<int>, seq<RegionRecord>)>)
    requires coverage.Valid() && own.Valid() && mountainMap.Valid()
    ensures !AllIndexable(mountainMap, zoneCount) ==> r == Err(IndexError)
    ensures (AllIndexable(mountainMap, zoneCount) && (!own.SameShape(mountainMap) || !NonNegative(Ravel(own.rows))))
              ==> r == Err(ValueError)
    ensures r.Err? ==> r.error in {IndexError, ValueError, ZeroDivisionError}
    ensures guarded ==>
              (r.Ok? <==> AllIndexable(mountainMap, zoneCount) && own.SameShape(mountainMap) && OwnersIn(own, |regions|)
                          && forall i :: 0 <= i < |regions| ==> SeedInside(coverage, regions[i]))
    ensures r.Ok? ==> r.value.0.Valid() && r.value.0.SameShape(own) && |r.value.1| == |regions|
    ensures r.Ok? ==> forall i :: 0 <= i < |regions| ==> SeedInside(coverage, regions[i])
    ensures r.Ok? ==> forall row, col :: 0 <= row < own.height && 0 <= col < own.width ==>
              0 <= own.rows[row][col] < |regions| &&
              r.value.0.rows[row][col]
                == LandGrade(coverage, own, regions, zoneCount, Survivors(zoneCount, survivalRate), mountainMap, cut, guarded, own.rows[row][col])
    ensures r.Ok? ==> forall i :: 0 <= i < |regions| ==>
              r.value.1[i] == Reclassify(regions[i],
                if SeedCategory(coverage, regions[i]).value == LAND
                then FromCode(LandGrade(coverage, own, regions, zoneCount, Survivors(zoneCount, survivalRate), mountainMap, cut, guarded, i))
                else None)
  {
    OwnersInIff(own, |regions|);
    var table :- MountainTable(coverage, own, regions, mountainMap, zoneCount, Survivors(zoneCount, survivalRate), cut, guarded);
    var out :- TransformArray(own, table);
    Ok((out, seq(|regions|, i requires 0 <= i < |regions| =>
      Reclassify(regions[i], if SeedCategory(coverage, regions[i]).value == LAND then FromCode(table[i]) else None))))
  }

  /** A one-cell LAND world owned by region `owner`, seeded at that cell. */
  function OneCellWorld(owner: int): Grid<int> {
    Grid(1, 1, [[owner]])
  }

  /** Two regions seeded on the same cell, the first with `area0` cells and the second with `area1`. */
  function TwoRegions(area0: int, area1: int): seq<RegionRecord> {
    [RegionRecord((0, 0), area0, [], None), RegionRecord((0, 0), area1, [], None)]
  }

  lemma OneCellFacts(owner: int)
    ensures Ravel(OneCellWorld(owner).rows) == [owner]
    ensures Ravel(Grid(1, 1, [[0]]).rows) == [0]
    ensures Survivors(1, 1.0) == 1
    ensures RegionIds(2) == [0, 1]
  {
    assert OneCellWorld(owner).rows[1..] == [];
    assert Grid(1, 1, [[0]]).rows[1..] == [];
  }

  /** The mountain histogram of the one-cell world: bins up to the owner's id. */
  lemma OneCellHistogram(owner: int)
    requires owner == 0 || owner == 1
    ensures var h := PrefixCoverage(RegionIds(2), OneCellWorld(owner), Grid(1, 1, [[0]]), 1, 1);
            && h.Ok? && 0 in h.value && 1 in h.value
            && h.value[0].Binned? && h.value[0].Value() == 1 - owner
            && (h.value[1].Binned? <==> owner == 1)
  {
    OneCellFacts(owner);
    RavelNonNegative(OneCellWorld(owner));
    var h := PrefixCoverage(RegionIds(2), OneCellWorld(owner), Grid(1, 1, [[0]]), 1, 1);
    assert 0 in RegionIds(2) && 1 in RegionIds(2);
    assert HasBin([owner], 0) by { assert owner in [owner]; }
    if owner == 1 {
      assert HasBin([owner], 1) by { assert owner in [owner]; }
    }
    assert SelectedCells([owner], [0], 0, 1, 1) == 1 - owner;
  }

  /**
   * As written, an empty LAND region makes the mountain pass raise or not
   * depending only on its id.  Here region 1 owns no cell and no larger id
   * occurs in the grid, so its histogram entry is the integer 0 and
   * `0 / 0` raises ZeroDivisionError.
   */
  lemma EmptyRegionRaises()
    ensures AreasMatch(OneCellWorld(0), TwoRegions(1, 0))
    ensures CreateMountains(Grid(1, 1, [[LAND]]), OneCellWorld(0), TwoRegions(1, 0), Grid(1, 1, [[0]]),
                            1, 1.0, DEFAULT_MOUNTAIN_CUTOFFS, false) == Err(ZeroDivisionError)
  {
    OneCellFacts(0);
    EmptyRegionTableRaises();
  }

  lemma EmptyRegionTableRaises()
    ensures MountainTable(Grid(1, 1, [[LAND]]), OneCellWorld(0), TwoRegions(1, 0), Grid(1, 1, [[0]]), 1, 1, DEFAULT_MOUNTAIN_CUTOFFS, false)
         == Err(ZeroDivisionError)
  {
    OneCellFacts(0);
    OneCellHistogram(0);
    var hist := PrefixCoverage(RegionIds(2), OneCellWorld(0), Grid(1, 1, [[0]]), 1, 1).value;
    EmptyRegionTypesRaise(hist);
  }

  lemma EmptyRegionTypesRaise(hist: map<int, Entry>)
    requires 0 in hist && 1 in hist && hist[1].Unbinned?
    ensures MountainLandTypes(Grid(1, 1, [[LAND]]), TwoRegions(1, 0), hist, DEFAULT_MOUNTAIN_CUTOFFS, false) == Err(ZeroDivisionError)
  {
    var coverage := Grid(1, 1, [[LAND]]);
    var regions := TwoRegions(1, 0);
    assert MountainLandType(coverage, regions[0], hist[0], DEFAULT_MOUNTAIN_CUTOFFS, false).Ok?;
    assert MountainLandType(coverage, regions[1], hist[1], DEFAULT_MOUNTAIN_CUTOFFS, false) == Err(ZeroDivisionError);
  }

  /**
   * The same empty region under id 0, the other region owning the cell,
   * passes: id 0 gets a float64 bin, `0.0 / 0` is nan, and nan falls
   * through to LOWLANDS.
   */
  lemma EmptyRegionPasses()
    ensures AreasMatch(OneCellWorld(1), TwoRegions(0, 1))
    ensures CreateMountains(Grid(1, 1, [[LAND]]), OneCellWorld(1), TwoRegions(0, 1), Grid(1, 1, [[0]]),
                            1, 1.0, DEFAULT_MOUNTAIN_CUTOFFS, false).Ok?
  {
    OneCellAreas();
    EmptyRegionMountains();
  }

  lemma OneCellAreas()
    ensures AreasMatch(OneCellWorld(1), TwoRegions(0, 1))
  {
    OneCellFacts(1);
  }

  lemma OneCellOwners(owner: int)
    requires owner == 0 || owner == 1
    ensures OwnersIn(OneCellWorld(owner), 2)
  {
  }

  lemma EmptyRegionMountains()
    ensures CreateMountains(Grid(1, 1, [[LAND]]), OneCellWorld(1), TwoRegions(0, 1), Grid(1, 1, [[0]]),
                            1, 1.0, DEFAULT_MOUNTAIN_CUTOFFS, false).Ok?
  {
    OneCellFacts(1);
    OneCellOwners(1);
    EmptyRegionTablePasses();
    MountainsFromTable(Grid(1, 1, [[LAND]]), OneCellWorld(1), TwoRegions(0, 1), Grid(1, 1, [[0]]),
                       1, 1.0, DEFAULT_MOUNTAIN_CUTOFFS, false);
  }

  /** A mountain table that exists maps a grid owned by the listed regions. */
  lemma MountainsFromTable(coverage: Grid<int>, own: Grid<int>, regions: seq<RegionRecord>, mountainMap: Grid<int>,
                           zoneCount: int, survivalRate: real, cut: MountainCutoffs, guarded: bool)
    requires coverage.Valid() && own.Valid() && mountainMap.Valid() && OwnersIn(own, |regions|)
    requires MountainTable(coverage, own, regions, mountainMap, zoneCount, Survivors(zoneCount, survivalRate), cut, guarded).Ok?
    ensures CreateMountains(coverage, own, regions, mountainMap, zoneCount, survivalRate, cut, guarded).Ok?
  {
    OwnersInIff(own, |regions|);
  }

  lemma EmptyRegionTablePasses()
    ensures MountainTable(Grid(1, 1, [[LAND]]), OneCellWorld(1), TwoRegions(0, 1), Grid(1, 1, [[0]]),
                          1, 1, DEFAULT_MOUNTAIN_CUTOFFS, false).Ok?
  {
    OneCellFacts(1);
    OneCellHistogram(1);
    var hist := PrefixCoverage(RegionIds(2), OneCellWorld(1), Grid(1, 1, [[0]]), 1, 1).value;
    EmptyRegionTypesPass(hist);
  }

  lemma EmptyRegionTypesPass(hist: map<int, Entry>)
    requires 0 in hist && 1 in hist && hist[0].Binned?
    ensures MountainLandTypes(Grid(1, 1, [[LAND]]), TwoRegions(0, 1), hist, DEFAULT_MOUNTAIN_CUTOFFS, false).Ok?
  {
    var coverage := Grid(1, 1, [[LAND]]);
    var regions := TwoRegions(0, 1);
    assert MountainLandType(coverage, regions[0], hist[0], DEFAULT_MOUNTAIN_CUTOFFS, false) == Ok(LOWLANDS);
    assert MountainLandType(coverage, regions[1], hist[1], DEFAULT_MOUNTAIN_CUTOFFS, false).Ok?;
  }

  /** Guarded, the world on which the pass as written raises is classified. */
  lemma GuardedEmptyRegionPasses()
    ensures CreateMountains(Grid(1, 1, [[LAND]]), OneCellWorld(0), TwoRegions(1, 0), Grid(1, 1, [[0]]),
                            1, 1.0, DEFAULT_MOUNTAIN_CUTOFFS, true).Ok?
  {
    OneCellFacts(0);
    RavelNonNegative(OneCellWorld(0));
  }

  /**
   * When the areas agree with the ownership grid, guarding empty regions
   * changes no cell of the map: whenever the pass as written succeeds, the
   * guarded pass succeeds with the same map.
   */
  lemma GuardedMountainsAgree(coverage: Grid<int>, own: Grid<int>, regions: seq<RegionRecord>, mountainMap: Grid<int>,
                              zoneCount: int, survivalRate: real, cut: MountainCutoffs)
    requires coverage.Valid() && own.Valid() && mountainMap.Valid() && AreasMatch(own, regions)
    requires CreateMountains(coverage, own, regions, mountainMap, zoneCount, survivalRate, cut, false).Ok?
    ensures CreateMountains(coverage, own, regions, mountainMap, zoneCount, survivalRate, cut, true).Ok?
    ensures CreateMountains(coverage, own, regions, mountainMap, zoneCount, survivalRate, cut, true).value.0
         == CreateMountains(coverage, own, regions, mountainMap, zoneCount, survivalRate, cut, false).value.0
  {
    var a := CreateMountains(coverage, own, regions, mountainMap, zoneCount, survivalRate, cut, false).value.0;
    var b := CreateMountains(coverage, own, regions, mountainMap, zoneCount, survivalRate, cut, true).value.0;
    var k := Survivors(zoneCount, survivalRate);
    forall row | 0 <= row < own.height ensures a.rows[row] == b.rows[row] {
      forall col | 0 <= col < own.width ensures a.rows[row][col] == b.rows[row][col] {
        var id := own.rows[row][col];
        OwnedCellHasArea(own, row, col);
        assert regions[id].area > 0;
        assert LandGrade(coverage, own, regions, zoneCount, k, mountainMap, cut, false, id)
            == LandGrade(coverage, own, regions, zoneCount, k, mountainMap, cut, true, id);
      }
    }
  }

  /** A region that owns a cell owns at least one cell. */
  lemma OwnedCellHasArea(own: Grid<int>, row: int, col: int)
    requires own.Valid() && 0 <= row < own.height && 0 <= col < own.width
    ensures OwnedCells(Ravel(own.rows), own.rows[row][col]) > 0
  {
    RavelMembers(own.rows, own.rows[row][col]);
    PresentOccurs(Ravel(own.rows), own.rows[row][col]);
  }

  lemma {:induction false} PresentOccurs<T>(s: seq<T>, x: T)
    requires x in s
    ensures Occurrences(s, x) > 0
  {
    if s[0] != x {
      PresentOccurs(s[1..], x);
    }
  }

  /* ---------------------------------------------------------------------
   * Island pass (`create_islands`)
   * --------------------------------------------------------------------- */

  /** numpy's broadcast of one dimension: equal sizes, or a size of 1 stretched. */
  function BroadcastDim(a: nat, b: nat): Option<nat> {
    if a == b then Some(a) else if a == 1 then Some(b) else if b == 1 then Some(a) else None
  }

  /** The cell a broadcast array contributes at position `i` of a dimension of size `d`. */
  function Stretch(d: nat, i: nat): nat {
    if d == 1 then 0 else i
  }

  /**
   * `np.where(coverage == ISLANDS, islands, coverage)`: ISLANDS cells take
   * the island map's value, all others keep theirs.  Shapes that do not
   * broadcast raise ValueError.
   */
  function WhereIslands(coverage: Grid<int>, islands: Grid<int>): (r: Result<Grid<int>>)
    requires coverage.Valid() && islands.Valid()
    ensures r.Err? <==> BroadcastDim(coverage.height, islands.height).None? || BroadcastDim(coverage.width, islands.width).None?
    ensures r.Err? ==> r.error == ValueError
    ensures r.Ok? && coverage.SameShape(islands) ==> r.value.Valid() && r.value.SameShape(coverage)
    ensures r.Ok? && coverage.SameShape(islands) ==>
              forall row, col :: 0 <= row < coverage.height && 0 <= col < coverage.width ==>
                r.value.rows[row][col] == (if coverage.rows[row][col] == ISLANDS then islands.rows[row][col] else coverage.rows[row][col])
  {
    var h := BroadcastDim(coverage.height, islands.height);
    var w := BroadcastDim(coverage.width, islands.width);
    if h.None? || w.None? then Err(ValueError)
    else
      Ok(Grid(h.value, w.value, seq(h.value, row requires 0 <= row < h.value =>
        seq(w.value, col requires 0 <= col < w.value =>
          var c := coverage.rows[Stretch(coverage.height, row)][Stretch(coverage.width, col)];
          if c == ISLANDS then islands.rows[Stretch(islands.height, row)][Stretch(islands.width, col)] else c))))
  }

  /**
   * `create_islands`: the first `floor(zone_count * survival_rate)` island
   * clusters become LAND and the rest LITTORAL, and every ISLANDS cell of
   * the coverage map takes the value of its island cluster.
   */
  function CreateIslands(coverage: Grid<int>, islandMap: Grid<int>, zoneCount: int, survivalRate: real): (r: Result<Grid<int>>)
    requires coverage.Valid() && islandMap.Valid()
    ensures !AllIndexable(islandMap, zoneCount) ==> r == Err(IndexError)
    ensures AllIndexable(islandMap, zoneCount) && coverage.SameShape(islandMap) ==> r.Ok?
    ensures r.Err? ==> r.error in {IndexError, ValueError}
    ensures r.Ok? && coverage.SameShape(islandMap) ==> r.value.Valid() && r.value.SameShape(coverage)
    ensures r.Ok? && coverage.SameShape(islandMap) ==>
              forall row, col :: 0 <= row < coverage.height && 0 <= col < coverage.width ==>
                r.value.rows[row][col]
                  == if coverage.rows[row][col] != ISLANDS then coverage.rows[row][col]
                     else if Selected(zoneCount, Survivors(zoneCount, survivalRate), islandMap.rows[row][col]) then LAND
                     else LITTORAL
  {
    var remap := PrefixRemap(zoneCount, Survivors(zoneCount, survivalRate), LAND, LITTORAL);
    var remapped :- TransformArray(islandMap, remap);
    WhereIslands(coverage, remapped)
  }

  /** After the island pass no cell is ISLANDS, and no other cell changed. */
  lemma IslandsResolved(coverage: Grid<int>, islandMap: Grid<int>, zoneCount: int, survivalRate: real)
    requires coverage.Valid() && islandMap.Valid() && coverage.SameShape(islandMap)
    requires AllIndexable(islandMap, zoneCount)
    ensures CreateIslands(coverage, islandMap, zoneCount, survivalRate).Ok?
    ensures var out := CreateIslands(coverage, islandMap, zoneCount, survivalRate).value;
            forall row, col :: 0 <= row < coverage.height && 0 <= col < coverage.width ==>
              && out.rows[row][col] != ISLANDS
              && (coverage.rows[row][col] != ISLANDS ==> out.rows[row][col] == coverage.rows[row][col])
              && (coverage.rows[row][col] == ISLANDS ==> out.rows[row][col] in {LAND, LITTORAL})
  {
  }

  /* ---------------------------------------------------------------------
   * Seam rotation (`rotate_map`)
   * --------------------------------------------------------------------- */

  /** numpy's `%` on integers: the divisor's sign, and 0 (with a warning) for a zero divisor. */
  function NumpyMod(a: int, b: int): (m: int)
    ensures b > 0 ==> 0 <= m < b && m == a % b
    ensures b < 0 ==> b < m <= 0
  {
    if b == 0 then 0 else if b > 0 then a % b else -((-a) % (-b))
  }

  /** `g[:, cols]`: the columns picked in order; a column outside the array raises IndexError. */
  function TakeColumns(g: Grid<int>, cols: seq<int>): (r: Result<Grid<int>>)
    requires g.Valid()
    ensures r.Ok? <==> forall j :: 0 <= j < |cols| ==> PyIndexable(g.width, cols[j])
    ensures r.Err? ==> r.error == IndexError
    ensures r.Ok? ==> r.value.Valid() && r.value.height == g.height && r.value.width == |cols|
    ensures r.Ok? ==> forall row, j :: 0 <= row < g.height && 0 <= j < |cols| ==>
                        r.value.rows[row][j] == g.rows[row][PyPos(g.width, cols[j])]
  {
    if forall j :: 0 <= j < |cols| ==> PyIndexable(g.width, cols[j]) then
      Ok(Grid(g.height, |cols|, seq(g.height, row requires 0 <= row < g.height =>
        seq(|cols|, j requires 0 <= j < |cols| => g.rows[row][PyPos(g.width, cols[j])]))))
    else
      Err(IndexError)
  }

  /** `(np.arange(cols) + n) % world_width`. */
  function RotationColumns(cols: nat, n: int, worldWidth: int): (c: seq<int>)
    ensures |c| == cols
    ensures forall j :: 0 <= j < cols ==> c[j] == NumpyMod(j + n, worldWidth)
  {
    seq(cols, j => NumpyMod(j + n, worldWidth))
  }

  /** The array with its columns rotated left by `n`, modulo the world width. */
  function RotateBy(g: Grid<int>, n: int, worldWidth: int): Result<Grid<int>>
    requires g.Valid()
  {
    TakeColumns(g, RotationColumns(g.width, n, worldWidth))
  }

  /** The number of water cells (code below LAND) in column `c`. */
  function ColumnWater(rows: seq<seq<int>>, c: nat): nat
    requires forall r :: 0 <= r < |rows| ==> c < |rows[r]|
  {
    if |rows| == 0 then 0 else (if rows[0][c] < LAND then 1 else 0) + ColumnWater(rows[1..], c)
  }

  /** `np.sum(coverage < LAND, axis=0)`: the water count of every column. */
  function OceanHistogram(g: Grid<int>): (h: seq<int>)
    requires g.Valid()
    ensures |h| == g.width
    ensures forall c :: 0 <= c < g.width ==> h[c] == ColumnWater(g.rows, c)
  {
    seq(g.width, c requires 0 <= c < g.width => ColumnWater(g.rows, c))
  }

  /** The window half-width `rotate_map` passes to the seam search. */
  const SEAM_WINDOW: nat := 100

  /**
   * The seam column of `rotate_map`: a column with the most water cells,
   * the centre of such a run chosen by its neighbourhood's average.  An
   * array without columns has no maximum and raises ValueError.
   */
  function SeamColumn(g: Grid<int>): (r: Result<nat>)
    requires g.Valid()
    ensures r.Err? <==> g.width == 0
    ensures r.Err? ==> r.error == ValueError
    ensures r.Ok? ==> r.value < g.width
    ensures r.Ok? ==> forall c :: 0 <= c < g.width ==> ColumnWater(g.rows, c) <= ColumnWater(g.rows, r.value)
  {
    var hist := OceanHistogram(g);
    var n :- Utility.MaxIndexWithNeighboringAvg(hist, SEAM_WINDOW);
    assert forall c :: 0 <= c < g.width ==> hist[c] <= hist[n];
    Ok(n)
  }

  /**
   * `rotate_map`: rotate the columns so that the seam column becomes
   * column 0, every column index taken modulo the world width.
   */
  function RotateMap(g: Grid<int>, worldWidth: int): (r: Result<Grid<int>>)
    requires g.Valid()
    ensures g.width == 0 ==> r == Err(ValueError)
    ensures 0 < g.width == worldWidth ==> r.Ok?
    ensures r.Err? ==> r.error in {ValueError, IndexError}
    ensures r.Ok? ==> exists n :: (0 <= n < g.width
              && (forall c :: 0 <= c < g.width ==> ColumnWater(g.rows, c) <= ColumnWater(g.rows, n))
              && r == RotateBy(g, n, worldWidth))
  {
    var n :- SeamColumn(g);
    RotateBy(g, n, worldWidth)
  }

  /** Rotating by `n` with the array's own width moves cell `j` of each row to `(j + n) mod width`. */
  lemma RotateCells(g: Grid<int>, n: int)
    requires g.Valid() && g.width > 0
    ensures RotateBy(g, n, g.width).Ok?
    ensures var out := RotateBy(g, n, g.width).value;
            out.Valid() && out.SameShape(g) &&
            forall row, j :: 0 <= row < g.height && 0 <= j < g.width ==> out.rows[row][j] == g.rows[row][(j + n) % g.width]
  {
  }

  /** Rotation keeps every row's multiset of values. */
  lemma RotatePreservesRows(g: Grid<int>, n: int, row: nat)
    requires g.Valid() && g.width > 0 && row < g.height
    ensures RotateBy(g, n, g.width).Ok?
    ensures multiset(RotateBy(g, n, g.width).value.rows[row]) == multiset(g.rows[row])
  {
    RotateCells(g, n);
    RotatedRow(g.rows[row], RotateBy(g, n, g.width).value.rows[row], n);
  }

  /** A row read cyclically from offset `n` is a permutation of the row. */
  lemma RotatedRow(s: seq<int>, out: seq<int>, n: int)
    requires |s| > 0 && |out| == |s|
    requires forall j :: 0 <= j < |s| ==> out[j] == s[(j + n) % |s|]
    ensures multiset(out) == multiset(s)
  {
    var w := |s|;
    var k := n % w;
    assert out == s[k..] + s[..k] by {
      forall j | 0 <= j < w ensures out[j] == (s[k..] + s[..k])[j] {
        if j < w - k {
          assert (j + n) % w == j + k by { ModShift(j, n, w); }
        } else {
          assert (j + n) % w == j + k - w by { ModShift(j, n, w); }
        }
      }
    }
    assert s == s[..k] + s[k..];
  }

  lemma ModShift(j: int, n: int, w: int)
    requires w > 0 && 0 <= j < w
    ensures j + n % w < w ==> (j + n) % w == j + n % w
    ensures j + n % w >= w ==> (j + n) % w == j + n % w - w
  {
    var q := n / w;
    assert n == q * w + n % w;
    assert j + n == q * w + (j + n % w);
    if j + n % w < w {
      ModUnique(j + n, w, q, j + n % w);
    } else {
      assert j + n == (q + 1) * w + (j + n % w - w);
      ModUnique(j + n, w, q + 1, j + n % w - w);
    }
  }

  lemma ModUnique(a: int, w: int, q: int, r: int)
    requires w > 0 && 0 <= r < w && a == q * w + r
    ensures a % w == r
  {
    var d := q - a / w;
    assert a == (a / w) * w + a % w;
    assert d * w == q * w - (a / w) * w;
    MulBounds(d, w);
  }

  lemma MulBounds(d: int, w: int)
    requires w > 0
    ensures d >= 1 ==> d * w >= w
    ensures d <= -1 ==> d * w <= -w
  {
    if d >= 1 {
      MulLe(1, d, w);
    } else if d <= -1 {
      MulLe(d, -1, w);
    }
  }

  lemma MulLe(a: int, b: int, w: int)
    requires a <= b && w > 0
    ensures a * w <= b * w
  {
    assert b * w - a * w == (b - a) * w;
  }

  /** Rotating back by the complementary amount restores the array. */
  lemma RotateRoundTrip(g: Grid<int>, n: int, m: int)
    requires g.Valid() && g.width > 0 && (n + m) % g.width == 0
    ensures RotateBy(g, n, g.width).Ok?
    ensures RotateBy(RotateBy(g, n, g.width).value, m, g.width) == Ok(g)
  {
    RotateCells(g, n);
    var once := RotateBy(g, n, g.width).value;
    RotateCells(once, m);
    var twice := RotateBy(once, m, g.width).value;
    var w := g.width;
    forall row | 0 <= row < g.height ensures twice.rows[row] == g.rows[row] {
      forall j | 0 <= j < w ensures twice.rows[row][j] == g.rows[row][j] {
        var j1 := (j + m) % w;
        assert twice.rows[row][j] == once.rows[row][j1];
        assert once.rows[row][j1] == g.rows[row][(j1 + n) % w];
        assert (j1 + n) % w == j by { ModSum(j, m, n, w); }
      }
    }
    assert twice.rows == g.rows;
  }

  lemma ModSum(j: int, m: int, n: int, w: int)
    requires w > 0 && 0 <= j < w && (n + m) % w == 0
    ensures ((j + m) % w + n) % w == j
  {
    var a := (j + m) / w;
    var b := (n + m) / w;
    assert j + m == a * w + (j + m) % w;
    assert n + m == b * w;
    assert (j + m) % w + n == j + (b - a) * w;
    ModUnique((j + m) % w + n, w, b - a, j);
  }
}

=== FILE: wfc.dfy ===
/**
 * Wave function collapse (Roguelike/Scratch/wfc.py).  Adjacency constraints
 * are read off a sample grid: for each tile, the tiles seen immediately to
 * its right and immediately below it.  The output grid then starts with
 * every tile possible in every cell; the cell of lowest entropy (fewest
 * options) is collapsed to one option and the options of its right and
 * lower neighbours are narrowed, until no cell is left to collapse or ten
 * collapses have met an empty cell (each of which restarts the grid).
 */
module Wfc {
  import opened Results
  import opened SeqUtil
  import opened OrderedDict

  type Tile = int

  /** A grid position `(i, j)`: row, then column. */
  type Cell = (nat, nat)

  // ---------------------------------------------------------------- constraints

  /** `{"R": [...], "B": [...]}`: the tiles seen right of a tile and below it. */
  datatype Neighbours = Neighbours(right: seq<Tile>, below: seq<Tile>)

  /** The constraints dictionary, keyed by tile in order of first sight. */
  type Constraints = Dict<Tile, Neighbours>

  /** `if x not in lst: lst.append(x)`. */
  function AddNew(s: seq<Tile>, x: Tile): (r: seq<Tile>)
    ensures NoDup(s) ==> NoDup(r)
    ensures forall y :: y in r <==> y in s || y == x
  {
    if x in s then s else s + [x]
  }

  /** A tile's entry, or the empty one `constraints[tile] = {"R": [], "B": []}` creates. */
  function EntryOf(d: Constraints, t: Tile): Neighbours {
    if t in d.items then d.items[t] else Neighbours([], [])
  }

  /** The sample has a value at `c`. */
  predicate Holds(sample: seq<seq<Tile>>, c: Cell) {
    c.0 < |sample| && c.1 < |sample[c.0]|
  }

  /** The sample holds `t` at `c`. */
  predicate TileIs(sample: seq<seq<Tile>>, c: Cell, t: Tile) {
    Holds(sample, c) && sample[c.0][c.1] == t
  }

  /** `t` at `c` with `x` immediately to its right, inside the first `cols` columns. */
  predicate RightOf(sample: seq<seq<Tile>>, cols: nat, c: Cell, t: Tile, x: Tile) {
    c.1 + 1 < cols && TileIs(sample, c, t) && TileIs(sample, (c.0, c.1 + 1), x)
  }

  /** `t` at `c` with `x` immediately below it. */
  predicate BelowOf(sample: seq<seq<Tile>>, c: Cell, t: Tile, x: Tile) {
    TileIs(sample, c, t) && TileIs(sample, (c.0 + 1, c.1), x)
  }

  /**
   * The subscripts one pass of the loop body makes at `c` stay inside the
   * sample: the cell itself, its right neighbour when `j + 1 < cols`, and
   * the cell below when `i + 1 < rows`.
   */
  predicate Reads(sample: seq<seq<Tile>>, cols: nat, c: Cell) {
    && Holds(sample, c)
    && (c.1 + 1 < cols ==> Holds(sample, (c.0, c.1 + 1)))
    && (c.0 + 1 < |sample| ==> Holds(sample, (c.0 + 1, c.1)))
  }

  /** A tile's entry after the visit of `c` records the tiles right of and below `c`. */
  function Record(nb: Neighbours, sample: seq<seq<Tile>>, cols: nat, c: Cell): (r: Neighbours)
    requires Reads(sample, cols, c)
    ensures NoDup(nb.right) && NoDup(nb.below) ==> NoDup(r.right) && NoDup(r.below)
  {
    Neighbours(
      if c.1 + 1 < cols then AddNew(nb.right, sample[c.0][c.1 + 1]) else nb.right,
      if c.0 + 1 < |sample| then AddNew(nb.below, sample[c.0 + 1][c.1]) else nb.below)
  }

  /**
   * One pass of the loop body of `generate_constraints_from_sample` at
   * cell `c`.  Its subscripts, in order: the cell, its right neighbour
   * when `j + 1 < cols`, the cell below when `i + 1 < rows`; a row too
   * short for one raises IndexError.  Registering a new tile (at the end of
   * the key order) and appending to its lists in place is one `Put`.
   */
  function Visit(d: Constraints, sample: seq<seq<Tile>>, cols: nat, c: Cell): (r: Result<Constraints>)
    requires d.Valid() && c.0 < |sample|
    ensures r.Ok? <==> Reads(sample, cols, c)
    ensures r.Err? ==> r.error == IndexError
    ensures r.Ok? ==> r.value.Valid()
  {
    var (i, j) := c;
    if !Holds(sample, c) then Err(IndexError)
    else if j + 1 < cols && !Holds(sample, (i, j + 1)) then Err(IndexError)
    else if i + 1 < |sample| && !Holds(sample, (i + 1, j)) then Err(IndexError)
    else
      var tile := sample[i][j];
      Ok(d.Put(tile, Record(EntryOf(d, tile), sample, cols, c)))
  }

  /** The loop run over the cells `cs`, in order, from an empty dictionary. */
  function Scan(sample: seq<seq<Tile>>, cols: nat, cs: seq<Cell>): (r: Result<Constraints>)
    requires forall k :: 0 <= k < |cs| ==> cs[k].0 < |sample|
    ensures r.Ok? ==> r.value.Valid()
    ensures r.Err? ==> r.error == IndexError
    decreases |cs|
  {
    if |cs| == 0 then Ok(Empty())
    else
      var n := |cs| - 1;
      var d :- Scan(sample, cols, cs[..n]);
      Visit(d, sample, cols, cs[n])
  }

  /** Every visit among `cs` stays inside the sample, checked from the last visit back. */
  predicate AllRead(sample: seq<seq<Tile>>, cols: nat, cs: seq<Cell>)
    decreases |cs|
  {
    |cs| == 0 || (AllRead(sample, cols, cs[..|cs| - 1]) && Reads(sample, cols, cs[|cs| - 1]))
  }

  /** `AllRead` is the pointwise condition. */
  lemma {:induction false} AllReadMeans(sample: seq<seq<Tile>>, cols: nat, cs: seq<Cell>)
    ensures AllRead(sample, cols, cs) <==> forall k :: 0 <= k < |cs| ==> Reads(sample, cols, cs[k])
    decreases |cs|
  {
    if |cs| > 0 {
      var n := |cs| - 1;
      AllReadMeans(sample, cols, cs[..n]);
      assert forall k :: 0 <= k < n ==> cs[..n][k] == cs[k];
    }
  }

  /** The scan completes exactly when every cell's reads stay inside the sample. */
  lemma {:induction false} ScanOk(sample: seq<seq<Tile>>, cols: nat, cs: seq<Cell>)
    requires forall k :: 0 <= k < |cs| ==> cs[k].0 < |sample|
    ensures Scan(sample, cols, cs).Ok? <==> forall k :: 0 <= k < |cs| ==> Reads(sample, cols, cs[k])
    decreases |cs|
  {
    ScanAllRead(sample, cols, cs);
    AllReadMeans(sample, cols, cs);
  }

  /** The scan completes exactly when `AllRead` holds. */
  lemma {:induction false} ScanAllRead(sample: seq<seq<Tile>>, cols: nat, cs: seq<Cell>)
    requires forall k :: 0 <= k < |cs| ==> cs[k].0 < |sample|
    ensures Scan(sample, cols, cs).Ok? <==> AllRead(sample, cols, cs)
    decreases |cs|
  {
    if |cs| > 0 {
      ScanAllRead(sample, cols, cs[..|cs| - 1]);
    }
  }

  /** The entry a visit leaves for each tile: the visited tile's lists extended, every other entry as it was. */
  lemma VisitEntry(d: Constraints, sample: seq<seq<Tile>>, cols: nat, c: Cell, t: Tile)
    requires d.Valid() && c.0 < |sample| && Reads(sample, cols, c)
    ensures var d' := Visit(d, sample, cols, c).value;
            && (t in d'.items <==> t in d.items || t == sample[c.0][c.1])
            && EntryOf(d', t) == if t == sample[c.0][c.1] then Record(EntryOf(d, t), sample, cols, c) else EntryOf(d, t)
  {
  }

  /** The keys are exactly the tiles of the visited cells. */
  ghost predicate KeysSeen(d: Constraints, sample: seq<seq<Tile>>, cs: seq<Cell>) {
    forall t :: t in d.items <==> exists c :: c in cs && TileIs(sample, c, t)
  }

  /** Every tile's lists are duplicate-free. */
  ghost predicate ListsDistinct(d: Constraints) {
    forall t :: NoDup(EntryOf(d, t).right) && NoDup(EntryOf(d, t).below)
  }

  /** `R` of every tile holds exactly the tiles seen right of it in the visited cells. */
  ghost predicate RightSeen(d: Constraints, sample: seq<seq<Tile>>, cols: nat, cs: seq<Cell>) {
    forall t, x :: x in EntryOf(d, t).right <==> exists c :: c in cs && RightOf(sample, cols, c, t, x)
  }

  /** `B` of every tile holds exactly the tiles seen below it in the visited cells. */
  ghost predicate BelowSeen(d: Constraints, sample: seq<seq<Tile>>, cs: seq<Cell>) {
    forall t, x :: x in EntryOf(d, t).below <==> exists c :: c in cs && BelowOf(sample, c, t, x)
  }

  /** After a completed scan all four hold. */
  ghost predicate Describes(d: Constraints, sample: seq<seq<Tile>>, cols: nat, cs: seq<Cell>) {
    KeysSeen(d, sample, cs) && ListsDistinct(d) && RightSeen(d, sample, cols, cs) && BelowSeen(d, sample, cs)
  }

  lemma VisitKeys(d: Constraints, sample: seq<seq<Tile>>, cols: nat, cs: seq<Cell>, c: Cell)
    requires d.Valid() && c.0 < |sample| && Reads(sample, cols, c) && KeysSeen(d, sample, cs)
    ensures KeysSeen(Visit(d, sample, cols, c).value, sample, cs + [c])
  {
    var d' := Visit(d, sample, cols, c).value;
    forall t ensures t in d'.items <==> exists c' :: c' in cs + [c] && TileIs(sample, c', t) {
      VisitEntry(d, sample, cols, c, t);
      if t == sample[c.0][c.1] {
        assert c in cs + [c] && TileIs(sample, c, t);
      }
    }
  }

  lemma VisitDistinct(d: Constraints, sample: seq<seq<Tile>>, cols: nat, c: Cell)
    requires d.Valid() && c.0 < |sample| && Reads(sample, cols, c) && ListsDistinct(d)
    ensures ListsDistinct(Visit(d, sample, cols, c).value)
  {
    forall t ensures NoDup(EntryOf(Visit(d, sample, cols, c).value, t).right) && NoDup(EntryOf(Visit(d, sample, cols, c).value, t).below) {
      VisitEntry(d, sample, cols, c, t);
    }
  }

  lemma VisitRight(d: Constraints, sample: seq<seq<Tile>>, cols: nat, cs: seq<Cell>, c: Cell)
    requires d.Valid() && c.0 < |sample| && Reads(sample, cols, c) && RightSeen(d, sample, cols, cs)
    ensures RightSeen(Visit(d, sample, cols, c).value, sample, cols, cs + [c])
  {
    var d' := Visit(d, sample, cols, c).value;
    forall t, x ensures x in EntryOf(d', t).right <==> exists c' :: c' in cs + [c] && RightOf(sample, cols, c', t, x) {
      VisitEntry(d, sample, cols, c, t);
      if t == sample[c.0][c.1] && c.1 + 1 < cols && x == sample[c.0][c.1 + 1] {
        assert c in cs + [c] && RightOf(sample, cols, c, t, x);
      }
    }
  }

  lemma VisitBelow(d: Constraints, sample: seq<seq<Tile>>, cols: nat, cs: seq<Cell>, c: Cell)
    requires d.Valid() && c.0 < |sample| && Reads(sample, cols, c) && BelowSeen(d, sample, cs)
    ensures BelowSeen(Visit(d, sample, cols, c).value, sample, cs + [c])
  {
    var d' := Visit(d, sample, cols, c).value;
    forall t, x ensures x in EntryOf(d', t).below <==> exists c' :: c' in cs + [c] && BelowOf(sample, c', t, x) {
      VisitEntry(d, sample, cols, c, t);
      if t == sample[c.0][c.1] && c.0 + 1 < |sample| && x == sample[c.0 + 1][c.1] {
        assert c in cs + [c] && BelowOf(sample, c, t, x);
      }
    }
  }

  /** A completed scan describes the cells it visited. */
  lemma {:induction false} ScanDescribes(sample: seq<seq<Tile>>, cols: nat, cs: seq<Cell>)
    requires forall k :: 0 <= k < |cs| ==> cs[k].0 < |sample|
    requires Scan(sample, cols, cs).Ok?
    ensures Describes(Scan(sample, cols, cs).value, sample, cols, cs)
    decreases |cs|
  {
    if |cs| > 0 {
      var n := |cs| - 1;
      ScanDescribes(sample, cols, cs[..n]);
      assert cs[..n] + [cs[n]] == cs;
      var d := Scan(sample, cols, cs[..n]).value;
      VisitKeys(d, sample, cols, cs[..n], cs[n]);
      VisitDistinct(d, sample, cols, cs[n]);
      VisitRight(d, sample, cols, cs[..n], cs[n]);
      VisitBelow(d, sample, cols, cs[..n], cs[n]);
    } else {
      assert Scan(sample, cols, cs) == Ok(Empty());
    }
  }

  /** The cells of row `i`, left to right. */
  function RowCells(i: nat, cols: nat): (cs: seq<Cell>)
    ensures |cs| == cols && forall j :: 0 <= j < cols ==> cs[j] == (i, j)
  {
    seq(cols, j requires 0 <= j < cols => (i, j))
  }

  /** `for i in range(rows): for j in range(cols)`: the cells in row-major order. */
  function Cells(rows: nat, cols: nat): (cs: seq<Cell>)
    ensures forall k :: 0 <= k < |cs| ==> cs[k].0 < rows && cs[k].1 < cols
  {
    if rows == 0 then [] else Cells(rows - 1, cols) + RowCells(rows - 1, cols)
  }

  /** Every cell of the grid is visited. */
  lemma {:induction false} CellsCover(rows: nat, cols: nat, i: nat, j: nat)
    requires i < rows && j < cols
    ensures (i, j) in Cells(rows, cols)
    decreases rows
  {
    if i < rows - 1 {
      CellsCover(rows - 1, cols, i, j);
    } else {
      assert RowCells(rows - 1, cols)[j] == (i, j);
    }
  }

  /**
   * `generate_constraints_from_sample(sample)`: `rows, cols = len(sample),
   * len(sample[0])`, then every cell in row-major order.  An empty sample,
   * or a row shorter than the first, raises IndexError.
   */
  function Generate(sample: seq<seq<Tile>>): (r: Result<Constraints>)
    ensures r.Err? ==> r.error == IndexError
    ensures r.Ok? ==> r.value.Valid()
  {
    if |sample| == 0 then Err(IndexError)
    else Scan(sample, |sample[0]|, Cells(|sample|, |sample[0]|))
  }

  /** No row is shorter than the first. */
  predicate Rectangular(sample: seq<seq<Tile>>) {
    |sample| > 0 && forall i :: 0 <= i < |sample| ==> |sample[i]| >= |sample[0]|
  }

  /** Generation fails exactly on an empty sample or one with a row shorter than the first. */
  lemma GenerateRaises(sample: seq<seq<Tile>>)
    ensures Generate(sample).Ok? <==> Rectangular(sample)
  {
    if |sample| > 0 {
      var cols := |sample[0]|;
      var cs := Cells(|sample|, cols);
      ScanOk(sample, cols, cs);
      if !Rectangular(sample) {
        var i :| 0 <= i < |sample| && |sample[i]| < cols;
        CellsCover(|sample|, cols, i, |sample[i]|);
        var k :| 0 <= k < |cs| && cs[k] == (i, |sample[i]|);
        assert !Reads(sample, cols, cs[k]);
      }
    }
  }

  /** `Cells` lists exactly the cells of the grid. */
  lemma CellsExactly(rows: nat, cols: nat, c: Cell)
    ensures c in Cells(rows, cols) <==> c.0 < rows && c.1 < cols
  {
    if c.0 < rows && c.1 < cols {
      CellsCover(rows, cols, c.0, c.1);
    }
  }

  /** A rectangular sample generates constraints describing all of its cells. */
  lemma Generated(sample: seq<seq<Tile>>)
    requires Rectangular(sample)
    ensures Generate(sample).Ok?
    ensures Describes(Generate(sample).value, sample, |sample[0]|, Cells(|sample|, |sample[0]|))
  {
    GenerateRaises(sample);
    ScanDescribes(sample, |sample[0]|, Cells(|sample|, |sample[0]|));
  }

  /** The keys of the generated constraints are exactly the tiles of the sample. */
  lemma GenerateKeys(sample: seq<seq<Tile>>, t: Tile)
    requires Rectangular(sample)
    ensures Generate(sample).Ok?
    ensures t in Generate(sample).value.items <==> exists c: Cell :: c.1 < |sample[0]| && TileIs(sample, c, t)
  {
    Generated(sample);
    if exists c: Cell :: c.1 < |sample[0]| && TileIs(sample, c, t) {
      var c: Cell :| c.1 < |sample[0]| && TileIs(sample, c, t);
      CellsExactly(|sample|, |sample[0]|, c);
    }
    if t in Generate(sample).value.items {
      var c :| c in Cells(|sample|, |sample[0]|) && TileIs(sample, c, t);
      CellsExactly(|sample|, |sample[0]|, c);
    }
  }

  /** `R` of a tile lists, without repeats, exactly the tiles seen immediately right of it. */
  lemma GenerateRight(sample: seq<seq<Tile>>, t: Tile, x: Tile)
    requires Rectangular(sample)
    ensures Generate(sample).Ok?
    ensures NoDup(EntryOf(Generate(sample).value, t).right)
    ensures x in EntryOf(Generate(sample).value, t).right <==> exists c: Cell :: RightOf(sample, |sample[0]|, c, t, x)
  {
    Generated(sample);
    if exists c: Cell :: RightOf(sample, |sample[0]|, c, t, x) {
      var c: Cell :| RightOf(sample, |sample[0]|, c, t, x);
      CellsExactly(|sample|, |sample[0]|, c);
    }
  }

  /** `B` of a tile lists, without repeats, exactly the tiles seen immediately below it. */
  lemma GenerateBelow(sample: seq<seq<Tile>>, t: Tile, x: Tile)
    requires Rectangular(sample)
    ensures Generate(sample).Ok?
    ensures NoDup(EntryOf(Generate(sample).value, t).below)
    ensures x in EntryOf(Generate(sample).value, t).below <==> exists c: Cell :: c.1 < |sample[0]| && BelowOf(sample, c, t, x)
  {
    Generated(sample);
    if exists c: Cell :: c.1 < |sample[0]| && BelowOf(sample, c, t, x) {
      var c: Cell :| c.1 < |sample[0]| && BelowOf(sample, c, t, x);
      CellsExactly(|sample|, |sample[0]|, c);
    }
    if x in EntryOf(Generate(sample).value, t).below {
      var c :| c in Cells(|sample|, |sample[0]|) && BelowOf(sample, c, t, x);
      CellsExactly(|sample|, |sample[0]|, c);
    }
  }

  // ---------------------------------------------------------------- the wave

  /** A heap entry `(entropy, (i, j))`. */
  datatype Entry = Entry(entropy: int, row: int, col: int)

  /** Python's tuple order on entries: entropy, then row, then column. */
  predicate NoLater(a: Entry, b: Entry) {
    a.entropy < b.entropy || (a.entropy == b.entropy && (a.row < b.row || (a.row == b.row && a.col <= b.col)))
  }

  /**
   * The `WaveFunctionCollapse` object: the constraints, the output shape,
   * each cell's remaining options (a Python set, here a duplicate-free
   * sequence) and the entropy heap (its contents; `heapq` only orders
   * them).
   */
  datatype Wave = Wave(constraints: Constraints, rows: nat, cols: nat, output: seq<seq<seq<Tile>>>, heap: seq<Entry>) {

    /** The output has the requested shape and every heap entry names one of its cells. */
    predicate Valid() {
      && constraints.Valid()
      && |output| == rows
      && (forall i :: 0 <= i < rows ==> |output[i]| == cols)
      && (forall e :: e in heap ==> 0 <= e.row < rows && 0 <= e.col < cols)
    }

    /** Every cell's options are distinct tiles of the constraints. */
    predicate Known()
      requires Valid()
    {
      forall i, j :: 0 <= i < rows && 0 <= j < cols ==>
        NoDup(output[i][j]) && forall k :: 0 <= k < |output[i][j]| ==> output[i][j][k] in constraints.items
    }
  }

  /** `self.tiles`: the constraint keys, in dictionary order. */
  function Tiles(constraints: Constraints): seq<Tile> {
    constraints.order
  }

  /**
   * `initialize_output()`: every cell may hold any tile, and the heap has
   * one entry `(len(tiles), (i, j))` per cell.
   */
  function Initial(constraints: Constraints, rows: nat, cols: nat): (w: Wave)
    requires constraints.Valid()
    ensures w.Valid() && w.Known()
    ensures w.constraints == constraints && w.rows == rows && w.cols == cols
    ensures forall i, j :: 0 <= i < rows && 0 <= j < cols ==> w.output[i][j] == Tiles(constraints)
  {
    var cs := Cells(rows, cols);
    Wave(constraints, rows, cols,
         seq(rows, _ => seq(cols, _ => Tiles(constraints))),
         seq(|cs|, k requires 0 <= k < |cs| => Entry(|Tiles(constraints)|, cs[k].0, cs[k].1)))
  }

  /** The entry's entropy is the current option count of its cell: the heap's record of it is up to date. */
  predicate Fresh(w: Wave, e: Entry) {
    0 <= e.row < |w.output| && 0 <= e.col < |w.output[e.row]| && e.entropy == |w.output[e.row][e.col]|
  }

  /** The index of a least entry: `heappop`'s choice. */
  function MinIndex(heap: seq<Entry>): (k: nat)
    requires |heap| > 0
    ensures k < |heap| && forall j :: 0 <= j < |heap| ==> NoLater(heap[k], heap[j])
  {
    if |heap| == 1 then 0
    else
      var k := MinIndex(heap[..|heap| - 1]);
      assert forall j :: 0 <= j < |heap| - 1 ==> heap[..|heap| - 1][j] == heap[j];
      if NoLater(heap[k], heap[|heap| - 1]) then k else |heap| - 1
  }

  /** `3^n`. */
  function Pow3(n: nat): (p: nat)
    ensures p >= 1
  {
    if n == 0 then 1 else 3 * Pow3(n - 1)
  }

  /**
   * What an entry contributes to the termination measure of `run`: entries
   * nearer the top-left weigh more, each three times its right or lower
   * neighbour.
   */
  function Weight(span: nat, e: Entry): nat {
    if 0 <= e.row && 0 <= e.col && e.row + e.col <= span then Pow3(span - e.row - e.col) else 0
  }

  /** The total weight of the heap's entries. */
  function Potential(span: nat, heap: seq<Entry>): nat
    decreases |heap|
  {
    if |heap| == 0 then 0 else Potential(span, heap[..|heap| - 1]) + Weight(span, heap[|heap| - 1])
  }

  /** The termination measure of `run`: the weight of the heap, over a grid of the wave's size. */
  function Measure(w: Wave): nat {
    Potential(w.rows + w.cols, w.heap)
  }

  /** The measure adds up over concatenation. */
  lemma {:induction false} PotentialAppend(span: nat, a: seq<Entry>, b: seq<Entry>)
    ensures Potential(span, a + b) == Potential(span, a) + Potential(span, b)
    decreases |b|
  {
    if |b| > 0 {
      var n := |b| - 1;
      PotentialAppend(span, a, b[..n]);
      assert (a + b)[..|a + b| - 1] == a + b[..n];
    } else {
      assert a + b == a;
    }
  }

  /** Removing the entry at `k` takes exactly its weight off the measure. */
  lemma PotentialRemove(span: nat, heap: seq<Entry>, k: nat)
    requires k < |heap|
    ensures Potential(span, heap) == Potential(span, Without(heap, k)) + Weight(span, heap[k])
  {
    assert heap == heap[..k] + [heap[k]] + heap[k + 1..];
    PotentialAppend(span, heap[..k] + [heap[k]], heap[k + 1..]);
    PotentialAppend(span, heap[..k], [heap[k]]);
    PotentialAppend(span, heap[..k], heap[k + 1..]);
    assert Potential(span, [heap[k]]) == Weight(span, heap[k]) by {
      assert [heap[k]][..0] == [];
    }
  }

  /** The heap after popping the entry at `k`. */
  function Without(heap: seq<Entry>, k: nat): (r: seq<Entry>)
    requires k < |heap|
    ensures |r| == |heap| - 1
    ensures forall e :: e in r ==> e in heap
    ensures forall e :: e in heap && e != heap[k] ==> e in r
  {
    assert heap == heap[..k] + [heap[k]] + heap[k + 1..];
    heap[..k] + heap[k + 1..]
  }

  /**
   * `pop_lowest_entropy_cell()`: pops least entries until one is fresh,
   * which it returns (the cell, with its entropy); None once the heap runs
   * out.  Only the heap changes, and only by losing entries.
   */
  function PopLowest(w: Wave): (r: (Option<Entry>, Wave))
    ensures r.1 == w.(heap := r.1.heap)
    ensures forall e :: e in r.1.heap ==> e in w.heap
    decreases |w.heap|
  {
    if |w.heap| == 0 then (None, w)
    else
      var k := MinIndex(w.heap);
      if Fresh(w, w.heap[k]) then (Some(w.heap[k]), w.(heap := Without(w.heap, k)))
      else PopLowest(w.(heap := Without(w.heap, k)))
  }

  /**
   * The popped entry is fresh and no fresh entry comes before it; every
   * other fresh entry stays on the heap; None means no entry was fresh,
   * and leaves the heap empty.
   */
  lemma {:induction false} PopLowestFinds(w: Wave)
    ensures var r := PopLowest(w);
            && (r.0.None? <==> forall k :: 0 <= k < |w.heap| ==> !Fresh(w, w.heap[k]))
            && (r.0.None? ==> r.1.heap == [])
            && (r.0.Some? ==> var p := r.0.value;
                  && p in w.heap && Fresh(w, p)
                  && (forall k :: 0 <= k < |w.heap| && Fresh(w, w.heap[k]) ==> NoLater(p, w.heap[k]))
                  && (forall e :: e in w.heap && Fresh(w, e) && e != p ==> e in r.1.heap))
    decreases |w.heap|
  {
    if |w.heap| > 0 {
      var k := MinIndex(w.heap);
      var w' := w.(heap := Without(w.heap, k));
      if !Fresh(w, w.heap[k]) {
        PopLowestFinds(w');
        assert forall e :: Fresh(w', e) == Fresh(w, e);
        forall j | 0 <= j < |w.heap| && Fresh(w, w.heap[j]) ensures w.heap[j] in w'.heap {
        }
        forall j | 0 <= j < |w'.heap| ensures w'.heap[j] in w.heap {
          assert w'.heap[j] in w'.heap;
        }
      }
    }
  }

  /** What `run` needs of a pop: the wave stays valid, and a popped cell lies in the grid. */
  lemma PopLowestValid(w: Wave)
    requires w.Valid()
    ensures var r := PopLowest(w);
            && r.1.Valid()
            && (r.0.Some? ==> Fresh(w, r.0.value) && 0 <= r.0.value.row < w.rows && 0 <= r.0.value.col < w.cols)
  {
    PopLowestFinds(w);
  }

  /** Popping a fresh entry takes at least its weight off the measure. */
  lemma {:induction false} PopLowestShrinks(w: Wave, span: nat)
    requires PopLowest(w).0.Some?
    ensures Potential(span, PopLowest(w).1.heap) + Weight(span, PopLowest(w).0.value) <= Potential(span, w.heap)
    decreases |w.heap|
  {
    var k := MinIndex(w.heap);
    PotentialRemove(span, w.heap, k);
    if !Fresh(w, w.heap[k]) {
      PopLowestShrinks(w.(heap := Without(w.heap, k)), span);
    }
  }

  /** `output[i, j] = v`. */
  function SetCell(output: seq<seq<seq<Tile>>>, i: nat, j: nat, v: seq<Tile>): (r: seq<seq<seq<Tile>>>)
    requires i < |output| && j < |output[i]|
    ensures |r| == |output| && forall a :: 0 <= a < |r| ==> |r[a]| == |output[a]|
    ensures r[i][j] == v
    ensures forall a, b :: 0 <= a < |r| && 0 <= b < |r[a]| && (a != i || b != j) ==> r[a][b] == output[a][b]
  {
    output[i := output[i][j := v]]
  }

  /**
   * `collapse_cell((i, j))`: an empty cell restarts the whole grid and
   * reports False; otherwise the cell is narrowed to the one option
   * `random.choice` picks, here the option at index `pick` modulo their
   * number.
   */
  function Collapse(w: Wave, i: nat, j: nat, pick: nat): (r: (bool, Wave))
    requires w.Valid() && i < w.rows && j < w.cols
    ensures r.0 <==> |w.output[i][j]| > 0
    ensures !r.0 ==> r.1 == Initial(w.constraints, w.rows, w.cols)
    ensures r.0 ==> r.1 == w.(output := r.1.output) && r.1.Valid()
    ensures r.0 ==> |r.1.output[i][j]| == 1 && r.1.output[i][j][0] in w.output[i][j]
    ensures r.0 ==> forall a, b :: 0 <= a < w.rows && 0 <= b < w.cols && (a != i || b != j) ==> r.1.output[a][b] == w.output[a][b]
  {
    var options := w.output[i][j];
    if |options| == 0 then (false, Initial(w.constraints, w.rows, w.cols))
    else (true, w.(output := SetCell(w.output, i, j, [options[pick % |options|]])))
  }

  /** `options.intersection(allowed)`, keeping the options' order. */
  function Filter(s: seq<Tile>, allowed: seq<Tile>): (r: seq<Tile>)
    ensures forall x :: x in r <==> x in s && x in allowed
    ensures NoDup(s) ==> NoDup(r)
    decreases |s|
  {
    if |s| == 0 then []
    else
      var n := |s| - 1;
      assert forall x :: x in s <==> x in s[..n] || x == s[n] by {
        assert s == s[..n] + [s[n]];
      }
      assert NoDup(s) ==> NoDup(s[..n]) && s[n] !in s[..n];
      Filter(s[..n], allowed) + if s[n] in allowed then [s[n]] else []
  }

  /** One neighbour's update in `propagate`: narrow its options to `allowed`, then push its new entropy. */
  function Narrow(w: Wave, a: nat, b: nat, allowed: seq<Tile>): (r: Wave)
    requires w.Valid() && a < w.rows && b < w.cols
    ensures r.Valid() && r.constraints == w.constraints && r.rows == w.rows && r.cols == w.cols
    ensures forall x :: x in r.output[a][b] <==> x in w.output[a][b] && x in allowed
    ensures NoDup(w.output[a][b]) ==> NoDup(r.output[a][b])
    ensures forall i, j :: 0 <= i < w.rows && 0 <= j < w.cols && (i != a || j != b) ==> r.output[i][j] == w.output[i][j]
    ensures r.heap == w.heap + [Entry(|r.output[a][b]|, a, b)]
  {
    var options := Filter(w.output[a][b], allowed);
    w.(output := SetCell(w.output, a, b, options), heap := w.heap + [Entry(|options|, a, b)])
  }

  /**
   * `propagate((i, j))`: the cell's first option is the chosen tile (an
   * empty cell raises IndexError, a tile without constraints KeyError);
   * the right neighbour is narrowed to the tiles allowed right of it, and
   * the lower neighbour to those allowed below it.
   */
  function Propagate(w: Wave, i: nat, j: nat): (r: Result<Wave>)
    requires w.Valid() && i < w.rows && j < w.cols
    ensures r.Err? <==> |w.output[i][j]| == 0 || w.output[i][j][0] !in w.constraints.items
    ensures r.Err? ==> r.error == if |w.output[i][j]| == 0 then IndexError else KeyError
    ensures r.Ok? ==> r.value.Valid() && r.value.constraints == w.constraints && r.value.rows == w.rows && r.value.cols == w.cols
    ensures r.Ok? ==> PushedNeighbours(w.heap, r.value.heap, i, j)
  {
    var options := w.output[i][j];
    if |options| == 0 then Err(IndexError)
    else
      var chosen := options[0];
      if chosen !in w.constraints.items then Err(KeyError)
      else
        var nb := w.constraints.items[chosen];
        NarrowRightHeap(w, i, j, nb);
        NarrowBelowHeap(NarrowRight(w, i, j, nb), i, j, nb);
        Ok(NarrowBelow(NarrowRight(w, i, j, nb), i, j, nb))
  }

  /** The right-neighbour half of `propagate`: nothing happens in the last column. */
  function NarrowRight(w: Wave, i: nat, j: nat, nb: Neighbours): (r: Wave)
    requires w.Valid() && i < w.rows && j < w.cols
    ensures r.Valid() && r.constraints == w.constraints && r.rows == w.rows && r.cols == w.cols
  {
    if j + 1 < w.cols then Narrow(w, i, j + 1, nb.right) else w
  }

  /** The lower-neighbour half of `propagate`: nothing happens in the last row. */
  function NarrowBelow(w: Wave, i: nat, j: nat, nb: Neighbours): (r: Wave)
    requires w.Valid() && i < w.rows && j < w.cols
    ensures r.Valid() && r.constraints == w.constraints && r.rows == w.rows && r.cols == w.cols
  {
    if i + 1 < w.rows then Narrow(w, i + 1, j, nb.below) else w
  }

  /**
   * After propagating from `(i, j)`: the right neighbour keeps exactly the
   * options the chosen tile allows to its right, the lower neighbour
   * exactly those allowed below it, and every other cell is untouched.
   */
  lemma PropagateNarrows(w: Wave, i: nat, j: nat)
    requires w.Valid() && i < w.rows && j < w.cols && Propagate(w, i, j).Ok?
    ensures var r := Propagate(w, i, j).value;
            var nb := w.constraints.items[w.output[i][j][0]];
            && (j + 1 < w.cols ==> forall x :: x in r.output[i][j + 1] <==> x in w.output[i][j + 1] && x in nb.right)
            && (i + 1 < w.rows ==> forall x :: x in r.output[i + 1][j] <==> x in w.output[i + 1][j] && x in nb.below)
            && (forall a, b :: 0 <= a < w.rows && 0 <= b < w.cols && (a, b) != (i, j + 1) && (a, b) != (i + 1, j) ==>
                  r.output[a][b] == w.output[a][b])
  {
  }

  /**
   * The heap keeps its entries and gains a fresh entry for each narrowed
   * neighbour.
   */
  lemma PropagatePushes(w: Wave, i: nat, j: nat)
    requires w.Valid() && i < w.rows && j < w.cols && Propagate(w, i, j).Ok?
    ensures var r := Propagate(w, i, j).value;
            && (forall e :: e in w.heap ==> e in r.heap)
            && (j + 1 < w.cols ==> Entry(|r.output[i][j + 1]|, i, j + 1) in r.heap)
            && (i + 1 < w.rows ==> Entry(|r.output[i + 1][j]|, i + 1, j) in r.heap)
  {
  }

  /** `NarrowRight` pushes nothing in the last column, and otherwise one entry for the right neighbour. */
  lemma NarrowRightHeap(w: Wave, i: nat, j: nat, nb: Neighbours)
    requires w.Valid() && i < w.rows && j < w.cols
    ensures PushedRight(w.heap, NarrowRight(w, i, j, nb).heap, i, j)
  {
  }

  /** `NarrowBelow` pushes nothing in the last row, and otherwise one entry for the lower neighbour. */
  lemma NarrowBelowHeap(w: Wave, i: nat, j: nat, nb: Neighbours)
    requires w.Valid() && i < w.rows && j < w.cols
    ensures PushedBelow(w.heap, NarrowBelow(w, i, j, nb).heap, i, j)
  {
  }

  /** `h'` is `h` with at most one entry pushed, for the cell `(r, c)`. */
  predicate PushedAtMost(h: seq<Entry>, h': seq<Entry>, r: int, c: int) {
    |h| <= |h'| <= |h| + 1 && h'[..|h|] == h && forall k :: |h| <= k < |h'| ==> h'[k].row == r && h'[k].col == c
  }

  /** Pushing at most one entry for the cell `(r, c)` adds at most that cell's weight. */
  lemma PushedWeight(span: nat, h: seq<Entry>, h': seq<Entry>, r: int, c: int)
    requires PushedAtMost(h, h', r, c)
    ensures Potential(span, h') <= Potential(span, h) + Weight(span, Entry(0, r, c))
  {
    if |h'| > |h| {
      assert h'[..|h'| - 1] == h;
    } else {
      assert h' == h;
    }
  }

  /** The right and lower neighbours together weigh less than the cell: each weighs a third of it. */
  lemma NeighboursLighter(span: nat, p: Entry)
    requires 0 <= p.row && 0 <= p.col && p.row + p.col < span
    ensures Weight(span, Entry(0, p.row, p.col + 1)) + Weight(span, Entry(0, p.row + 1, p.col)) < Weight(span, p)
  {
    var n := span - p.row - p.col;
    assert Pow3(n) == 3 * Pow3(n - 1);
  }

  /** `h'` is `h` with at most one entry pushed for the right neighbour of `(i, j)`, then at most one for its lower neighbour. */
  ghost predicate PushedNeighbours(h: seq<Entry>, h': seq<Entry>, i: int, j: int) {
    exists m :: PushedRight(h, m, i, j) && PushedBelow(m, h', i, j)
  }

  /** At most one entry pushed for the right neighbour of `(i, j)`. */
  predicate PushedRight(h: seq<Entry>, h': seq<Entry>, i: int, j: int) {
    PushedAtMost(h, h', i, j + 1)
  }

  /** At most one entry pushed for the lower neighbour of `(i, j)`. */
  predicate PushedBelow(h: seq<Entry>, h': seq<Entry>, i: int, j: int) {
    PushedAtMost(h, h', i + 1, j)
  }

  /**
   * Propagating from a cell adds less to the measure than the cell's own
   * weight: each pushed entry weighs a third of it.
   */
  lemma NeighboursShrink(span: nat, h: seq<Entry>, h': seq<Entry>, p: Entry)
    requires 0 <= p.row && 0 <= p.col && p.row + p.col < span && PushedNeighbours(h, h', p.row, p.col)
    ensures Potential(span, h') < Potential(span, h) + Weight(span, p)
  {
    var m :| PushedRight(h, m, p.row, p.col) && PushedBelow(m, h', p.row, p.col);
    PushedWeight(span, h, m, p.row, p.col + 1);
    PushedWeight(span, m, h', p.row + 1, p.col);
    NeighboursLighter(span, p);
  }

  /** Collapsing and propagating keep every option a distinct tile of the constraints. */
  lemma CollapseKnown(w: Wave, i: nat, j: nat, pick: nat)
    requires w.Valid() && w.Known() && i < w.rows && j < w.cols
    ensures Collapse(w, i, j, pick).1.Known()
  {
  }

  /** Narrowing neighbours keeps every option a distinct tile of the constraints. */
  lemma PropagateKnown(w: Wave, i: nat, j: nat)
    requires w.Valid() && w.Known() && i < w.rows && j < w.cols && Propagate(w, i, j).Ok?
    ensures Propagate(w, i, j).value.Known()
  {
    var r := Propagate(w, i, j).value;
    PropagateNarrows(w, i, j);
    forall a, b | 0 <= a < w.rows && 0 <= b < w.cols
      ensures NoDup(r.output[a][b]) && forall k :: 0 <= k < |r.output[a][b]| ==> r.output[a][b][k] in w.constraints.items
    {
      forall k | 0 <= k < |r.output[a][b]| ensures r.output[a][b][k] in w.constraints.items {
        assert r.output[a][b][k] in r.output[a][b];
      }
    }
  }

  /** A collapsed cell always propagates: its one tile has constraints. */
  lemma CollapsedPropagates(w: Wave, i: nat, j: nat, pick: nat)
    requires w.Valid() && w.Known() && i < w.rows && j < w.cols && Collapse(w, i, j, pick).0
    ensures Propagate(Collapse(w, i, j, pick).1, i, j).Ok?
  {
  }

  /** `max_restarts` in `run`. */
  const MAX_RESTARTS: nat := 10

  /** How one pass of `run`'s loop ends: an exhausted heap, a restart, or a collapsed and propagated cell. */
  datatype Status = Exhausted | Restarted | Collapsed

  /**
   * The body of `run`'s loop, drawing `pick` if it collapses a cell.  On a
   * known wave it never raises, keeps the wave known, and a collapse
   * lowers the measure.
   */
  function Step(w: Wave, pick: nat): (r: Result<(Status, Wave)>)
    requires w.Valid() && w.Known()
    ensures r.Ok? && r.value.1.Valid() && r.value.1.Known()
    ensures r.value.1.constraints == w.constraints && r.value.1.rows == w.rows && r.value.1.cols == w.cols
    ensures r.value.0 == Collapsed ==> Measure(r.value.1) < Measure(w)
  {
    PopLowestValid(w);
    var (cell, w1) := PopLowest(w);
    if cell.None? then Ok((Exhausted, w1))
    else
      var p := cell.value;
      var i: nat, j: nat := p.row, p.col;
      CollapseKnown(w1, i, j, pick);
      var (collapsed, w2) := Collapse(w1, i, j, pick);
      if !collapsed then Ok((Restarted, w2))
      else
        CollapsedPropagates(w1, i, j, pick);
        PropagateKnown(w2, i, j);
        var w3 := Propagate(w2, i, j).value;
        PopThenPush(w, w3, w.rows + w.cols);
        Ok((Collapsed, w3))
  }

  /**
   * A pass that collapses a cell lowers the measure: the popped entry
   * outweighs the two pushed for its neighbours.
   */
  lemma PopThenPush(w: Wave, w3: Wave, span: nat)
    requires span == w.rows + w.cols && w3.rows == w.rows && w3.cols == w.cols
    requires PopLowest(w).0.Some? && PopLowest(w).0.value.row < w.rows && PopLowest(w).0.value.col < w.cols
    requires 0 <= PopLowest(w).0.value.row && 0 <= PopLowest(w).0.value.col
    requires PushedNeighbours(PopLowest(w).1.heap, w3.heap, PopLowest(w).0.value.row, PopLowest(w).0.value.col)
    ensures Measure(w3) < Measure(w)
  {
    PopLowestShrinks(w, span);
    PopAndPush(span, w.heap, PopLowest(w).1.heap, w3.heap, PopLowest(w).0.value);
    MeasureBelow(w, w3, span);
  }

  /** The measures of two waves of one size compare as their heaps' weights. */
  lemma MeasureBelow(w: Wave, w3: Wave, span: nat)
    requires span == w.rows + w.cols && w3.rows == w.rows && w3.cols == w.cols
    requires Potential(span, w3.heap) < Potential(span, w.heap)
    ensures Measure(w3) < Measure(w)
  {
  }

  /** Popping an entry of the grid and pushing for its two neighbours lowers the weight of a heap. */
  lemma PopAndPush(span: nat, h: seq<Entry>, h1: seq<Entry>, h3: seq<Entry>, p: Entry)
    requires Potential(span, h1) + Weight(span, p) <= Potential(span, h)
    requires 0 <= p.row && 0 <= p.col && p.row + p.col < span && PushedNeighbours(h1, h3, p.row, p.col)
    ensures Potential(span, h3) < Potential(span, h)
  {
    NeighboursShrink(span, h1, h3, p);
  }

  /**
   * `run()` from the given state: loop passes (the n-th collapse drawing
   * `picks(n)`) until the heap runs out or the tenth restart.  Returns the
   * final wave and the restart count.
   */
  function Run(w: Wave, restarts: nat, picks: nat -> nat, pos: nat): Result<(Wave, nat)>
    requires w.Valid() && w.Known() && restarts <= MAX_RESTARTS
    decreases MAX_RESTARTS - restarts, Measure(w)
  {
    if restarts == MAX_RESTARTS then Ok((w, restarts))
    else
      var step :- Step(w, picks(pos));
      if step.0 == Exhausted then Ok((step.1, restarts))
      else if step.0 == Restarted then Run(step.1, restarts + 1, picks, pos)
      else Run(step.1, restarts, picks, pos + 1)
  }

  // ------------------------------------------------------ what run achieves

  /**
   * Cell `(i, j)` is done: it holds one tile, and its right and lower
   * neighbours hold only tiles that tile allows beside and below it.
   */
  predicate Done(w: Wave, i: nat, j: nat)
    requires w.Valid() && w.Known() && i < w.rows && j < w.cols
  {
    && |w.output[i][j]| == 1
    && var nb := w.constraints.items[w.output[i][j][0]];
       && (j + 1 < w.cols ==> forall x :: x in w.output[i][j + 1] ==> x in nb.right)
       && (i + 1 < w.rows ==> forall x :: x in w.output[i + 1][j] ==> x in nb.below)
  }

  /** The heap holds a fresh entry for `(i, j)`, so it will be popped again, or the cell is done. */
  predicate Tracked(w: Wave, i: nat, j: nat)
    requires w.Valid() && w.Known() && i < w.rows && j < w.cols
  {
    Entry(|w.output[i][j]|, i, j) in w.heap || Done(w, i, j)
  }

  /** Every cell other than `(a, b)` is tracked. */
  predicate TrackedExcept(w: Wave, a: int, b: int)
    requires w.Valid() && w.Known()
  {
    forall i: nat, j: nat :: i < w.rows && j < w.cols && (i != a || j != b) ==> Tracked(w, i, j)
  }

  /** The invariant of `run`'s loop: every cell is tracked. */
  predicate Settled(w: Wave)
    requires w.Valid() && w.Known()
  {
    forall i: nat, j: nat :: i < w.rows && j < w.cols ==> Tracked(w, i, j)
  }

  /**
   * A finished grid: every cell holds exactly one tile, the tile to the
   * right of each is one the constraints allow right of it, and the tile
   * below each one the constraints allow below it.
   */
  predicate Tiled(w: Wave)
    requires w.Valid() && w.Known()
  {
    forall i: nat, j: nat :: i < w.rows && j < w.cols ==>
      && |w.output[i][j]| == 1
      && (j + 1 < w.cols ==> |w.output[i][j + 1]| == 1 && TileAt(w, i, j + 1) in w.constraints.items[TileAt(w, i, j)].right)
      && (i + 1 < w.rows ==> |w.output[i + 1][j]| == 1 && TileAt(w, i + 1, j) in w.constraints.items[TileAt(w, i, j)].below)
  }

  /** The one tile of a collapsed cell: a key of the constraints. */
  function TileAt(w: Wave, i: nat, j: nat): (t: Tile)
    requires w.Valid() && w.Known() && i < w.rows && j < w.cols && |w.output[i][j]| == 1
    ensures w.output[i][j] == [t] && t in w.constraints.items
  {
    w.output[i][j][0]
  }

  /** Every cell done is a finished grid. */
  lemma AllDoneTiled(w: Wave)
    requires w.Valid() && w.Known()
    requires forall i: nat, j: nat :: i < w.rows && j < w.cols ==> Done(w, i, j)
    ensures Tiled(w)
  {
    forall i: nat, j: nat | i < w.rows && j < w.cols
      ensures && |w.output[i][j]| == 1
              && (j + 1 < w.cols ==> |w.output[i][j + 1]| == 1 && TileAt(w, i, j + 1) in w.constraints.items[TileAt(w, i, j)].right)
              && (i + 1 < w.rows ==> |w.output[i + 1][j]| == 1 && TileAt(w, i + 1, j) in w.constraints.items[TileAt(w, i, j)].below)
    {
      DoneTiled(w, i, j);
    }
  }

  /** A done cell whose neighbours are done agrees with both of them. */
  lemma DoneTiled(w: Wave, i: nat, j: nat)
    requires w.Valid() && w.Known() && i < w.rows && j < w.cols && Done(w, i, j)
    requires j + 1 < w.cols ==> Done(w, i, j + 1)
    requires i + 1 < w.rows ==> Done(w, i + 1, j)
    ensures && |w.output[i][j]| == 1
            && (j + 1 < w.cols ==> |w.output[i][j + 1]| == 1 && TileAt(w, i, j + 1) in w.constraints.items[TileAt(w, i, j)].right)
            && (i + 1 < w.rows ==> |w.output[i + 1][j]| == 1 && TileAt(w, i + 1, j) in w.constraints.items[TileAt(w, i, j)].below)
  {
    if j + 1 < w.cols {
      assert TileAt(w, i, j + 1) in w.output[i][j + 1];
    }
    if i + 1 < w.rows {
      assert TileAt(w, i + 1, j) in w.output[i + 1][j];
    }
  }

  /** A freshly initialised wave has a fresh entry for every cell. */
  lemma InitialSettled(constraints: Constraints, rows: nat, cols: nat)
    requires constraints.Valid()
    ensures Settled(Initial(constraints, rows, cols))
  {
    var w := Initial(constraints, rows, cols);
    var cs := Cells(rows, cols);
    forall i: nat, j: nat | i < rows && j < cols ensures Entry(|w.output[i][j]|, i, j) in w.heap {
      CellsExactly(rows, cols, (i, j));
      var k :| 0 <= k < |cs| && cs[k] == (i, j);
      assert w.heap[k] == Entry(|w.output[i][j]|, i, j);
    }
  }

  /** `w'` has the shape and constraints of `w`, and each of its cells keeps only options it had in `w`. */
  predicate Narrower(w: Wave, w': Wave)
    requires w.Valid() && w'.Valid()
  {
    && w'.constraints == w.constraints && w'.rows == w.rows && w'.cols == w.cols
    && forall i: nat, j: nat, x :: i < w.rows && j < w.cols && x in w'.output[i][j] ==> x in w.output[i][j]
  }

  /** A done cell whose own options stay the same remains done while its neighbours narrow. */
  lemma DoneNarrower(w: Wave, w': Wave, i: nat, j: nat)
    requires w.Valid() && w.Known() && w'.Valid() && w'.Known() && Narrower(w, w')
    requires i < w.rows && j < w.cols && w'.output[i][j] == w.output[i][j] && Done(w, i, j)
    ensures Done(w', i, j)
  {
  }

  /** Popping keeps every cell but the popped one tracked. */
  lemma PopTracked(w: Wave)
    requires w.Valid() && w.Known() && Settled(w) && PopLowest(w).0.Some?
    ensures PopLowest(w).1.Valid() && PopLowest(w).1.Known()
    ensures TrackedExcept(PopLowest(w).1, PopLowest(w).0.value.row, PopLowest(w).0.value.col)
  {
    PopLowestFinds(w);
    PopLowestValid(w);
    var w1 := PopLowest(w).1;
    var p := PopLowest(w).0.value;
    assert w1.output == w.output;
    forall i: nat, j: nat | i < w.rows && j < w.cols && (i != p.row || j != p.col) ensures Tracked(w1, i, j) {
      assert Tracked(w, i, j);
      if Entry(|w.output[i][j]|, i, j) in w.heap {
        assert Fresh(w, Entry(|w.output[i][j]|, i, j));
      }
    }
  }

  /** A successful collapse keeps every other cell tracked. */
  lemma CollapseTracked(w: Wave, i: nat, j: nat, pick: nat)
    requires w.Valid() && w.Known() && i < w.rows && j < w.cols && TrackedExcept(w, i, j) && Collapse(w, i, j, pick).0
    ensures Collapse(w, i, j, pick).1.Known()
    ensures TrackedExcept(Collapse(w, i, j, pick).1, i, j)
  {
    CollapseKnown(w, i, j, pick);
    var w2 := Collapse(w, i, j, pick).1;
    assert w2.output[i][j] == [w2.output[i][j][0]];
    assert Narrower(w, w2);
    forall a: nat, b: nat | a < w.rows && b < w.cols && (a != i || b != j) ensures Tracked(w2, a, b) {
      assert Tracked(w, a, b);
      if Done(w, a, b) {
        DoneNarrower(w, w2, a, b);
      }
    }
  }

  /** Propagation only narrows. */
  lemma PropagateNarrower(w: Wave, i: nat, j: nat)
    requires w.Valid() && i < w.rows && j < w.cols && Propagate(w, i, j).Ok?
    ensures Narrower(w, Propagate(w, i, j).value)
  {
    PropagateNarrows(w, i, j);
  }

  /** Propagating from a collapsed cell makes it done and leaves every cell tracked. */
  lemma PropagateSettles(w: Wave, i: nat, j: nat)
    requires w.Valid() && w.Known() && i < w.rows && j < w.cols && TrackedExcept(w, i, j)
    requires |w.output[i][j]| == 1 && Propagate(w, i, j).Ok?
    ensures Propagate(w, i, j).value.Known()
    ensures Settled(Propagate(w, i, j).value)
  {
    PropagateKnown(w, i, j);
    PropagateNarrows(w, i, j);
    PropagatePushes(w, i, j);
    PropagateNarrower(w, i, j);
    var w3 := Propagate(w, i, j).value;
    assert w3.output[i][j] == w.output[i][j];
    assert Done(w3, i, j);
    forall a: nat, b: nat | a < w.rows && b < w.cols && (a != i || b != j) ensures Tracked(w3, a, b) {
      if (a, b) != (i, j + 1) && (a, b) != (i + 1, j) {
        assert w3.output[a][b] == w.output[a][b];
        assert Tracked(w, a, b);
        if Done(w, a, b) {
          DoneNarrower(w, w3, a, b);
        }
      }
    }
  }

  /** Once no heap entry is fresh, no cell has a fresh entry: the tracked cells are all done. */
  lemma ExhaustedTiled(w: Wave)
    requires w.Valid() && w.Known() && Settled(w) && PopLowest(w).0.None?
    ensures PopLowest(w).1.Valid() && PopLowest(w).1.Known()
    ensures Tiled(PopLowest(w).1)
  {
    PopLowestFinds(w);
    PopLowestValid(w);
    var w1 := PopLowest(w).1;
    assert w1.output == w.output;
    forall i: nat, j: nat | i < w.rows && j < w.cols ensures Done(w1, i, j) {
      assert Tracked(w, i, j);
      assert Fresh(w, Entry(|w.output[i][j]|, i, j));
    }
    AllDoneTiled(w1);
  }

  /**
   * One pass of `run`'s loop keeps the loop invariant, and a pass that
   * finds the heap exhausted leaves a finished grid.
   */
  lemma StepSettled(w: Wave, pick: nat)
    requires w.Valid() && w.Known() && Settled(w)
    ensures var r := Step(w, pick).value;
            && (r.0 == Exhausted ==> Tiled(r.1))
            && (r.0 != Exhausted ==> Settled(r.1))
  {
    PopLowestValid(w);
    var (cell, w1) := PopLowest(w);
    if cell.None? {
      ExhaustedTiled(w);
    } else {
      var p := cell.value;
      PopTracked(w);
      var (collapsed, w2) := Collapse(w1, p.row, p.col, pick);
      if !collapsed {
        InitialSettled(w.constraints, w.rows, w.cols);
      } else {
        CollapseTracked(w1, p.row, p.col, pick);
        CollapsedPropagates(w1, p.row, p.col, pick);
        PropagateSettles(w2, p.row, p.col);
      }
    }
  }

  /**
   * What `run()` promises from a wave `w` with `restarts` already used:
   * it does not raise, the final wave has `w`'s constraints and shape and
   * known tiles, at most ten restarts are used in all, and unless the
   * tenth stopped it, the grid is finished.
   */
  predicate Finishes(w: Wave, restarts: nat, r: Result<(Wave, nat)>) {
    && r.Ok?
    && var (v, n) := r.value;
       && v.Valid() && v.Known() && v.constraints == w.constraints && v.rows == w.rows && v.cols == w.cols
       && restarts <= n <= MAX_RESTARTS
       && (n < MAX_RESTARTS ==> Tiled(v))
  }

  /** The promise made from a later wave of the same shape, with no fewer restarts, is a promise from the earlier one. */
  lemma FinishesEarlier(w: Wave, w': Wave, restarts: nat, restarts': nat, r: Result<(Wave, nat)>)
    requires Finishes(w', restarts', r) && restarts <= restarts'
    requires w'.constraints == w.constraints && w'.rows == w.rows && w'.cols == w.cols
    ensures Finishes(w, restarts, r)
  {
  }

  /** `run()` keeps its promise from every tracked wave of known tiles. */
  lemma {:induction false} RunOutcome(w: Wave, restarts: nat, picks: nat -> nat, pos: nat)
    requires w.Valid() && w.Known() && restarts <= MAX_RESTARTS && Settled(w)
    ensures Finishes(w, restarts, Run(w, restarts, picks, pos))
    decreases MAX_RESTARTS - restarts, Measure(w), 1
  {
    if restarts < MAX_RESTARTS {
      StepSettled(w, picks(pos));
      var step := Step(w, picks(pos)).value;
      RunAfterStep(w, restarts, picks, pos, step.0, step.1);
    }
  }

  /** `run()` after one pass of its loop: the promise from the wave the pass leaves carries back. */
  lemma {:induction false} RunAfterStep(w: Wave, restarts: nat, picks: nat -> nat, pos: nat, status: Status, w': Wave)
    requires w.Valid() && w.Known() && restarts < MAX_RESTARTS && Step(w, picks(pos)) == Ok((status, w'))
    requires w'.Valid() && w'.Known() && w'.constraints == w.constraints && w'.rows == w.rows && w'.cols == w.cols
    requires status == Exhausted ==> Tiled(w')
    requires status != Exhausted ==> Settled(w')
    requires status == Collapsed ==> Measure(w') < Measure(w)
    ensures Finishes(w, restarts, Run(w, restarts, picks, pos))
    decreases MAX_RESTARTS - restarts, Measure(w), 0
  {
    RunUnfolds(w, restarts, picks, pos, status, w');
    if status == Restarted {
      RunOutcome(w', restarts + 1, picks, pos);
      FinishesEarlier(w, w', restarts, restarts + 1, Run(w', restarts + 1, picks, pos));
    } else if status == Collapsed {
      RunOutcome(w', restarts, picks, pos + 1);
      FinishesEarlier(w, w', restarts, restarts, Run(w', restarts, picks, pos + 1));
    }
  }

  /** One pass of `run()`'s loop, then the rest of the loop. */
  lemma RunUnfolds(w: Wave, restarts: nat, picks: nat -> nat, pos: nat, status: Status, w': Wave)
    requires w.Valid() && w.Known() && restarts < MAX_RESTARTS && Step(w, picks(pos)) == Ok((status, w'))
    ensures Run(w, restarts, picks, pos) ==
              if status == Exhausted then Ok((w', restarts))
              else if status == Restarted then Run(w', restarts + 1, picks, pos)
              else Run(w', restarts, picks, pos + 1)
  {
  }

  /**
   * `WaveFunctionCollapse(constraints, (rows, cols)).run()`: the final
   * wave (whose output `run` returns) and the number of restarts used.
   */
  function Solve(constraints: Constraints, rows: nat, cols: nat, picks: nat -> nat): (r: (Wave, nat))
    requires constraints.Valid()
    ensures Finishes(Initial(constraints, rows, cols), 0, Ok(r))
  {
    InitialSettled(constraints, rows, cols);
    RunOutcome(Initial(constraints, rows, cols), 0, picks, 0);
    Run(Initial(constraints, rows, cols), 0, picks, 0).value
  }

  /** `t` occurs immediately left of `x` somewhere in the sample. */
  ghost predicate SideBySide(sample: seq<seq<Tile>>, t: Tile, x: Tile)
    requires |sample| > 0
  {
    exists c: Cell :: RightOf(sample, |sample[0]|, c, t, x)
  }

  /** `t` occurs immediately above `x` somewhere in the sample. */
  ghost predicate Stacked(sample: seq<seq<Tile>>, t: Tile, x: Tile)
    requires |sample| > 0
  {
    exists c: Cell :: c.1 < |sample[0]| && BelowOf(sample, c, t, x)
  }

  /**
   * With constraints generated from a sample, every pair of side-by-side
   * tiles in a finished grid occurs side by side in the sample, and every
   * pair of stacked tiles occurs stacked in it.
   */
  lemma TiledFromSample(sample: seq<seq<Tile>>, w: Wave)
    requires Rectangular(sample) && Generate(sample).Ok? && w.constraints == Generate(sample).value
    requires w.Valid() && w.Known() && Tiled(w)
    ensures forall i: nat, j: nat :: i < w.rows && j + 1 < w.cols ==> SideBySide(sample, TileAt(w, i, j), TileAt(w, i, j + 1))
    ensures forall i: nat, j: nat :: i + 1 < w.rows && j < w.cols ==> Stacked(sample, TileAt(w, i, j), TileAt(w, i + 1, j))
  {
    forall i: nat, j: nat | i < w.rows && j + 1 < w.cols
      ensures SideBySide(sample, TileAt(w, i, j), TileAt(w, i, j + 1))
    {
      GenerateRight(sample, TileAt(w, i, j), TileAt(w, i, j + 1));
    }
    forall i: nat, j: nat | i + 1 < w.rows && j < w.cols
      ensures Stacked(sample, TileAt(w, i, j), TileAt(w, i + 1, j))
    {
      GenerateBelow(sample, TileAt(w, i, j), TileAt(w, i + 1, j));
    }
  }
}

=== FILE: world.dfy ===
/**
 * The world's chunk bookkeeping (Roguelike/world.py): which terrain chunks
 * surround the player, fetching them through the chunk cache, invalidating
 * the ones that dropped out of view, and the passability query the player
 * consults before moving.
 *
 * The world's `terrain_chunks` set is a duplicate-free sequence (chunks
 * compare by position and size) in iteration order; a new set is listed in
 * insertion order.  The chunk constructor's work (seeding, noise, filling)
 * is the parameter `build`, which gives a chunk's layers or the exception
 * the constructor raises; the terrain layer's name, defined in a constants
 * module that is not part of this model, is a field.
 */
module Worlds {
  import opened Results
  import opened SeqUtil
  import opened LazyCache
  import opened TerrainChunk
  import Terrain

  datatype World = World(
    playerPosition: (int, int),
    chunkSize: int,
    table: seq<Option<Terrain.TerrainType>>,
    terrainLayer: string,
    chunks: seq<Chunk>)

  /** The cache keys of a list of chunks, position by position. */
  function Keys(chunks: seq<Chunk>): (ks: seq<Key>)
    ensures |ks| == |chunks|
    ensures forall i :: 0 <= i < |chunks| ==> ks[i] == KeyOf(chunks[i])
  {
    seq(|chunks|, i requires 0 <= i < |chunks| => KeyOf(chunks[i]))
  }

  /**
   * The world's chunks are current: each is the cached object under its
   * own key, and none is queued as invalid.
   */
  predicate Current(chunks: seq<Chunk>, c: Cache<Chunk>) {
    && c.Valid()
    && Keyed(c)
    && NoDup(Keys(chunks))
    && forall i :: 0 <= i < |chunks| ==>
         && KeyOf(chunks[i]) in c.entries.items
         && c.entries.items[KeyOf(chunks[i])] == chunks[i]
         && KeyOf(chunks[i]) !in c.invalidQueue
  }

  /** `math.ceil` on a real. */
  function Ceil(q: real): int {
    -((-q).Floor)
  }

  /**
   * The chunk offsets along one axis:
   * `range(-floor(screen / chunk / 2) - 1, ceil(screen / chunk / 2) + 1)`.
   * Both operands are integers, so a zero chunk extent raises
   * ZeroDivisionError.  The lower end is one below the floor of the
   * half-screen measured in chunks and the upper end one above its ceiling.
   */
  function OffsetRange(screen: int, chunkPixels: int): (r: Result<(int, int)>)
    ensures r.Err? <==> chunkPixels == 0
    ensures r.Err? ==> r.error == ZeroDivisionError
    ensures r.Ok? ==>
              var q := screen as real / chunkPixels as real / 2.0;
              && (-r.value.0 - 1) as real <= q < (-r.value.0) as real
              && q <= (r.value.1 - 1) as real < q + 1.0
    ensures r.Ok? && screen >= 0 && chunkPixels > 0 ==> r.value.0 <= -1 && 1 <= r.value.1
  {
    if chunkPixels == 0 then Err(ZeroDivisionError)
    else
      var q := screen as real / chunkPixels as real / 2.0;
      Ok((-q.Floor - 1, Ceil(q) + 1))
  }

  /** The origin of the chunk `(dx, dy)` chunks away from the player's chunk. */
  function OriginAt(pcx: int, pcy: int, size: int, dx: int, dy: int): Key {
    ((pcx + dx) * size, (pcy + dy) * size, size)
  }

  /** The inner loop: offsets `dy` in `[ylo, yhi)` for one `dx`. */
  function Column(pcx: int, pcy: int, size: int, dx: int, ylo: int, yhi: int): (r: seq<Key>)
    ensures |r| == if ylo < yhi then yhi - ylo else 0
    ensures forall k :: k in r <==> exists dy :: ylo <= dy < yhi && k == OriginAt(pcx, pcy, size, dx, dy)
    decreases yhi - ylo
  {
    if ylo >= yhi then []
    else
      var rest := Column(pcx, pcy, size, dx, ylo + 1, yhi);
      assert forall k :: k in rest ==> exists dy :: ylo <= dy < yhi && k == OriginAt(pcx, pcy, size, dx, dy);
      [OriginAt(pcx, pcy, size, dx, ylo)] + rest
  }

  /** Both loops: `dx` outer, `dy` inner, the order chunks are requested in. */
  function Origins(pcx: int, pcy: int, size: int, xlo: int, xhi: int, ylo: int, yhi: int): (r: seq<Key>)
    ensures forall k :: k in r <==>
              exists dx, dy :: xlo <= dx < xhi && ylo <= dy < yhi && k == OriginAt(pcx, pcy, size, dx, dy)
    decreases xhi - xlo
  {
    if xlo >= xhi then []
    else
      var col := Column(pcx, pcy, size, xlo, ylo, yhi);
      var rest := Origins(pcx, pcy, size, xlo + 1, xhi, ylo, yhi);
      assert forall k :: k in rest ==>
               exists dx, dy :: xlo <= dx < xhi && ylo <= dy < yhi && k == OriginAt(pcx, pcy, size, dx, dy);
      col + rest
  }

  /**
   * Every requested origin is a multiple of the chunk size, and the chunk
   * at offset (0, 0) is the one holding the player: floor division puts the
   * player inside it.
   */
  lemma OriginsAligned(px: int, py: int, size: int, xlo: int, xhi: int, ylo: int, yhi: int, k: Key)
    requires size > 0
    requires k in Origins(PyFloorDiv(px, size), PyFloorDiv(py, size), size, xlo, xhi, ylo, yhi)
    ensures k.0 % size == 0 && k.1 % size == 0 && k.2 == size
  {
    var pcx := PyFloorDiv(px, size);
    var pcy := PyFloorDiv(py, size);
    var dx, dy :| xlo <= dx < xhi && ylo <= dy < yhi && k == OriginAt(pcx, pcy, size, dx, dy);
    MultipleMod(pcx + dx, size);
    MultipleMod(pcy + dy, size);
  }

  lemma MultipleMod(a: int, size: int)
    requires size > 0
    ensures (a * size) % size == 0
  {
    var q := (a * size) / size;
    var m := (a * size) % size;
    var d := a - q;
    assert d * size == m by {
      assert a * size == size * q + m;
      assert d * size == a * size - q * size;
    }
    if d >= 1 {
      MulAtLeast(d, size);
    } else if d <= -1 {
      MulAtLeast(-d, size);
    }
  }

  lemma {:induction false} MulAtLeast(d: int, size: int)
    requires d >= 1 && size > 0
    ensures d * size >= size
    decreases d
  {
    if d > 1 {
      MulAtLeast(d - 1, size);
      assert d * size == (d - 1) * size + size;
    }
  }

  /** The player's chunk contains the player's position. */
  lemma PlayerChunkContainsPlayer(px: int, py: int, size: int, layers: map<string, Layer>)
    requires size > 0
    ensures var o := OriginAt(PyFloorDiv(px, size), PyFloorDiv(py, size), size, 0, 0);
            ContainsPosition(Chunk(o.0, o.1, o.2, layers), px, py)
  {
    assert px == size * PyFloorDiv(px, size) + PyMod(px, size);
    assert py == size * PyFloorDiv(py, size) + PyMod(py, size);
  }

  /** The requests of one pass, in order: the cache after them, the chunks returned, and those cleaned up. */
  datatype Fetched = Fetched(cache: Cache<Chunk>, chunks: seq<Chunk>, cleaned: seq<Chunk>)

  /** The chunk constructor succeeds for key `k`. */
  predicate Builds(build: Key -> Result<map<string, Layer>>, k: Key) {
    build(k).Ok?
  }

  /** One `TerrainChunk.get_or_create` call added to a pass. */
  function Request(f: Fetched, k: Key, build: Key -> Result<map<string, Layer>>, limit: int): (r: Result<Fetched>)
    requires f.cache.entries.Valid()
    ensures r.Ok? ==> r.value.cache.entries.Valid() && |r.value.chunks| == |f.chunks| + 1
    ensures r.Ok? ==> r.value.chunks[..|f.chunks|] == f.chunks
    ensures r.Ok? && Keyed(f.cache) ==> Keyed(r.value.cache) && KeyOf(r.value.chunks[|f.chunks|]) == k
  {
    var o :- GetOrCreateChunk(f.cache, k.0, k.1, k.2, build(k), limit);
    assert (f.chunks + [o.value])[..|f.chunks|] == f.chunks;
    Ok(Fetched(o.cache, f.chunks + [o.value], f.cleaned + o.cleaned))
  }

  /**
   * `TerrainChunk.get_or_create` for each origin in turn; the first
   * exception stops the pass.  From a cache whose chunks are filed under
   * their own positions, the chunk returned for each origin sits at it.
   */
  function FetchAll(c: Cache<Chunk>, keys: seq<Key>, build: Key -> Result<map<string, Layer>>, limit: int): (r: Result<Fetched>)
    requires c.entries.Valid()
    ensures r.Ok? ==> r.value.cache.entries.Valid() && |r.value.chunks| == |keys|
    ensures r.Ok? && Keyed(c) ==>
              Keyed(r.value.cache) && forall i :: 0 <= i < |keys| ==> KeyOf(r.value.chunks[i]) == keys[i]
    decreases |keys|
  {
    if |keys| == 0 then Ok(Fetched(c, [], []))
    else
      var n := |keys| - 1;
      var f :- FetchAll(c, keys[..n], build, limit);
      var r := Request(f, keys[n], build, limit);
      if r.Ok? && Keyed(c) then
        RequestSits(f, keys, r.value);
        r
      else
        r
  }

  /** The chunks of a pass followed by one more request sit at the requested keys. */
  lemma RequestSits(f: Fetched, keys: seq<Key>, g: Fetched)
    requires |keys| > 0 && |f.chunks| == |keys| - 1 && |g.chunks| == |keys|
    requires forall i :: 0 <= i < |keys| - 1 ==> KeyOf(f.chunks[i]) == keys[..|keys| - 1][i]
    requires g.chunks[..|f.chunks|] == f.chunks && KeyOf(g.chunks[|f.chunks|]) == keys[|keys| - 1]
    ensures forall i :: 0 <= i < |keys| ==> KeyOf(g.chunks[i]) == keys[i]
  {
    forall i | 0 <= i < |keys| - 1 ensures KeyOf(g.chunks[i]) == keys[i] {
      assert g.chunks[..|f.chunks|][i] == g.chunks[i];
      assert keys[..|keys| - 1][i] == keys[i];
    }
  }

  /** The facts a pass keeps about the cache it started from and the keys it requested. */
  predicate Kept(c: Cache<Chunk>, f: Fetched, keys: seq<Key>) {
    && f.cache.Valid() && Keyed(f.cache) && Holds(f, keys) && KeepsUnqueued(c, f.cache)
    && QueueWithin(c, f.cache)
  }

  /**
   * On a valid cache a pass raises only an exception of the chunk
   * constructor for one of the requested keys, and does not raise when the
   * constructor succeeds for all of them.  Afterwards every requested key
   * holds the chunk returned for it and is not queued, every chunk that was
   * cached and not queued before is still cached, unchanged and not queued,
   * and no key joined the invalid queue.
   */
  lemma {:induction false} FetchAllKeeps(c: Cache<Chunk>, keys: seq<Key>, build: Key -> Result<map<string, Layer>>, limit: int)
    requires c.Valid() && Keyed(c) && limit >= 0
    ensures var r := FetchAll(c, keys, build, limit);
            && (r.Ok? ==> Kept(c, r.value, keys))
            && (r.Err? ==> exists i :: 0 <= i < |keys| && build(keys[i]) == Err(r.error))
            && ((forall i :: 0 <= i < |keys| ==> Builds(build, keys[i])) ==> r.Ok?)
    decreases |keys|
  {
    if |keys| > 0 {
      var n := |keys| - 1;
      FetchAllKeeps(c, keys[..n], build, limit);
      if FetchAll(c, keys[..n], build, limit).Ok? {
        LastRequestKeeps(c, keys, build, limit);
      } else {
        PrefixRaises(c, keys, keys[..n], build, limit);
      }
    }
  }

  /** After a successful prefix, the last request keeps the pass's facts or raises its constructor's exception. */
  lemma LastRequestKeeps(c: Cache<Chunk>, keys: seq<Key>, build: Key -> Result<map<string, Layer>>, limit: int)
    requires c.Valid() && Keyed(c) && limit >= 0 && |keys| > 0
    requires var p := FetchAll(c, keys[..|keys| - 1], build, limit); p.Ok? && Kept(c, p.value, keys[..|keys| - 1])
    ensures var r := FetchAll(c, keys, build, limit);
            && (r.Ok? ==> Kept(c, r.value, keys))
            && (r.Err? ==> build(keys[|keys| - 1]) == Err(r.error))
            && (Builds(build, keys[|keys| - 1]) ==> r.Ok?)
  {
    var n := |keys| - 1;
    var f := FetchAll(c, keys[..n], build, limit).value;
    FetchAllUnfolds(c, keys, build, limit);
    RequestKeeps(c, f, keys[..n], keys[n], build, limit);
    var r := FetchAll(c, keys, build, limit);
    if r.Ok? {
      KeptWhole(c, r.value, keys);
    }
  }

  /** A failing prefix fails the whole pass with a constructor exception of one of its keys. */
  lemma PrefixRaises(c: Cache<Chunk>, keys: seq<Key>, prefix: seq<Key>, build: Key -> Result<map<string, Layer>>, limit: int)
    requires c.entries.Valid() && |keys| > 0 && prefix == keys[..|keys| - 1]
    requires FetchAll(c, prefix, build, limit).Err?
    requires exists i :: 0 <= i < |prefix| && build(prefix[i]) == Err(FetchAll(c, prefix, build, limit).error)
    ensures var r := FetchAll(c, keys, build, limit);
            && r == FetchAll(c, prefix, build, limit)
            && exists i :: 0 <= i < |keys| - 1 && build(keys[i]) == Err(r.error) && !Builds(build, keys[i])
  {
    var i :| 0 <= i < |prefix| && build(prefix[i]) == Err(FetchAll(c, prefix, build, limit).error);
    assert prefix[i] == keys[i];
  }

  lemma KeptWhole(c: Cache<Chunk>, f: Fetched, keys: seq<Key>)
    requires |keys| > 0 && Kept(c, f, keys[..|keys| - 1] + [keys[|keys| - 1]])
    ensures Kept(c, f, keys)
  {
    assert keys[..|keys| - 1] + [keys[|keys| - 1]] == keys;
  }

  /** A successful prefix is followed by the last request. */
  lemma FetchAllUnfolds(c: Cache<Chunk>, keys: seq<Key>, build: Key -> Result<map<string, Layer>>, limit: int)
    requires c.entries.Valid() && |keys| > 0 && FetchAll(c, keys[..|keys| - 1], build, limit).Ok?
    ensures FetchAll(c, keys, build, limit)
         == Request(FetchAll(c, keys[..|keys| - 1], build, limit).value, keys[|keys| - 1], build, limit)
  {
  }

  /**
   * One more request keeps the pass's facts and adds its own; it raises
   * only the constructor's exception, and does not raise when the
   * constructor succeeds.
   */
  lemma RequestKeeps(c: Cache<Chunk>, f: Fetched, prefix: seq<Key>, k: Key, build: Key -> Result<map<string, Layer>>, limit: int)
    requires Kept(c, f, prefix) && limit >= 0
    ensures var r := Request(f, k, build, limit);
            && (r.Ok? ==> Kept(c, r.value, prefix + [k]))
            && (r.Err? ==> build(k) == Err(r.error))
            && (Builds(build, k) ==> r.Ok?)
  {
    var created := Chunk(k.0, k.1, k.2, if build(k).Ok? then build(k).value else map[]);
    GetOrCreateValid(f.cache, k, created, limit, true);
    if Request(f, k, build, limit).Ok? {
      ExtendHolds(f, prefix, k, created, limit);
      ExtendKeeps(c, f.cache, k, created, limit);
      ExtendQueue(c, f.cache, k, created, limit);
    }
  }

  /** The invalid queue of `c'` holds only keys queued in `c`. */
  predicate QueueWithin(c: Cache<Chunk>, c': Cache<Chunk>) {
    forall k :: k in c'.invalidQueue ==> k in c.invalidQueue
  }

  /** A request never adds to the invalid queue: a hit drops its key, an eviction the oldest. */
  lemma ExtendQueue(c: Cache<Chunk>, c1: Cache<Chunk>, k: Key, created: Chunk, limit: int)
    requires c1.Valid() && limit >= 0 && QueueWithin(c, c1)
    ensures QueueWithin(c, GetOrCreate(c1, k, created, limit, true).value.cache)
  {
    GetOrCreateValid(c1, k, created, limit, true);
    var q := GetOrCreate(c1, k, created, limit, true).value.cache.invalidQueue;
    forall k' | k' in q ensures k' in c.invalidQueue {
      if k in c1.entries.items {
        assert multiset(q)[k'] > 0;
      } else if |c1.invalidQueue| > limit {
        assert k' in c1.invalidQueue[1..];
      }
    }
  }

  /** Every requested key holds the chunk returned for it and is not queued. */
  predicate Holds(f: Fetched, keys: seq<Key>) {
    && |f.chunks| == |keys|
    && forall i :: 0 <= i < |keys| ==>
         && keys[i] in f.cache.entries.items
         && f.cache.entries.items[keys[i]] == f.chunks[i]
         && keys[i] !in f.cache.invalidQueue
  }

  /** Every object cached and not queued in `c` is cached, unchanged and not queued in `c'`. */
  predicate KeepsUnqueued(c: Cache<Chunk>, c': Cache<Chunk>) {
    forall k :: k in c.entries.items && k !in c.invalidQueue ==>
      && k in c'.entries.items
      && c'.entries.items[k] == c.entries.items[k]
      && k !in c'.invalidQueue
  }

  /** A further request keeps the earlier requests' facts and adds its own. */
  lemma {:induction false} ExtendHolds(f: Fetched, prefix: seq<Key>, k: Key, created: Chunk, limit: int)
    requires f.cache.Valid() && limit >= 0 && Holds(f, prefix)
    ensures var o := GetOrCreate(f.cache, k, created, limit, true).value;
            Holds(Fetched(o.cache, f.chunks + [o.value], f.cleaned + o.cleaned), prefix + [k])
  {
    GetOrCreateValid(f.cache, k, created, limit, true);
    var o := GetOrCreate(f.cache, k, created, limit, true).value;
    var keys := prefix + [k];
    var chunks := f.chunks + [o.value];
    forall i | 0 <= i < |keys|
      ensures keys[i] in o.cache.entries.items && o.cache.entries.items[keys[i]] == chunks[i]
      ensures keys[i] !in o.cache.invalidQueue
    {
      if i < |prefix| {
        GetOrCreateKeepsUnqueued(f.cache, k, created, limit, true, prefix[i]);
      }
    }
  }

  /** A further request keeps every unqueued object of the state before the pass. */
  lemma ExtendKeeps(c: Cache<Chunk>, c1: Cache<Chunk>, k: Key, created: Chunk, limit: int)
    requires c1.Valid() && limit >= 0 && KeepsUnqueued(c, c1)
    ensures KeepsUnqueued(c, GetOrCreate(c1, k, created, limit, true).value.cache)
  {
    GetOrCreateValid(c1, k, created, limit, true);
    forall k' | k' in c.entries.items && k' !in c.invalidQueue
      ensures var c2 := GetOrCreate(c1, k, created, limit, true).value.cache;
              k' in c2.entries.items && c2.entries.items[k'] == c.entries.items[k'] && k' !in c2.invalidQueue
    {
      GetOrCreateKeepsUnqueued(c1, k, created, limit, true, k');
    }
  }

  /** `new_relevant_terrain_chunks.add(...)` for each chunk: a chunk equal to one already present is not added. */
  function AddAll(chunks: seq<Chunk>): (r: seq<Chunk>)
    ensures NoDup(Keys(r))
    ensures forall j :: 0 <= j < |r| ==> r[j] in chunks
    ensures forall i :: 0 <= i < |chunks| ==> KeyOf(chunks[i]) in Keys(r)
    decreases |chunks|
  {
    if |chunks| == 0 then []
    else
      var n := |chunks| - 1;
      var acc := AddAll(chunks[..n]);
      assert forall i :: 0 <= i < n ==> chunks[..n][i] == chunks[i];
      if KeyOf(chunks[n]) in Keys(acc) then acc
      else
        assert Keys(acc + [chunks[n]]) == Keys(acc) + [KeyOf(chunks[n])];
        acc + [chunks[n]]
  }

  /** `set(terrain_chunks) - new_relevant_terrain_chunks`, in the previous iteration order. */
  function Stale(previous: seq<Chunk>, keep: seq<Key>): (r: seq<Chunk>)
    ensures forall j :: 0 <= j < |r| ==> r[j] in previous && KeyOf(r[j]) !in keep
    ensures forall i :: 0 <= i < |previous| && KeyOf(previous[i]) !in keep ==> previous[i] in r
    decreases |previous|
  {
    if |previous| == 0 then []
    else
      var rest := Stale(previous[1..], keep);
      assert forall i :: 1 <= i < |previous| ==> previous[i] == previous[1..][i - 1];
      if KeyOf(previous[0]) in keep then rest else [previous[0]] + rest
  }

  /** Dropping a prefix keeps the keys distinct. */
  lemma TailNoDup(s: seq<Chunk>)
    requires |s| > 0 && NoDup(Keys(s))
    ensures NoDup(Keys(s[1..])) && KeyOf(s[0]) !in Keys(s[1..])
  {
    assert Keys(s) == [KeyOf(s[0])] + Keys(s[1..]);
  }

  /** The stale chunks of distinct chunks are distinct. */
  lemma {:induction false} StaleNoDup(previous: seq<Chunk>, keep: seq<Key>)
    requires NoDup(Keys(previous))
    ensures NoDup(Keys(Stale(previous, keep)))
    decreases |previous|
  {
    if |previous| > 0 {
      TailNoDup(previous);
      StaleNoDup(previous[1..], keep);
      var rest := Stale(previous[1..], keep);
      if KeyOf(previous[0]) !in keep {
        KeyAbsent(rest, previous[1..], KeyOf(previous[0]));
        ConsNoDup(previous[0], rest);
      }
    }
  }

  /** A key absent from a sequence of chunks is absent from any selection of them. */
  lemma KeyAbsent(sub: seq<Chunk>, s: seq<Chunk>, k: Key)
    requires forall j :: 0 <= j < |sub| ==> sub[j] in s
    requires k !in Keys(s)
    ensures k !in Keys(sub)
  {
    forall j | 0 <= j < |sub| ensures Keys(sub)[j] != k {
      var i :| 0 <= i < |s| && s[i] == sub[j];
      assert Keys(s)[i] == KeyOf(sub[j]);
    }
  }

  /** Prepending a chunk whose key is new keeps the keys distinct. */
  lemma ConsNoDup(x: Chunk, rest: seq<Chunk>)
    requires NoDup(Keys(rest)) && KeyOf(x) !in Keys(rest)
    ensures NoDup(Keys([x] + rest))
  {
    assert Keys([x] + rest) == [KeyOf(x)] + Keys(rest);
  }

  /** `mark_as_invalid` for each stale chunk in turn. */
  function MarkAll(c: Cache<Chunk>, stale: seq<Chunk>): (c': Cache<Chunk>)
    ensures c'.entries == c.entries
    decreases |stale|
  {
    if |stale| == 0 then c else MarkAll(MarkAsInvalid(c, KeyOf(stale[0])), stale[1..])
  }

  /**
   * Marking distinct chunks that are not queued yet keeps the cache valid,
   * queues every one of them that is cached, and queues nothing else.
   */
  lemma {:induction false} MarkAllKeeps(c: Cache<Chunk>, stale: seq<Chunk>)
    requires c.Valid() && NoDup(Keys(stale))
    requires forall i :: 0 <= i < |stale| ==> KeyOf(stale[i]) !in c.invalidQueue
    ensures var c' := MarkAll(c, stale);
            && c'.Valid()
            && (forall i :: 0 <= i < |stale| && KeyOf(stale[i]) in c.entries.items ==> KeyOf(stale[i]) in c'.invalidQueue)
            && (forall k :: k !in Keys(stale) && k !in c.invalidQueue ==> k !in c'.invalidQueue)
            && (forall k :: k in c.invalidQueue ==> k in c'.invalidQueue)
    decreases |stale|
  {
    if |stale| > 0 {
      var k0 := KeyOf(stale[0]);
      var c1 := MarkAsInvalid(c, k0);
      MarkAsInvalidValid(c, k0);
      var rest := stale[1..];
      assert Keys(stale) == [k0] + Keys(rest);
      TailNoDup(stale);
      forall i | 0 <= i < |rest| ensures KeyOf(rest[i]) !in c1.invalidQueue {
        assert KeyOf(rest[i]) == Keys(rest)[i];
      }
      MarkAllKeeps(c1, rest);
      var c' := MarkAll(c1, rest);
      forall i | 0 <= i < |stale| && KeyOf(stale[i]) in c.entries.items ensures KeyOf(stale[i]) in c'.invalidQueue {
        if i > 0 {
          assert KeyOf(stale[i]) == KeyOf(rest[i - 1]);
        } else {
          assert k0 in c1.invalidQueue;
        }
      }
    }
  }

  /** What one call of `get_relevant_terrain_chunks` leaves behind. */
  datatype Relevant = Relevant(chunks: seq<Chunk>, cache: Cache<Chunk>, cleaned: seq<Chunk>)

  /** The origin of the chunk holding the player. */
  function PlayerOrigin(w: World): Key
    requires w.chunkSize != 0
  {
    OriginAt(PyFloorDiv(w.playerPosition.0, w.chunkSize), PyFloorDiv(w.playerPosition.1, w.chunkSize), w.chunkSize, 0, 0)
  }

  /**
   * The origins one refresh requests, in `dx`-outer, `dy`-inner order: the
   * chunks around the player's chunk that cover the screen.  The player's
   * chunk is found by floor division, so a zero chunk size raises
   * ZeroDivisionError, as does a zero chunk extent in pixels along an axis
   * the loops reach.  Every origin is a multiple of the chunk size, and for
   * a screen of non-negative extent the player's own chunk is among them.
   */
  function Requested(w: World, screenW: int, screenH: int, tileW: int, tileH: int): (r: Result<seq<Key>>)
    ensures r.Err? ==> r.error == ZeroDivisionError
    ensures r.Err? <==> w.chunkSize == 0 || tileW == 0 || (tileH == 0 && OffsetRange(screenW, w.chunkSize * tileW).value.0
                                                                          < OffsetRange(screenW, w.chunkSize * tileW).value.1)
    ensures r.Ok? && w.chunkSize > 0 ==>
              forall k :: k in r.value ==> k.0 % w.chunkSize == 0 && k.1 % w.chunkSize == 0 && k.2 == w.chunkSize
    ensures r.Ok? && screenW >= 0 && screenH >= 0 && w.chunkSize * tileW > 0 && w.chunkSize * tileH > 0 ==>
              PlayerOrigin(w) in r.value
  {
    var size := w.chunkSize;
    if size == 0 then Err(ZeroDivisionError)
    else
      var pcx := PyFloorDiv(w.playerPosition.0, size);
      var pcy := PyFloorDiv(w.playerPosition.1, size);
      var xr :- OffsetRange(screenW, size * tileW);
      var yr :- if xr.0 < xr.1 then OffsetRange(screenH, size * tileH) else Ok((0, 0));
      var keys := Origins(pcx, pcy, size, xr.0, xr.1, yr.0, yr.1);
      assert size > 0 ==> forall k :: k in keys ==> k.0 % size == 0 && k.1 % size == 0 && k.2 == size by {
        if size > 0 {
          forall k | k in keys ensures k.0 % size == 0 && k.1 % size == 0 && k.2 == size {
            OriginsAligned(w.playerPosition.0, w.playerPosition.1, size, xr.0, xr.1, yr.0, yr.1, k);
          }
        }
      }
      assert screenW >= 0 && screenH >= 0 && size * tileW > 0 && size * tileH > 0 ==> OriginAt(pcx, pcy, size, 0, 0) in keys;
      Ok(keys)
  }

  /**
   * `get_relevant_terrain_chunks`: the chunks at the requested origins,
   * fetched in order through the chunk cache; the previous chunks no longer
   * among them are marked invalid.
   */
  function GetRelevantTerrainChunks(w: World, c: Cache<Chunk>, screenW: int, screenH: int, tileW: int, tileH: int,
                                    build: Key -> Result<map<string, Layer>>, limit: int): (r: Result<Relevant>)
    requires c.entries.Valid()
    ensures Requested(w, screenW, screenH, tileW, tileH).Err? ==> r == Err(ZeroDivisionError)
    ensures r.Ok? ==> NoDup(Keys(r.value.chunks))
    ensures r.Ok? && Keyed(c) ==>
              forall k :: k in Keys(r.value.chunks) <==> k in Requested(w, screenW, screenH, tileW, tileH).value
  {
    var keys :- Requested(w, screenW, screenH, tileW, tileH);
    var f :- FetchAll(c, keys, build, limit);
    var relevant := AddAll(f.chunks);
    assert Keyed(c) ==> forall k :: k in Keys(relevant) <==> k in keys by {
      if Keyed(c) {
        AddAllKeys(f.chunks, keys);
      }
    }
    Ok(Relevant(relevant, MarkAll(f.cache, Stale(w.chunks, Keys(relevant))), f.cleaned))
  }

  /** The new set built from chunks sitting at `keys` holds exactly those keys. */
  lemma AddAllKeys(chunks: seq<Chunk>, keys: seq<Key>)
    requires |chunks| == |keys| && forall i :: 0 <= i < |keys| ==> KeyOf(chunks[i]) == keys[i]
    ensures forall k :: k in Keys(AddAll(chunks)) <==> k in keys
  {
  }

  /**
   * From current chunks, a refresh raises ZeroDivisionError for a zero
   * divisor and otherwise only an exception of the chunk constructor for a
   * requested origin; when the constructor succeeds everywhere it does not
   * raise.  The new chunks hold exactly the requested origins and are
   * current: each is the cached object under its key and none is queued.
   * Every previous chunk that dropped out is queued as invalid, and nothing
   * else joins the queue.
   */
  lemma RelevantStaysCurrent(w: World, c: Cache<Chunk>, screenW: int, screenH: int, tileW: int, tileH: int,
                             build: Key -> Result<map<string, Layer>>, limit: int)
    requires Current(w.chunks, c) && limit >= 0
    ensures var r := GetRelevantTerrainChunks(w, c, screenW, screenH, tileW, tileH, build, limit);
            var q := Requested(w, screenW, screenH, tileW, tileH);
            && (q.Err? ==> r == Err(ZeroDivisionError))
            && (q.Ok? && r.Err? ==> exists i :: 0 <= i < |q.value| && build(q.value[i]) == Err(r.error))
            && (q.Ok? && (forall i :: 0 <= i < |q.value| ==> Builds(build, q.value[i])) ==> r.Ok?)
            && (r.Ok? ==>
                  && Current(r.value.chunks, r.value.cache)
                  && (forall k :: k in Keys(r.value.chunks) <==> k in q.value)
                  && (forall i :: 0 <= i < |w.chunks| && KeyOf(w.chunks[i]) !in Keys(r.value.chunks) ==>
                        KeyOf(w.chunks[i]) in r.value.cache.invalidQueue)
                  && (forall k :: k in r.value.cache.invalidQueue ==>
                        k in c.invalidQueue || k in Keys(Stale(w.chunks, Keys(r.value.chunks)))))
  {
    var q := Requested(w, screenW, screenH, tileW, tileH);
    if q.Ok? {
      var keys := q.value;
      FetchAllKeeps(c, keys, build, limit);
      var p := FetchAll(c, keys, build, limit);
      if p.Ok? {
        var f := p.value;
        assert Kept(c, f, keys);
        AfterFetch(w.chunks, c, f, keys);
      }
    }
  }

  /**
   * The chunk constructor of a world whose `render_order` includes the
   * terrain layer, with `World.get_chunk_values` as written: the constructor
   * calls it for that layer, and it calls
   * `generate_seeds(terrain_spritesheet, x, y)` with three arguments where
   * `generate_seeds` (Roguelike/terrain_generator.py) requires eight, so
   * every call raises TypeError.
   */
  function WrittenBuild(k: Key): Result<map<string, Layer>> {
    Err(TypeError)
  }

  /** The constructor as evidently intended: it returns the layers `values` gives the chunk. */
  function IntendedBuild(values: Key -> map<string, Layer>): Key -> Result<map<string, Layer>> {
    k => Ok(values(k))
  }

  /** From the empty cache, the first request of a pass misses, so the written constructor raises. */
  lemma {:induction false} WrittenPassRaises(keys: seq<Key>, limit: int)
    requires |keys| > 0 && limit >= 0
    ensures FetchAll(Empty(), keys, WrittenBuild, limit) == Err(TypeError)
    decreases |keys|
  {
    var n := |keys| - 1;
    if n > 0 {
      WrittenPassRaises(keys[..n], limit);
    } else {
      assert FetchAll(Empty(), keys[..n], WrittenBuild, limit) == Ok(Fetched(Empty(), [], []));
    }
  }

  /**
   * As written, constructing a `World` whose `render_order` includes the
   * terrain layer raises TypeError: `World.__init__` refreshes from an empty chunk set with the class cache empty, the
   * player's own chunk is requested, and a miss runs the constructor.
   */
  lemma InitialRefreshRaises(w: World, screenW: int, screenH: int, tileW: int, tileH: int, limit: int)
    requires w.chunkSize > 0 && tileW > 0 && tileH > 0 && screenW >= 0 && screenH >= 0 && limit >= 0
    ensures GetRelevantTerrainChunks(w, Empty(), screenW, screenH, tileW, tileH, WrittenBuild, limit) == Err(TypeError)
  {
    MulPositive(w.chunkSize, tileW);
    MulPositive(w.chunkSize, tileH);
    var q := Requested(w, screenW, screenH, tileW, tileH);
    assert PlayerOrigin(w) in q.value;
    WrittenPassRaises(q.value, limit);
  }

  lemma MulPositive(a: int, b: int)
    requires a > 0 && b > 0
    ensures a * b > 0
  {
    MulAtLeast(a, b);
  }

  /**
   * With the constructor returning the chunk's layers, constructing a
   * `World` succeeds whenever the divisors are non-zero: its chunk set holds
   * exactly the requested origins, every chunk is current, and nothing is
   * queued as invalid.
   */
  lemma InitialRefreshSucceeds(w: World, screenW: int, screenH: int, tileW: int, tileH: int,
                               values: Key -> map<string, Layer>, limit: int)
    requires w.chunks == [] && w.chunkSize != 0 && tileW != 0 && tileH != 0 && limit >= 0
    ensures var r := GetRelevantTerrainChunks(w, Empty(), screenW, screenH, tileW, tileH, IntendedBuild(values), limit);
            && r.Ok?
            && Current(r.value.chunks, r.value.cache)
            && (forall k :: k in Keys(r.value.chunks) <==> k in Requested(w, screenW, screenH, tileW, tileH).value)
            && forall k :: k !in r.value.cache.invalidQueue
  {
    MulNonZero(w.chunkSize, tileW);
    MulNonZero(w.chunkSize, tileH);
    var build := IntendedBuild(values);
    var q := Requested(w, screenW, screenH, tileW, tileH);
    assert q.Ok?;
    assert forall i :: 0 <= i < |q.value| ==> Builds(build, q.value[i]);
    RelevantStaysCurrent(w, Empty(), screenW, screenH, tileW, tileH, build, limit);
    var r := GetRelevantTerrainChunks(w, Empty(), screenW, screenH, tileW, tileH, build, limit);
    var stale := Stale(w.chunks, Keys(r.value.chunks));
    assert |stale| == 0;
    assert forall k :: k !in Keys(stale);
  }

  lemma MulNonZero(a: int, b: int)
    requires a != 0 && b != 0
    ensures a * b != 0
  {
    if a < 0 && b < 0 {
      MulPositive(-a, -b);
    } else if a < 0 {
      MulPositive(-a, b);
    } else if b < 0 {
      MulPositive(a, -b);
    } else {
      MulPositive(a, b);
    }
  }

  /** The set built from a pass and the marking of the stale chunks keep the world current. */
  lemma {:induction false} AfterFetch(previous: seq<Chunk>, c: Cache<Chunk>, f: Fetched, keys: seq<Key>)
    requires Current(previous, c) && Kept(c, f, keys)
    ensures var relevant := AddAll(f.chunks);
            var c' := MarkAll(f.cache, Stale(previous, Keys(relevant)));
            && Current(relevant, c')
            && (forall i :: 0 <= i < |previous| && KeyOf(previous[i]) !in Keys(relevant) ==>
                  KeyOf(previous[i]) in c'.invalidQueue)
            && (forall k :: k in c'.invalidQueue ==> k in c.invalidQueue || k in Keys(Stale(previous, Keys(relevant))))
  {
    var relevant := AddAll(f.chunks);
    var stale := Stale(previous, Keys(relevant));
    RelevantInFetched(f, keys, relevant);
    StaleNoDup(previous, Keys(relevant));
    StaleStillCached(previous, c, f.cache, stale);
    MarkAllKeeps(f.cache, stale);
    RelevantNotStale(relevant, stale);
    StaleQueued(previous, relevant, stale, MarkAll(f.cache, stale));
  }

  /** No chunk of the new set is stale. */
  lemma {:induction false} RelevantNotStale(relevant: seq<Chunk>, stale: seq<Chunk>)
    requires forall j :: 0 <= j < |stale| ==> KeyOf(stale[j]) !in Keys(relevant)
    ensures forall i :: 0 <= i < |relevant| ==> KeyOf(relevant[i]) !in Keys(stale)
  {
    forall i | 0 <= i < |relevant| ensures KeyOf(relevant[i]) !in Keys(stale) {
      forall j | 0 <= j < |stale| ensures Keys(stale)[j] != KeyOf(relevant[i]) {
        assert Keys(relevant)[i] == KeyOf(relevant[i]);
      }
    }
  }

  /** Every previous chunk that dropped out, once marked, is queued. */
  lemma {:induction false} StaleQueued(previous: seq<Chunk>, relevant: seq<Chunk>, stale: seq<Chunk>, c': Cache<Chunk>)
    requires forall i :: 0 <= i < |previous| && KeyOf(previous[i]) !in Keys(relevant) ==> previous[i] in stale
    requires forall i :: 0 <= i < |previous| ==> KeyOf(previous[i]) in c'.entries.items
    requires forall j :: 0 <= j < |stale| && KeyOf(stale[j]) in c'.entries.items ==> KeyOf(stale[j]) in c'.invalidQueue
    ensures forall i :: 0 <= i < |previous| && KeyOf(previous[i]) !in Keys(relevant) ==> KeyOf(previous[i]) in c'.invalidQueue
  {
    forall i | 0 <= i < |previous| && KeyOf(previous[i]) !in Keys(relevant)
      ensures KeyOf(previous[i]) in c'.invalidQueue
    {
      var j :| 0 <= j < |stale| && stale[j] == previous[i];
    }
  }

  /** Every chunk of the new set is the cached, unqueued object for its key. */
  lemma RelevantInFetched(f: Fetched, keys: seq<Key>, relevant: seq<Chunk>)
    requires Keyed(f.cache) && Holds(f, keys)
    requires forall j :: 0 <= j < |relevant| ==> relevant[j] in f.chunks
    ensures forall j :: 0 <= j < |relevant| ==>
              && KeyOf(relevant[j]) in f.cache.entries.items
              && f.cache.entries.items[KeyOf(relevant[j])] == relevant[j]
              && KeyOf(relevant[j]) !in f.cache.invalidQueue
  {
    forall j | 0 <= j < |relevant|
      ensures KeyOf(relevant[j]) in f.cache.entries.items
      ensures f.cache.entries.items[KeyOf(relevant[j])] == relevant[j]
      ensures KeyOf(relevant[j]) !in f.cache.invalidQueue
    {
      var i :| 0 <= i < |f.chunks| && f.chunks[i] == relevant[j];
      assert KeyOf(f.cache.entries.items[keys[i]]) == keys[i];
    }
  }

  /** The stale chunks are distinct and none is queued after the fetch pass. */
  lemma StaleStillCached(previous: seq<Chunk>, c: Cache<Chunk>, c': Cache<Chunk>, stale: seq<Chunk>)
    requires Current(previous, c) && KeepsUnqueued(c, c')
    requires forall j :: 0 <= j < |stale| ==> stale[j] in previous
    ensures forall j :: 0 <= j < |stale| ==> KeyOf(stale[j]) !in c'.invalidQueue
  {
    forall j | 0 <= j < |stale| ensures KeyOf(stale[j]) !in c'.invalidQueue {
      assert stale[j] in previous;
      var i :| 0 <= i < |previous| && previous[i] == stale[j];
      assert KeyOf(previous[i]) in c.entries.items && KeyOf(previous[i]) !in c.invalidQueue;
    }
  }

  /** `update_positions`: move the player, then refresh the chunk set. */
  function UpdatePositions(w: World, c: Cache<Chunk>, screenW: int, screenH: int, tileW: int, tileH: int,
                           build: Key -> Result<map<string, Layer>>, limit: int, position: (int, int)): (r: Result<(World, Relevant)>)
    requires c.entries.Valid()
    ensures r.Ok? ==> r.value.0 == w.(playerPosition := position, chunks := r.value.1.chunks)
    ensures r.Ok? <==> GetRelevantTerrainChunks(w.(playerPosition := position), c, screenW, screenH, tileW, tileH, build, limit).Ok?
  {
    var moved := w.(playerPosition := position);
    var rel :- GetRelevantTerrainChunks(moved, c, screenW, screenH, tileW, tileH, build, limit);
    Ok((moved.(chunks := rel.chunks), rel))
  }

  /**
   * What one chunk says about a position: True when it does not hold the
   * position, otherwise the passability of its terrain cell there, or the
   * exception the layer lookup or the table raises.
   */
  function Probe(w: World, ch: Chunk, x: int, y: int): Result<bool> {
    if !ContainsPosition(ch, x, y) then Ok(true)
    else
      var idx :- GetLayerIndexAt(ch, w.terrainLayer, x, y);
      Terrain.IsPassable(w.table, idx)
  }

  /** The chunk holds the position, and its terrain cell reads and is impassable. */
  predicate Blocks(w: World, ch: Chunk, x: int, y: int) {
    Probe(w, ch, x, y) == Ok(false)
  }

  /** The chunk does not hold the position, or its terrain cell reads and is passable. */
  predicate Admits(w: World, ch: Chunk, x: int, y: int) {
    Probe(w, ch, x, y) == Ok(true)
  }

  /** Looking the chunk up at the position does not raise. */
  predicate Readable(w: World, ch: Chunk, x: int, y: int) {
    Probe(w, ch, x, y).Ok?
  }

  /**
   * A chunk blocks a position exactly when it holds it and the terrain
   * index stored there is one the table marks impassable; it admits it
   * when it does not hold it or the index is marked passable.
   */
  lemma ProbeMeans(w: World, ch: Chunk, x: int, y: int)
    ensures Blocks(w, ch, x, y) <==>
              && ContainsPosition(ch, x, y)
              && GetLayerIndexAt(ch, w.terrainLayer, x, y).Ok?
              && Terrain.IsPassable(w.table, GetLayerIndexAt(ch, w.terrainLayer, x, y).value) == Ok(false)
    ensures Admits(w, ch, x, y) <==>
              (ContainsPosition(ch, x, y) ==>
                 && GetLayerIndexAt(ch, w.terrainLayer, x, y).Ok?
                 && Terrain.IsPassable(w.table, GetLayerIndexAt(ch, w.terrainLayer, x, y).value) == Ok(true))
    ensures !Readable(w, ch, x, y) ==>
              && ContainsPosition(ch, x, y)
              && var idx := GetLayerIndexAt(ch, w.terrainLayer, x, y);
                 idx.Err? || Terrain.IsPassable(w.table, idx.value).Err?
  {
  }

  /**
   * `is_passable_at` over the chunks from position `from` on: the first
   * chunk holding the position whose terrain is impassable answers False;
   * an exception from the layer lookup or the table stops the scan.
   */
  function PassableFrom(w: World, x: int, y: int, from: nat): Result<bool>
    requires from <= |w.chunks|
    decreases |w.chunks| - from
  {
    if from == |w.chunks| then Ok(true)
    else
      var passable :- Probe(w, w.chunks[from], x, y);
      if !passable then Ok(false) else PassableFrom(w, x, y, from + 1)
  }

  /**
   * The scan from `from` on answers True exactly when every remaining chunk
   * admits the position, answers False only when one of them blocks it, and
   * does not raise when all of them read.
   */
  lemma {:induction false} PassableFromMeans(w: World, x: int, y: int, from: nat)
    requires from <= |w.chunks|
    ensures PassableFrom(w, x, y, from) == Ok(true) <==> forall i :: from <= i < |w.chunks| ==> Admits(w, w.chunks[i], x, y)
    ensures PassableFrom(w, x, y, from) == Ok(false) ==> exists i :: from <= i < |w.chunks| && Blocks(w, w.chunks[i], x, y)
    ensures (forall i :: from <= i < |w.chunks| ==> Readable(w, w.chunks[i], x, y)) ==> PassableFrom(w, x, y, from).Ok?
    decreases |w.chunks| - from
  {
    if from < |w.chunks| {
      PassableFromMeans(w, x, y, from + 1);
    }
  }

  /** `is_passable_at(x, y)`: the scan over every chunk. */
  function IsPassableAt(w: World, x: int, y: int): Result<bool> {
    PassableFrom(w, x, y, 0)
  }

  /**
   * When every chunk reads without raising, the position is impassable
   * exactly when some chunk holding it has impassable terrain there, so the
   * order the set is scanned in does not matter.
   */
  lemma BlockedIff(w: World, x: int, y: int)
    requires forall i :: 0 <= i < |w.chunks| ==> Readable(w, w.chunks[i], x, y)
    ensures IsPassableAt(w, x, y) == Ok(false) <==> exists i :: 0 <= i < |w.chunks| && Blocks(w, w.chunks[i], x, y)
  {
    var r := IsPassableAt(w, x, y);
    PassableFromMeans(w, x, y, 0);
    assert r.Ok?;
    if exists i :: 0 <= i < |w.chunks| && Blocks(w, w.chunks[i], x, y) {
      var i :| 0 <= i < |w.chunks| && Blocks(w, w.chunks[i], x, y);
      assert !Admits(w, w.chunks[i], x, y);
      assert r != Ok(true);
      assert !r.value;
    }
  }

  /** Every chunk reads the position without raising, and chunk `j` blocks it. */
  predicate BlockedAt(w: World, x: int, y: int, j: nat) {
    && (forall i :: 0 <= i < |w.chunks| ==> Readable(w, w.chunks[i], x, y))
    && j < |w.chunks| && Blocks(w, w.chunks[j], x, y)
  }

  /** A readable position that some chunk blocks is reported impassable. */
  lemma BlockedAnswersFalse(w: World, x: int, y: int, j: nat)
    requires BlockedAt(w, x, y, j)
    ensures IsPassableAt(w, x, y) == Ok(false)
  {
    BlockedIff(w, x, y);
  }

  /**
   * In a world whose table was built from the nine terrain names at
   * distinct indices, a chunk holding the wall's sprite index at a position
   * blocks it.
   */
  lemma WallBlocks(w: World, sheet: map<string, int>, ch: Chunk, x: int, y: int)
    requires Terrain.DistinctIndices(sheet, Terrain.TERRAIN_TYPES) && Terrain.Table(sheet) == Ok(w.table)
    requires ContainsPosition(ch, x, y) && GetLayerIndexAt(ch, w.terrainLayer, x, y) == Ok(Terrain.WallIndex(sheet))
    ensures Blocks(w, ch, x, y)
  {
    Terrain.WallImpassable(sheet);
  }
}
